=== FILE: README.md ===
# travel — a Dafny model

The Vanadium "travel" application plans a trip together across devices. It has:

- an Android service that mounts itself under a name derived from its blessings;
- a desktop client and a browser client that share the trip through Syncbase: the destinations, a chat, the devices nearby and casts of the timeline from one device to another.

This project models the core of that application as pure Dafny functions over immutable data, and proves what each part promises. The parts are:

- the service's mount name (`TravelService`);
- the identity, naming and invitation helpers (`Identity`, `BrowserIdentity`, `Naming`, `Invitations`, `BrowserInvitations`, `VError`);
- the trip manager and its ordering of trips (`TripComparator`, `TripManager`);
- the Syncbase wrapper (`SyncbaseWrapper`) and its two in-memory mocks. `MockReplica` is the desktop mock. `Watchers` and `WatchedReplica` are the browser mock, with watch streams and batches;
- the sync utilities for destinations, messages and devices (`DestinationSync`, `MessageOrder`, `MessageSync`, `TravelSync`, `DeviceSync`);
- casting a timeline by dragging (`Casting`);
- the destination lists of both clients, with JavaScript's `splice` (`JsArrays`, `DestinationList`, `DestinationNode`, `Timeline`, `TimelineServer`);
- the place, its descriptions and its marker (`Place`, `DescribeDestination`, `DestinationInfo`, `DestinationMarker`);
- the application shell's command line and housekeeping (`TravelCommands`).

Some behaviour lives outside the code here and becomes a parameter with a stated contract:

- JSON encoding and decoding;
- identifier generation;
- the clock;
- key escaping;
- the enumeration order of an object's keys;
- name joining;
- the geometric "is nearby" test.

JavaScript values are modelled explicitly (`JsValue`). The model covers `undefined` against `null`, truthiness, jQuery's `extend`, and comparisons with `undefined`. Integers are unbounded, and coordinates and timestamps are whole numbers.

Every file verifies with Dafny 4.11. Nothing was executed.

## Model

| member | source | states |
|---|---|---|
| TravelService.MountNameFromBlessings | src/main/java/io/v/baku/sample/travel/TravelService.java:131-140 | the service's nested loop returns exactly the reference name: chains in order, each from leaf to root, first extension containing '@', else "" |
| TravelService.MountName | src/main/java/io/v/baku/sample/travel/TravelService.java:134-135 | a derived name is either empty or contains '@' |
| TravelService.LeafMostUserFound | src/main/java/io/v/baku/sample/travel/TravelService.java:133-137 | a chain yields a name iff one of its certificates has '@' in its extension, and the name is that of the leaf-most such certificate |
| TravelService.MountNameEmpty | src/main/java/io/v/baku/sample/travel/TravelService.java:132-139 | the derived name is "" iff no certificate of any chain has '@' in its extension |
| TravelService.MountNameIsFirstUser | src/main/java/io/v/baku/sample/travel/TravelService.java:131-138 | a non-empty name is the extension of some certificate with '@', and no certificate scanned before it has one |
| TravelService.MountPoint | src/main/java/io/v/baku/sample/travel/TravelService.java:106 | the mount point is "users/", then the prefix, then "/travel/mobile", and nothing else |
| TravelService.StartTravelServer | src/main/java/io/v/baku/sample/travel/TravelService.java:83-124 | success needs the default blessings, the "..." pattern blessings and the trust roots installed, then the name derived, then the server created, in that order, and yields the mount point; an empty name fails before any server is created |
| TravelService.OnStartCommand | src/main/java/io/v/baku/sample/travel/TravelService.java:45-77 | every path returns START_REDELIVER_INTENT; a null or empty blessing string is rejected with no decode; decoded null blessings stop after the decode; a server is mounted only after the whole stage order with a non-empty name |
| TravelService.NoUserNoServer | src/main/java/io/v/baku/sample/travel/TravelService.java:100-104 | blessings with no '@' anywhere end with the "no username" toast and no server created or mounted |
| Identity.ExtractUsername | src/identity.js:20-29 | a missing, empty or 'unknown' account name gives the generated id; any other answer that differs from the input contains no '/'; the answer is undefined only for exactly 'dev.v.io/u' |
| Identity.NewIdentity | src/identity.js:7-14 | the device name is 'desktop_' plus the device id, and the entity name is the username (the text "undefined" when there is none), a '/', then the device name |
| Identity.DevAccountUsername | src/identity.js:24-28 | 'dev.v.io/u/<user>', alone or followed by '/...', yields <user> for any slash-free <user> |
| Identity.PlainNameUnchanged | src/identity.js:25-26 | a slash-free name other than '' and 'unknown' is returned unchanged |
| Identity.AutoUsernamesDiffer | test/identity.js:11-18 | two generated usernames differ whenever the generated ids differ |
| Identity.ExampleAccount | test/identity.js:41-51 | 'dev.v.io/u/<user>/chrome' gives username <user> and entity name '<user>/desktop_<device id>' |
| Identity.FalseIsAName | test/identity.js:35-38 | the string 'false' is kept as a username |
| BrowserIdentity.FindAccount | browser/src/identity.js:29 | the search finds the leftmost position where 'dev.v.io/u/' is followed by a character other than '/', and reports none only when there is no such position |
| BrowserIdentity.ProcessAccountName | browser/src/identity.js:31-47 | a missing, empty or 'unknown' name gives account '...' and the generated username; a name with no match is both account and username; otherwise the username is the non-empty slash-free run after the leftmost match, and the account is 'dev.v.io/u/' plus that run |
| BrowserIdentity.BlessingRoundTrip | browser/src/identity.js:21-23 | the blessing built for a non-empty slash-free username parses back to that username, with the blessing itself as the account |
| BrowserIdentity.AccountWithSuffix | browser/src/identity.js:38-43 | 'dev.v.io/u/<user>' followed by nothing or by '/...' gives username <user> and account 'dev.v.io/u/<user>' |
| BrowserIdentity.NewIdentity | browser/src/identity.js:9-19 | the identity carries the parsed account and username, device name 'desktop_' plus the device id, and entity name username + '/' + device name |
| Naming.MountNamesNested | src/naming.js:9-27 | when naming join is plain '/'-joining, the user mount is '/ns.dev.v.io:8101/users/<u>', the app mount adds '/travel' and the device mount adds '/<device>' |
| Invitations.InvCodeInverts | src/invitation-manager.js:11-20 | the inverse table undoes the escape table, and exactly '_', '.' and '@' have a code |
| Invitations.Escape | src/invitation-manager.js:22-26 | an escaped username contains no '.' and no '@' and is never shorter than the username |
| Invitations.EscapeRoundTrip | src/invitation-manager.js:22-32 | unescaping an escaped username gives the username back |
| Invitations.EscapeInjective | src/invitation-manager.js:22-26 | two different usernames never escape to the same key element |
| Invitations.UnknownCodeBecomesUndefined | src/invitation-manager.js:28-32 | '_' followed by a character outside the inverse table unescapes to the text 'undefined' |
| Invitations.InvitationKey | src/invitation-manager.js:34-36 | the key has three elements, 'invitations' first, and its last two unescape to the owner and the recipient |
| Invitations.InviteOwner | src/invitation-manager.js:66 | the owner named is the invite the user accepted when there is a non-empty one, and otherwise the user |
| Invitations.Invite | src/invitation-manager.js:59-72 | the invitation is written iff joining the recipient's invitations syncgroup succeeds; the write puts the sender's username at a key whose elements unescape to the owner invited to and the recipient |
| Invitations.Decline | src/invitation-manager.js:43-53 | the write deletes the key whose elements unescape to the owner and the declining user |
| Invitations.CrossOff | src/invitation-manager.js:84-97 | the walk over one owner's new record leaves exactly the previous entries it does not confirm, and reports as new exactly the recipients for which `ownerInvites[recipient]` is falsy: not filed with a truthy sender, and, when not filed, not the name of an inherited property |
| Invitations.ProcessUpdates | src/invitation-manager.js:80-111 | the set of entries onInvite fires for is exactly the entries of the new tree not known before (an inherited property name reads as known), the set onDismiss fires for is exactly the entries of the previous tree the new one does not confirm, and the new tree (or an empty one) is stored |
| Invitations.LeftoverDismissed | src/invitation-manager.js:101-108 | what remains of the previous tree after crossing off is exactly the set of dismissed entries |
| Invitations.InviteIsDelivered | src/invitation-manager.js:66-96 | an invitation written by invite and synced to a client that did not know it fires onInvite there, with owner and recipient unescaped back and the sender's name |
| Invitations.InheritedRecipientIgnored | src/invitation-manager.js:84-92 | a recipient named "toString" that the owner's previous record lacks reads as known through the inherited property, so it is neither announced nor dismissed |
| BrowserInvitations.TripSgNameInjective | browser/src/invitation-manager.js:24-26 | two trips share a syncgroup name only when their ids are equal |
| BrowserInvitations.AddTripCollaborator | browser/src/invitation-manager.js:101-115 | the trip syncgroup is created iff adding failed with NoExist and the owner is the user; then the creation's outcome is returned, otherwise the adding error propagates unchanged |
| BrowserInvitations.Invite | browser/src/invitation-manager.js:30-42 | the invitation is written, with the user as sender at (recipient, owner, trip), iff both the collaborator step and the join of the recipient's invitation syncgroup succeed |
| BrowserInvitations.Respond | browser/src/invitation-manager.js:52-71 | declining always deletes the user's invitation; accepting deletes it only after the trip syncgroup is joined |
| BrowserInvitations.ManageTripSyncgroups | browser/src/invitation-manager.js:117-133 | exactly the trips with an owner are joined, each under 'trip-' plus its id; the errors reported are exactly the join failures of those trips other than NoExist |
| BrowserInvitations.ListedKeys | browser/src/invitation-manager.js:140-151 | a record key is listed iff the update's invitations to the user file a sender under its owner and trip id |
| BrowserInvitations.MarkSeen | browser/src/invitation-manager.js:140-174 | every listed key ends with a record marked seen; a known one keeps its invitation; a new one gets a seen record of the invitation it announces (unescaped owner, trip id, synced sender); unlisted records are untouched; the invites are exactly the announcements of listed keys that had no record |
| BrowserInvitations.Sweep | browser/src/invitation-manager.js:176-187 | exactly the seen records survive, with their seen flag cleared, and the dismissals are exactly the invitations of the unseen records |
| BrowserInvitations.ProcessUpdatesReconciles | browser/src/invitation-manager.js:135-187 | from a settled state, an update leaves records for exactly the listed keys, settled again; known ones keep their invitation and new ones hold the announced one; an invitation is announced iff a newly listed key announces it, and dismissed iff a known key no longer listed holds it |
| BrowserInvitations.ProcessUpdates | browser/src/invitation-manager.js:135-187 | after both phases the records are settled and held for exactly the listed keys and the records already marked seen |
| JsValues.Marshal | src/sync-util/marshalling.js:7-9 | marshalling gives undefined exactly for undefined, and a string for every other value |
| JsValues.Unmarshal | src/sync-util/marshalling.js:11-21 | falsy inputs come back unchanged, truthy objects (null excepted, being falsy) fail with a TypeError, and a non-empty string is handed to JSON.parse |
| JsValues.ReadValue | src/sync-util/marshalling.js:23-25 | an object node is read through its '_' member, null fails with a TypeError because its type is 'object', and any non-object is unmarshalled directly |
| JsValues.MarshalRoundTrip | src/sync-util/marshalling.js:7-21 | when JSON.stringify and JSON.parse are inverse on JSON values, unmarshal(marshal(x)) is x for undefined and for every value without an undefined inside it |
| JsValues.ReadValueRoundTrip | src/sync-util/marshalling.js:23-25 | a marshalled value without an undefined inside it reads back as itself both when stored directly and when stored as the '_' member of a node with children |
| TripComparator.TripLength | browser/src/sync-util/get-trip-length.js:11-14 | a trip without a truthy destinations member has length 0; otherwise the length is that of the id array read from the member through readValue; a missing trip fails |
| TripComparator.TestTripLength | browser/test/sync-util/trip-comparator.js:11-20 | the test helper's trip(n), whose destinations are the marshalled ids 0..n-1, has length n |
| TripComparator.GetLength | src/sync-util/trip-comparator.js:11-17 | a cached length is answered without recomputing; otherwise the answer is the trip's length, and the trip, id and switch time are unchanged |
| TripComparator.GetLengthCaches | src/sync-util/trip-comparator.js:11-17 | a cache that agrees with the trip keeps agreeing, asking twice gives the same length, and once a defined length is cached asking again changes nothing |
| TripComparator.CompareTrips | src/sync-util/trip-comparator.js:59-65 | the result is -1, 0 or 1; two missing trips compare equal, and a trip sorts before a missing one |
| TripComparator.CompareMatchesBefore | src/sync-util/trip-comparator.js:33-65 | compareTrips is -1 exactly when the first trip comes first in the reference order (later switch, a defined switch over none, then longer, then smaller id), 1 exactly when the second does, 0 exactly on a full tie |
| TripComparator.CompareAntisymmetric | src/sync-util/trip-comparator.js:33-65 | swapping the arguments negates the result |
| TripComparator.CompareTransitive | src/sync-util/trip-comparator.js:43-57 | on trips with defined lengths, "compares at most 0" is transitive |
| TripComparator.ComparatorTestCases | browser/test/sync-util/trip-comparator.js:42-53 | the repository's four ordering cases give -1 one way, and the id case gives 1 the other way |
| TripManager.SetActiveTripId | src/sync-util/trip-manager.js:43-53 | the switch time is always written under the trip's metadata; the active trip's data is forgotten only when the id changes; the upstream and awaited ids are untouched |
| TripManager.TripKeysApart | src/sync-util/trip-manager.js:59-69 | destination keys and message keys never coincide, and each kind of key determines the upstream trip and the arguments |
| TripManager.SetUpstream | src/sync-util/trip-manager.js:76-81 | the upstream becomes the active trip, and onTripChange fires, with the new id, exactly when it moved |
| TripManager.UpstreamValidity | src/sync-util/trip-manager.js:55-57 | after setUpstream a truthy active trip is a valid upstream; switching to another trip invalidates it; a second setUpstream fires nothing |
| TripManager.HasValidUpstream | src/sync-util/trip-manager.js:55-57 | the upstream is valid iff it is a truthy id equal to the active trip's |
| TripManager.TripKey | src/sync-util/trip-manager.js:59-62 | a trip key is 'trips', the upstream trip id (empty when unset), then exactly the arguments |
| TripManager.PickBestIsMinimum | src/sync-util/trip-manager.js:165-181 | the loop's pick exists iff it started with one or saw a trip, is one of the trips seen (or the start), and compares at or before every trip seen |
| TripManager.PickBestIsCandidate | src/sync-util/trip-manager.js:165-181 | whatever the lengths, the loop ends with a pick iff it started with one or visited a trip, and a pick it made itself is one of the trips |
| TripManager.GetDefaultTrip | src/sync-util/trip-manager.js:165-181 | there is a default trip iff there are trips, and it is one of them |
| TripManager.DefaultTripIsMinimum | src/sync-util/trip-manager.js:165-181 | with defined lengths, a default trip exists iff there are trips, and it compares at or before every trip |
| TripManager.DefaultTripOrderIndependent | src/sync-util/trip-manager.js:168-178 | the default trip is the same whatever order the trips are visited in |
| TripManager.ConsumeAwaited | src/sync-util/trip-manager.js:88-102 | an awaited trip becomes active and is no longer awaited, its switch is written, and this frame's metadata gives it the current time, leaving every other trip's time alone |
| TripManager.IsNascent | src/sync-util/trip-manager.js:183-185 | a trip is nascent iff its length is defined and at most one |
| TripManager.ProcessTrips | src/sync-util/trip-manager.js:83-148 | an active trip present in the trips carries that trip's data; with no trips at all and nothing active or awaited, a new id is minted, the active trip is empty and its owner is written; the awaited id is consumed and the upstream untouched |
| TripManager.AwaitedTripBecomesActive | src/sync-util/trip-manager.js:88-127 | an awaited trip that has arrived becomes the active trip with its data, and its switch is the first write, when no recorded switch is later than now |
| TripManager.MissingActiveFallsBackToDefault | src/sync-util/trip-manager.js:130-134 | when the active trip is gone but trips exist, the default trip becomes active and nothing is written |
| TripManager.ActiveTripReplacedByDefault | src/sync-util/trip-manager.js:104-127 | with nothing awaited and the active trip present, a default trip exists; when it is a different truthy id it becomes active with its data, and the active trip's metadata and trip are deleted iff it was nascent; otherwise the active trip stays and nothing is written |
| SyncbaseWrapper.KeyPathJoinKey | src/vanadium-wrapper/syncbase-wrapper.js:43-67 | a key written with joinKey is peeled back by recursiveSet's regular expression into exactly its elements, when they hold no '.' or line terminator and the first is not empty |
| SyncbaseWrapper.SetPath | src/vanadium-wrapper/syncbase-wrapper.js:54-76 | setting a path leaves the first member present and every sibling member exactly as it was |
| SyncbaseWrapper.SetPathReadsBack | src/vanadium-wrapper/syncbase-wrapper.js:54-76 | reading the path after the set gives the value set, with missing intermediate objects created; the one exception is a truthy value already there with no children, which the assignment leaves alone |
| SyncbaseWrapper.IntermediateValueKept | src/vanadium-wrapper/syncbase-wrapper.js:60-65 | a truthy value met on the way down is moved under '_' of the object that replaces it |
| SyncbaseWrapper.BuildSpec | src/vanadium-wrapper/syncbase-wrapper.js:221-233 | each prefix p becomes 't:' + joinKey(p), in order; all five permission tags, and only those, are granted to '...'; the mount tables are passed through |
| SyncbaseWrapper.SpecPrefixRoundTrip | src/vanadium-wrapper/syncbase-wrapper.js:230 | a spec prefix is 't:' followed by a row key that reads back as the original key |
| SyncbaseWrapper.CreateOrJoin | src/vanadium-wrapper/syncbase-wrapper.js:240-253 | creation is tried first; only an Exist failure leads on to join and then setSpec; any other failure propagates; success means the group was created, or joined and given its spec |
| SyncbaseWrapper.JoinOrCreate | src/vanadium-wrapper/syncbase-wrapper.js:255-267 | join is tried first, and a successful join is followed by setSpec; creation happens iff the join failed with NoExist; other join failures propagate |
| SyncbaseWrapper.FallbacksInstallSpec | src/vanadium-wrapper/syncbase-wrapper.js:240-267 | when either fallback succeeds its last call is a creation or a setSpec, and every setSpec directly follows a join |
| SyncbaseWrapper.StartWrite | src/vanadium-wrapper/syncbase-wrapper.js:275-279 | a started write marks the wrapper dirty and is held among the writes in flight |
| SyncbaseWrapper.SettleWrite | src/vanadium-wrapper/syncbase-wrapper.js:281-287 | a settled write, successful or not, leaves the writes in flight and nothing else changes |
| SyncbaseWrapper.Pull | src/vanadium-wrapper/syncbase-wrapper.js:305-314 | a pull defers exactly while writes are in flight, and otherwise starts a scan with the dirty flag cleared |
| SyncbaseWrapper.PullWaitsForWrites | src/vanadium-wrapper/syncbase-wrapper.js:275-311 | no scan starts while a started write is unsettled, and once the only write settles the scan proceeds |
| SyncbaseWrapper.SetUp | src/vanadium-wrapper/syncbase-wrapper.js:18-41 | app, database and table are created in that order; an Exist failure is passed over; any other failure stops the rest and is the setup's error; the setup succeeds iff all three steps succeed or already exist |
| MockReplica.AdvanceVersion | mocks/syncbase-wrapper.js:66-72 | a node's first version is 0 and every later write adds one |
| MockReplica.Put | mocks/syncbase-wrapper.js:74-91 | after put(k, v) the node at k holds v with its version advanced, missing nodes on the way are created, and every sibling on the path is untouched |
| MockReplica.SetNodeAt | mocks/syncbase-wrapper.js:74-95 | the copied subtree is what the key reads afterwards, and every sibling on the path is untouched |
| MockReplica.DeleteAll | mocks/syncbase-wrapper.js:107-121 | a deleted node loses its value, its version advances, and it keeps the same children |
| MockReplica.Delete | mocks/syncbase-wrapper.js:107-121 | deleting a key that has no node changes nothing; otherwise the node at the key is that node with everything under it deleted |
| MockReplica.Update | mocks/syncbase-wrapper.js:16-32 | the merged node has the children of both sides, copying those only one side has and merging shared ones; it takes the other side's value and version only when both versions exist and the other's is greater |
| MockReplica.UpdateSelf | mocks/syncbase-wrapper.js:16-32 | merging a replica into an identical copy changes nothing |
| MockReplica.UpdateIdempotent | mocks/syncbase-wrapper.js:16-32 | merging the same source a second time changes nothing more |
| MockReplica.MergeBothWays | mocks/syncbase-wrapper.js:28-41 | after a merge in each direction, two versioned nodes end with the same version, and with the same value whenever their versions differed |
| MockReplica.UnversionedKeepsValue | mocks/syncbase-wrapper.js:28-31 | a node without a version never takes the other side's value or version, because a comparison with undefined is false |
| MockReplica.SyncPrefix | mocks/syncbase-wrapper.js:34-47 | a prefix both replicas hold is merged both ways; one only one side holds is copied to the other; afterwards the first replica always holds it |
| MockReplica.Sync | mocks/syncbase-wrapper.js:34-48 | syncing no prefix changes nothing, and after a sync the first replica holds the prefix synced last |
| MockReplica.SyncConverged | mocks/syncbase-wrapper.js:34-48 | a sync between identical replicas that hold every prefix leaves both as they were |
| MockReplica.ExtractData | mocks/syncbase-wrapper.js:123-148 | a node reads as nothing iff it has no value and no visible child; every visible child appears under its name; an interior node's value appears under '_' |
| MockReplica.GetData | mocks/syncbase-wrapper.js:182-184 | an empty repository reads as an empty object |
| MockReplica.PutIsVisible | mocks/syncbase-wrapper.js:172-184 | a value put under a key is what getData then shows at that key, for keys without a '_' element |
| MockReplica.DeletedIsInvisible | mocks/syncbase-wrapper.js:107-148 | nothing under a deleted node shows in the data |
| MockReplica.DeleteHides | mocks/syncbase-wrapper.js:172-184 | after deleting an existing key, getData shows nothing at that key |
| MockReplica.AddMember | mocks/syncbase-wrapper.js:205-209 | a replica is added to a group once, after the earlier members, as a Set keeps insertion order |
| MockReplica.JoinOrCreate | mocks/syncbase-wrapper.js:201-212 | the group exists afterwards with the given prefixes and the replica as a member; no other group changes |
| MockReplica.JoinGroup | mocks/syncbase-wrapper.js:194-199 | joining fails iff the group does not exist; otherwise the replica is added and nothing else changes |
| Watchers.Dispatched | browser/mocks/syncbase-wrapper.js:326-346 | a held change is handed to onDelete iff its value is undefined, otherwise to onPut, with its key and the continued flag |
| Watchers.AddOnce | browser/mocks/syncbase-wrapper.js:311 | the batch holds each watcher once: adding one already there changes nothing |
| Watchers.UpdateWatcher | browser/mocks/syncbase-wrapper.js:305-312 | a new change delivers the one held before as continued, becomes the held change, and puts the watcher in the batch |
| Watchers.EndWatcherAsWritten | browser/mocks/syncbase-wrapper.js:314-346 | as written, ending a watcher delivers its held change as final and then the end of the batch, and keeps the change held |
| Watchers.EndWatcher | browser/mocks/syncbase-wrapper.js:314-346 | ending a watcher delivers its held change as final and then the end of the batch, and clears the held change |
| Watchers.EndBatchAsWritten | browser/mocks/syncbase-wrapper.js:378-383 | as written, ending the batch empties it but leaves every watcher's held change in place |
| Watchers.EndBatch | browser/mocks/syncbase-wrapper.js:378-383 | ending the batch empties it, and afterwards a watcher holds a change iff it held one and was not in the batch |
| Watchers.FeedHolds | browser/mocks/syncbase-wrapper.js:305-312 | after a run of updates a watcher holds the newest change addressed to it, or what it held before if there was none |
| Watchers.FeedDelivers | browser/mocks/syncbase-wrapper.js:305-312 | a run of updates delivers to each watcher its earlier held change and then all its new changes but the newest, in order, each as continued |
| Watchers.FeedBatches | browser/mocks/syncbase-wrapper.js:305-312 | a watcher is in the batch after a run of updates iff it was before or some update addressed it, and the batch never holds a watcher twice |
| Watchers.EndWatcherDelivers | browser/mocks/syncbase-wrapper.js:314-346 | ending one watcher delivers its final change and the end of the batch to it alone, and clears only its held change |
| Watchers.EndEachDelivers | browser/mocks/syncbase-wrapper.js:378-383 | ending a batch of distinct watchers delivers to each of them, once, its held change as final followed by the end of the batch, and nothing to the others |
| Watchers.ExactlyOnce | browser/mocks/syncbase-wrapper.js:305-383 | with held changes cleared, each change of a batch reaches its watcher exactly once and in order: all but the newest as continued, the newest as final, then the end of the batch; afterwards the watchers are idle again |
| Watchers.StaleChangeRedelivered | browser/mocks/syncbase-wrapper.js:305-383 | as written, two single puts deliver the first put a second time, as continued, at the start of the second batch |
| Watchers.TwoPutsDeliveredOnce | browser/mocks/syncbase-wrapper.js:305-383 | with held changes cleared, the same two puts are delivered once each |
| WatchedReplica.Data | browser/mocks/syncbase-wrapper.js:159-188 | a node's stored data ignores its watchers, and keeps its value, version and children, child by child |
| WatchedReplica.Install | browser/mocks/syncbase-wrapper.js:93-108 | installing a node at a key makes it what the key reads, keeps the watchers above the key, and leaves the root's own fields alone |
| WatchedReplica.AtData | browser/mocks/syncbase-wrapper.js:93-131 | reading a key here agrees with the desktop stand-in's reads, and a key exists here iff it exists there |
| WatchedReplica.NotesTo | browser/mocks/syncbase-wrapper.js:18-24 | every watcher in the list gets one note about the change, in list order |
| WatchedReplica.SetAsWritten | browser/mocks/syncbase-wrapper.js:110-117 | as written, a put stores what the desktop stand-in stores, but notifies exactly the root's watchers and those strictly above the key |
| WatchedReplica.Set | browser/mocks/syncbase-wrapper.js:110-117 | a put stores what the desktop stand-in stores, writes the value with its version advanced, and notifies exactly the watchers on the key or on one of its prefixes, each note about this key and value |
| WatchedReplica.PathWatchersAbove | browser/mocks/syncbase-wrapper.js:93-108 | the watchers recursiveCreate gathers are exactly those registered on a proper prefix of the key |
| WatchedReplica.SetMissesOwnWatchers | browser/mocks/syncbase-wrapper.js:110-117 | as written, a watcher on the written node is not told of the put, and the root's watcher is told twice |
| WatchedReplica.DeleteNode | browser/mocks/syncbase-wrapper.js:133-157 | deleting a node clears its value, advances its version, keeps its watchers; only deletions are noted, about the key at the top and a null key below; a node that had a value first tells the watchers above and on it; a subtree with no data makes no notes |
| WatchedReplica.DeleteNodeData | browser/mocks/syncbase-wrapper.js:133-157 | with every child enumerated, a deleted node holds what the desktop stand-in's delete leaves |
| WatchedReplica.DeleteAt | browser/mocks/syncbase-wrapper.js:133-157 | deleting a missing key changes nothing and makes no notes; every note is a deletion of the key or of a descendant |
| WatchedReplica.DeleteAtData | browser/mocks/syncbase-wrapper.js:133-157 | with every child enumerated, delete stores what the desktop stand-in's delete stores |
| WatchedReplica.Merge | browser/mocks/syncbase-wrapper.js:35-54 | the merged node has the children of both sides; it takes the other side's value and version when its version is greater, when only it has one, or when versions are equal and values differ |
| WatchedReplica.MergeIntoEmpty | browser/mocks/syncbase-wrapper.js:35-54 | merging into an empty node copies the source |
| WatchedReplica.MergeConverges | browser/mocks/syncbase-wrapper.js:56-63 | after b is updated from a and a from the updated b, both hold the same data under the prefix |
| WatchedReplica.EarlierWinsTie | browser/mocks/syncbase-wrapper.js:47-63 | on equal versions with different values, the replica that joined earlier wins on both sides |
| WatchedReplica.Update | browser/mocks/syncbase-wrapper.js:35-54 | update keeps the target's watchers and takes the source's value and version exactly when the copy condition holds |
| WatchedReplica.UpdateData | browser/mocks/syncbase-wrapper.js:35-54 | with every child enumerated, update leaves the data Merge describes |
| WatchedReplica.UpdateNotes | browser/mocks/syncbase-wrapper.js:35-54 | a copied value is noted last, to the watchers above and on the target, and every note is about the key or a key below it |
| WatchedReplica.PutOp | browser/mocks/syncbase-wrapper.js:212-216 | in the corrected program (the notification of the Findings table), put stores what the desktop stand-in stores and ends the batch |
| WatchedReplica.DeleteOp | browser/mocks/syncbase-wrapper.js:218-222 | in the corrected program, delete of a missing key leaves the tree unchanged, and the batch is ended |
| WatchedReplica.PutDelivers | browser/mocks/syncbase-wrapper.js:110-117 | in the corrected program, where a put notifies the written node's own watchers instead of the root's a second time: from idle watchers, a put reaches each watcher once per registration on the written path, as continued, then as final, then the end of the batch |
| WatchedReplica.SyncPrefix | browser/mocks/syncbase-wrapper.js:56-63 | syncing a prefix keeps the watchers registered at the prefix on both sides |
| WatchedReplica.SyncPrefixAgrees | browser/mocks/syncbase-wrapper.js:56-63 | after a prefix is synced, both replicas hold the same data under it |
| WatchedReplica.Sync | browser/mocks/syncbase-wrapper.js:56-67 | in the corrected program, after a sync both batches have ended |
| WatchedReplica.SyncAgreesOnLast | browser/mocks/syncbase-wrapper.js:56-67 | the prefix synced last holds the same data on both sides |
| WatchedReplica.GetData | browser/mocks/syncbase-wrapper.js:225-227 | an empty repository reads as an empty object |
| WatchedReplica.PutReadsBack | browser/mocks/syncbase-wrapper.js:212-227 | a value put under a key is what getData then shows there, for keys without a '_' element |
| WatchedReplica.ReplayComplete | browser/mocks/syncbase-wrapper.js:159-188 | the onData calls report exactly the values stored at or below the node, each with its full key |
| WatchedReplica.Register | browser/mocks/syncbase-wrapper.js:354-362 | the watcher is appended to those of the node at the prefix, the path is created, and the stored data does not change |
| WatchedReplica.GetRawWatched | browser/mocks/syncbase-wrapper.js:288-293 | the new watcher is registered at the prefix and the batching state is untouched |
| WatchedReplica.WatchSeesExistingAndLater | browser/mocks/syncbase-wrapper.js:288-293 | a watch replays every value already under the prefix and nothing else, and a later put at or below the prefix reaches the new watcher |
| WatchedReplica.WatchMissesPutAtPrefix | browser/mocks/syncbase-wrapper.js:110-117 | as written, a watcher registered on a key is not told of a put at that very key |
| WatchedReplica.JoinSyncgroup | browser/mocks/syncbase-wrapper.js:250-282 | joining fails, with NoExist, iff the group is missing and there is no spec to create it from; an existing group keeps its prefixes |
| WatchedReplica.ChangeSpec | browser/mocks/syncbase-wrapper.js:266-268 | changeSpec succeeds iff the group exists, and fails with NoExist otherwise |
| WatchedReplica.CreateOrJoinKeepsSpec | browser/mocks/syncbase-wrapper.js:270-282 | joining an existing group, with or without a spec, gives the same registry and keeps the group's prefixes |
| DestinationSync.NewRecord | browser/src/sync-util/destination-sync.js:209-217 | a record has an id, and so is valid, iff one is generated, and it keeps the place it was made with |
| DestinationSync.SetPlaceData | browser/src/sync-util/destination-sync.js:153-164 | the place changes, and the change is reported, iff the new place differs from the old one and at least one of them is truthy; the id never changes |
| DestinationSync.SetPlaceDataIdempotent | browser/src/sync-util/destination-sync.js:153-164 | after one call the place is settled, and a second call with the same place changes and reports nothing |
| DestinationSync.RecordPut | browser/src/sync-util/destination-sync.js:166-184 | an invalid record writes nothing; a valid one writes its place, marshalled, under its key plus 'place', or deletes that key when the place is falsy |
| DestinationSync.RecordPutReadsBack | browser/src/sync-util/destination-sync.js:166-184 | the place a valid record writes unmarshals back to the record's place, when the place holds no undefined member |
| DestinationSync.RecordDelete | browser/src/sync-util/destination-sync.js:186-199 | a valid record deletes the key of its id under the destinations key; an invalid one writes nothing |
| DestinationSync.ValidIdsMembers | browser/src/sync-util/destination-sync.js:313-319 | an id is in the written list iff some valid record carries it |
| DestinationSync.ValidIdsAllValid | browser/src/sync-util/destination-sync.js:313-319 | when every record is valid, the list holds their ids in record order |
| DestinationSync.PutDestinationIds | browser/src/sync-util/destination-sync.js:313-319 | the id list is written, marshalled, under the trip's destinations key |
| DestinationSync.RemoveHandler | browser/src/sync-util/destination-sync.js:248-252 | removing index i drops exactly the record at i |
| DestinationSync.TruncateKeepsPrefix | browser/src/sync-util/destination-sync.js:321-331 | truncation keeps the first target records and removes the rest from the end, one removal per surplus destination, last first |
| DestinationSync.TruncateIds | browser/src/sync-util/destination-sync.js:321-331 | after truncation the valid ids are those of the first target records |
| DestinationSync.HandleAdd | browser/src/sync-util/destination-sync.js:220-246 | an add over an invalid record leaves everything alone; otherwise a record with a fresh id and the destination's place is inserted at the index; the writes happen iff the upstream is valid, and are then the new id list followed by the new record's place write |
| DestinationSync.HandleRemove | browser/src/sync-util/destination-sync.js:248-262 | the record at the index is dropped; the id list is rewritten and the record's key deleted iff the upstream is valid and the record was valid |
| DestinationSync.AddThenRemove | browser/src/sync-util/destination-sync.js:220-262 | removing what was just added restores the records, and with a valid upstream writes the original id list and deletes the new id's key |
| DestinationSync.UpdateDestinationPlace | browser/src/sync-util/destination-sync.js:264-283 | only a valid record at the index changes, taking the destination's place; any write is that record's put, made only with a valid upstream |
| DestinationSync.PushDestinations | browser/src/sync-util/destination-sync.js:285-305 | without an active trip and unforced nothing happens; otherwise the active trip, or a fresh one when forced, becomes the upstream, and the put of every valid record is written before the id list, which is written last |
| DestinationSync.PutAllHoldsEveryPut | browser/src/sync-util/destination-sync.js:298-300 | the writes of `record.put` for all records are exactly the puts of the valid records: each valid record's put is among them and each of them is some valid record's put |
| DestinationSync.IdElement | browser/src/sync-util/destination-sync.js:196-198 | a string id is its own key element, and null and undefined give the empty element, as joining the key renders them |
| DestinationSync.DestinationData | browser/src/sync-util/destination-sync.js:85 | the entry read for an id is the member named String(id): a string id names itself, the number 5 names "5" and null names "null" |
| DestinationSync.NewPlace | browser/src/sync-util/destination-sync.js:85-87 | a falsy destination entry gives that value as the place, without unmarshalling |
| DestinationSync.PullOne | browser/src/sync-util/destination-sync.js:67-119 | pulling entry i sets record i's id, creating the record when missing, leaves the other records alone, and settles its place iff the place read under String(id) unmarshals |
| DestinationSync.PullAligns | browser/src/sync-util/destination-sync.js:67-119 | a complete pull gives record k the k-th id with its place settled, for every k from the start index on, and leaves the other records alone |
| DestinationSync.ReportAndPush | browser/src/sync-util/destination-sync.js:60-64 | a corrupt id list is reported first and then overwritten by a forced push, which makes the active trip the upstream |
| DestinationSync.NoDataClearsOrPushes | browser/src/sync-util/destination-sync.js:45-51 | with no remote data and a valid upstream, every destination is removed and nothing is written; without one, the local list is pushed |
| DestinationSync.ProcessDestinations | browser/src/sync-util/destination-sync.js:42-123 | no contract of its own: each branch is stated by NoDataClearsOrPushes, CorruptIdsArePushed, ProcessAligns and PushedIdsPullBack |
| DestinationSync.CorruptIdsArePushed | browser/src/sync-util/destination-sync.js:53-65 | unreadable or missing ids are reported and the local list is pushed over them |
| DestinationSync.ProcessAligns | browser/src/sync-util/destination-sync.js:66-123 | after a complete pull, record k carries the k-th id with its place settled, surplus records are gone, and nothing is written |
| DestinationSync.PullIdsAligns | browser/src/sync-util/destination-sync.js:66-123 | a pull of an id list that does not throw leaves exactly one record per id, carrying it, with its place settled |
| DestinationSync.PushedIdsPullBack | browser/src/sync-util/destination-sync.js:42-123 | a client pulling the id list another client pushed ends with exactly the pusher's valid ids, when every id is a JSON value |
| DestinationSync.IdsValueIsJson | browser/src/sync-util/destination-sync.js:313-319 | the id list written for records whose ids hold no undefined inside is a JSON value |
| MessageOrder.Insert | src/sync-util/message-sync.js:14-16 | inserting into a batch sorted by timestamp keeps it sorted, adds exactly the one message, and puts it at the front only if it is not later than the old first |
| MessageOrder.SortByStamp | src/sync-util/message-sync.js:40-44 | the emitted batch is sorted by timestamp and is a permutation of the accepted batch |
| MessageOrder.InsertLast | src/sync-util/message-sync.js:14-16 | a message no earlier than any in the batch goes at the end, so arrival order is kept among equal timestamps |
| MessageOrder.SortKeepsSorted | src/travelsync.js:63-67 | a batch already in time order is left exactly as it is |
| MessageOrder.SortIdempotent | src/travelsync.js:63-67 | sorting a sorted batch again changes nothing |
| MessageOrder.Present | src/travelsync.js:63-67 | the defined messages of a batch, none undefined, with every other message kept at its multiplicity |
| MessageOrder.TimeOrder | src/travelsync.js:63-67 | the sort leaves a permutation of the batch in which every undefined message comes after all defined ones and the defined ones are in time order, sorted as the plain time-order sort sorts them |
| MessageOrder.TimeOrderWithoutUndefined | src/travelsync.js:63-67 | on a batch without undefined messages the sort is the plain time-order sort |
| MessageOrder.UndefinedThenDefined | src/sync-util/message-sync.js:41 | an undefined element before a defined one is moved after it |
| MessageOrder.DefinedThenUndefined | src/travelsync.js:63-67 | a defined message followed by an undefined one stays as it is, and only the defined one is passed to the comparator |
| MessageSync.Payload | src/sync-util/message-sync.js:20-28 | the payload holds every defined member of the content as given, and a timestamp that is the send time unless the content brings a defined one; undefined members are dropped |
| MessageSync.Message | src/sync-util/message-sync.js:20-28 | a message is written, marshalled, under the trip's messages key and its fresh id |
| MessageSync.SentMessageArrives | src/sync-util/message-sync.js:20-38 | a sent message comes back through the watch as its payload, accepted by a client that has not seen its id, with the content's timestamp or else the send time, when no member of the content holds an undefined inside it |
| MessageSync.ProcessMessage | src/sync-util/message-sync.js:32-38 | an id seen before changes nothing; a new id is recorded, and its message is added to the batch iff it unmarshals |
| MessageSync.Receive | src/sync-util/message-sync.js:32-38 | receiving changes only adds ids and only appends to the batch |
| MessageSync.ReceiveRecords | src/sync-util/message-sync.js:32-38 | after receiving, the id of every change is recorded |
| MessageSync.ReceiveKnown | src/sync-util/message-sync.js:32-38 | changes whose ids are all known add nothing and raise nothing |
| MessageSync.RedeliveryIgnored | src/sync-util/message-sync.js:32-38 | delivering the same changes again, in a later batch, adds nothing and raises nothing |
| MessageSync.EndBatch | src/sync-util/message-sync.js:40-44 | the batch end throws iff a null message sits beside another defined one, keeping the batch and emitting nothing; otherwise it emits a permutation of the batch with undefined messages last and the rest in time order, and empties the batch while keeping the ids |
| MessageSync.NullBatchThrows | src/sync-util/message-sync.js:14-16 | a null beside another defined message is never emitted, and the batch stays |
| MessageSync.UndefinedEmittedLast | src/sync-util/message-sync.js:36-43 | an undefined message is emitted after a defined one whichever arrived first |
| TravelSync.ParseMessage | src/travelsync.js:45-47 | the parser reads String(x): a string is parsed as it is and a one-string array as that string; with a parser that reads literals, null, booleans and numbers come back as themselves and undefined and objects are refused |
| TravelSync.Collect | src/travelsync.js:56-62 | the loop keeps every message already seen with a truthy value, and, unless a parse fails, records every id of the update except the inherited property names, which read as seen |
| TravelSync.UnseenIds | src/travelsync.js:56-57 | the reference list holds only ids of the update known with a falsy message, or unknown and not an inherited property name |
| TravelSync.CollectFresh | src/travelsync.js:56-62 | with distinct ids and no parse error, exactly the unseen ids are collected, in order, each recorded with its parsed message |
| TravelSync.ProcessUpdates | src/travelsync.js:50-71 | without truthy messages nothing happens; the plan and status never change; otherwise, without an error, one batch is announced, in time order with the undefined messages last, and it holds no null beside another defined message |
| TravelSync.Announce | src/travelsync.js:63-69 | the collected messages are recorded whatever happens; the batch is announced, in the sort's order, iff neither the loop nor the comparator threw, and the comparator throws iff a null is among two or more defined messages |
| TravelSync.UpdateAnnouncesUnseen | src/travelsync.js:50-71 | without an error, the announced batch is the parsed messages of the ids not seen before, in the sort's time order, and every id of the update but the inherited property names is recorded |
| TravelSync.SeenUpdateAnnouncesNothing | src/travelsync.js:56-62 | an update whose messages were all seen with truthy values collects nothing and changes nothing |
| TravelSync.InheritedIdIgnored | src/travelsync.js:55-56 | a message filed under "constructor" and not yet recorded reads as seen: nothing is recorded and an empty batch is announced |
| TravelSync.NullMessageThrows | src/travelsync.js:62-68 | a new message that parses to null beside another new one that is not undefined makes the time-order comparator throw, so nothing is announced and an error is reported |
| TravelSync.CollectedNullThrows | src/travelsync.js:56-67 | a loop that collects a null beside another defined new message, and does not throw, leaves a batch on which the comparator throws |
| TravelSync.NullBesideUndefinedAnnounced | src/travelsync.js:56-69 | two new messages parsing to null and undefined are announced as [null, undefined] without an error |
| TravelSync.CollectTwo | src/travelsync.js:56-62 | two unseen ids are collected in order, each as its parsed message |
| TravelSync.UpdatePlan | src/travelsync.js:99-103 | the plan is replaced and announced, and the call then ends in a TypeError because onMessage is not declared |
| TravelSync.ServerReportsLatest | src/travelsync.js:92-108 | get reports the plan and status last written, and neither update disturbs the other field or the messages |
| TravelSync.Get | src/travelsync.js:92-97 | get answers the current plan and status |
| TravelSync.UpdateStatus | src/travelsync.js:105-108 | the status is replaced, the plan and messages kept, and exactly one status event announces the new status |
| DeviceSync.NegateVector | src/sync-util/device-sync.js:45-51 | every component of the vector changes sign |
| DeviceSync.NegateDirection | src/sync-util/device-sync.js:53-73 | an axis name goes to a different axis name, a cone keeps its margin with its mean negated, and any other name throws |
| DeviceSync.NegateDirectionInvolution | src/sync-util/device-sync.js:53-73 | negating a direction twice gives it back |
| DeviceSync.AxisPairs | src/sync-util/device-sync.js:53-66 | left pairs with right, up with down, forwards with backwards |
| DeviceSync.NegateRelativePosition | src/sync-util/device-sync.js:98-103 | the magnitude is kept and the direction negated, and the negation fails exactly when the direction's does |
| DeviceSync.DeviceKey | src/sync-util/device-sync.js:86-96 | a device key is 'devices' followed by one element per argument, and the field name, every argument past the fifth and every empty argument are copied unescaped |
| DeviceSync.DeviceKeyRoundTrip | src/sync-util/device-sync.js:86-96 | unescaping the name positions of a device key recovers the arguments, when escaping never maps a name to the empty string |
| DeviceSync.Relate | src/sync-util/device-sync.js:107-123 | relate writes two connections, the position under deviceKey(me, my device, 'connections', remote owner, remote device) and the negated one under the reverse key, or throws before writing when the direction cannot be negated |
| DeviceSync.RelateSymmetric | src/sync-util/device-sync.js:107-123 | relating A to B at a position and B to A at the negated position write the same two records, in the other order |
| DeviceSync.ProcessDevices | src/sync-util/device-sync.js:137-201 | unconnected targets are possible targets, this device is never one, hasCastTargets says whether there are any, and the event fires iff targets appear where there were none |
| DeviceSync.ProcessDevicesFails | src/sync-util/device-sync.js:144-200 | processing fails iff an inspected device's location cannot be unmarshalled, or a connection to a possible target has no readable direction |
| DeviceSync.PossibleTargets | src/sync-util/device-sync.js:146-165 | when processing succeeds, a device is a possible target iff it is another device seen within the last 5000 ms whose location is not reported far |
| DeviceSync.UnconnectedTargets | src/sync-util/device-sync.js:170-190 | when processing succeeds, a possible target is unconnected iff this device has no connection to it |
| DeviceSync.RelatedTargets | src/sync-util/device-sync.js:125-190 | when processing succeeds, a device is filed under a direction iff it is a possible target this device has a connection to with exactly that direction |
| DeviceSync.RelatedDevices | src/sync-util/device-sync.js:125-127 | a direction with nothing filed gives no devices, and a filed direction gives exactly its devices |
| Casting.GestureDirection | src/casting-manager.js:18-31 | a drag is up or down iff its vertical part strictly dominates, otherwise left or right by the sign of its horizontal part, and has no direction iff it does not move |
| Casting.GestureOpposite | src/casting-manager.js:18-31 | the reverse drag has the opposite direction, the one the device layer's negation gives |
| Casting.Union | src/casting-manager.js:36-46 | a pair is in the union iff it is in either operand, and no pair appears twice; no order is promised |
| Casting.AddAll | src/casting-manager.js:36-46 | the union holds exactly the pairs of either side, and never a pair twice |
| Casting.UnionExactlyOnce | src/casting-manager.js:36-46 | a pair is in the union iff it is in either multimap, and it appears there once |
| Casting.Difference | src/casting-manager.js:51-59 | the difference is no longer than the first operand, and every entry of it is in the first and not in the second |
| Casting.DifferenceExact | src/casting-manager.js:51-59 | a pair is in the difference iff it is in the first multimap and not the second, with its multiplicity kept |
| Casting.SetButton | src/casting-manager.js:76-78 | pressing a button sets its bit |
| Casting.ClearButton | src/casting-manager.js:79-81 | releasing a button clears its bit |
| Casting.PressRelease | src/casting-manager.js:76-81 | pressing then releasing a button that was up restores the mask, and releasing a button that is up changes nothing |
| Casting.ButtonBits | src/casting-manager.js:61-78 | buttons 1, 2 and 3 set the bits of the left, middle and right constants |
| Casting.MouseDownAsWritten | src/casting-manager.js:84-93 | as written, a mouse-down sets the button's bit |
| Casting.MouseDownAlwaysArms | src/casting-manager.js:84-93 | as written, every mouse-down arms a cast at the pointer, because the comparison binds before the bitwise or |
| Casting.LeftClickArmsCast | src/casting-manager.js:84-93 | as written, a plain left click arms a cast, though the left button alone is not a casting chord |
| Casting.MouseDown | src/casting-manager.js:84-93 | a mouse-down sets the button's bit, and arms a cast at the pointer exactly when the buttons held are the left-and-right chord or the middle button alone |
| Casting.ChordArmsCast | src/casting-manager.js:84-93 | left alone or right alone arms nothing; left then right arms at the pointer; middle alone arms |
| Casting.MouseUpdate | src/casting-manager.js:95-103 | a cast vector is produced iff no button is held and a cast is armed; it is the pointer's offset from the origin, and the cast is disarmed |
| Casting.MouseUp | src/casting-manager.js:95-113 | releasing a button clears its bit; a cast vector comes out iff no button is left held and a cast was armed, and it is the offset from the origin, with the cast disarmed; otherwise the origin stays |
| Casting.MouseMove | src/casting-manager.js:95-109 | a move with a button reported changes nothing; one without resets the buttons, and gives the offset from the origin, disarming the cast, iff a cast was armed |
| Casting.MiddleDragCasts | src/casting-manager.js:84-113 | a middle-button drag produces the drag's offset as the cast vector and leaves the handler idle |
| Casting.RelatedFor | src/casting-manager.js:118-129 | up also takes the devices forwards, down also those backwards, and any other direction only its own |
| Casting.InterpretCastVector | src/casting-manager.js:131-168 | nothing happens iff the drag has no direction, which is exactly when it does not move |
| Casting.CastDecision | src/casting-manager.js:131-168 | with exactly one related device it is the target; with none related and one unconnected, that device is cast to and related in the gesture's direction; with no devices at all no nearby devices are reported; otherwise every possible target is offered as related or other |
| JsArrays.SpliceStart | browser/src/destinations.js:67 | splice acts at the start when it is in range, counts a negative start from the end but not past the front, and clamps a start past the end to the end |
| JsArrays.InsertAt | browser/src/destinations.js:19-22 | inserting puts the element at the clamped start, with the elements before it unchanged and those after it shifted by one |
| JsArrays.RemoveAt | browser/src/destinations.js:67 | removing at an in-range clamped start takes out exactly that element and returns it; at the end nothing is removed |
| JsArrays.At | browser/src/destinations.js:45-46 | indexing finds an element iff the index is in range, and then the element at it |
| JsArrays.FromEither | browser/src/destinations.js:44-51 | an index in range from the front or, when negative, from the back finds that element, and nothing else finds one |
| JsArrays.RemoveUndoesInsert | browser/src/destinations.js:11-81 | removing at the index just inserted at restores the array and returns the inserted element |
| JsArrays.InsertUndoesRemove | browser/src/destinations.js:11-81 | inserting the removed element back at its index restores the array |
| DestinationList.Renumber | browser/src/destinations.js:28-30 | every destination from the given index on hears its own index, and only those |
| DestinationList.Add | browser/src/destinations.js:11-35 | the list grows by one with the new destination at the clamped index; it throws iff the index is below -1, with nobody told, and otherwise the add is announced last |
| DestinationList.FarNegativeAddThrows | browser/src/destinations.js:19-30 | an index below -1 inserts where `splice` clamps it, then the renumbering reads before the start and throws, so the add is never announced |
| DestinationList.Get | browser/src/destinations.js:37-52 | without an index, every destination in order; with one, the destination at it, counted from the back when negative, and none out of range |
| DestinationList.Count | browser/src/destinations.js:54-56 | the count is the list's length, and it is zero iff there is no destination at index 0 |
| DestinationList.Remove | browser/src/destinations.js:58-81 | a non-number is ignored; an index in range from either end removes one destination without throwing, and a removal is announced last |
| DestinationList.AddEvents | browser/src/destinations.js:24-30 | an insertion notifies every destination after it, and the old last one when appending, and nothing else, each with its new index |
| DestinationList.AddNotifiesChanged | browser/src/destinations.js:11-35 | an insertion places the destination at the index and notifies exactly the destinations whose index or last-ness changed, each with its new index; the new one is only announced |
| DestinationList.AddOrdinalBefore | browser/src/destinations.js:24-27 | a destination before the insertion point is notified iff the insertion appends right after it |
| DestinationList.AddOrdinalAfter | browser/src/destinations.js:28-30 | every destination after the insertion point is notified of its shifted index |
| DestinationList.RemoveEvents | browser/src/destinations.js:58-81 | a removal takes out the destination at the index, notifies every destination after the gap and the new last one, and nothing else |
| DestinationList.RemoveNotifiesChanged | browser/src/destinations.js:58-81 | a removal notifies exactly the remaining destinations whose index or last-ness changed, each with its new index |
| DestinationList.AddThenRemove | browser/src/destinations.js:11-81 | removing what was just inserted at the same index restores the list and hands back the destination |
| DestinationList.FarNegativeRemoveThrows | browser/src/destinations.js:63-75 | an index still negative after counting from the end removes a destination and then throws, so the removal is never announced |
| Timeline.Add | src/components/timeline.js:21-34 | the timeline grows by one; no index appends, and an index within the list inserts the control there with the others kept in order |
| Timeline.Get | src/components/timeline.js:36-44 | without an index, every control in order; with one, the control at it, counted from the back when negative, and none out of range |
| Timeline.Remove | src/components/timeline.js:46-58 | no index removes nothing; an index in range from either end removes one control and returns the one get would find there; an index past the end removes nothing |
| Timeline.AddThenGet | src/components/timeline.js:21-44 | the control just added is what get finds at its index, and at -1 when it was appended |
| Timeline.AddThenRemove | src/components/timeline.js:21-58 | removing the control just added, by its index from the front or from the back, restores the timeline and returns that control |
| Timeline.RemoveThenAdd | src/components/timeline.js:21-58 | adding a removed control back at its index restores the timeline |
| TimelineServer.Identify | browser/src/components/timeline-server.js:86-98 | an absent control is named by the empty string; a control seen before keeps its identifier; a new one gets the next fresh identifier, recorded both ways |
| TimelineServer.IdentifyResolves | browser/src/components/timeline-server.js:86-98 | naming keeps the two maps inverse and the unused identifiers fresh, never changes an earlier name, and names a present control by a non-empty identifier that leads back to it |
| TimelineServer.IdentifyTwice | browser/src/components/timeline-server.js:86-98 | naming a control a second time changes nothing and gives the same identifier |
| TimelineServer.IdentifyPoly | browser/src/components/timeline-server.js:100-104 | a single control gets a single identifier, and a list gets one identifier per control |
| TimelineServer.IdentifyAllResolves | browser/src/components/timeline-server.js:100-104 | naming a list names each present control by an identifier that leads back to it, and each absent one by the empty string, without changing earlier names |
| TimelineServer.SameControlSameId | browser/src/components/timeline-server.js:100-104 | a control listed twice is named the same both times |
| TimelineServer.Get | browser/src/components/timeline-server.js:214-217 | without an index every control is named, one identifier each; with one, a single identifier, empty when the timeline has no control there |
| TimelineServer.GetResolves | browser/src/components/timeline-server.js:214-217 | the identifiers get answers lead back to the controls the timeline holds there, and an identifier is empty iff there is no control |
| TimelineServer.Remove | browser/src/components/timeline-server.js:208-212 | remove acts on the timeline as the timeline's own remove does, and answers the empty string when nothing was removed |
| TimelineServer.RemoveResolves | browser/src/components/timeline-server.js:208-212 | the identifier remove answers is empty iff nothing was removed, and otherwise leads back to the removed control |
| TimelineServer.Add | browser/src/components/timeline-server.js:208-212 | add acts on the timeline as the timeline's own add does |
| TimelineServer.AddResolves | browser/src/components/timeline-server.js:208-217 | the identifier add answers leads back to the new control, and get at the same index then answers the same identifier |
| DestinationNode.NewNode | src/destination.js:132-135 | a new destination starts unselected, without a place and at index 0 |
| DestinationNode.Select | src/destination.js:33-38 | selecting leaves the node selected and fires onSelect exactly when it was not selected before; nothing else about the node changes |
| DestinationNode.Deselect | src/destination.js:40-45 | deselecting leaves the node unselected and fires onDeselect exactly when it was selected before |
| DestinationNode.SelectionTransitions | src/destination.js:29-45 | selecting or deselecting twice fires once; exactly one of select and deselect fires on any node; deselect undoes select |
| DestinationNode.SetPlace | src/destination.js:21-27 | the node holds the new place, and onPlaceChange fires with the new and the previous place only when they differ |
| DestinationNode.SetPlaceTwice | src/destination.js:13-27 | setting the place a destination already has fires no event, and after setting a place getPlace returns it and hasPlace is true |
| DestinationNode.LocateExact | src/destination.js:47-80 | in a world where every node appears once, a node's neighbours are found from its own position |
| DestinationNode.CascadeShifts | src/destination.js:102-112 | renumbering a chain from a new base gives each node base plus its position and announces an ordinal change for every node whose index moved |
| DestinationNode.CascadeSettled | src/destination.js:102-112 | a chain already numbered from its base is left alone and announces nothing |
| DestinationNode.BindNext | src/destination.js:55-72 | binding the current next node changes nothing; dropping or replacing an existing next node throws through the undefined bindPrev; a target that already has a predecessor throws the same way |
| DestinationNode.BindPrevious | src/destination.js:82-98 | keeping the predecessor changes nothing; unlinking or replacing a predecessor throws; a predecessor that already has a next node throws |
| DestinationNode.JoinShape | src/destination.js:64-66 | after a join the first chain keeps its nodes, the second follows it renumbered from the first's length, and each appended node announces its change |
| DestinationNode.JoinKeepsInvariants | src/destination.js:82-112 | a join keeps every node exactly once and every index equal to its position in its chain |
| DestinationNode.BindNextLinks | src/destination.js:55-112 | linking a last node to the first node of another chain makes them neighbours both ways, keeps the world valid and indexed, and announces the renumbered nodes and then the old last node |
| DestinationNode.BindEitherWay | src/destination.js:55-98 | linking from either end succeeds on the same inputs and gives the same world; only the order of the announcements differs |
| DestinationNode.UnlinkingThrows | src/destination.js:55-98 | every way of unlinking a node (clearing its next, or dropping or replacing its predecessor) throws a TypeError |
| DestinationNode.AppendFresh | src/destination.js:55-112 | a fresh destination linked after the last one becomes its successor with the next index, and both announce an ordinal change |
| DescribeDestination.Classify | browser/src/describe-destination.js:13-21 | a destination without a predecessor is the origin; one with both neighbours is intermediate; a last one is terminal, and direct exactly when its index is 1 |
| DescribeDestination.Description | browser/src/describe-destination.js:23-34 | the origin reads "Origin", a middle stop its number, the end of a two-stop route "Destination" and any other end "Final destination" |
| DescribeDestination.DescriptionOpenEnded | browser/src/describe-destination.js:36-46 | agrees with the plain description everywhere except a terminal beyond the second stop, which is numbered instead |
| DescribeDestination.DecorateMarker | browser/src/describe-destination.js:48-62 | the marker gets the origin icon exactly for the origin, a numeric label exactly for a middle stop (its index), and then always the description as its label |
| DescribeDestination.ClassByPosition | browser/src/describe-destination.js:13-21 | along a route of n stops the first is the origin, the last is terminal (direct exactly when n is 2), and every other is intermediate |
| DescribeDestination.NumberedNamesIndex | browser/src/describe-destination.js:27-28 | a middle stop's description is "Destination " followed by decimal digits that read back as its index |
| DescribeDestination.DescriptionsDistinguishClasses | browser/src/describe-destination.js:23-34 | destinations of different classes never get the same description |
| Place.Init | browser/src/place.js:188-201 | a search result keeps its details and locates the place, identified by its place id when it has one and by its address as query otherwise; a plain object is taken as it is |
| Place.ToKey | browser/src/place.js:177-180 | a non-empty place id is the key; otherwise a key exists exactly when the place has a location |
| Place.Equal | browser/src/place.js:31-33 | the same reference is equal, a missing place equals only a missing place, and two keyed places are equal exactly when their keys are |
| Place.EqualIsEquivalence | browser/src/place.js:31-33 | place equality is reflexive, symmetric and transitive |
| Place.ToObject | browser/src/place.js:161-175 | a place with a place id becomes that id alone; otherwise the object exists exactly when there is a location |
| Place.ObjectDeterminesKey | browser/src/place.js:161-180 | a key exists exactly when a plain object does, and places with the same plain object have the same key |
| Place.ResultKey | browser/src/place.js:177-201 | a place built from a result is keyed by the result's place id, or by its address followed by its location |
| Place.GetSingleLine | browser/src/place.js:65-81 | a cached line is returned as is; with details, a name that is not the address's first part is put before the address; the place data are never altered |
| Place.SingleLineStable | browser/src/place.js:65-81 | asking for the single line again gives the same answer and leaves the place unchanged |
| Place.SingleLineNamesPlace | browser/src/place.js:71-76 | a named result whose name is not its address reads as the name, a comma, then the whole address |
| Place.GroupCovers | browser/src/place.js:108-152 | joined back together the grouped lines are exactly the parts the grouping keeps, in order: only the country (or an echoed name) is dropped |
| Place.AddressLines | browser/src/place.js:96-154 | no lines without a non-empty address; otherwise the grouped lines, without the first when it equals the name |
| Place.AddressLinesReadBack | browser/src/place.js:108-154 | with no name to leave out, an address of one, two or seven or more parts reads back whole from its lines |
| Place.GetMultiLine | browser/src/place.js:93-155 | without details there are no lines; an omitted name defaults to the details' name, null leaves nothing out, and a given name is left out |
| DestinationInfo.FormatAddress | src/components/destination-info.js:15-74 | no lines without a non-empty address; otherwise lines that read back as the kept parts of the address, with a first line repeating the name left out |
| DestinationInfo.InfoMatchesPlace | src/components/destination-info.js:15-74 | the info box shows exactly the lines the browser's place gives with its own name left out |
| DestinationInfo.NamedThreePartAddress | src/components/destination-info.js:33-37 | a three-part address starting with the place's name shows only the last two parts, on one line |
| DestinationMarker.MarkerIconInjective | src/components/destination-marker.js:8-10 | different colours give different icon addresses, so the icon identifies the colour |
| DestinationMarker.Init | src/components/destination-marker.js:100-113 | a new marker has its one client in the given colour, no listeners, is not clickable, and is on the map with that colour's icon |
| DestinationMarker.PushClient | src/components/destination-marker.js:54-58 | the new client goes on top in the given colour, or the previous top's colour when none is given, and the icon follows; with neither, the call throws |
| DestinationMarker.RemoveListener | src/components/destination-marker.js:65-67 | removing a listener removes every occurrence of it and keeps all the others |
| DestinationMarker.RemoveClient | src/components/destination-marker.js:60-79 | every entry of the client leaves with all the listeners it owns; the marker is clickable exactly when listeners remain, leaves the map with its last client, and otherwise shows the new top's colour |
| DestinationMarker.SetColor | src/components/destination-marker.js:81-84 | only the top client's colour changes and the icon follows; the listeners stay; on an empty stack the call throws |
| DestinationMarker.AddListenerAsWritten | src/components/destination-marker.js:115-131 | as written, the listeners grow by the added ones and clickability reflects the listeners before the call; without a client and not global the call throws |
| DestinationMarker.FirstListenerLeavesUnclickable | src/components/destination-marker.js:115-131 | as written, the first click listener of a fresh marker leaves it not clickable |
| DestinationMarker.AddListener | src/components/destination-marker.js:115-131 | the listeners grow by the added ones, which the top client owns unless they are global, and the marker is clickable exactly when it has a listener |
| DestinationMarker.MarkerInvariants | src/components/destination-marker.js:35-131 | every operation keeps the marker clickable exactly when it is listened to and in its top client's colour |
| DestinationMarker.RemoveKeepsOrRestoresColour | src/components/destination-marker.js:60-79 | removing the top client shows the colour of the client below it, and the marker stays on the map |
| DestinationMarker.RemoveNonTopKeepsColour | src/components/destination-marker.js:60-79 | removing a client that is not on top leaves the colour as it was and the marker in use |
| DestinationMarker.LastClientDetaches | src/components/destination-marker.js:74-76 | removing the only client takes the marker off the map |
| TravelCommands.ParseCommand | src/travel.js:78 | a text is read as a command exactly when it holds a slash; the name read has no whitespace and the argument stays on one line |
| TravelCommands.ParseCommandRoundTrip | src/travel.js:78 | typing a slash, a whitespace-free name, a space and a one-line argument reads back that name and that argument, whatever slash-free text comes first |
| TravelCommands.ParseBareCommand | src/travel.js:78 | typing a slash and a whitespace-free name alone reads back that name with no argument |
| TravelCommands.UnanchoredCommand | src/travel.js:78 | the pattern is not anchored: any slash-free text followed by "/status" runs the status command |
| TravelCommands.Invite | src/travel.js:102-126 | an invitation for the active trip goes out exactly when the trip has an owner; otherwise the not-ready error is shown and nothing is sent |
| TravelCommands.RunCommandAsWritten | src/travel.js:309-317 | a name every object inherits, looked up on the command table, finds a handler without an op, and the call throws |
| TravelCommands.InheritedNameThrows | src/travel.js:309-317 | typing "/constructor", which is not a registered command, throws instead of reporting an unrecognized command |
| TravelCommands.RunCommand | src/travel.js:309-317 | the registered commands run with the argument text; every other name, and only those, is reported as unrecognized; nothing throws |
| TravelCommands.RunCommandAgrees | src/travel.js:309-317 | the corrected lookup agrees with the written one on every name except the inherited ones, where only the written one throws |
| TravelCommands.HandleUserMessage | src/travel.js:354-361 | in the corrected program (Findings), a message without a slash, and only such a message, is sent to the trip's chat; the rest run as commands, and nothing throws |
| TravelCommands.HandleUserMessageAsWritten | src/travel.js:354-361 | as written, a message without a slash, and only such a message, is sent to the trip's chat |
| TravelCommands.HandleUserMessageAgrees | src/travel.js:309-361 | the message handler as written throws iff the command read names an inherited property, and otherwise does what the corrected one does |
| TravelCommands.ConstructorMessageThrows | src/travel.js:309-361 | the chat message "/constructor" throws as written, and is reported as an unrecognized command in the corrected program |
| TravelCommands.InviteCommand | src/travel.js:102-126 | "/invite someone" sends an invitation to that user for the active trip when there is one, and reports that the trip is not ready otherwise |
| TravelCommands.TrimUnused | src/travel.js:363-370 | the result is a non-empty prefix of the timeline whose last destination is used unless it is the only one, and every destination dropped was unused; an empty timeline throws |
| TravelCommands.TrimTail | src/travel.js:364-369 | the loop keeps a non-empty prefix whose last stop is used unless it is the only one, and drops only unused stops |
| TravelCommands.TrimTwice | src/travel.js:363-370 | trimming a trimmed timeline gives the same timeline |
| TravelCommands.SyncbaseName | src/travel.js:428-432 | the option wins over the query parameter, which wins over 4000; a numeric choice names that port on the local host and any other choice is kept |
| TravelCommands.NormalizeIdempotent | src/travel.js:430-432 | a normalised name is left alone by normalising again, and two numbers give the same name only when they are equal |
| TravelCommands.StatusErrorStrings | src/travel.js:66-72 | the map holds exactly the status values listed |
| TravelCommands.StatusErrorStringsLastWins | src/travel.js:66-72 | a status value maps to the text the group holds under the last name carrying that value, or to nothing when the group has none |
| TravelCommands.DirectionsErrorText | src/travel.js:449-455 | a failure shows the text for its status when there is a non-empty one, and the generic unknown-error text otherwise |

## Left out

- Asynchronous control flow, promises, timers, DOM and map rendering, `defineClass` plumbing and every UI component not named above. They are not modelled: the model describes the state each call leaves and the events it fires. Events are kept in order where a member returns a sequence; members that return sets say so on their own line below.
- Handler exceptions raised inside callbacks (`onError` paths) and absent handlers are not modelled.
- The content of `src/strings.js` is not part of this model. The English texts the code looks up are used as constants.
- JSON numbers are integers only. Floating point is not modelled.
- `TripComparator`: an exception thrown by `getTripLength` inside the comparator is not modelled.
- `MessageOrder.Stamp`: a message without a numeric timestamp sorts as 0. The desktop comparator subtracts timestamps and would give NaN; the browser comparator compares them and would call such a message equal to every other. Either way the source's order is implementation-defined. Sort stability is not promised. `Array.prototype.sort` passes no undefined element to the comparator and puts those elements last (`MessageOrder.TimeOrder`); a null among two or more defined messages makes either comparator throw. `TravelSync.ProcessUpdates` and `MessageSync.EndBatch` model that throw. When the sort throws, the model keeps the batch in its arrival order; the source may have reordered it in place by then.
- `TravelSync.ProcessUpdates`: a truthy `messages` value that is not an object is taken to announce an empty batch.
- `TravelSync.ParseMessage`: `String(x)` of a number is its decimal text, since numbers are integers here. The parser is a parameter, so which texts it accepts is a premise (`ReadsLiterals`) and not a promise.
- `TravelSync`: `start`, `message`, `pushTrip` and `pushStatus` are not modelled. The last three have empty bodies in the source.
- `TravelSync`: `updatePlan` is modelled as written. It always raises a TypeError, because `onMessage` is not declared on the object it is called on.
- `MessageSync`: `setPrefix`, `refresh` and `onTripChange` are not modelled.
- `Invitations.ProcessUpdates`: the invite and dismiss events are returned as sets. The source fires the invites in the tree's key order and then the dismissals; that order is not kept. Each key fires at most once, so no event is lost.
- `Invitations.ProcessUpdates`: an owner whose escaped name is an inherited property (such as "toString") and who is not in the previous tree gets a built-in function as its record in the source, and the function's own properties (`call`, `apply`, `bind`, `name`, `length`) would then read as known recipients. The model reads that owner's record as an empty object, where only the inherited property names read as known.
- `JsValues.MarshalRoundTrip`: this lemma, `JsValues.ReadValueRoundTrip`, `DestinationSync.RecordPutReadsBack`, `DestinationSync.PushedIdsPullBack` and `MessageSync.SentMessageArrives` promise nothing for a value with an undefined inside it. `JSON.stringify` drops an undefined member and writes an undefined array element as `null`, so such a value does not come back as itself.
- `DestinationSync.IdElement`: an array id is flattened by `_.flattenDeep` into several key elements in the source. The model renders it as the empty element.
- `BrowserInvitations.ProcessUpdates`: the invites and dismissals are returned as sets of invitations. Their key order is not kept, and two keys announcing equal invitations give one element.
- `BrowserInvitations.ManageTripSyncgroups`: the errors are returned as a set, not in trip order.
- `DeviceSync.ProcessDevices`: directions are compared by value. A JavaScript `Map` keys object-valued directions by identity.
- `DeviceSync`: the geometry (`cartesian`, `isNearby`), the heartbeat, `updateGeolocation` and `serializeGeolocation` are left out. "Is nearby" is a parameter.
- `Casting`: the cast promise and `onSendCast` are not modelled. `pageX` is taken as an integer.
- `DestinationSync`: `bindDestinations`, the asynchronous `Place.fromObject` and `cancelPlaceAsync` are not modelled. Destination ids that are not an array give `NotArray`.
- `MockReplica.SyncPass`: states only that the set of replicas is kept. The sync loop's timers are not modelled.
- `WatchedReplica.SyncPass`: states only that the set of replicas is kept. The sync loop's timers are not modelled.
- `MockReplica`: the desktop mock's batches are not modelled.
- `WatchedReplica`: the root node's `endBatch` property is not modelled.
- `WatchedReplica`: `extractData` visits a node's fields in insertion order, so a node's `onData` call can come after its children's. The model always reports a node's own value before its children's. This is a modelling choice: it changes the order of the `onData` calls, not the data extracted. A key element named `value` or `version` collides with the node's own fields, as in the source.
- `WatchedReplica.PutDelivers`: stated for the corrected notification of the Findings table, like `PutOp`, `DeleteOp` and `Sync`. As written, the watchers of the written node hear nothing and the root's watchers hear the put twice; `WatchedReplica.SetAsWritten` and `WatchedReplica.SetMissesOwnWatchers` state that.
- `WatchedReplica`: descendants' deletions are reported with a null key, as written.
- `WatchedReplica`: the browser mock's `getData` is the same as the desktop mock's. It is stated once.
- `DestinationNode`: `undefined` links are not told apart from `null` ones. In the source, `bindNext(null)` on a node never linked fires one extra ordinal change. Unlinking is modelled as throwing.
- `DestinationMarker`: `deriveTitle` and the map marker object are not modelled. The initial colour is taken as given.
- `TimelineServer`: the event stream listeners (`addEventStreamListener`, `multiplexedEvent`) are not modelled.
- `TimelineServer`: the methods that forward to one destination are not modelled (`hasFocus`, `setPlace`, clearing and enabling a destination, `setSearchBounds`, `disableAdd`, `enableAdd`).
- `TimelineServer`: the constructor's initial `timeline.get` is not modelled. Identifiers come from the parameter `uuid`. Keys that name `__proto__` are not modelled.
- `Place`: `fromObject` (asynchronous place details), `getName`, `getGeometry` and `getDetails` are not modelled.
- `DestinationInfo`: rendering and the info window are not modelled.
- `TravelCommands`: the outcome of the invitation promise is not modelled.
- `TravelCommands`: the status command's JSON dump is abstracted to `StatusShown`.
- `TravelCommands`: `trimUnusedDestinations` is modelled on the timeline alone. It assumes the timeline mirrors the destinations.
- `TravelCommands`: `handleInvite` and the destination event wiring are not modelled.
- `TravelCommands.HandleUserMessage`: stated for the corrected command table of the Findings table, so it never throws. `TravelCommands.HandleUserMessageAsWritten` is the program as written, and `TravelCommands.HandleUserMessageAgrees` relates the two.
- `TravelCommands.SyncbaseName`: `IsNumeric` accepts decimal digits only. jQuery's `isNumeric` also accepts signs, decimals, exponents, hexadecimal and surrounding whitespace, so `SyncbaseName` is stated for decimal names only.

## Findings

| source | as written | input that shows it | evidently intended | confidence | as-written member | corrected member |
|---|---|---|---|---|---|---|
| src/casting-manager.js:84-93 | `buttons === BN_LEFT \| BN_RIGHT` parses as `(buttons === BN_LEFT) \| BN_RIGHT`, which is always truthy | a plain left-button press arms a cast | arm a cast when left and right are held together, or the middle button alone | not executed | Casting.MouseDownAsWritten, Casting.MouseDownAlwaysArms, Casting.LeftClickArmsCast | Casting.MouseDown, Casting.ChordArmsCast, Casting.MiddleDragCasts |
| browser/mocks/syncbase-wrapper.js:110-117 | a put notifies the watchers of the nodes above the written key, then the root's watchers a second time, but never the watchers of the written node itself | a watch on key `["a"]`, then a put at `["a"]`: the watcher is not told | the watchers of every node on the written path see the change | not executed | WatchedReplica.SetAsWritten, WatchedReplica.SetMissesOwnWatchers, WatchedReplica.WatchMissesPutAtPrefix | WatchedReplica.Set, WatchedReplica.WatchSeesExistingAndLater |
| browser/mocks/syncbase-wrapper.js:314-346 | `lastOp` is never cleared at the end of a batch, so its change is delivered again with the next batch | two batches of one put each: the first put is delivered again at the start of the second batch | each change delivered exactly once | not executed | Watchers.EndBatchAsWritten, Watchers.StaleChangeRedelivered | Watchers.EndBatch, Watchers.ExactlyOnce, Watchers.TwoPutsDeliveredOnce |
| src/components/destination-marker.js:115-131 | the decorator refreshes clickability before the listener is added | the first click listener of a fresh marker | the marker is clickable exactly when someone listens to clicks | not executed | DestinationMarker.AddListenerAsWritten, DestinationMarker.FirstListenerLeavesUnclickable | DestinationMarker.AddListener, DestinationMarker.MarkerInvariants |
| src/travel.js:309-317 | the command table is a plain object, so inherited names find a handler without `op` and the call throws | the chat message "/constructor" | report "Unrecognized command constructor" | not executed | TravelCommands.RunCommandAsWritten, TravelCommands.InheritedNameThrows, TravelCommands.HandleUserMessageAsWritten, TravelCommands.ConstructorMessageThrows | TravelCommands.RunCommand, TravelCommands.RunCommandAgrees, TravelCommands.HandleUserMessage, TravelCommands.HandleUserMessageAgrees |

=== FILE: browser_identity.dfy ===
/** Identity of a browser client: the account name is matched against
    `(dev\.v\.io\/u\/([^\/]+)).*` (unanchored, so the leftmost match wins)
    to find the account blessing and the username. */
module BrowserIdentity {
  import opened Wrappers
  import opened Text

  const ACCOUNT_PREFIX: string := "dev.v.io/u/"
  const DEVICE_TYPE: string := "desktop"
  /** Account used when no account name is known: the blessing pattern that
      matches everything. */
  const ANY_ACCOUNT: string := "..."

  /** The regular expression matches at `p`: the prefix, then at least one
      character other than '/'. */
  predicate MatchesAt(s: string, p: nat) {
    OccursAt(s, ACCOUNT_PREFIX, p) && p + |ACCOUNT_PREFIX| < |s| && s[p + |ACCOUNT_PREFIX|] != '/'
  }

  /** Leftmost position at or after `from` where the regular expression
      matches. */
  function FindAccount(s: string, from: nat): (r: Option<nat>)
    ensures r.Some? ==> from <= r.value && MatchesAt(s, r.value)
    ensures r.Some? ==> forall j: nat :: from <= j < r.value ==> !MatchesAt(s, j)
    ensures r.None? ==> forall j: nat :: from <= j ==> !MatchesAt(s, j)
    decreases |s| - from
  {
    match IndexOf(s, ACCOUNT_PREFIX, from)
    case None => None
    case Some(p) =>
      if p + |ACCOUNT_PREFIX| < |s| && s[p + |ACCOUNT_PREFIX|] != '/' then Some(p)
      else
        assert forall j: nat :: from <= j <= p ==> !MatchesAt(s, j);
        FindAccount(s, p + 1)
  }

  /** Account blessing and username of a client. */
  datatype Account = Account(name: string, username: string)

  predicate NeedsAutoUsername(accountName: Option<string>) {
    accountName.None? || accountName.value == "" || accountName.value == "unknown"
  }

  /** `processAccountName`; `autoId` is the value `uuid.v4()` returns. */
  function ProcessAccountName(accountName: Option<string>, autoId: string): (a: Account)
    ensures NeedsAutoUsername(accountName) ==> a == Account(ANY_ACCOUNT, autoId)
    ensures !NeedsAutoUsername(accountName) && (forall p: nat :: !MatchesAt(accountName.value, p)) ==>
      a == Account(accountName.value, accountName.value)
    ensures !NeedsAutoUsername(accountName) && (exists p: nat :: MatchesAt(accountName.value, p)) ==>
      a.name == ACCOUNT_PREFIX + a.username && |a.username| > 0 && '/' !in a.username
      && (exists p: nat ::
            MatchesAt(accountName.value, p)
            && (forall j: nat :: j < p ==> !MatchesAt(accountName.value, j))
            && a.name <= accountName.value[p..]
            && (p + |a.name| == |accountName.value| || accountName.value[p + |a.name|] == '/'))
  {
    if NeedsAutoUsername(accountName) then Account(ANY_ACCOUNT, autoId)
    else
      var s := accountName.value;
      match FindAccount(s, 0)
      case None => Account(s, s)
      case Some(p) =>
        var user := TakeUntil(s[p + |ACCOUNT_PREFIX|..], '/');
        AccountSpan(s, p, user);
        Account(ACCOUNT_PREFIX + user, user)
  }

  lemma AccountSpan(s: string, p: nat, user: string)
    requires MatchesAt(s, p)
    requires user == TakeUntil(s[p + |ACCOUNT_PREFIX|..], '/')
    ensures |user| > 0
    ensures ACCOUNT_PREFIX + user <= s[p..]
    ensures p + |ACCOUNT_PREFIX| + |user| == |s| || s[p + |ACCOUNT_PREFIX| + |user|] == '/'
  {
    var n := |ACCOUNT_PREFIX|;
    var t := s[p + n..];
    assert t[0] == s[p + n];
    assert s[p..p + n] == ACCOUNT_PREFIX;
    assert s[p..][..n + |user|] == ACCOUNT_PREFIX + user by {
      assert s[p..][..n] == s[p..p + n];
      assert s[p..][n..n + |user|] == t[..|user|];
    }
    if p + n + |user| < |s| {
      assert t[|user|] == s[p + n + |user|];
    }
  }

  /** `Identity.blessingForUsername`. */
  function BlessingForUsername(username: string): (b: string)
    ensures |b| == |ACCOUNT_PREFIX| + |username|
    ensures b[..|ACCOUNT_PREFIX|] == ACCOUNT_PREFIX && b[|ACCOUNT_PREFIX|..] == username
  {
    ACCOUNT_PREFIX + username
  }

  /** The blessing built for a username parses back to that username, and to
      itself as the account name. */
  lemma BlessingRoundTrip(username: string, autoId: string)
    requires |username| > 0 && '/' !in username
    ensures ProcessAccountName(Some(BlessingForUsername(username)), autoId)
      == Account(BlessingForUsername(username), username)
  {
    assert ACCOUNT_PREFIX + username + "" == BlessingForUsername(username);
    AccountWithSuffix(username, "", autoId);
  }

  /** A name in which the prefix is followed by a slash-free user and then the
      end or a '/' gives that user, wherever the name starts. */
  lemma AccountWithSuffix(user: string, rest: string, autoId: string)
    requires |user| > 0 && '/' !in user
    requires |rest| == 0 || rest[0] == '/'
    ensures ProcessAccountName(Some(ACCOUNT_PREFIX + user + rest), autoId) == Account(ACCOUNT_PREFIX + user, user)
  {
    var s := ACCOUNT_PREFIX + user + rest;
    var n := |ACCOUNT_PREFIX|;
    assert s[0] == 'd';
    assert OccursAt(s, ACCOUNT_PREFIX, 0) by {
      assert s[0..n] == ACCOUNT_PREFIX;
    }
    assert s[n] == user[0];
    assert MatchesAt(s, 0);
    assert s[n..] == user + rest;
    TakeUntilPrefix(user, '/', rest);
  }

  /** A client identity. */
  datatype Id = Id(account: string, username: string, deviceType: string, deviceId: string,
                   deviceName: string, entityName: string)

  /** `new Identity(accountName)`, with `autoId` and `deviceId` the values
      `uuid.v4()` returns, in call order. */
  function NewIdentity(accountName: Option<string>, autoId: string, deviceId: string): (id: Id)
    ensures id.account == ProcessAccountName(accountName, autoId).name
    ensures id.username == ProcessAccountName(accountName, autoId).username
    ensures id.deviceName == DEVICE_TYPE + "_" + deviceId
    ensures id.entityName == id.username + "/" + id.deviceName
  {
    var a := ProcessAccountName(accountName, autoId);
    var deviceName := DEVICE_TYPE + "_" + deviceId;
    Id(a.name, a.username, DEVICE_TYPE, deviceId, deviceName, a.username + "/" + deviceName)
  }
}

=== FILE: browser_invitations.dfy ===
/** Invitations of the browser client: keys and syncgroup names of shared
    trips, the fallback that creates a trip syncgroup on first invite, and the
    two-phase bookkeeping that turns each sync update into invite and dismiss
    events. `SyncbaseWrapper.escapeKeyElement`/`unescapeKeyElement` are
    oracles passed in as `esc`/`unesc`. */
module BrowserInvitations {
  import opened Wrappers
  import opened VErrors

  /** `invitationKey(recipient, owner, tripId)`. */
  function InvitationKey(esc: string -> string, recipient: string, owner: string, tripId: string): (k: seq<string>)
    ensures |k| == 4 && k[0] == "invitations" && k[1] == esc(recipient) && k[2] == esc(owner) && k[3] == tripId
  {
    ["invitations", esc(recipient), esc(owner), tripId]
  }

  const TRIP_SG_PREFIX: string := "trip-"

  /** `tripSgName(tripId)`. */
  function TripSgName(tripId: string): (n: string)
    ensures |n| == |TRIP_SG_PREFIX| + |tripId| && n[..|TRIP_SG_PREFIX|] == TRIP_SG_PREFIX
  {
    TRIP_SG_PREFIX + tripId
  }

  /** Distinct trips get distinct syncgroups. */
  lemma TripSgNameInjective(a: string, b: string)
    requires TripSgName(a) == TripSgName(b)
    ensures a == b
  {
    assert a == TripSgName(a)[|TRIP_SG_PREFIX|..];
    assert b == TripSgName(b)[|TRIP_SG_PREFIX|..];
  }

  /** Outcome of `addTripCollaborator`: whether the trip syncgroup was created,
      and the error the returned promise rejects with, if any. */
  datatype Collab = Collab(created: bool, error: Option<VError>)

  /** `addTripCollaborator(owner, tripId, collaborator)`: `addErr` is how adding
      to the existing syncgroup fails, `createErr` how creating it fails. */
  function AddTripCollaborator(owner: string, me: string, addErr: Option<VError>, createErr: Option<VError>): (c: Collab)
    ensures c.created <==> addErr == Some(NoExistError) && owner == me
    ensures c.created ==> c.error == createErr
    ensures !c.created ==> c.error == addErr
  {
    match addErr
    case None => Collab(false, None)
    case Some(e) =>
      if e == NoExistError && owner == me then Collab(true, createErr)
      else Collab(false, Some(e))
  }

  /** A key write of the client: a put of a value, or a delete. */
  datatype Write = Put(key: seq<string>, value: string) | Delete(key: seq<string>)

  /** `invite(recipient, owner, tripId)`: once the recipient is a collaborator
      and their invitation syncgroup is joined, the invitation is written
      with the user as sender. */
  function Invite(esc: string -> string, recipient: string, owner: string, tripId: string, me: string,
                  collab: Collab, joinErr: Option<VError>): (w: Option<Write>)
    ensures w.Some? <==> collab.error.None? && joinErr.None?
    ensures w.Some? ==> w.value == Put(InvitationKey(esc, recipient, owner, tripId), me)
  {
    if collab.error.Some? || joinErr.Some? then None
    else Some(Put(InvitationKey(esc, recipient, owner, tripId), me))
  }

  /** `accept` joins the trip's syncgroup and then deletes the invitation;
      `decline` only deletes it. */
  function Respond(esc: string -> string, me: string, owner: string, tripId: string,
                   accept: bool, joinErr: Option<VError>): (w: Option<Write>)
    ensures w.Some? <==> !accept || joinErr.None?
    ensures w.Some? ==> w.value == Delete(InvitationKey(esc, me, owner, tripId))
  {
    if accept && joinErr.Some? then None else Some(Delete(InvitationKey(esc, me, owner, tripId)))
  }

  /** The trips the client sees: trip id -> owner (None when missing or
      falsy). */
  type Trips = map<string, Option<string>>

  /** A syncgroup join request of `manageTripSyncgroups`. */
  datatype Join = Join(owner: string, sgName: string)

  /** `manageTripSyncgroups(trips)`: every trip with an owner is joined; a
      join failure other than NoExist is reported. `join(owner, tripId)` is
      how that join fails, if it does. */
  function ManageTripSyncgroups(trips: Option<Trips>, join: (string, string) -> Option<VError>): (r: (set<Join>, set<VError>))
    ensures forall o, id :: id in trips.GetOr(map[]) && trips.value[id] == Some(o) && o != "" ==> Join(o, TripSgName(id)) in r.0
    ensures forall j :: j in r.0 ==> exists id :: id in trips.GetOr(map[]) && trips.value[id] == Some(j.owner) && j.owner != "" && j.sgName == TripSgName(id)
    ensures NoExistError !in r.1
    ensures forall e :: e in r.1 <==> exists id :: id in trips.GetOr(map[]) && trips.value[id].Some? && trips.value[id].value != "" &&
                                               join(trips.value[id].value, id) == Some(e) && e != NoExistError
  {
    var t := trips.GetOr(map[]);
    var owned := set id | id in t && t[id].Some? && t[id].value != "";
    (set id | id in owned :: Join(t[id].value, TripSgName(id)),
     set id | id in owned && join(t[id].value, id).Some? && join(t[id].value, id).value != NoExistError
       :: join(t[id].value, id).value)
  }

  /** An invitation to the user. */
  datatype Invitation = Invitation(owner: string, tripId: string, sender: string)

  /** Where an invitation record is filed: escaped owner and trip id. */
  datatype RecordKey = RecordKey(owner: string, tripId: string)

  datatype Record = Record(invite: Invitation, seen: bool)

  type Records = map<RecordKey, Record>

  /** Invitations to the user as synced: escaped owner -> trip id -> sender. */
  type ToMe = map<string, map<string, string>>

  /** Between updates no record is marked seen. */
  predicate Settled(records: Records) {
    forall k :: k in records ==> !records[k].seen
  }

  /** The invitations filed under the update's listing. */
  function ListedKeys(toMe: Option<ToMe>): (ks: set<RecordKey>)
    ensures forall k :: k in ks <==> toMe.Some? && k.owner in toMe.value && k.tripId in toMe.value[k.owner]
  {
    if toMe.None? then {} else set o, id | o in toMe.value && id in toMe.value[o] :: RecordKey(o, id)
  }

  /** The invitation a listed key announces: unescaped owner, trip id and
      the synced sender. */
  function Announced(toMe: Option<ToMe>, unesc: string -> string, k: RecordKey): Invitation
    requires k in ListedKeys(toMe)
  {
    Invitation(unesc(k.owner), k.tripId, toMe.value[k.owner][k.tripId])
  }

  /** First phase: known records are marked seen, unknown ones are created
      seen and returned as invites. */
  function MarkSeen(records: Records, toMe: Option<ToMe>, unesc: string -> string): (r: (Records, set<Invitation>))
    ensures r.0.Keys == records.Keys + ListedKeys(toMe)
    ensures forall k :: k in ListedKeys(toMe) ==> r.0[k].seen
    ensures forall k :: k in records ==> r.0[k].invite == records[k].invite
    ensures forall k :: k in records && k !in ListedKeys(toMe) ==> r.0[k] == records[k]
    ensures forall k :: k in ListedKeys(toMe) && k !in records ==> r.0[k] == Record(Announced(toMe, unesc, k), true)
    ensures forall i :: i in r.1 <==> exists k :: k in ListedKeys(toMe) && k !in records && Announced(toMe, unesc, k) == i
  {
    var listed := ListedKeys(toMe);
    var updated := map k | k in records.Keys + listed ::
      if k in records then Record(records[k].invite, records[k].seen || k in listed)
      else Record(Announced(toMe, unesc, k), true);
    var invited := set k | k in listed && k !in records :: updated[k].invite;
    (updated, invited)
  }

  /** Second phase: unseen records are dropped and dismissed, seen flags are
      cleared. */
  function Sweep(records: Records): (r: (Records, set<Invitation>))
    ensures Settled(r.0)
    ensures r.0.Keys == set k | k in records && records[k].seen
    ensures forall k :: k in r.0 ==> r.0[k].invite == records[k].invite
    ensures forall i :: i in r.1 <==> exists k :: k in records && !records[k].seen && records[k].invite == i
  {
    (map k | k in records && records[k].seen :: Record(records[k].invite, false),
     set k | k in records && !records[k].seen :: records[k].invite)
  }

  /** `processUpdates`: both phases. */
  function ProcessUpdates(records: Records, toMe: Option<ToMe>, unesc: string -> string): (r: (Records, set<Invitation>, set<Invitation>))
    ensures Settled(r.0)
    ensures r.0.Keys == ListedKeys(toMe) + set k | k in records && records[k].seen
  {
    var (marked, invited) := MarkSeen(records, toMe, unesc);
    var (swept, dismissed) := Sweep(marked);
    (swept, invited, dismissed)
  }

  /** After an update from a settled state, the records are exactly the
      listed invitations, settled again; a listed invitation seen before keeps
      its record and a new one gets the announced invitation; the invites are
      exactly the announcements of new keys, and the dismissals exactly the
      invitations of known keys no longer listed. */
  lemma ProcessUpdatesReconciles(records: Records, toMe: Option<ToMe>, unesc: string -> string)
    requires Settled(records)
    ensures var (after, invited, dismissed) := ProcessUpdates(records, toMe, unesc);
      Settled(after)
      && after.Keys == ListedKeys(toMe)
      && (forall k :: k in records && k in after ==> after[k].invite == records[k].invite)
      && (forall k :: k in after && k !in records ==> after[k].invite == Announced(toMe, unesc, k))
      && (forall i :: i in invited <==> exists k :: k in ListedKeys(toMe) && k !in records && Announced(toMe, unesc, k) == i)
      && (forall i :: i in dismissed <==> exists k :: k in records && k !in ListedKeys(toMe) && records[k].invite == i)
  {
    var (marked, invited) := MarkSeen(records, toMe, unesc);
    forall k | k in marked
      ensures marked[k].seen <==> k in ListedKeys(toMe)
    {
    }
    var (after, dismissed) := Sweep(marked);
    forall i
      ensures i in dismissed <==> exists k :: k in records && k !in ListedKeys(toMe) && records[k].invite == i
    {
      if i in dismissed {
        var k :| k in marked && !marked[k].seen && marked[k].invite == i;
        assert k in records && k !in ListedKeys(toMe);
      }
      if exists k :: k in records && k !in ListedKeys(toMe) && records[k].invite == i {
        var k :| k in records && k !in ListedKeys(toMe) && records[k].invite == i;
        assert k in marked && !marked[k].seen && marked[k].invite == i;
      }
    }
  }
}

=== FILE: casting.dfy ===
/** Casting a destination to a nearby device: the drag gesture's
    direction, the mouse-button bookkeeping that arms a cast, multimap union
    and difference over (owner, device) pairs, and the decision of where a
    cast goes. Multimaps are sequences of pairs in iteration order; the
    device lists come from the device sync layer as parameters. */
module Casting {
  import opened Wrappers
  import DeviceSync

  type Pair = (string, string)

  /** `getGestureDirection(v)` for a drag vector in page pixels: vertical
      when the vertical component dominates strictly, otherwise by the sign
      of the horizontal one, and undefined for no horizontal movement. */
  function GestureDirection(x: int, y: int): (r: Option<string>)
    ensures r == Some(DeviceSync.UP) <==> y < 0 && -y > Abs(x)
    ensures r == Some(DeviceSync.DOWN) <==> y > 0 && y > Abs(x)
    ensures r == Some(DeviceSync.LEFT) <==> !(Abs(y) > Abs(x)) && x < 0
    ensures r == Some(DeviceSync.RIGHT) <==> !(Abs(y) > Abs(x)) && x > 0
    ensures r.None? <==> x == 0 && y == 0
  {
    if y < 0 && -y > Abs(x) then Some(DeviceSync.UP)
    else if y > 0 && y > Abs(x) then Some(DeviceSync.DOWN)
    else if x < 0 then Some(DeviceSync.LEFT)
    else if x > 0 then Some(DeviceSync.RIGHT)
    else None
  }

  function Abs(x: int): nat {
    if x < 0 then -x else x
  }

  /** Dragging the opposite way gives the opposite direction. */
  lemma GestureOpposite(x: int, y: int)
    requires GestureDirection(x, y).Some?
    ensures GestureDirection(-x, -y).Some?
    ensures DeviceSync.NegateDirection(DeviceSync.Named(GestureDirection(x, y).value))
         == Wrappers.Success(DeviceSync.Named(GestureDirection(-x, -y).value))
  {
  }

  /** `union(a, b)`: every pair of `a` or `b`, once. The multimap visits
      its pairs grouped by key; the model lists them in sequence order, and
      no order is promised. */
  function Union(a: seq<Pair>, b: seq<Pair>): (r: seq<Pair>)
    ensures forall p :: p in r <==> p in a || p in b
    ensures NoDuplicates(r)
  {
    AddAll([], a + b)
  }

  function AddAll(acc: seq<Pair>, items: seq<Pair>): (r: seq<Pair>)
    ensures forall p :: p in r <==> p in acc || p in items
    ensures NoDuplicates(acc) ==> NoDuplicates(r)
    decreases |items|
  {
    if items == [] then acc
    else AddAll(if items[0] in acc then acc else acc + [items[0]], items[1..])
  }

  predicate NoDuplicates(s: seq<Pair>) {
    forall i, j :: 0 <= i < j < |s| ==> s[i] != s[j]
  }

  /** The union holds each pair of either operand exactly once. */
  lemma UnionExactlyOnce(a: seq<Pair>, b: seq<Pair>, p: Pair)
    ensures p in Union(a, b) <==> p in a || p in b
    ensures NoDuplicates(Union(a, b))
  {
  }

  /** `difference(u, c)`: the entries of `u` whose pair is not in `c`, in
      order. */
  function Difference(u: seq<Pair>, c: seq<Pair>): (r: seq<Pair>)
    ensures |r| <= |u|
    ensures forall k :: 0 <= k < |r| ==> r[k] in u && r[k] !in c
  {
    if u == [] then []
    else (if u[0] in c then [] else [u[0]]) + Difference(u[1..], c)
  }

  /** The difference keeps exactly the pairs of `u` outside `c`, each as
      often as in `u`. */
  lemma {:induction false} DifferenceExact(u: seq<Pair>, c: seq<Pair>, p: Pair)
    ensures p in Difference(u, c) <==> p in u && p !in c
    ensures multiset(Difference(u, c))[p] == if p in c then 0 else multiset(u)[p]
  {
    if u != [] {
      DifferenceExact(u[1..], c, p);
      assert u == [u[0]] + u[1..];
      assert Difference(u, c) == (if u[0] in c then [] else [u[0]]) + Difference(u[1..], c);
    }
  }

  /** The mouse buttons: bit `which - 1` of the mask. */
  const BN_NONE: bv32 := 0
  const BN_LEFT: bv32 := 1
  const BN_MIDDLE: bv32 := 2
  const BN_RIGHT: bv32 := 4

  /** `1 << (which - 1)` on 32-bit integers: the shift count is taken
      modulo 32. */
  function ButtonBit(which: int): bv32 {
    (1 as bv32) << ((which - 1) % 32)
  }

  function SetButton(buttons: bv32, which: int): (r: bv32)
    ensures r & ButtonBit(which) == ButtonBit(which)
  {
    buttons | ButtonBit(which)
  }

  function ClearButton(buttons: bv32, which: int): (r: bv32)
    ensures r & ButtonBit(which) == 0
  {
    buttons & !ButtonBit(which)
  }

  /** Pressing and releasing a button that was up leaves the mask as it
      was, and other buttons are never disturbed. */
  lemma PressRelease(buttons: bv32, which: int)
    requires buttons & ButtonBit(which) == 0
    ensures ClearButton(SetButton(buttons, which), which) == buttons
    ensures ClearButton(buttons, which) == buttons
  {
  }

  /** The left, middle and right buttons (`which` 1, 2, 3) are the bits of
      the named masks. */
  lemma ButtonBits()
    ensures ButtonBit(1) == BN_LEFT && ButtonBit(2) == BN_MIDDLE && ButtonBit(3) == BN_RIGHT
  {
  }

  /** The cast handler of one castable element: the pressed buttons and the
      drag origin, once armed. */
  datatype Handler = Handler(buttons: bv32, origin: Option<(int, int)>)

  const IDLE: Handler := Handler(BN_NONE, None)

  /** The mousedown test as the code writes it: `===` binds tighter than
      `|`, so the test is `(buttons === BN_LEFT) | BN_RIGHT`, which is
      never 0. */
  function MouseDownArmsAsWritten(buttons: bv32): bv32 {
    (if buttons == BN_LEFT then 1 else 0) | BN_RIGHT
  }

  /** The mousedown handler as written. */
  function MouseDownAsWritten(h: Handler, which: int, x: int, y: int): (r: Handler)
    ensures r.buttons == SetButton(h.buttons, which)
  {
    var buttons := SetButton(h.buttons, which);
    if MouseDownArmsAsWritten(buttons) != 0 || buttons == BN_MIDDLE then Handler(buttons, Some((x, y)))
    else Handler(buttons, h.origin)
  }

  /** As written, every mousedown arms a cast, whatever the buttons. */
  lemma MouseDownAlwaysArms(h: Handler, which: int, x: int, y: int)
    ensures MouseDownAsWritten(h, which, x, y).origin == Some((x, y))
  {
  }

  /** A plain left click arms a cast as written, although it is neither the
      two-button chord nor the middle button. */
  lemma LeftClickArmsCast()
    ensures MouseDownAsWritten(IDLE, 1, 10, 20).origin == Some((10, 20))
    ensures !MouseDownArms(SetButton(BN_NONE, 1))
  {
    ButtonBits();
  }

  /** The evidently intended test: left and right held together, or the
      middle button alone. */
  predicate MouseDownArms(buttons: bv32) {
    buttons == BN_LEFT | BN_RIGHT || buttons == BN_MIDDLE
  }

  /** The corrected mousedown handler. */
  function MouseDown(h: Handler, which: int, x: int, y: int): (r: Handler)
    ensures r.buttons == SetButton(h.buttons, which)
    ensures MouseDownArms(r.buttons) ==> r.origin == Some((x, y))
    ensures !MouseDownArms(r.buttons) ==> r.origin == h.origin
  {
    var buttons := SetButton(h.buttons, which);
    if MouseDownArms(buttons) then Handler(buttons, Some((x, y))) else Handler(buttons, h.origin)
  }

  /** With the corrected test, from no buttons, only the left-right chord
      or the middle button arms a cast: a single left or right press does
      not, and pressing the other one then does. */
  lemma ChordArmsCast(x: int, y: int)
    ensures MouseDown(IDLE, 1, x, y).origin.None?
    ensures MouseDown(IDLE, 3, x, y).origin.None?
    ensures MouseDown(MouseDown(IDLE, 1, x, y), 3, x, y).origin == Some((x, y))
    ensures MouseDown(IDLE, 2, x, y).origin == Some((x, y))
  {
    ButtonBits();
  }

  /** `processMouseUpdate(e)`: once no button is held and a cast is armed,
      the drag vector is interpreted and the handler disarmed. */
  function MouseUpdate(h: Handler, x: int, y: int): (r: (Handler, Option<(int, int)>))
    ensures r.1.Some? <==> h.buttons == BN_NONE && h.origin.Some?
    ensures r.1.Some? ==> r.1.value == (x - h.origin.value.0, y - h.origin.value.1) && r.0 == Handler(h.buttons, None)
    ensures r.1.None? ==> r.0 == h
  {
    if h.buttons == BN_NONE && h.origin.Some? then (Handler(h.buttons, None), Some((x - h.origin.value.0, y - h.origin.value.1)))
    else (h, None)
  }

  /** `mouseup`: the button is released, then the update runs. */
  function MouseUp(h: Handler, which: int, x: int, y: int): (r: (Handler, Option<(int, int)>))
    ensures r.0.buttons == ClearButton(h.buttons, which)
    ensures r.1.Some? <==> ClearButton(h.buttons, which) == BN_NONE && h.origin.Some?
    ensures r.1.Some? ==> r.1.value == (x - h.origin.value.0, y - h.origin.value.1) && r.0.origin.None?
    ensures r.1.None? ==> r.0.origin == h.origin
  {
    MouseUpdate(h.(buttons := ClearButton(h.buttons, which)), x, y)
  }

  /** `mousemove` with no button reported: the mask is reset, then the
      update runs. */
  function MouseMove(h: Handler, which: int, x: int, y: int): (r: (Handler, Option<(int, int)>))
    ensures which != 0 ==> r == (h, None)
    ensures which == 0 ==> r.0.buttons == BN_NONE && (r.1.Some? <==> h.origin.Some?)
    ensures which == 0 && r.1.Some? ==> r.1.value == (x - h.origin.value.0, y - h.origin.value.1) && r.0.origin.None?
  {
    if which == 0 then MouseUpdate(h.(buttons := BN_NONE), x, y) else (h, None)
  }

  /** A middle-button drag from (x0, y0) released at (x1, y1) produces the
      vector between them, once. */
  lemma MiddleDragCasts(x0: int, y0: int, x1: int, y1: int)
    ensures MouseUp(MouseDown(IDLE, 2, x0, y0), 2, x1, y1).1 == Some((x1 - x0, y1 - y0))
    ensures MouseUp(MouseDown(IDLE, 2, x0, y0), 2, x1, y1).0 == IDLE
  {
    ButtonBits();
  }

  /** `getRelatedDevices(direction)`: up also takes forwards, down also
      takes backwards; `related` is the device layer's lookup. */
  function RelatedFor(related: string -> seq<Pair>, direction: string): (r: seq<Pair>)
    ensures direction == DeviceSync.UP ==> r == Union(related(DeviceSync.UP), related(DeviceSync.FORWARDS))
    ensures direction == DeviceSync.DOWN ==> r == Union(related(DeviceSync.DOWN), related(DeviceSync.BACKWARDS))
    ensures direction != DeviceSync.UP && direction != DeviceSync.DOWN ==> r == related(direction)
  {
    if direction == DeviceSync.UP then Union(related(DeviceSync.UP), related(DeviceSync.FORWARDS))
    else if direction == DeviceSync.DOWN then Union(related(DeviceSync.DOWN), related(DeviceSync.BACKWARDS))
    else related(direction)
  }

  /** What a cast gesture leads to. */
  datatype Decision =
    | NoGesture
    | Cast(target: Pair)
    | CastAndRelate(target: Pair, position: DeviceSync.RelativePosition)
    | Ambiguous(related: seq<Pair>, unknown: seq<Pair>, other: seq<Pair>)
    | NoNearbyDevices

  /** `interpretCastVector(v)`: a single related device gets the cast; with
      none related and a single unconnected device, that one gets it and is
      related as near in the gesture's direction; otherwise the user is
      asked, unless there is no candidate at all. */
  function InterpretCastVector(x: int, y: int, related: string -> seq<Pair>, unknown: seq<Pair>, all: seq<Pair>): (d: Decision)
    ensures d.NoGesture? <==> GestureDirection(x, y).None?
    ensures d.NoGesture? <==> x == 0 && y == 0
  {
    match GestureDirection(x, y)
    case None => NoGesture
    case Some(direction) =>
      var rel := RelatedFor(related, direction);
      if |rel| == 1 then Cast(rel[0])
      else if |rel| == 0 && |unknown| == 1 then
        CastAndRelate(unknown[0], DeviceSync.RelativePosition(DeviceSync.Named(direction), DeviceSync.NEAR))
      else
        var other := Difference(all, rel);
        if |rel| > 0 || |unknown| > 0 || |other| > 0 then Ambiguous(rel, unknown, other)
        else NoNearbyDevices
  }

  /** The decision table: a cast goes to a device only when it is the one
      candidate of its kind; ambiguity names every candidate, and "no
      nearby devices" means there was none. */
  lemma CastDecision(x: int, y: int, related: string -> seq<Pair>, unknown: seq<Pair>, all: seq<Pair>)
    requires GestureDirection(x, y).Some?
    ensures var rel := RelatedFor(related, GestureDirection(x, y).value);
      var d := InterpretCastVector(x, y, related, unknown, all);
      (d.Cast? <==> |rel| == 1) &&
      (d.Cast? ==> d.target in rel) &&
      (d.CastAndRelate? <==> |rel| == 0 && |unknown| == 1) &&
      (d.CastAndRelate? ==> d.target in unknown && d.position.direction == DeviceSync.Named(GestureDirection(x, y).value)) &&
      (d.NoNearbyDevices? <==> rel == [] && unknown == [] && (forall p :: p in all ==> p in rel)) &&
      (d.Ambiguous? ==> forall p :: p in all ==> p in d.related || p in d.other)
  {
    var rel := RelatedFor(related, GestureDirection(x, y).value);
    forall p | true
      ensures p in Difference(all, rel) <==> p in all && p !in rel
    {
      DifferenceExact(all, rel, p);
    }
  }
}

=== FILE: describe_destination.dfy ===
/** How the browser client describes a destination by its place in the
    route: the first is the origin, the last is the final destination (just
    "Destination" when it is the second of two), the others are numbered.
    The English strings of the client are used. */
module DescribeDestination {
  import opened Text

  /** What the description reads of a destination. */
  datatype View = View(hasPrevious: bool, hasNext: bool, index: int)

  datatype Class = Origin | Intermediate | Terminal | TerminalDirect

  datatype Icon = OriginIcon | DestinationIcon

  /** A call on the marker. */
  datatype MarkerCall = SetIcon(icon: Icon) | SetLabel(number: int) | SetDestinationLabel(text: string)

  const ORIGIN_TEXT := "Origin"
  const FINAL_TEXT := "Final destination"
  const DESTINATION_TEXT := "Destination"

  /** `strings.destination(n)`. */
  function Numbered(n: int): string {
    "Destination " + IntToString(n)
  }

  /** `classify(destination)`. */
  function Classify(v: View): (c: Class)
    ensures c == Origin <==> !v.hasPrevious
    ensures c == Intermediate <==> v.hasPrevious && v.hasNext
    ensures c == TerminalDirect <==> v.hasPrevious && !v.hasNext && v.index == 1
  {
    if !v.hasPrevious then Origin
    else if !v.hasNext then (if v.index == 1 then TerminalDirect else Terminal)
    else Intermediate
  }

  /** `description(destination)`. */
  function Description(v: View): (s: string)
    ensures !v.hasPrevious ==> s == ORIGIN_TEXT
    ensures v.hasPrevious && v.hasNext ==> s == Numbered(v.index)
    ensures v.hasPrevious && !v.hasNext ==> s == (if v.index == 1 then DESTINATION_TEXT else FINAL_TEXT)
  {
    match Classify(v)
    case Origin => ORIGIN_TEXT
    case Intermediate => Numbered(v.index)
    case Terminal => FINAL_TEXT
    case TerminalDirect => DESTINATION_TEXT
  }

  /** `descriptionOpenEnded(destination)`: a last destination beyond the
      second is numbered rather than called final. */
  function DescriptionOpenEnded(v: View): (s: string)
    ensures Classify(v) != Terminal ==> s == Description(v)
    ensures Classify(v) == Terminal ==> s == Numbered(v.index)
  {
    match Classify(v)
    case Origin => ORIGIN_TEXT
    case Intermediate => Numbered(v.index)
    case Terminal => Numbered(v.index)
    case TerminalDirect => DESTINATION_TEXT
  }

  /** `decorateMarker(marker, destination)`: the origin icon, the index as
      label, or the destination icon, then always the description. */
  function DecorateMarker(v: View): (calls: seq<MarkerCall>)
    ensures |calls| == 2 && calls[1] == SetDestinationLabel(Description(v))
    ensures calls[0] == SetIcon(OriginIcon) <==> !v.hasPrevious
    ensures calls[0].SetLabel? <==> v.hasPrevious && v.hasNext
    ensures calls[0].SetLabel? ==> calls[0].number == v.index
  {
    var first := match Classify(v)
      case Origin => SetIcon(OriginIcon)
      case Intermediate => SetLabel(v.index)
      case Terminal => SetIcon(DestinationIcon)
      case TerminalDirect => SetIcon(DestinationIcon);
    [first, SetDestinationLabel(Description(v))]
  }

  /** The view of the destination at position `k` of a route of `n`. */
  function ViewAt(n: nat, k: nat): View
    requires k < n
  {
    View(k > 0, k < n - 1, k)
  }

  /** Along a route the classes fall by position: the first is the origin,
      the last is terminal (direct exactly in a route of two), and every
      other is intermediate; so a route has one origin and one end. */
  lemma ClassByPosition(n: nat, k: nat)
    requires k < n
    ensures Classify(ViewAt(n, k)) == Origin <==> k == 0
    ensures Classify(ViewAt(n, k)) == TerminalDirect <==> n == 2 && k == 1
    ensures Classify(ViewAt(n, k)) == Terminal <==> n > 2 && k == n - 1
    ensures Classify(ViewAt(n, k)) == Intermediate <==> 0 < k < n - 1
  {
  }

  /** The numbered descriptions name the index: different stops in the
      middle of a route read differently. */
  lemma NumberedNamesIndex(v: View)
    requires v.hasPrevious && v.hasNext && v.index >= 0
    ensures var s := Description(v);
      |s| > 12 && s[..12] == "Destination " &&
      (forall k :: 12 <= k < |s| ==> IsDigit(s[k])) &&
      DigitsValue(s[12..]) == v.index
  {
    var s := Description(v);
    assert s[12..] == NatToString(v.index);
    NatToStringRoundTrip(v.index);
  }

  /** A numbered text is longer than any fixed one and starts like none
      but "Destination". */
  lemma NumberedShape(n: nat)
    ensures |Numbered(n)| >= 13 && Numbered(n)[0] == 'D' && Numbered(n)[..11] == DESTINATION_TEXT
  {
    assert Numbered(n) == "Destination " + NatToString(n);
  }

  /** No description is read as another class: the fixed texts differ from
      each other and from every numbered one. */
  lemma DescriptionsDistinguishClasses(v: View, u: View)
    requires Classify(v) != Classify(u)
    requires Classify(v) == Intermediate ==> v.index >= 0
    requires Classify(u) == Intermediate ==> u.index >= 0
    ensures Description(v) != Description(u)
  {
    if Classify(v) == Intermediate {
      NumberedShape(v.index);
    }
    if Classify(u) == Intermediate {
      NumberedShape(u.index);
    }
  }
}

=== FILE: destination_info.dfy ===
/** The desktop client's info box formats a place's address into lines the
    same way the browser's place does, leaving out a first line that repeats
    the place name. */
module DestinationInfo {
  import opened Wrappers
  import opened Text
  import opened Place

  /** `formatAddress(details)`: no lines without details or without a
      (non-empty) address; otherwise the grouped lines of the address with a
      first line equal to the details' name left out. */
  function FormatAddress(details: Option<Details>): (lines: seq<string>)
    ensures details.None? || !Truthy(details.value.address) ==> lines == []
    ensures details.Some? && Truthy(details.value.address) ==>
      var parts := Split(details.value.address.value, SEP);
      var (a, b) := Kept(|parts|, details.value.name == Some(parts[0]));
      var g := Group(parts, details.value.name);
      Join(g, SEP) == Join(parts[a..b], SEP) &&
      lines == (if details.value.name == Some(g[0]) then g[1..] else g)
  {
    match details
    case None => []
    case Some(d) =>
      if Truthy(d.address) then
        GroupCovers(Split(d.address.value, SEP), d.name);
        AddressLines(d.address, d.name)
      else []
  }

  /** The info box shows exactly the lines the place itself would give with
      its own name left out. */
  lemma InfoMatchesPlace(p: Place)
    ensures FormatAddress(p.details) == GetMultiLine(p, DefaultName)
  {
  }

  /** A three-part address whose first part is the place's name shows only
      the last two parts, on one line. */
  lemma NamedThreePartAddress(d: Details, name: string, rest1: string, rest2: string)
    requires d.name == Some(name) && name != ""
    requires IndexOf(name, SEP, 0).None? && IndexOf(rest1, SEP, 0).None? && IndexOf(rest2, SEP, 0).None?
    requires d.address == Some(name + SEP + rest1 + SEP + rest2)
    requires rest1 + SEP + rest2 != name
    ensures FormatAddress(Some(d)) == [rest1 + SEP + rest2]
  {
    SplitThree(name, rest1, rest2);
  }

  /** Splitting three separator-free pieces joined by the separator gives
      them back. */
  lemma SplitThree(x: string, y: string, z: string)
    requires IndexOf(x, SEP, 0).None? && IndexOf(y, SEP, 0).None? && IndexOf(z, SEP, 0).None?
    ensures Split(x + SEP + y + SEP + z, SEP) == [x, y, z]
  {
    SplitFirst(x, y + SEP + z);
    SplitFirst(y, z);
    assert Split(z, SEP) == [z];
    assert x + SEP + y + SEP + z == x + SEP + (y + SEP + z);
  }

  /** A separator-free piece followed by the separator splits off first. */
  lemma SplitFirst(x: string, rest: string)
    requires IndexOf(x, SEP, 0).None?
    ensures Split(x + SEP + rest, SEP) == [x] + Split(rest, SEP)
  {
    var s := x + SEP + rest;
    assert OccursAt(s, SEP, |x|) by {
      assert s[|x|..|x| + 2] == SEP;
    }
    forall j: nat | j < |x|
      ensures !OccursAt(s, SEP, j)
    {
      if j + 2 <= |x| {
        assert !OccursAt(x, SEP, j);
        assert x[j..j + 2] == s[j..j + 2];
      } else {
        assert s[j + 1] == ',' && SEP[1] == ' ';
        assert j + 2 <= |s| ==> s[j..j + 2][1] == s[j + 1];
      }
    }
    assert IndexOf(s, SEP, 0) == Some(|x|);
    assert s[..|x|] == x;
    assert s[|x| + |SEP|..] == rest;
  }
}

=== FILE: destination_list.dfy ===
/** The browser client's ordered list of destinations. Inserting or
    removing a destination tells every destination whose ordinal changed (its
    index, or whether it is the last one) its new index, then announces the
    added or removed destination. A destination is represented by an
    identity; the destination object built on insertion is not part of this
    model beyond that identity. */
module DestinationList {
  import opened Wrappers
  import opened JsArrays

  datatype Event =
    | OrdinalChange(dest: nat, index: int)
    | Added(dest: nat)
    | Removed(dest: nat)

  /** `ordinalChange(i)` for every position from `from` to the end. */
  function Renumber(s: seq<nat>, from: int): (es: seq<Event>)
    ensures forall e :: e in es ==> e.OrdinalChange? && 0 <= e.index < |s| && e.index >= from && e.dest == s[e.index]
    ensures forall j :: 0 <= j < |s| && j >= from ==> OrdinalChange(s[j], j) in es
  {
    var lo := if from < 0 then 0 else from;
    if lo >= |s| then []
    else
      var es := seq(|s| - lo, k requires 0 <= k < |s| - lo => OrdinalChange(s[lo + k], lo + k));
      assert forall j :: 0 <= j < |s| && j >= lo ==> es[j - lo] == OrdinalChange(s[j], j);
      es
  }

  /** `add(index)`: the new destination goes in at `index` (default: at the
      end, with the usual clamping of `splice`); the old last destination
      hears that it is no longer last when the new one is appended, and every
      destination after the insertion point hears its new index. The
      renumbering starts at `index + 1` as given, not as clamped: an index
      below -1 makes its first step read before the start of the list and
      throw, after the insertion and before anyone is told. The result holds
      the list, the notifications and whether it threw. */
  function Add(list: seq<nat>, index: Option<int>, d: nat): (r: (seq<nat>, seq<Event>, bool))
    ensures |r.0| == |list| + 1
    ensures r.0[SpliceStart(index.GetOr(|list|), |list|)] == d
    ensures r.2 <==> index.GetOr(|list|) < -1
    ensures r.2 ==> r.1 == []
    ensures !r.2 ==> |r.1| > 0 && r.1[|r.1| - 1] == Added(d)
  {
    var i := index.GetOr(|list|);
    var after := InsertAt(list, i, d);
    if i < -1 then (after, [], true) else (after, AddNotes(after, i, d), false)
  }

  /** The notifications of an insertion at `i` that leaves `after`. */
  function AddNotes(after: seq<nat>, i: int, d: nat): seq<Event>
    requires |after| > 0
  {
    var lastChanged := if i == |after| - 1 && i > 0 then [OrdinalChange(after[i - 1], i - 1)] else [];
    lastChanged + Renumber(after, i + 1) + [Added(d)]
  }

  /** The answer of `get(index)`: the whole list, or one entry or undefined. */
  datatype Lookup = All(dests: seq<nat>) | One(dest: Option<nat>)

  /** `get(index)`: no index gives a copy of the list; a negative index
      counts from the end; anything out of range gives undefined. */
  function Get(list: seq<nat>, index: Option<int>): (r: Lookup)
    ensures index.None? ==> r == All(list)
    ensures index.Some? ==> r.One? && (r.dest.Some? <==> -|list| <= index.value < |list|)
    ensures index.Some? && 0 <= index.value < |list| ==> r.dest == Some(list[index.value])
    ensures index.Some? && -|list| <= index.value < 0 ==> r.dest == Some(list[|list| + index.value])
  {
    match index
    case None => All(list)
    case Some(i) => One(FromEither(list, i))
  }

  /** `count()`. */
  function Count(list: seq<nat>): (n: nat)
    ensures n == |list|
    ensures n == 0 <==> Get(list, Some(0)) == One(None)
  {
    |list|
  }

  /** What `remove(i)` leaves behind: the list, the notifications, the
      removed destination (if any) and whether it threw. */
  datatype Removal = Removal(list: seq<nat>, events: seq<Event>, removed: Option<nat>, thrown: bool)

  /** `remove(i)`: anything but a number is ignored; a negative index counts
      from the end once. An index still negative after that makes `splice`
      remove an element, after which the renumbering loop reads before the
      start of the list and throws. Otherwise the destination at the index
      is removed, the new last one hears it is last, every destination after
      the gap hears its new index, and the removal is announced. */
  function Remove(list: seq<nat>, index: Option<int>): (r: Removal)
    ensures index.None? ==> r == Removal(list, [], None, false)
    ensures index.Some? && -|list| <= index.value < |list| ==> !r.thrown && |r.list| == |list| - 1
    ensures r.removed.Some? && !r.thrown ==> |r.events| > 0 && r.events[|r.events| - 1] == Removed(r.removed.value)
    ensures r.removed.None? ==> r.list == list && r.events == []
  {
    match index
    case None => Removal(list, [], None, false)
    case Some(i0) =>
      var i := if i0 < 0 then i0 + |list| else i0;
      var (after, removed) := RemoveAt(list, i);
      if removed.None? then Removal(list, [], None, false)
      else if i < 0 then Removal(after, [], removed, true)
      else
        var lastChanged := if i == |after| && i > 0 then [OrdinalChange(after[i - 1], i - 1)] else [];
        Removal(after, lastChanged + Renumber(after, i) + [Removed(removed.value)], removed, false)
  }

  /** The ordinal of position `k` in a list of `n`: its index and whether it
      is the last one. */
  function Ordinal(n: nat, k: nat): (int, bool) {
    (k, k == n - 1)
  }

  /** The notifications of an insertion at a valid index: every position
      after it, and the old last position when appending, and nothing else. */
  lemma AddEvents(list: seq<nat>, i: nat, d: nat)
    requires i <= |list|
    ensures var r := Add(list, Some(i), d);
      (forall j :: i < j < |r.0| ==> OrdinalChange(r.0[j], j) in r.1) &&
      (i == |list| && i > 0 ==> OrdinalChange(r.0[i - 1], i - 1) in r.1) &&
      (forall e :: e in r.1 && e.OrdinalChange? ==>
        0 <= e.index < |r.0| && e.dest == r.0[e.index] &&
        (i < e.index || (i == |list| && e.index == i - 1)))
  {
    AddEventsComplete(list, i, d);
    AddEventsSound(list, i, d);
  }

  lemma AddEventsComplete(list: seq<nat>, i: nat, d: nat)
    requires i <= |list|
    ensures var r := Add(list, Some(i), d);
      (forall j :: i < j < |r.0| ==> OrdinalChange(r.0[j], j) in r.1) &&
      (i == |list| && i > 0 ==> OrdinalChange(r.0[i - 1], i - 1) in r.1) &&
      (forall k :: i <= k < |list| ==> OrdinalChange(list[k], k + 1) in r.1)
  {
    var after := InsertAt(list, i, d);
    var lastChanged := if i == |list| && i > 0 then [OrdinalChange(after[i - 1], i - 1)] else [];
    var renumbered := Renumber(after, i + 1);
    var es := lastChanged + renumbered + [Added(d)];
    assert Add(list, Some(i), d) == (after, es, false);
    forall j | i < j < |after|
      ensures OrdinalChange(after[j], j) in es
    {
      assert OrdinalChange(after[j], j) in renumbered;
    }
    forall k | i <= k < |list|
      ensures OrdinalChange(list[k], k + 1) in es
    {
      assert after[i + 1..][k - i] == list[i..][k - i];
      assert OrdinalChange(after[k + 1], k + 1) in renumbered;
    }
    if i == |list| && i > 0 {
      assert es[0] == OrdinalChange(after[i - 1], i - 1);
    }
  }

  lemma AddEventsSound(list: seq<nat>, i: nat, d: nat)
    requires i <= |list|
    ensures var r := Add(list, Some(i), d);
      forall e :: e in r.1 && e.OrdinalChange? ==>
        0 <= e.index < |r.0| && e.dest == r.0[e.index] &&
        (i < e.index || (i == |list| && e.index == i - 1))
  {
    var after := InsertAt(list, i, d);
    var lastChanged := if i == |list| && i > 0 then [OrdinalChange(after[i - 1], i - 1)] else [];
    var renumbered := Renumber(after, i + 1);
    var es := lastChanged + renumbered + [Added(d)];
    assert Add(list, Some(i), d) == (after, es, false);
    forall e | e in es && e.OrdinalChange?
      ensures 0 <= e.index < |after| && e.dest == after[e.index] && (i < e.index || (i == |list| && e.index == i - 1))
    {
      if e !in lastChanged && e !in renumbered {
        assert false;
      }
    }
  }

  /** Inserting at a valid index places the destination there, keeps the
      others in order, and notifies exactly the destinations whose ordinal
      changed, each with its new index; the new destination is only
      announced. */
  lemma AddNotifiesChanged(list: seq<nat>, i: nat, d: nat)
    requires i <= |list|
    ensures var r := Add(list, Some(i), d);
      r.0 == list[..i] + [d] + list[i..] &&
      (forall k :: 0 <= k < |list| ==>
        var nk := if k < i then k else k + 1;
        (OrdinalChange(list[k], nk) in r.1 <==> Ordinal(|r.0|, nk) != Ordinal(|list|, k))) &&
      (forall e :: e in r.1 && e.OrdinalChange? ==> 0 <= e.index < |r.0| && e.index != i && e.dest == r.0[e.index])
  {
    var r := Add(list, Some(i), d);
    assert r.0 == list[..i] + [d] + list[i..];
    AddEvents(list, i, d);
    forall k | 0 <= k < |list|
      ensures var nk := if k < i then k else k + 1;
        OrdinalChange(list[k], nk) in r.1 <==> Ordinal(|r.0|, nk) != Ordinal(|list|, k)
    {
      AddOrdinalChanged(list, i, d, k);
    }
  }

  lemma AddOrdinalChanged(list: seq<nat>, i: nat, d: nat, k: nat)
    requires i <= |list| && k < |list|
    ensures var r := Add(list, Some(i), d); var nk := if k < i then k else k + 1;
      OrdinalChange(list[k], nk) in r.1 <==> Ordinal(|r.0|, nk) != Ordinal(|list|, k)
  {
    if k < i {
      AddOrdinalBefore(list, i, d, k);
    } else {
      AddOrdinalAfter(list, i, d, k);
    }
  }

  /** A destination before the insertion point keeps its index, and only
      the old last one, when appending, stops being last. */
  lemma AddOrdinalBefore(list: seq<nat>, i: nat, d: nat, k: nat)
    requires k < i <= |list|
    ensures var r := Add(list, Some(i), d);
      OrdinalChange(list[k], k) in r.1 <==> i == |list| && k == i - 1
  {
    var r := Add(list, Some(i), d);
    AddEventsComplete(list, i, d);
    AddEventsSound(list, i, d);
    assert r.0[k] == list[k];
  }

  /** A destination after the insertion point moves up one and is told. */
  lemma AddOrdinalAfter(list: seq<nat>, i: nat, d: nat, k: nat)
    requires i <= k < |list|
    ensures var r := Add(list, Some(i), d);
      OrdinalChange(list[k], k + 1) in r.1
  {
    AddEventsComplete(list, i, d);
  }

  /** The notifications of a removal at a valid index: every position from
      the gap on, and the new last position when the last one was removed,
      and nothing else. */
  lemma RemoveEvents(list: seq<nat>, i: nat)
    requires i < |list|
    ensures var r := Remove(list, Some(i));
      r.list == list[..i] + list[i + 1..] && r.removed == Some(list[i]) && !r.thrown &&
      (forall j :: i <= j < |r.list| ==> OrdinalChange(r.list[j], j) in r.events) &&
      (i == |r.list| && i > 0 ==> OrdinalChange(r.list[i - 1], i - 1) in r.events) &&
      (forall e :: e in r.events && e.OrdinalChange? ==>
        0 <= e.index < |r.list| && e.dest == r.list[e.index] &&
        (i <= e.index || (i == |r.list| && e.index == i - 1)))
  {
    var r := Remove(list, Some(i));
    var after := list[..i] + list[i + 1..];
    assert r.list == after;
    var lastChanged := if i == |after| && i > 0 then [OrdinalChange(after[i - 1], i - 1)] else [];
    var renumbered := Renumber(after, i);
    assert r.events == lastChanged + renumbered + [Removed(list[i])];
    forall j | i <= j < |after|
      ensures OrdinalChange(after[j], j) in r.events
    {
      assert OrdinalChange(after[j], j) in renumbered;
    }
    forall e | e in r.events && e.OrdinalChange?
      ensures 0 <= e.index < |after| && e.dest == after[e.index] && (i <= e.index || (i == |after| && e.index == i - 1))
    {
      if e !in lastChanged && e !in renumbered {
        assert false;
      }
    }
  }

  /** Removing at a valid index takes out that destination, keeps the others
      in order, and notifies exactly the destinations whose ordinal changed,
      each with its new index. */
  lemma RemoveNotifiesChanged(list: seq<nat>, i: nat)
    requires i < |list|
    ensures var r := Remove(list, Some(i));
      r.list == list[..i] + list[i + 1..] && r.removed == Some(list[i]) && !r.thrown &&
      (forall k :: 0 <= k < |list| && k != i ==>
        var nk := if k < i then k else k - 1;
        (OrdinalChange(list[k], nk) in r.events <==> Ordinal(|r.list|, nk) != Ordinal(|list|, k))) &&
      (forall e :: e in r.events && e.OrdinalChange? ==> 0 <= e.index < |r.list| && e.dest == r.list[e.index])
  {
    var r := Remove(list, Some(i));
    RemoveEvents(list, i);
    forall k | 0 <= k < |list| && k != i
      ensures var nk := if k < i then k else k - 1;
        OrdinalChange(list[k], nk) in r.events <==> Ordinal(|r.list|, nk) != Ordinal(|list|, k)
    {
      var nk := if k < i then k else k - 1;
      assert r.list[nk] == list[k];
    }
  }

  /** Removing what was just inserted, at the same index, restores the list
      and hands back the destination. */
  lemma AddThenRemove(list: seq<nat>, i: nat, d: nat)
    requires i <= |list|
    ensures var r := Remove(Add(list, Some(i), d).0, Some(i));
      r.list == list && r.removed == Some(d) && !r.thrown
  {
    RemoveUndoesInsert(list, i, d);
  }

  /** A negative index that still falls before the start after counting from
      the end removes an element and then throws, so the removal is never
      announced. */
  /** An index below -1 inserts the destination where `splice` puts it,
      counting from the end and clamped to the front, and then throws before
      any destination is told, so the insertion is never announced. */
  lemma FarNegativeAddThrows(list: seq<nat>, i: int, d: nat)
    requires i < -1
    ensures var r := Add(list, Some(i), d); var p := if |list| + i < 0 then 0 else |list| + i;
      r.2 && r.0 == list[..p] + [d] + list[p..] && r.1 == [] && Added(d) !in r.1
  {
    var r := Add(list, Some(i), d);
    var p := SpliceStart(i, |list|);
    assert r.0 == r.0[..p] + [r.0[p]] + r.0[p + 1..];
  }

  lemma FarNegativeRemoveThrows(list: seq<nat>, i: int)
    requires list != [] && i < -|list|
    ensures var r := Remove(list, Some(i));
      r.thrown && |r.list| == |list| - 1 && r.events == []
  {
  }
}

=== FILE: destination_marker.dfy ===
/** A map marker shared by several clients (a search, one or more
    destinations). The clients form a stack: the latest decides the colour,
    click listeners added while a client is on top belong to it and leave
    with it, and the marker leaves the map with its last client. Listeners
    and clients are represented by identities. */
module DestinationMarker {
  import opened Wrappers

  const RED := "red"
  const ORANGE := "orange"
  const YELLOW := "yellow"
  const GREEN := "green"
  const LIGHT_BLUE := "ltblue"
  const BLUE := "blue"
  const PURPLE := "purple"
  const PINK := "pink"

  /** `markerIcon(color)`. */
  function MarkerIcon(color: string): string {
    "http://maps.google.com/mapfiles/ms/icons/" + color + "-dot.png"
  }

  /** Different colours give different icons. */
  lemma MarkerIconInjective(c: string, d: string)
    ensures MarkerIcon(c) == MarkerIcon(d) <==> c == d
  {
    var p := "http://maps.google.com/mapfiles/ms/icons/";
    if MarkerIcon(c) == MarkerIcon(d) {
      assert |c| == |d|;
      forall k | 0 <= k < |c|
        ensures c[k] == d[k]
      {
        assert MarkerIcon(c)[|p| + k] == c[k];
        assert MarkerIcon(d)[|p| + k] == d[k];
      }
    }
  }

  /** One client of the marker, with the click listeners added on its
      behalf. */
  datatype Entry = Entry(client: nat, color: string, listeners: seq<nat>)

  /** The client stack, the click listeners in the order they were added,
      and what the map shows: clickability, icon, and whether the marker is
      on the map at all. */
  datatype Marker = Marker(clients: seq<Entry>, onClick: seq<nat>, clickable: bool, icon: string, attached: bool)

  /** A marker call that throws because the stack is empty. */
  datatype Fault = NoClient

  /** `new DestinationMarker(maps, map, place, client, color)`: one client,
      no listeners, not clickable, on the map in the client's colour. */
  function Init(client: nat, color: string): (m: Marker)
    ensures m.clients == [Entry(client, color, [])] && m.onClick == []
    ensures !m.clickable && m.attached && m.icon == MarkerIcon(color)
  {
    Marker([Entry(client, color, [])], [], false, MarkerIcon(color), true)
  }

  /** `topClient()`: the latest client. */
  function Top(m: Marker): Option<Entry> {
    if m.clients == [] then None else Some(m.clients[|m.clients| - 1])
  }

  /** The marker shows the colour of its top client. */
  predicate ShowsTop(m: Marker) {
    m.clients != [] ==> m.icon == MarkerIcon(m.clients[|m.clients| - 1].color)
  }

  /** The marker is clickable exactly when someone listens to clicks. */
  predicate ClickableIffListened(m: Marker) {
    m.clickable <==> m.onClick != []
  }

  /** A colour argument read as a condition: given and not empty. */
  predicate Given(color: Option<string>) {
    color.Some? && color.value != ""
  }

  /** `pushClient(client, color)`: a new top client, in the given colour or
      else the previous top's colour; the icon follows. Without a colour on
      an empty stack the call throws. */
  function PushClient(m: Marker, client: nat, color: Option<string>): (r: Result<Marker, Fault>)
    ensures r.Failure? <==> !Given(color) && m.clients == []
    ensures r.Success? ==> var c := if Given(color) then color.value else Top(m).value.color;
      r.value == m.(clients := m.clients + [Entry(client, c, [])], icon := MarkerIcon(c))
  {
    if Given(color) then
      Success(m.(clients := m.clients + [Entry(client, color.value, [])], icon := MarkerIcon(color.value)))
    else match Top(m)
      case None => Failure(NoClient)
      case Some(top) => Success(m.(clients := m.clients + [Entry(client, top.color, [])], icon := MarkerIcon(top.color)))
  }

  /** `Callbacks.remove(fn)`: every occurrence of the listener goes. */
  function RemoveListener(listeners: seq<nat>, fn: nat): (r: seq<nat>)
    ensures fn !in r
    ensures forall x :: x in r <==> x in listeners && x != fn
    ensures |r| <= |listeners|
  {
    if listeners == [] then []
    else (if listeners[0] == fn then [] else [listeners[0]]) + RemoveListener(listeners[1..], fn)
  }

  function RemoveListeners(listeners: seq<nat>, fns: seq<nat>): (r: seq<nat>)
    ensures forall x :: x in r <==> x in listeners && x !in fns
    decreases |fns|
  {
    if fns == [] then listeners else RemoveListeners(RemoveListener(listeners, fns[0]), fns[1..])
  }

  /** The entries of a client, and the listeners they own. */
  function Owned(entries: seq<Entry>, client: nat): (fns: seq<nat>) {
    if entries == [] then []
    else (if entries[0].client == client then entries[0].listeners else []) + Owned(entries[1..], client)
  }

  function Without(entries: seq<Entry>, client: nat): (r: seq<Entry>)
    ensures forall k :: 0 <= k < |r| ==> r[k].client != client
    ensures forall e :: e in entries && e.client != client ==> e in r
    ensures forall e :: e in r ==> e in entries
    ensures |r| <= |entries|
  {
    if entries == [] then []
    else (if entries[0].client == client then [] else [entries[0]]) + Without(entries[1..], client)
  }

  /** `removeClient(client)`: every entry of the client leaves with all of
      its listeners; clickability is refreshed; the marker leaves the map
      when no client is left, and otherwise shows the new top's colour. */
  function RemoveClient(m: Marker, client: nat): (r: Marker)
    ensures forall e :: e in r.clients <==> e in m.clients && e.client != client
    ensures forall x :: x in r.onClick <==> x in m.onClick && x !in Owned(m.clients, client)
    ensures r.clickable <==> r.onClick != []
    ensures r.clients == [] ==> !r.attached && r.icon == m.icon
    ensures r.clients != [] ==> r.attached == m.attached && ShowsTop(r)
  {
    var clients := Without(m.clients, client);
    var onClick := RemoveListeners(m.onClick, Owned(m.clients, client));
    var m1 := m.(clients := clients, onClick := onClick, clickable := onClick != []);
    if clients == [] then m1.(attached := false)
    else m1.(icon := MarkerIcon(clients[|clients| - 1].color))
  }

  /** `setColor(color)`: the top client takes the colour and the icon
      follows; on an empty stack the call throws. */
  function SetColor(m: Marker, color: string): (r: Result<Marker, Fault>)
    ensures r.Failure? <==> m.clients == []
    ensures r.Success? ==>
      |r.value.clients| == |m.clients| &&
      r.value.clients[..|m.clients| - 1] == m.clients[..|m.clients| - 1] &&
      r.value.clients[|m.clients| - 1] == m.clients[|m.clients| - 1].(color := color) &&
      r.value.icon == MarkerIcon(color) && r.value.onClick == m.onClick
  {
    if m.clients == [] then Failure(NoClient)
    else
      var n := |m.clients| - 1;
      Success(m.(clients := m.clients[n := m.clients[n].(color := color)], icon := MarkerIcon(color)))
  }

  /** Attributes added listeners to the top client unless they are global;
      an empty stack cannot take them and the call throws. */
  function Attribute(m: Marker, fns: seq<nat>, global: bool): (r: Result<seq<Entry>, Fault>)
    ensures global ==> r == Success(m.clients)
    ensures !global ==> (r.Failure? <==> m.clients == [])
    ensures !global && r.Success? ==>
      var n := |m.clients| - 1;
      r.value == m.clients[n := m.clients[n].(listeners := m.clients[n].listeners + fns)]
  {
    if global then Success(m.clients)
    else if m.clients == [] then Failure(NoClient)
    else
      var n := |m.clients| - 1;
      Success(m.clients[n := m.clients[n].(listeners := m.clients[n].listeners + fns)])
  }

  /** `onClick.add(listener, global)` as the marker decorates it: the
      decoration runs before the listener is added, so clickability is
      refreshed from the listeners as they were before the call. */
  function AddListenerAsWritten(m: Marker, fns: seq<nat>, global: bool): (r: Result<Marker, Fault>)
    ensures r.Success? ==> r.value.onClick == m.onClick + fns && r.value.clickable == (m.onClick != [])
    ensures r.Failure? <==> !global && m.clients == []
  {
    match Attribute(m, fns, global)
    case Failure(e) => Failure(e)
    case Success(clients) =>
      Success(m.(clients := clients, clickable := m.onClick != [], onClick := m.onClick + fns))
  }

  /** The first listener of a fresh marker leaves it unclickable although
      someone now listens to its clicks. */
  lemma FirstListenerLeavesUnclickable(client: nat, color: string, fn: nat)
    ensures var r := AddListenerAsWritten(Init(client, color), [fn], false);
      r.Success? && r.value.onClick == [fn] && !r.value.clickable
  {
  }

  /** `onClick.add(listener, global)` with clickability refreshed once the
      listener is in: the marker is clickable exactly when it has a
      listener. */
  function AddListener(m: Marker, fns: seq<nat>, global: bool): (r: Result<Marker, Fault>)
    ensures r.Success? ==> r.value.onClick == m.onClick + fns && ClickableIffListened(r.value)
    ensures r.Failure? <==> !global && m.clients == []
    ensures r.Success? && !global ==>
      Top(r.value) == Some(Top(m).value.(listeners := Top(m).value.listeners + fns))
  {
    match Attribute(m, fns, global)
    case Failure(e) => Failure(e)
    case Success(clients) =>
      Success(m.(clients := clients, clickable := m.onClick + fns != [], onClick := m.onClick + fns))
  }

  /** With the listener added first, every operation keeps the marker
      clickable exactly when it is listened to, and in its top client's
      colour. */
  lemma MarkerInvariants(m: Marker, client: nat, color: Option<string>, c: string, fns: seq<nat>, global: bool)
    requires ClickableIffListened(m) && ShowsTop(m)
    ensures ClickableIffListened(Init(client, c)) && ShowsTop(Init(client, c))
    ensures var r := PushClient(m, client, color); r.Success? ==> ClickableIffListened(r.value) && ShowsTop(r.value)
    ensures var r := SetColor(m, c); r.Success? ==> ClickableIffListened(r.value) && ShowsTop(r.value)
    ensures var r := AddListener(m, fns, global); r.Success? ==> ClickableIffListened(r.value) && ShowsTop(r.value)
    ensures ClickableIffListened(RemoveClient(m, client)) && ShowsTop(RemoveClient(m, client))
  {
  }

  /** Removing a client that is not on top leaves the colour as it was;
      removing the top client shows the colour of the client below. */
  lemma RemoveKeepsOrRestoresColour(m: Marker, client: nat)
    requires ShowsTop(m) && |m.clients| >= 2
    requires forall k :: 0 <= k < |m.clients| ==> (m.clients[k].client == client <==> k == |m.clients| - 1)
    ensures RemoveClient(m, client).icon == MarkerIcon(m.clients[|m.clients| - 2].color)
    ensures RemoveClient(m, client).attached == m.attached
  {
    var n := |m.clients|;
    WithoutLast(m.clients, client);
  }

  lemma RemoveNonTopKeepsColour(m: Marker, client: nat)
    requires ShowsTop(m) && m.clients != []
    requires m.clients[|m.clients| - 1].client != client
    ensures RemoveClient(m, client).icon == m.icon
    ensures RemoveClient(m, client).clients != []
  {
    WithoutKeepsLast(m.clients, client);
  }

  /** Dropping a client other than the last entry's keeps that entry last. */
  lemma {:induction false} WithoutKeepsLast(entries: seq<Entry>, client: nat)
    requires entries != [] && entries[|entries| - 1].client != client
    ensures var r := Without(entries, client); r != [] && r[|r| - 1] == entries[|entries| - 1]
    decreases |entries|
  {
    if |entries| > 1 {
      WithoutKeepsLast(entries[1..], client);
      assert entries[1..][|entries[1..]| - 1] == entries[|entries| - 1];
    }
  }

  /** Dropping the client of only the last entry leaves the others. */
  lemma {:induction false} WithoutLast(entries: seq<Entry>, client: nat)
    requires entries != []
    requires forall k :: 0 <= k < |entries| ==> (entries[k].client == client <==> k == |entries| - 1)
    ensures Without(entries, client) == entries[..|entries| - 1]
    decreases |entries|
  {
    if |entries| > 1 {
      var t := entries[1..];
      assert forall k :: 0 <= k < |t| ==> t[k] == entries[k + 1];
      WithoutLast(t, client);
      assert entries[..|entries| - 1] == [entries[0]] + t[..|t| - 1];
    }
  }

  /** Removing the only client takes the marker off the map. */
  lemma LastClientDetaches(client: nat, color: string)
    ensures !RemoveClient(Init(client, color), client).attached
    ensures RemoveClient(Init(client, color), client).clients == []
  {
  }
}

=== FILE: destination_node.dfy ===
/** The desktop client's destinations: nodes of a doubly linked list, each
    with an index derived from its predecessor (0 without one), a selection
    flag and a place. The world is the set of chains the nodes form, each
    chain listed from its first node; a slot emptied by a join stays as an
    empty chain. Linking the last node of one chain to the first node of
    another succeeds and renumbers the second chain; every way of unlinking
    calls `bindPrev`, which the class never defines, and so throws. */
module DestinationNode {
  import opened Wrappers

  /** A place slot: never set, cleared with `null`, or holding a place
      (places are compared by reference, represented by an identity). */
  datatype Slot = Unset | Cleared | Holds(place: nat)

  datatype Node = Node(id: nat, selected: bool, place: Slot, index: int)

  datatype Event =
    | OrdinalChange(node: nat)
    | PlaceChange(node: nat, place: Slot, previous: Slot)
    | Selected(node: nat)
    | Deselected(node: nat)

  /** Why a link operation throws: a call of the missing `bindPrev`, or the
      endless renumbering once a chain is closed into a ring. */
  datatype Fault = TypeError | RangeError

  /** `new Destination()`: unselected, no place, index 0. */
  function NewNode(id: nat): (n: Node)
    ensures n.id == id && !n.selected && n.place == Unset && n.index == 0
  {
    Node(id, false, Unset, 0)
  }

  /** `select()`: only an unselected node changes and announces it. */
  function Select(n: Node): (r: (Node, seq<Event>))
    ensures r.0.selected && r.0.id == n.id && r.0.place == n.place && r.0.index == n.index
    ensures r.1 == (if n.selected then [] else [Selected(n.id)])
  {
    if !n.selected then (n.(selected := true), [Selected(n.id)]) else (n, [])
  }

  /** `deselect()`: only a selected node changes and announces it. */
  function Deselect(n: Node): (r: (Node, seq<Event>))
    ensures !r.0.selected && r.0.id == n.id && r.0.place == n.place && r.0.index == n.index
    ensures r.1 == (if n.selected then [Deselected(n.id)] else [])
  {
    if n.selected then (n.(selected := false), [Deselected(n.id)]) else (n, [])
  }

  /** Selection events alternate: selecting twice announces once, and a
      deselect after a select restores the node. */
  lemma SelectionTransitions(n: Node)
    ensures Select(Select(n).0) == (Select(n).0, [])
    ensures Deselect(Deselect(n).0) == (Deselect(n).0, [])
    ensures !n.selected ==> Deselect(Select(n).0) == (n, [Deselected(n.id)])
    ensures |Select(n).1| + |Deselect(n).1| == 1
  {
  }

  /** `setPlace(place)`: a different place (by reference) is stored and
      announced with the previous one; the same place changes nothing. */
  function SetPlace(n: Node, place: Slot): (r: (Node, seq<Event>))
    ensures r.0 == n.(place := place)
    ensures r.1 == (if place != n.place then [PlaceChange(n.id, place, n.place)] else [])
  {
    if n.place != place then (n.(place := place), [PlaceChange(n.id, place, n.place)]) else (n, [])
  }

  /** `hasPlace()`. */
  predicate HasPlace(n: Node) {
    n.place.Holds?
  }

  /** Setting the same place again announces nothing, and setting a place
      then the old one back announces both changes, in reverse. */
  lemma SetPlaceTwice(n: Node, place: Slot)
    ensures SetPlace(SetPlace(n, place).0, place).1 == []
    ensures place != n.place ==>
      SetPlace(SetPlace(n, place).0, n.place) == (n, [PlaceChange(n.id, n.place, place)])
  {
  }

  type World = seq<seq<Node>>

  /** Every node appears once in the world. */
  predicate Valid(w: World) {
    forall ci, k, cj, l ::
      0 <= ci < |w| && 0 <= k < |w[ci]| && 0 <= cj < |w| && 0 <= l < |w[cj]| && w[ci][k].id == w[cj][l].id ==>
        ci == cj && k == l
  }

  /** Every node's index is its position in its chain: its predecessor's
      index plus one, or 0 for a first node. */
  predicate Indexed(w: World) {
    forall ci, k :: 0 <= ci < |w| && 0 <= k < |w[ci]| ==> w[ci][k].index == k
  }

  function Find(c: seq<Node>, id: nat): (r: Option<nat>)
    ensures r.Some? ==> r.value < |c| && c[r.value].id == id
    ensures r.None? ==> forall k :: 0 <= k < |c| ==> c[k].id != id
  {
    if c == [] then None
    else if c[0].id == id then Some(0)
    else match Find(c[1..], id)
      case None => None
      case Some(k) => Some(k + 1)
  }

  function LocateFrom(w: World, id: nat, ci: nat): (r: Option<(nat, nat)>)
    requires ci <= |w|
    ensures r.Some? ==> ci <= r.value.0 < |w| && r.value.1 < |w[r.value.0]| && w[r.value.0][r.value.1].id == id
    ensures r.None? ==> forall cj, k :: ci <= cj < |w| && 0 <= k < |w[cj]| ==> w[cj][k].id != id
    decreases |w| - ci
  {
    if ci == |w| then None
    else match Find(w[ci], id)
      case Some(k) => Some((ci, k))
      case None => LocateFrom(w, id, ci + 1)
  }

  /** The chain and position of a node. */
  function Locate(w: World, id: nat): (r: Option<(nat, nat)>)
    ensures r.Some? ==> r.value.0 < |w| && r.value.1 < |w[r.value.0]| && w[r.value.0][r.value.1].id == id
    ensures r.None? ==> forall cj, k :: 0 <= cj < |w| && 0 <= k < |w[cj]| ==> w[cj][k].id != id
  {
    LocateFrom(w, id, 0)
  }

  /** In a valid world a node is located where it is. */
  lemma LocateExact(w: World, ci: nat, k: nat)
    requires Valid(w) && ci < |w| && k < |w[ci]|
    ensures Locate(w, w[ci][k].id) == Some((ci, k))
  {
  }

  /** `getNext()`. */
  function NextOf(w: World, id: nat): Option<nat> {
    match Locate(w, id)
    case None => None
    case Some((ci, k)) => if k + 1 < |w[ci]| then Some(w[ci][k + 1].id) else None
  }

  /** `getPrevious()`. */
  function PrevOf(w: World, id: nat): Option<nat> {
    match Locate(w, id)
    case None => None
    case Some((ci, k)) => if k > 0 then Some(w[ci][k - 1].id) else None
  }

  /** `updateIndex()` down a chain: each node takes the given index and,
      when that changed it, announces the change, which makes its successor
      update in turn; the first node left unchanged ends the walk. */
  function Cascade(c: seq<Node>, base: int): (r: (seq<Node>, seq<Event>))
    ensures |r.0| == |c|
    ensures forall k :: 0 <= k < |c| ==> r.0[k].id == c[k].id
    decreases |c|
  {
    if c == [] || c[0].index == base then (c, [])
    else
      var rest := Cascade(c[1..], base + 1);
      ([c[0].(index := base)] + rest.0, [OrdinalChange(c[0].id)] + rest.1)
  }

  /** An ordinal change for each node of a chain, in order. */
  function Announce(c: seq<Node>): (es: seq<Event>)
    ensures |es| == |c|
    ensures forall k :: 0 <= k < |c| ==> es[k] == OrdinalChange(c[k].id)
  {
    if c == [] then [] else [OrdinalChange(c[0].id)] + Announce(c[1..])
  }

  /** A chain numbered from `d` renumbered from any other start changes every
      node: the nodes count up from the new start and all announce it. */
  lemma {:induction false} CascadeShifts(c: seq<Node>, base: int, d: int)
    requires forall k :: 0 <= k < |c| ==> c[k].index == k + d
    requires base != d
    ensures var r := Cascade(c, base);
      (forall k :: 0 <= k < |c| ==> r.0[k] == c[k].(index := base + k)) && r.1 == Announce(c)
    decreases |c|
  {
    if c != [] {
      assert forall k :: 0 <= k < |c[1..]| ==> c[1..][k].index == k + (d + 1);
      CascadeShifts(c[1..], base + 1, d + 1);
      var rest := Cascade(c[1..], base + 1);
      var r := Cascade(c, base);
      assert r.0 == [c[0].(index := base)] + rest.0;
      forall k | 0 < k < |c|
        ensures r.0[k] == c[k].(index := base + k)
      {
        assert r.0[k] == rest.0[k - 1] && c[k] == c[1..][k - 1];
      }
    }
  }

  /** A chain already numbered from the start keeps its nodes and announces
      nothing. */
  lemma CascadeSettled(c: seq<Node>, base: int)
    requires c != [] && c[0].index == base
    ensures Cascade(c, base) == (c, [])
  {
  }

  /** The world after appending chain `cb` to chain `ca`, the appended
      nodes renumbered. */
  function Join(w: World, ca: nat, cb: nat, base: int): (r: (World, seq<Event>))
    requires ca < |w| && cb < |w| && ca != cb
    ensures |r.0| == |w|
  {
    var (renumbered, events) := Cascade(w[cb], base);
    (w[ca := w[ca] + renumbered][cb := []], events)
  }

  /** `a.bindNext(b)`, `b` absent for `null`. Linking to the current next
      node changes nothing; dropping or replacing an existing next node
      calls the missing `bindPrev` and throws; linking a last node to the
      first node of its own chain renumbers forever. Otherwise the chains
      are joined: the appended nodes renumber first and then `a` announces
      that it is no longer last. A node already preceded by another makes
      the join throw as well, when that predecessor is unlinked. */
  function BindNext(w: World, a: nat, b: Option<nat>): (r: Result<(World, seq<Event>), Fault>)
    requires Locate(w, a).Some?
    requires b.Some? ==> Locate(w, b.value).Some?
    ensures b.Some? && NextOf(w, a) == b ==> r == Success((w, []))
    ensures b.None? && NextOf(w, a).None? ==> r == Success((w, []))
    ensures NextOf(w, a).Some? && NextOf(w, a) != b ==> r == Failure(TypeError)
    ensures b.Some? && NextOf(w, a).None? && PrevOf(w, b.value).Some? ==> r == Failure(TypeError)
  {
    var (ca, ka) := Locate(w, a).value;
    var hasNext := ka + 1 < |w[ca]|;
    match b
    case None => if hasNext then Failure(TypeError) else Success((w, []))
    case Some(bid) =>
      if hasNext && w[ca][ka + 1].id == bid then Success((w, []))
      else if hasNext then Failure(TypeError)
      else
        var (cb, kb) := Locate(w, bid).value;
        if kb != 0 then Failure(TypeError)
        else if cb == ca then Failure(RangeError)
        else
          var (w', events) := Join(w, ca, cb, w[ca][ka].index + 1);
          Success((w', events + [OrdinalChange(a)]))
  }

  /** `x.bindPrevious(p)`, `p` absent for `null`. Keeping the current
      predecessor changes nothing (for a first node the index is recomputed
      as 0); unlinking an existing predecessor calls the missing `bindPrev`
      through its `bindNext(null)` and throws; a predecessor that already has
      a next node throws the same way; closing a ring renumbers forever.
      Otherwise `p` announces it is no longer last and then `x`'s chain
      renumbers behind it. */
  function BindPrevious(w: World, x: nat, p: Option<nat>): (r: Result<(World, seq<Event>), Fault>)
    requires Locate(w, x).Some?
    requires p.Some? ==> Locate(w, p.value).Some?
    ensures p.Some? && PrevOf(w, x) == p ==> r == Success((w, []))
    ensures PrevOf(w, x).Some? && PrevOf(w, x) != p ==> r == Failure(TypeError)
    ensures p.Some? && PrevOf(w, x).None? && NextOf(w, p.value).Some? ==> r == Failure(TypeError)
  {
    var (cx, kx) := Locate(w, x).value;
    var hasPrev := kx > 0;
    match p
    case None =>
      if hasPrev then Failure(TypeError)
      else
        var (renumbered, events) := Cascade(w[cx], 0);
        Success((w[cx := renumbered], events))
    case Some(pid) =>
      if hasPrev && w[cx][kx - 1].id == pid then Success((w, []))
      else if hasPrev then Failure(TypeError)
      else
        var (cp, kp) := Locate(w, pid).value;
        if kp + 1 < |w[cp]| then Failure(TypeError)
        else if cp == cx then Failure(RangeError)
        else
          var (w', events) := Join(w, cp, cx, w[cp][kp].index + 1);
          Success((w', [OrdinalChange(pid)] + events))
  }

  /** Joining a chain onto a non-empty chain of an indexed world: the first
      chain's nodes stay, the appended nodes follow it renumbered from its
      length, the emptied slot holds nothing, and each appended node
      announces its change. */
  lemma JoinShape(w: World, ca: nat, cb: nat)
    requires Indexed(w)
    requires ca < |w| && cb < |w| && ca != cb && w[ca] != []
    ensures var r := Join(w, ca, cb, |w[ca]|);
      |r.0[ca]| == |w[ca]| + |w[cb]| && r.0[cb] == [] &&
      (forall k :: 0 <= k < |w[ca]| ==> r.0[ca][k] == w[ca][k]) &&
      (forall k :: 0 <= k < |w[cb]| ==> r.0[ca][|w[ca]| + k] == w[cb][k].(index := |w[ca]| + k)) &&
      (forall ci :: 0 <= ci < |w| && ci != ca && ci != cb ==> r.0[ci] == w[ci]) &&
      r.1 == Announce(w[cb])
  {
    var c := w[cb];
    assert forall k :: 0 <= k < |c| ==> c[k].index == k + 0;
    CascadeShifts(c, |w[ca]|, 0);
  }

  /** Joining two chains of a valid, indexed world keeps every node once and
      every index equal to its position. */
  lemma JoinKeepsInvariants(w: World, ca: nat, cb: nat)
    requires Valid(w) && Indexed(w)
    requires ca < |w| && cb < |w| && ca != cb && w[ca] != []
    ensures Valid(Join(w, ca, cb, |w[ca]|).0) && Indexed(Join(w, ca, cb, |w[ca]|).0)
  {
    JoinShape(w, ca, cb);
    var w': World := Join(w, ca, cb, |w[ca]|).0;
    forall k | |w[ca]| <= k < |w'[ca]|
      ensures w'[ca][k].id == w[cb][k - |w[ca]|].id && w'[ca][k].index == k
    {
      assert w'[ca][|w[ca]| + (k - |w[ca]|)] == w[cb][k - |w[ca]|].(index := k);
    }
    JoinValid(w, ca, cb, w');
  }

  /** The identity at each position of a world after a join comes from a
      unique position before it, so no node appears twice. */
  lemma JoinValid(w: World, ca: nat, cb: nat, w': World)
    requires Valid(w)
    requires ca < |w| && cb < |w| && ca != cb && |w'| == |w|
    requires w'[cb] == [] && |w'[ca]| == |w[ca]| + |w[cb]|
    requires forall k :: 0 <= k < |w[ca]| ==> w'[ca][k].id == w[ca][k].id
    requires forall k :: |w[ca]| <= k < |w'[ca]| ==> w'[ca][k].id == w[cb][k - |w[ca]|].id
    requires forall ci :: 0 <= ci < |w| && ci != ca && ci != cb ==> w'[ci] == w[ci]
    ensures Valid(w')
  {
    forall ci, k, cj, l | 0 <= ci < |w'| && 0 <= k < |w'[ci]| && 0 <= cj < |w'| && 0 <= l < |w'[cj]| &&
        w'[ci][k].id == w'[cj][l].id
      ensures ci == cj && k == l
    {
      var (oi, ok) := Origin(w, ca, cb, w', ci, k);
      var (oj, ol) := Origin(w, ca, cb, w', cj, l);
      assert oi == oj && ok == ol;
    }
  }

  /** Where a position after a join came from. */
  function Origin(w: World, ca: nat, cb: nat, w': World, ci: nat, k: nat): (o: (nat, nat))
    requires ca < |w| && cb < |w| && ca != cb && |w'| == |w|
    requires w'[cb] == [] && |w'[ca]| == |w[ca]| + |w[cb]|
    requires forall k :: 0 <= k < |w[ca]| ==> w'[ca][k].id == w[ca][k].id
    requires forall k :: |w[ca]| <= k < |w'[ca]| ==> w'[ca][k].id == w[cb][k - |w[ca]|].id
    requires forall ci :: 0 <= ci < |w| && ci != ca && ci != cb ==> w'[ci] == w[ci]
    requires ci < |w'| && k < |w'[ci]|
    ensures o.0 < |w| && o.1 < |w[o.0]| && w[o.0][o.1].id == w'[ci][k].id
  {
    if ci != ca then (ci, k)
    else if k < |w[ca]| then (ca, k)
    else (cb, k - |w[ca]|)
  }

  /** Linking the last node of one chain to the first node of another, in a
      valid indexed world, makes them neighbours in both directions, keeps
      the world valid and indexed, and announces each appended node (all now
      renumbered) and then the old last node. */
  lemma BindNextLinks(w: World, a: nat, b: nat)
    requires Valid(w) && Indexed(w)
    requires Locate(w, a).Some? && Locate(w, b).Some?
    requires NextOf(w, a).None? && PrevOf(w, b).None?
    requires Locate(w, a).value.0 != Locate(w, b).value.0
    ensures var r := BindNext(w, a, Some(b));
      r.Success? && Valid(r.value.0) && Indexed(r.value.0) &&
      NextOf(r.value.0, a) == Some(b) && PrevOf(r.value.0, b) == Some(a) &&
      r.value.1 == Announce(w[Locate(w, b).value.0]) + [OrdinalChange(a)]
  {
    var (ca, ka) := Locate(w, a).value;
    var (cb, kb) := Locate(w, b).value;
    assert ka == |w[ca]| - 1 && kb == 0;
    JoinKeepsInvariants(w, ca, cb);
    JoinShape(w, ca, cb);
    var w': World := Join(w, ca, cb, |w[ca]|).0;
    assert w'[ca][ka].id == a && w'[ca][ka + 1].id == b;
    LocateExact(w', ca, ka);
    LocateExact(w', ca, ka + 1);
  }

  /** Linking from either end gives the same world; only the order of the
      announcements differs. */
  lemma BindEitherWay(w: World, a: nat, b: nat)
    requires Locate(w, a).Some? && Locate(w, b).Some?
    requires NextOf(w, a).None? && PrevOf(w, b).None?
    ensures BindNext(w, a, Some(b)).Success? <==> BindPrevious(w, b, Some(a)).Success?
    ensures BindNext(w, a, Some(b)).Success? ==>
      var n := BindNext(w, a, Some(b)).value;
      var p := BindPrevious(w, b, Some(a)).value;
      n.0 == p.0 && |n.1| > 0 && p.1 == [OrdinalChange(a)] + n.1[..|n.1| - 1] && n.1[|n.1| - 1] == OrdinalChange(a)
  {
  }

  /** Every way of unlinking throws: dropping a next node, or dropping or
      replacing a predecessor. */
  lemma UnlinkingThrows(w: World, x: nat, y: Option<nat>)
    requires Locate(w, x).Some? && (y.Some? ==> Locate(w, y.value).Some?)
    ensures NextOf(w, x).Some? && y.None? ==> BindNext(w, x, y) == Failure(TypeError)
    ensures PrevOf(w, x).Some? && PrevOf(w, x) != y ==> BindPrevious(w, x, y) == Failure(TypeError)
  {
  }

  /** The map's way of growing the route: a fresh node linked after the
      last node of a chain becomes its successor with the next index, and
      both announce an ordinal change. */
  lemma AppendFresh(w: World, ci: nat, id: nat)
    requires Valid(w) && Indexed(w)
    requires ci < |w| && w[ci] != []
    requires Locate(w, id).None?
    ensures var w1 := w + [[NewNode(id)]];
      var last := w[ci][|w[ci]| - 1].id;
      Locate(w1, last) == Some((ci, |w[ci]| - 1)) && Locate(w1, id) == Some((|w|, 0)) &&
      var r := BindNext(w1, last, Some(id));
      r.Success? && Valid(r.value.0) && Indexed(r.value.0) &&
      r.value.0[ci] == w[ci] + [NewNode(id).(index := |w[ci]|)] &&
      r.value.1 == [OrdinalChange(id), OrdinalChange(last)]
  {
    var w1 := w + [[NewNode(id)]];
    var last := w[ci][|w[ci]| - 1].id;
    assert Valid(w1) && Indexed(w1);
    LocateExact(w1, ci, |w[ci]| - 1);
    LocateExact(w1, |w|, 0);
    BindNextLinks(w1, last, id);
    JoinShape(w1, ci, |w|);
    var w': World := Join(w1, ci, |w|, |w[ci]|).0;
    assert w'[ci] == w[ci] + [NewNode(id).(index := |w[ci]|)];
  }
}

=== FILE: destination_sync.dfy ===
/** Destination synchronisation: the client keeps one record per entry of
    its destination list, each holding the destination's id in the trip and
    its place as a plain object. Records whose id is undefined are invalid
    and never written. Store writes are returned as operations; `uuid.v4()`
    and `Date.now()` are parameters, and `JSON` is the oracle pair of
    `JsValues`. The destination list itself is represented by its length,
    which the add and remove handlers keep equal to the number of records. */
module DestinationSync {
  import opened Wrappers
  import opened JsValues
  import opened TripManager
  import Text

  /** `destinationRecord`: `id` is `Undefined` once invalidated or before an
      id is assigned; `place` is the `data.place` field. */
  datatype Record = Record(id: JsValue, place: JsValue)

  /** What the sync layer does to the destination list and its listeners. */
  datatype Event =
    | AddDestination(index: nat)        // `destinations.add(i)` while pulling
    | RemoveDestination(index: nat)     // `destinations.remove(i)` while truncating
    | ClearPlace(index: nat)            // `destination.setPlace(null)`
    | LoadPlace(index: nat, place: JsValue) // `Place.fromObject` started for this place
    | TripChanged(id: Option<string>)   // `onTripChange` from `setUpstream`
    | Error(error: JsError)             // `onError`

  datatype Sync = Sync(trip: TripManager.State, records: seq<Record>)

  /** The outcome of one handler: the new state, the store writes in issue
      order, the events, and the exception that escaped, if any. */
  datatype Outcome = Outcome(sync: Sync, writes: seq<Op>, events: seq<Event>, thrown: Option<JsError>)

  /** `isValid()`. */
  predicate IsValid(r: Record) {
    r.id != Undefined
  }

  /** `init(place, generateId)`: a record for a new destination, with a
      fresh id when asked for one. */
  function NewRecord(placeData: JsValue, generateId: bool, newId: string): (r: Record)
    ensures IsValid(r) <==> generateId
    ensures generateId ==> r.id == Str(newId)
    ensures r.place == placeData
  {
    Record(if generateId then Str(newId) else Undefined, placeData)
  }

  /** `setPlaceData(placeData, callback)`: the place changes, and the callback
      runs, only when the new place differs from the old one and they are
      not both falsy. */
  function SetPlaceData(r: Record, placeData: JsValue): (res: (Record, bool))
    ensures res.1 <==> r.place != placeData && (Truthy(r.place) || Truthy(placeData))
    ensures res.0.id == r.id
    ensures res.0.place == (if res.1 then placeData else r.place)
  {
    if r.place != placeData && (Truthy(r.place) || Truthy(placeData)) then (r.(place := placeData), true)
    else (r, false)
  }

  /** After `setPlaceData` the record holds the new place, or both are
      falsy. */
  predicate PlaceSettled(r: Record, placeData: JsValue) {
    r.place == placeData || (!Truthy(r.place) && !Truthy(placeData))
  }

  /** Setting the same place twice changes nothing the second time, and the
      place is settled after the first. */
  lemma SetPlaceDataIdempotent(r: Record, placeData: JsValue)
    ensures PlaceSettled(SetPlaceData(r, placeData).0, placeData)
    ensures SetPlaceData(SetPlaceData(r, placeData).0, placeData) == (SetPlaceData(r, placeData).0, false)
  {
  }

  /** The key element of a record's id in `getDestinationsKey(id)`, as
      `join` renders it: null and undefined give the empty element, other
      scalars their `String` text. */
  function IdElement(id: JsValue): (e: string)
    ensures id.Str? ==> e == id.s
    ensures id == Null || id == Undefined ==> e == ""
  {
    if id == Null || id == Undefined || id.Arr? then "" else StringOf(id)
  }

  function RecordKey(t: TripManager.State, r: Record): seq<string> {
    DestinationsKey(t, [IdElement(r.id)])
  }

  /** `record.put(dao)`: nothing for an invalid record; otherwise the one
      schema field, 'place', is put when truthy and deleted when not. */
  function RecordPut(stringify: JsValue -> string, t: TripManager.State, r: Record): (ops: seq<Op>)
    ensures !IsValid(r) ==> ops == []
    ensures IsValid(r) ==> |ops| == 1
    ensures IsValid(r) && Truthy(r.place) ==> ops[0] == Put(RecordKey(t, r) + ["place"], Marshal(stringify, r.place))
    ensures IsValid(r) && !Truthy(r.place) ==> ops[0] == Delete(RecordKey(t, r) + ["place"])
  {
    if !IsValid(r) then []
    else
      var key := RecordKey(t, r) + ["place"];
      [if Truthy(r.place) then Put(key, Marshal(stringify, r.place)) else Delete(key)]
  }

  /** The place a valid record puts is what a puller unmarshals. */
  lemma RecordPutReadsBack(stringify: JsValue -> string, parse: string -> Result<JsValue, JsError>, t: TripManager.State, r: Record)
    requires JsonPair(stringify, parse)
    requires IsValid(r) && Truthy(r.place) && IsJson(r.place)
    ensures Unmarshal(parse, RecordPut(stringify, t, r)[0].value) == Success(r.place)
  {
    MarshalRoundTrip(stringify, parse, r.place);
  }

  /** `record.delete(dao)`: removes the whole destination subtree of a valid
      record. */
  function RecordDelete(t: TripManager.State, r: Record): (ops: seq<Op>)
    ensures ops == (if IsValid(r) then [Delete(DestinationsKey(t, [IdElement(r.id)]))] else [])
  {
    if IsValid(r) then [Delete(RecordKey(t, r))] else []
  }

  /** The ids of the valid records, in order. */
  function ValidIds(records: seq<Record>): (ids: seq<JsValue>)
    ensures |ids| <= |records|
    ensures forall k :: 0 <= k < |ids| ==> ids[k] != Undefined
  {
    if records == [] then []
    else ValidIds(records[..|records| - 1]) + (if IsValid(records[|records| - 1]) then [records[|records| - 1].id] else [])
  }

  /** An id is listed exactly when some valid record carries it. */
  lemma {:induction false} ValidIdsMembers(records: seq<Record>, id: JsValue)
    ensures id in ValidIds(records) <==> exists k :: 0 <= k < |records| && IsValid(records[k]) && records[k].id == id
  {
    if records != [] {
      var init := records[..|records| - 1];
      ValidIdsMembers(init, id);
      if id in ValidIds(records) && id !in ValidIds(init) {
        assert records[|records| - 1].id == id;
      }
      if exists k :: 0 <= k < |records| && IsValid(records[k]) && records[k].id == id {
        var k :| 0 <= k < |records| && IsValid(records[k]) && records[k].id == id;
        if k < |records| - 1 {
          assert init[k] == records[k];
        }
      }
    }
  }

  /** When every record is valid the listed ids are the records' ids. */
  lemma {:induction false} ValidIdsAllValid(records: seq<Record>)
    requires forall k :: 0 <= k < |records| ==> IsValid(records[k])
    ensures |ValidIds(records)| == |records|
    ensures forall k :: 0 <= k < |records| ==> ValidIds(records)[k] == records[k].id
  {
    if records != [] {
      ValidIdsAllValid(records[..|records| - 1]);
    }
  }

  lemma {:induction false} ValidIdsConcat(a: seq<Record>, b: seq<Record>)
    ensures ValidIds(a + b) == ValidIds(a) + ValidIds(b)
  {
    if b != [] {
      assert (a + b)[..|a + b| - 1] == a + b[..|b| - 1];
      ValidIdsConcat(a, b[..|b| - 1]);
    } else {
      assert a + b == a;
    }
  }

  /** The value `putDestinationIds` writes. */
  function IdsValue(records: seq<Record>): JsValue {
    Arr(ValidIds(records))
  }

  /** `putDestinationIds(dao)`: the ids of the valid records, marshalled,
      at the trip's destinations key. */
  function PutDestinationIds(stringify: JsValue -> string, t: TripManager.State, records: seq<Record>): (op: Op)
    ensures op.Put? && op.key == DestinationsKey(t, [])
    ensures op.value == Marshal(stringify, Arr(ValidIds(records)))
  {
    Put(DestinationsKey(t, []), Marshal(stringify, IdsValue(records)))
  }

  /** The writes of `record.put` for every record, in order. */
  function PutAll(stringify: JsValue -> string, t: TripManager.State, records: seq<Record>): (ops: seq<Op>)
    ensures |ops| == |ValidIds(records)|
  {
    if records == [] then []
    else PutAll(stringify, t, records[..|records| - 1]) + RecordPut(stringify, t, records[|records| - 1])
  }

  /** The writes of `record.put` for every record are exactly the puts of
      the valid records: each valid record's put is among them, and each of
      them is some valid record's put. */
  lemma {:induction false} PutAllHoldsEveryPut(stringify: JsValue -> string, t: TripManager.State, records: seq<Record>)
    ensures forall k :: 0 <= k < |records| && IsValid(records[k]) ==> RecordPut(stringify, t, records[k])[0] in PutAll(stringify, t, records)
    ensures forall j :: 0 <= j < |PutAll(stringify, t, records)| ==>
      exists k :: 0 <= k < |records| && IsValid(records[k]) && PutAll(stringify, t, records)[j] == RecordPut(stringify, t, records[k])[0]
  {
    if records != [] {
      var init := records[..|records| - 1];
      var last := records[|records| - 1];
      PutAllHoldsEveryPut(stringify, t, init);
      var front := PutAll(stringify, t, init);
      var ops := PutAll(stringify, t, records);
      assert ops == front + RecordPut(stringify, t, last);
      forall k | 0 <= k < |records| && IsValid(records[k])
        ensures RecordPut(stringify, t, records[k])[0] in ops
      {
        if k < |init| {
          assert records[k] == init[k];
        }
      }
      forall j | 0 <= j < |ops|
        ensures exists k :: 0 <= k < |records| && IsValid(records[k]) && ops[j] == RecordPut(stringify, t, records[k])[0]
      {
        if j < |front| {
          assert ops[j] == front[j];
          var k :| 0 <= k < |init| && IsValid(init[k]) && front[j] == RecordPut(stringify, t, init[k])[0];
          assert records[k] == init[k];
        } else {
          assert ops[j] == RecordPut(stringify, t, last)[0];
        }
      }
    } else {
      assert PutAll(stringify, t, records) == [];
    }
  }

  /** `truncateDestinations(target)`: while the list is longer than the
      target, the last record is invalidated and the last destination
      removed, whose remove handler then drops the (now invalid) record
      without writing. */
  function Truncate(records: seq<Record>, target: nat): (r: (seq<Record>, seq<Event>))
    decreases |records|
  {
    if |records| <= target then (records, [])
    else
      var last := |records| - 1;
      var removed := RemoveHandler(records[last := records[last].(id := Undefined)], last);
      var rest := Truncate(removed, target);
      (rest.0, [RemoveDestination(last)] + rest.1)
  }

  /** The record bookkeeping of `handleDestinationRemove`, without its
      writes: the record at the destination's former index is dropped. */
  function RemoveHandler(records: seq<Record>, index: nat): (r: seq<Record>)
    requires index < |records|
    ensures |r| == |records| - 1
    ensures r == records[..index] + records[index + 1..]
  {
    records[..index] + records[index + 1..]
  }

  /** Truncation keeps the leading records untouched, removes the rest from
      the end, and none of the removed records is valid on the way out. */
  lemma {:induction false} TruncateKeepsPrefix(records: seq<Record>, target: nat)
    ensures Truncate(records, target).0 == if |records| <= target then records else records[..target]
    ensures |Truncate(records, target).1| == if |records| <= target then 0 else |records| - target
    ensures forall k :: 0 <= k < |Truncate(records, target).1| ==> Truncate(records, target).1[k] == RemoveDestination(|records| - 1 - k)
    decreases |records|
  {
    if |records| > target {
      var last := |records| - 1;
      var removed := RemoveHandler(records[last := records[last].(id := Undefined)], last);
      assert removed == records[..last];
      TruncateKeepsPrefix(removed, target);
      if |removed| > target {
        assert removed[..target] == records[..target];
      }
    }
  }

  /** After truncating, `putDestinationIds` lists only the kept records'
      ids. */
  lemma TruncateIds(records: seq<Record>, target: nat)
    requires target <= |records|
    ensures ValidIds(Truncate(records, target).0) == ValidIds(records[..target])
  {
    TruncateKeepsPrefix(records, target);
    assert records[..|records|] == records;
  }

  /** `handleDestinationAdd(destination)` for a destination just inserted at
      `index` with place data `placeData`. A missing or valid record at that
      index means the add came from the user: a fresh valid record is
      inserted, and with a valid upstream the ids and the new record are
      written in one batch. An invalid record there was put in place by
      `processDestinations`, which populates it itself. */
  function HandleAdd(stringify: JsValue -> string, s: Sync, index: nat, placeData: JsValue, newId: string): (o: Outcome)
    requires index <= |s.records|
    ensures o.sync.trip == s.trip && o.events == [] && o.thrown.None?
    ensures index < |s.records| && !IsValid(s.records[index]) ==> o.sync == s && o.writes == []
    ensures !(index < |s.records| && !IsValid(s.records[index])) ==>
      o.sync.records == s.records[..index] + [Record(Str(newId), placeData)] + s.records[index..]
    ensures o.writes != [] <==> !(index < |s.records| && !IsValid(s.records[index])) && HasValidUpstream(s.trip)
    ensures o.writes != [] ==> o.writes == [PutDestinationIds(stringify, s.trip, o.sync.records)] + RecordPut(stringify, s.trip, Record(Str(newId), placeData))
    ensures o.writes != [] ==> |o.writes| == 2
  {
    if index >= |s.records| || IsValid(s.records[index]) then
      var record := NewRecord(placeData, true, newId);
      var records := s.records[..index] + [record] + s.records[index..];
      var writes := if HasValidUpstream(s.trip) then [PutDestinationIds(stringify, s.trip, records)] + RecordPut(stringify, s.trip, record) else [];
      Outcome(s.(records := records), writes, [], None)
    else Outcome(s, [], [], None)
  }

  /** `handleDestinationRemove(destination)` for the destination that was at
      `index`: its record is dropped, and when it was valid and the upstream
      is valid the ids are rewritten and its subtree deleted. */
  function HandleRemove(stringify: JsValue -> string, s: Sync, index: nat): (o: Outcome)
    requires index < |s.records|
    ensures o.sync.trip == s.trip && o.events == [] && o.thrown.None?
    ensures o.sync.records == s.records[..index] + s.records[index + 1..]
    ensures o.writes != [] <==> HasValidUpstream(s.trip) && IsValid(s.records[index])
    ensures o.writes != [] ==> o.writes == [PutDestinationIds(stringify, s.trip, o.sync.records), Delete(RecordKey(s.trip, s.records[index]))]
  {
    var removed := s.records[index];
    var records := RemoveHandler(s.records, index);
    var writes := if HasValidUpstream(s.trip) && IsValid(removed) then [PutDestinationIds(stringify, s.trip, records)] + RecordDelete(s.trip, removed) else [];
    Outcome(s.(records := records), writes, [], None)
  }

  /** Adding a destination and removing it again restores the records; with
      a valid upstream the two id lists written are the ids after the add and
      the original ids. */
  lemma AddThenRemove(stringify: JsValue -> string, s: Sync, index: nat, placeData: JsValue, newId: string)
    requires index <= |s.records|
    requires index == |s.records| || IsValid(s.records[index])
    ensures HandleRemove(stringify, HandleAdd(stringify, s, index, placeData, newId).sync, index).sync == s
    ensures HasValidUpstream(s.trip) ==>
      HandleRemove(stringify, HandleAdd(stringify, s, index, placeData, newId).sync, index).writes
        == [PutDestinationIds(stringify, s.trip, s.records), Delete(DestinationsKey(s.trip, [newId]))]
  {
    var added := HandleAdd(stringify, s, index, placeData, newId).sync;
    assert added.records[index] == Record(Str(newId), placeData);
    assert added.records[..index] + added.records[index + 1..] == s.records;
  }

  /** `updateDestinationPlace(destination)`: a valid record takes the
      destination's current place; if that changed it and the upstream is
      valid, the record is written. */
  function UpdateDestinationPlace(stringify: JsValue -> string, s: Sync, index: nat, placeData: JsValue): (o: Outcome)
    ensures o.sync.trip == s.trip && o.events == [] && o.thrown.None?
    ensures |o.sync.records| == |s.records|
    ensures forall k :: 0 <= k < |s.records| && k != index ==> o.sync.records[k] == s.records[k]
    ensures index < |s.records| && IsValid(s.records[index]) ==> PlaceSettled(o.sync.records[index], placeData)
    ensures !(index < |s.records| && IsValid(s.records[index])) ==> o.sync == s
    ensures o.writes != [] ==> index < |s.records| && HasValidUpstream(s.trip) && o.writes == RecordPut(stringify, s.trip, o.sync.records[index])
  {
    if index < |s.records| && IsValid(s.records[index]) then
      var (record, changed) := SetPlaceData(s.records[index], placeData);
      var writes := if changed && HasValidUpstream(s.trip) then RecordPut(stringify, s.trip, record) else [];
      Outcome(s.(records := s.records[index := record]), writes, [], None)
    else Outcome(s, [], [], None)
  }

  /** `pushDestinations(force)`: without an active trip nothing happens
      unless forced, in which case a fresh trip id becomes active. Then the
      upstream is set and every record and the id list are written. */
  function PushDestinations(stringify: JsValue -> string, s: Sync, force: bool, newId: string, now: int): (o: Outcome)
    ensures o.sync.records == s.records && o.thrown.None?
    ensures !TruthyId(s.trip.activeTripId) && !force ==> o.sync == s && o.writes == [] && o.events == []
    ensures TruthyId(s.trip.activeTripId) || force ==>
      o.sync.trip.upstreamTripId == o.sync.trip.activeTripId &&
      o.sync.trip.activeTripId == (if TruthyId(s.trip.activeTripId) then s.trip.activeTripId else Some(newId)) &&
      |o.writes| >= 1 && o.writes[|o.writes| - 1] == PutDestinationIds(stringify, o.sync.trip, s.records)
    ensures TruthyId(s.trip.activeTripId) || force ==>
      forall k :: 0 <= k < |s.records| && IsValid(s.records[k]) ==>
        RecordPut(stringify, o.sync.trip, s.records[k])[0] in o.writes[..|o.writes| - 1]
    ensures (TruthyId(s.trip.activeTripId) || newId != "") && (TruthyId(s.trip.activeTripId) || force) ==> HasValidUpstream(o.sync.trip)
  {
    if !TruthyId(s.trip.activeTripId) && !force then Outcome(s, [], [], None)
    else
      var (t1, switchOps) :=
        if TruthyId(s.trip.activeTripId) then (s.trip, [])
        else var (t, op) := SetActiveTripId(s.trip, newId, now); (t, [op]);
      var (t2, changed) := SetUpstream(t1);
      var events := if changed.Some? then [TripChanged(changed.value)] else [];
      var puts := switchOps + PutAll(stringify, t2, s.records);
      var writes := puts + [PutDestinationIds(stringify, t2, s.records)];
      PutAllHoldsEveryPut(stringify, t2, s.records);
      assert writes[..|writes| - 1] == puts;
      Outcome(Sync(t2, s.records), writes, events, None)
  }

  /** `destinationsData[id]` for an id from the list: the member named
      `String(id)`, so the number 5 reads member "5" and null reads "null".
      An inherited property name reads a built-in whose `place` is
      undefined, which pulls the same falsy place as a missing member. */
  function DestinationData(data: JsValue, id: JsValue): (dd: JsValue)
    ensures id.Str? ==> dd == Member(data, id.s)
    ensures id.Num? ==> dd == Member(data, Text.IntToString(id.n))
    ensures id == Null ==> dd == Member(data, "null")
  {
    Member(data, StringOf(id))
  }

  /** `destinationData && unmarshal(destinationData.place)`. */
  function NewPlace(parse: string -> Result<JsValue, JsError>, data: JsValue, id: JsValue): (r: Result<JsValue, JsError>)
    ensures !Truthy(DestinationData(data, id)) ==> r == Success(DestinationData(data, id))
  {
    var dd := DestinationData(data, id);
    if !Truthy(dd) then Success(dd) else Unmarshal(parse, Member(dd, "place"))
  }

  /** The state of the pull loop: the records and the events so far, and
      the exception that stopped it, if any. */
  datatype Pulled = Pulled(records: seq<Record>, events: seq<Event>, thrown: Option<JsError>)

  /** One iteration of the loop over the ids, at index `i`: a missing record
      is created invalid and a destination added for it (whose add handler
      then leaves it alone), the id is assigned, and the place is pulled. */
  function PullOne(parse: string -> Result<JsValue, JsError>, records: seq<Record>, data: JsValue, i: nat, id: JsValue): (p: Pulled)
    requires i <= |records|
    ensures |p.records| == if i < |records| then |records| else i + 1
    ensures p.records[i].id == id
    ensures forall k :: 0 <= k < |records| && k != i ==> p.records[k] == records[k]
    ensures p.thrown.None? <==> NewPlace(parse, data, id).Success?
    ensures p.thrown.None? ==> PlaceSettled(p.records[i], NewPlace(parse, data, id).value)
  {
    var created := i == |records|;
    var record := (if created then NewRecord(Undefined, false, "") else records[i]).(id := id);
    var added := if created then [AddDestination(i)] else [];
    var stored := if created then records + [record] else records[i := record];
    match NewPlace(parse, data, id)
    case Failure(e) => Pulled(stored, added, Some(e))
    case Success(newPlace) =>
      var (updated, changed) := SetPlaceData(record, newPlace);
      var placeEvents :=
        if !changed then []
        else if Truthy(newPlace) then [LoadPlace(i, newPlace)]
        else [ClearPlace(i)];
      Pulled(stored[i := updated], added + placeEvents, None)
  }

  /** The loop over `ids[i..]`; it stops at the first exception. */
  function Pull(parse: string -> Result<JsValue, JsError>, records: seq<Record>, data: JsValue, ids: seq<JsValue>, i: nat): (p: Pulled)
    requires i <= |ids| && i <= |records|
    decreases |ids| - i
  {
    if i == |ids| then Pulled(records, [], None)
    else
      var one := PullOne(parse, records, data, i, ids[i]);
      if one.thrown.Some? then one
      else
        var rest := Pull(parse, one.records, data, ids, i + 1);
        Pulled(rest.records, one.events + rest.events, rest.thrown)
  }

  function Max(a: nat, b: nat): nat {
    if a < b then b else a
  }

  /** A completed pull leaves the records from `i` on carrying the ids in
      order with their places settled, and the records before `i` and past
      the ids untouched. */
  lemma {:induction false} PullAligns(parse: string -> Result<JsValue, JsError>, records: seq<Record>, data: JsValue, ids: seq<JsValue>, i: nat)
    requires i <= |ids| && i <= |records|
    ensures var p := Pull(parse, records, data, ids, i);
      p.thrown.None? ==>
        |p.records| == Max(|records|, |ids|) &&
        (forall k :: 0 <= k < i ==> p.records[k] == records[k]) &&
        (forall k :: |ids| <= k < |records| ==> p.records[k] == records[k]) &&
        (forall k :: i <= k < |ids| ==> p.records[k].id == ids[k]) &&
        (forall k :: i <= k < |ids| ==> NewPlace(parse, data, ids[k]).Success? && PlaceSettled(p.records[k], NewPlace(parse, data, ids[k]).value))
    decreases |ids| - i
  {
    if i < |ids| {
      var one := PullOne(parse, records, data, i, ids[i]);
      if one.thrown.None? {
        PullAligns(parse, one.records, data, ids, i + 1);
      }
    }
  }

  /** `processDestinations(destinationsData)`. Without data, a valid upstream
      means the remote list is empty (truncate to nothing), otherwise the
      local list is pushed. Unreadable or missing ids are reported and
      overwritten by a forced push. Otherwise the records are aligned with
      the ids, places pulled, and surplus destinations truncated. An id list
      that is not an array is not handled (`NotArray`). */
  function ProcessDestinations(parse: string -> Result<JsValue, JsError>, stringify: JsValue -> string,
                               s: Sync, data: JsValue, newId: string, now: int): (o: Outcome)
  {
    if !Truthy(data) then
      if HasValidUpstream(s.trip) then
        var (records, events) := Truncate(s.records, 0);
        Outcome(s.(records := records), [], events, None)
      else PushDestinations(stringify, s, false, newId, now)
    else
      match ReadValue(parse, data)
      case Failure(e) => ReportAndPush(stringify, s, e, newId, now)
      case Success(ids) =>
        if !Truthy(ids) then ReportAndPush(stringify, s, TypeError("Missing destination IDs"), newId, now)
        else if !ids.Arr? then Outcome(s, [], [], Some(NotArray))
        else PullIds(parse, s, data, ids.items)
  }

  /** The branch of `processDestinations` for an id list: pull every id,
      then truncate the surplus unless the pull threw. */
  function PullIds(parse: string -> Result<JsValue, JsError>, s: Sync, data: JsValue, ids: seq<JsValue>): (o: Outcome)
    ensures o.writes == [] && o.sync.trip == s.trip
  {
    var p := Pull(parse, s.records, data, ids, 0);
    if p.thrown.Some? then Outcome(s.(records := p.records), [], p.events, p.thrown)
    else
      var (records, events) := Truncate(p.records, |ids|);
      Outcome(s.(records := records), [], p.events + events, None)
  }

  /** The error the model reports for an id list it does not handle. */
  const NotArray: JsError := TypeError("Destination IDs are not an array")

  /** `onError(e)` followed by `pushDestinations(true)`. */
  function ReportAndPush(stringify: JsValue -> string, s: Sync, e: JsError, newId: string, now: int): (o: Outcome)
    ensures o.sync.records == s.records && o.thrown.None?
    ensures |o.events| >= 1 && o.events[0] == Error(e)
    ensures o.sync.trip.upstreamTripId == o.sync.trip.activeTripId
  {
    var pushed := PushDestinations(stringify, s, true, newId, now);
    pushed.(events := [Error(e)] + pushed.events)
  }

  /** With no remote data and a valid upstream, every destination is
      removed from the end and nothing is written; without a valid upstream
      the local list is pushed as it is. */
  lemma NoDataClearsOrPushes(parse: string -> Result<JsValue, JsError>, stringify: JsValue -> string,
                             s: Sync, data: JsValue, newId: string, now: int)
    requires !Truthy(data)
    ensures var o := ProcessDestinations(parse, stringify, s, data, newId, now);
      (HasValidUpstream(s.trip) ==> o.sync.records == [] && o.writes == [] && |o.events| == |s.records|) &&
      (!HasValidUpstream(s.trip) ==> o == PushDestinations(stringify, s, false, newId, now))
  {
    TruncateKeepsPrefix(s.records, 0);
  }

  /** Unreadable ids are reported and the local list is pushed over them,
      under the active trip or a fresh one. */
  lemma CorruptIdsArePushed(parse: string -> Result<JsValue, JsError>, stringify: JsValue -> string,
                            s: Sync, data: JsValue, newId: string, now: int)
    ensures var o := ProcessDestinations(parse, stringify, s, data, newId, now);
      Truthy(data) && (ReadValue(parse, data).Failure? || !Truthy(ReadValue(parse, data).value)) ==>
      o.sync.records == s.records && o.events[0].Error? && o.thrown.None? &&
      |o.writes| >= 1 && o.writes[|o.writes| - 1] == PutDestinationIds(stringify, o.sync.trip, s.records)
  {
  }

  /** After a complete pull of an id list, the i-th record carries the i-th
      id, surplus records are gone, each place is settled, and nothing is
      written. */
  lemma ProcessAligns(parse: string -> Result<JsValue, JsError>, stringify: JsValue -> string,
                      s: Sync, data: JsValue, newId: string, now: int)
    ensures Truthy(data) && ReadValue(parse, data).Success? && ReadValue(parse, data).value.Arr? ==>
      var ids := ReadValue(parse, data).value.items;
      var o := ProcessDestinations(parse, stringify, s, data, newId, now);
      o.writes == [] &&
      (o.thrown.None? ==>
        |o.sync.records| == |ids| &&
        (forall k :: 0 <= k < |ids| ==> o.sync.records[k].id == ids[k]) &&
        (forall k :: 0 <= k < |ids| ==> NewPlace(parse, data, ids[k]).Success? && PlaceSettled(o.sync.records[k], NewPlace(parse, data, ids[k]).value)))
  {
    if Truthy(data) && ReadValue(parse, data).Success? && ReadValue(parse, data).value.Arr? {
      var ids := ReadValue(parse, data).value.items;
      assert ProcessDestinations(parse, stringify, s, data, newId, now) == PullIds(parse, s, data, ids);
      PullIdsAligns(parse, s, data, ids);
    }
  }

  /** A completed pull of `ids` leaves exactly one record per id, carrying
      it, with its place settled. */
  lemma PullIdsAligns(parse: string -> Result<JsValue, JsError>, s: Sync, data: JsValue, ids: seq<JsValue>)
    ensures var o := PullIds(parse, s, data, ids);
      o.thrown.None? ==>
        |o.sync.records| == |ids| &&
        (forall k :: 0 <= k < |ids| ==> o.sync.records[k].id == ids[k]) &&
        (forall k :: 0 <= k < |ids| ==> NewPlace(parse, data, ids[k]).Success? && PlaceSettled(o.sync.records[k], NewPlace(parse, data, ids[k]).value))
  {
    PullAligns(parse, s.records, data, ids, 0);
    var p := Pull(parse, s.records, data, ids, 0);
    if p.thrown.None? {
      TruncateKeepsPrefix(p.records, |ids|);
    }
  }

  /** The id list of records whose ids JSON carries is a JSON value. */
  lemma IdsValueIsJson(records: seq<Record>)
    requires forall k :: 0 <= k < |records| ==> Marshallable(records[k].id)
    ensures IsJson(IdsValue(records))
  {
    forall i | 0 <= i < |ValidIds(records)|
      ensures IsJson(ValidIds(records)[i])
    {
      ValidIdsMembers(records, ValidIds(records)[i]);
    }
  }

  /** Pushing and pulling agree: a client that pulls the id list another
      client wrote ends up with records carrying exactly the pusher's valid
      ids, so its own next `putDestinationIds` writes the same list. */
  lemma PushedIdsPullBack(parse: string -> Result<JsValue, JsError>, stringify: JsValue -> string,
                          pusher: seq<Record>, puller: Sync, newId: string, now: int, children: map<string, JsValue>)
    requires JsonPair(stringify, parse)
    requires forall k :: 0 <= k < |pusher| ==> Marshallable(pusher[k].id)
    ensures var data := Obj(children["_" := Marshal(stringify, IdsValue(pusher))]);
      var o := ProcessDestinations(parse, stringify, puller, data, newId, now);
      o.thrown.None? ==> ValidIds(o.sync.records) == ValidIds(pusher)
  {
    var data := Obj(children["_" := Marshal(stringify, IdsValue(pusher))]);
    IdsValueIsJson(pusher);
    ReadValueRoundTrip(stringify, parse, IdsValue(pusher), children);
    assert Truthy(data);
    ProcessAligns(parse, stringify, puller, data, newId, now);
    var o := ProcessDestinations(parse, stringify, puller, data, newId, now);
    if o.thrown.None? {
      var ids := ValidIds(pusher);
      assert forall k :: 0 <= k < |o.sync.records| ==> o.sync.records[k].id == ids[k];
      ValidIdsAllValid(o.sync.records);
      assert ValidIds(o.sync.records) == ids;
    }
  }
}

=== FILE: device_sync.dfy ===
/** Devices of the desktop client: relative positions between devices,
    their keys in the store, and the partition of the devices seen on each
    update into possible cast targets, targets related to this device by a
    direction, and unconnected ones. `escapeKeyElement` and
    `unescapeKeyElement` are the oracles `esc`/`unesc`; key elements arrive
    already unescaped. `isNearby` (a floating-point geometry test) is an
    oracle answering true, false or undefined (`None`). Multimaps of
    owner -> device are sets of pairs. */
module DeviceSync {
  import opened Wrappers
  import opened JsValues

  const LEFT: string := "left"
  const RIGHT: string := "right"
  const UP: string := "up"
  const DOWN: string := "down"
  const FORWARDS: string := "forwards"
  const BACKWARDS: string := "backwards"
  const NEAR: string := "near"
  const FAR: string := "far"

  /** Milliseconds within which a device counts as present. */
  const DEVICE_SEEN_RECENTLY: int := 5000

  datatype Vector = Vector(x: int, y: int, z: int)

  /** A direction: one of the six names, any other string, or a vector cone
      `{mean, margin}`. */
  datatype Direction = Named(name: string) | Cone(mean: Vector, margin: int)

  datatype RelativePosition = RelativePosition(direction: Direction, magnitude: string)

  predicate IsAxis(name: string) {
    name in {LEFT, RIGHT, UP, DOWN, FORWARDS, BACKWARDS}
  }

  function NegateVector(v: Vector): (r: Vector)
    ensures r.x == -v.x && r.y == -v.y && r.z == -v.z
  {
    Vector(-v.x, -v.y, -v.z)
  }

  /** `negateDirection(direction)`: the opposite axis, or the opposite cone;
      any other string has no `mean`, and negating it throws. */
  function NegateDirection(d: Direction): (r: Result<Direction, JsError>)
    ensures d.Named? && !IsAxis(d.name) <==> r.Failure?
    ensures d.Cone? ==> r == Success(Cone(NegateVector(d.mean), d.margin))
    ensures d.Named? && IsAxis(d.name) ==> r.Success? && r.value.Named? && IsAxis(r.value.name) && r.value.name != d.name
  {
    match d
    case Named(n) =>
      if n == LEFT then Success(Named(RIGHT))
      else if n == RIGHT then Success(Named(LEFT))
      else if n == UP then Success(Named(DOWN))
      else if n == DOWN then Success(Named(UP))
      else if n == FORWARDS then Success(Named(BACKWARDS))
      else if n == BACKWARDS then Success(Named(FORWARDS))
      else Failure(TypeError("Cannot read property 'x' of undefined"))
    case Cone(mean, margin) => Success(Cone(NegateVector(mean), margin))
  }

  /** Negation is an involution on every direction it accepts. */
  lemma NegateDirectionInvolution(d: Direction)
    requires NegateDirection(d).Success?
    ensures NegateDirection(NegateDirection(d).value) == Success(d)
  {
  }

  /** The axes come in the pairs the user interface relies on. */
  lemma AxisPairs()
    ensures NegateDirection(Named(LEFT)) == Success(Named(RIGHT))
    ensures NegateDirection(Named(UP)) == Success(Named(DOWN))
    ensures NegateDirection(Named(FORWARDS)) == Success(Named(BACKWARDS))
  {
  }

  /** `negateRelativePosition(p)`: the direction negated, the magnitude
      kept. */
  function NegateRelativePosition(p: RelativePosition): (r: Result<RelativePosition, JsError>)
    ensures r.Success? <==> NegateDirection(p.direction).Success?
    ensures r.Success? ==> r.value.magnitude == p.magnitude && r.value.direction == NegateDirection(p.direction).value
  {
    match NegateDirection(p.direction)
    case Success(d) => Success(RelativePosition(d, p.magnitude))
    case Failure(e) => Failure(e)
  }

  /** Whether position `i` of the flattened arguments of `deviceKey` is a
      user or device name: 0 and 1 are the owner and device, 3 and 4 the
      remote owner and device; 2 is a field name. */
  predicate EscapedPosition(i: nat) {
    i <= 4 && i != 2
  }

  /** `deviceKey(args...)`: 'devices' followed by the arguments, with the
      truthy name positions escaped. */
  function DeviceKey(esc: string -> string, args: seq<string>): (k: seq<string>)
    ensures |k| == |args| + 1 && k[0] == "devices"
    ensures forall i :: 0 <= i < |args| && (i == 2 || i > 4 || args[i] == "") ==> k[i + 1] == args[i]
  {
    ["devices"] + seq(|args|, i requires 0 <= i < |args| => if EscapedPosition(i) && args[i] != "" then esc(args[i]) else args[i])
  }

  /** `unesc` undoes `esc`. */
  ghost predicate EscapePair(esc: string -> string, unesc: string -> string) {
    forall s :: unesc(esc(s)) == s
  }

  /** Reading a device key back: unescape the name positions. */
  function ParseDeviceKey(unesc: string -> string, k: seq<string>): seq<string>
    requires |k| >= 1
  {
    seq(|k| - 1, i requires 0 <= i < |k| - 1 => if EscapedPosition(i) && k[i + 1] != "" then unesc(k[i + 1]) else k[i + 1])
  }

  /** Device keys lose nothing: the arguments are recovered from the key,
      provided escaping never maps a name to the empty string. */
  lemma DeviceKeyRoundTrip(esc: string -> string, unesc: string -> string, args: seq<string>)
    requires EscapePair(esc, unesc)
    requires forall i :: 0 <= i < |args| && args[i] != "" ==> esc(args[i]) != ""
    ensures ParseDeviceKey(unesc, DeviceKey(esc, args)) == args
  {
    var k := DeviceKey(esc, args);
    forall i | 0 <= i < |args|
      ensures ParseDeviceKey(unesc, k)[i] == args[i]
    {
      if EscapedPosition(i) && args[i] != "" {
        assert unesc(esc(args[i])) == args[i];
      }
    }
  }

  /** A connection record: `deviceKey(from, 'connections', to)` holds the
      position of `to` relative to `from`. */
  datatype Connection = Connection(key: seq<string>, position: RelativePosition)

  /** `relateUnidirectional(from, to, position)`. */
  function RelateUnidirectional(esc: string -> string, fromOwner: string, fromDevice: string,
                                toOwner: string, toDevice: string, p: RelativePosition): Connection
  {
    Connection(DeviceKey(esc, [fromOwner, fromDevice, "connections", toOwner, toDevice]), p)
  }

  /** `relate(remoteOwner, remoteDevice, position)`: one batch recording the
      position from this device and the negated position from the remote
      one. Negating an unknown direction throws before anything is
      written. */
  function Relate(esc: string -> string, me: string, myDevice: string,
                  remoteOwner: string, remoteDevice: string, p: RelativePosition): (r: Result<seq<Connection>, JsError>)
    ensures r.Success? <==> NegateRelativePosition(p).Success?
    ensures r.Success? ==> |r.value| == 2 && r.value[0].position == p
    ensures r.Success? ==> r.value[1].position == NegateRelativePosition(p).value
    ensures r.Success? ==> r.value[0].key == DeviceKey(esc, [me, myDevice, "connections", remoteOwner, remoteDevice])
    ensures r.Success? ==> r.value[1].key == DeviceKey(esc, [remoteOwner, remoteDevice, "connections", me, myDevice])
  {
    match NegateRelativePosition(p)
    case Failure(e) => Failure(e)
    case Success(back) =>
      Success([RelateUnidirectional(esc, me, myDevice, remoteOwner, remoteDevice, p),
               RelateUnidirectional(esc, remoteOwner, remoteDevice, me, myDevice, back)])
  }

  /** Relating from either end records the same two connections: relating
      A to B at position p and B to A at the negated position write the same
      records, in the other order. */
  lemma RelateSymmetric(esc: string -> string, a: string, aDevice: string, b: string, bDevice: string, p: RelativePosition)
    requires NegateRelativePosition(p).Success?
    ensures var q := NegateRelativePosition(p).value;
      Relate(esc, b, bDevice, a, aDevice, q).Success? &&
      Relate(esc, b, bDevice, a, aDevice, q).value == [Relate(esc, a, aDevice, b, bDevice, p).value[1], Relate(esc, a, aDevice, b, bDevice, p).value[0]]
  {
    NegateDirectionInvolution(p.direction);
  }

  /** One device's synced record: `lastSeen` (if set), the marshalled
      `location`, and, for this device, its `connections` keyed by
      (owner, device). */
  datatype DeviceData = DeviceData(lastSeen: Option<int>, location: JsValue, connections: Option<map<(string, string), JsValue>>)

  /** What `processDevices` leaves behind. */
  datatype Targets = Targets(hasCastTargets: bool, possible: set<(string, string)>,
                             unconnected: set<(string, string)>, related: map<JsValue, set<(string, string)>>)

  const NO_TARGETS: Targets := Targets(false, {}, {}, map[])

  /** `now - lastSeen <= DEVICE_SEEN_RECENTLY`; an unset time compares as
      NaN, which is never recent. */
  predicate Recent(d: DeviceData, now: int) {
    d.lastSeen.Some? && now - d.lastSeen.value <= DEVICE_SEEN_RECENTLY
  }

  /** The devices `processDevices` inspects for casting: everyone else's,
      seen recently. */
  predicate Inspected(data: map<(string, string), DeviceData>, me: (string, string), now: int, p: (string, string))
    requires p in data
  {
    p != me && Recent(data[p], now)
  }

  /** This device's `connections`, none when its record or the field is
      missing. */
  function ConnectionsOf(data: map<(string, string), DeviceData>, me: (string, string)): map<(string, string), JsValue> {
    if me in data && data[me].connections.Some? then data[me].connections.value else map[]
  }

  /** `relPos.direction` of a stored connection; reading the member of
      `null` or `undefined` throws. */
  function DirectionOf(parse: string -> Result<JsValue, JsError>, raw: JsValue): Result<JsValue, JsError> {
    match Unmarshal(parse, raw)
    case Failure(e) => Failure(e)
    case Success(v) =>
      if v == Null || v == Undefined then Failure(TypeError("Cannot read property 'direction'"))
      else Success(Member(v, "direction"))
  }

  /** `processDevices(data)`. Every other device seen within the last 5000 ms
      whose location is not known to be far is a possible cast target. Those
      that this device has a connection to are filed under the connection's
      direction; the rest are unconnected. An exception anywhere leaves the
      previous state (`None`). The boolean reports `onPossibleNearbyDevices`,
      fired when targets appear where there were none. */
  function ProcessDevices(parse: string -> Result<JsValue, JsError>, isNearby: JsValue -> Option<bool>,
                          prev: Targets, data: map<(string, string), DeviceData>, me: (string, string), now: int): (r: Option<(Targets, bool)>)
    ensures r.Some? ==> r.value.0.unconnected <= r.value.0.possible && me !in r.value.0.possible
    ensures r.Some? ==> (r.value.1 <==> r.value.0.possible != {} && !prev.hasCastTargets)
    ensures r.Some? ==> r.value.0.hasCastTargets == (r.value.0.possible != {})
  {
    if exists p :: p in data && Inspected(data, me, now, p) && Unmarshal(parse, data[p].location).Failure? then None
    else
      var possible := set p | p in data && Inspected(data, me, now, p) && isNearby(Unmarshal(parse, data[p].location).value) != Some(false);
      var connections := ConnectionsOf(data, me);
      if exists p :: p in connections && p in possible && DirectionOf(parse, connections[p]).Failure? then None
      else
        var connected := set p | p in connections && p in possible;
        var directions := set p | p in connected :: DirectionOf(parse, connections[p]).value;
        var related := map d | d in directions :: set p | p in connected && DirectionOf(parse, connections[p]).value == d;
        var t := Targets(possible != {}, possible, possible - connected, related);
        Some((t, possible != {} && !prev.hasCastTargets))
  }

  /** `getRelatedDevices(direction)`: the devices filed under a direction,
      none if there are none. */
  function RelatedDevices(t: Targets, d: JsValue): (r: set<(string, string)>)
    ensures r != {} ==> d in t.related
    ensures d in t.related ==> r == t.related[d]
  {
    if d in t.related then t.related[d] else {}
  }

  /** When processing succeeds, a device is a possible target exactly when
      it is another device seen recently and not reported far away. */
  lemma PossibleTargets(parse: string -> Result<JsValue, JsError>, isNearby: JsValue -> Option<bool>,
                        prev: Targets, data: map<(string, string), DeviceData>, me: (string, string), now: int,
                        p: (string, string))
    ensures var r := ProcessDevices(parse, isNearby, prev, data, me, now);
      r.Some? ==> var t := r.value.0;
      p in t.possible <==> p in data && p != me && Recent(data[p], now) &&
                           isNearby(Unmarshal(parse, data[p].location).value) != Some(false)
  {
  }

  /** When processing succeeds, a possible target this device has no
      connection to is unconnected, and only those are. */
  lemma UnconnectedTargets(parse: string -> Result<JsValue, JsError>, isNearby: JsValue -> Option<bool>,
                           prev: Targets, data: map<(string, string), DeviceData>, me: (string, string), now: int,
                           p: (string, string))
    ensures var r := ProcessDevices(parse, isNearby, prev, data, me, now);
      r.Some? ==> var t := r.value.0;
      var connections := ConnectionsOf(data, me);
      p in t.unconnected <==> p in t.possible && p !in connections
  {
  }

  /** When processing succeeds, a connected possible target is filed under
      exactly the direction of this device's connection to it. */
  lemma RelatedTargets(parse: string -> Result<JsValue, JsError>, isNearby: JsValue -> Option<bool>,
                       prev: Targets, data: map<(string, string), DeviceData>, me: (string, string), now: int,
                       p: (string, string), d: JsValue)
    ensures var r := ProcessDevices(parse, isNearby, prev, data, me, now);
      r.Some? ==> var t := r.value.0;
      var connections := ConnectionsOf(data, me);
      p in RelatedDevices(t, d) <==> p in t.possible && p in connections && DirectionOf(parse, connections[p]) == Success(d)
  {
    var r := ProcessDevices(parse, isNearby, prev, data, me, now);
    if r.Some? {
      var t := r.value.0;
      var connections := ConnectionsOf(data, me);
      if p in t.possible && p in connections && DirectionOf(parse, connections[p]) == Success(d) {
        assert d in t.related;
      }
    }
  }

  /** Processing fails exactly when an inspected device's location cannot
      be unmarshalled, or when a connection to a possible target has no
      readable direction. */
  lemma ProcessDevicesFails(parse: string -> Result<JsValue, JsError>, isNearby: JsValue -> Option<bool>,
                            prev: Targets, data: map<(string, string), DeviceData>, me: (string, string), now: int)
    ensures ProcessDevices(parse, isNearby, prev, data, me, now).None? <==>
      (exists p :: p in data && Inspected(data, me, now, p) && Unmarshal(parse, data[p].location).Failure?) ||
      (exists p :: p in data && p in ConnectionsOf(data, me) && Inspected(data, me, now, p) &&
                   Unmarshal(parse, data[p].location).Success? &&
                   isNearby(Unmarshal(parse, data[p].location).value) != Some(false) &&
                   DirectionOf(parse, ConnectionsOf(data, me)[p]).Failure?)
  {
  }
}

=== FILE: identity.dfy ===
/** Identity of a desktop client (the Node/desktop variant): a username taken
    from a Vanadium account name, and device and entity names built from it.
    `uuid.v4()` is an oracle: each call is a parameter. */
module Identity {
  import opened Wrappers
  import opened Text

  const DEVICE_TYPE: string := "desktop"

  /** JavaScript's string conversion of a possibly undefined string, as `+`
      performs it. */
  function JsConcatOperand(v: Option<string>): string {
    match v
    case Some(s) => s
    case None => "undefined"
  }

  /** An account name that is missing, empty or 'unknown' gets a generated
      username. */
  predicate NeedsAutoUsername(accountName: Option<string>) {
    accountName.None? || accountName.value == "" || accountName.value == "unknown"
  }

  /** `extractUsername`. `autoId` is the value `uuid.v4()` returns. The result
      is None where JavaScript yields `undefined`. */
  function ExtractUsername(accountName: Option<string>, autoId: string): (r: Option<string>)
    ensures NeedsAutoUsername(accountName) ==> r == Some(autoId)
    ensures !NeedsAutoUsername(accountName) && r != accountName ==> r.Some? ==> '/' !in r.value
    ensures r.None? ==> accountName == Some("dev.v.io/u")
  {
    if NeedsAutoUsername(accountName) then Some(autoId)
    else
      var parts := Split(accountName.value, "/");
      if parts[0] != "dev.v.io" || |parts| < 2 || parts[1] != "u" then accountName
      else if |parts| < 3 then
        JoinSplit(accountName.value, "/");
        assert Join(parts[1..], "/") == "u";
        assert Join(parts, "/") == "dev.v.io" + "/" + "u";
        assert "dev.v.io" + "/" + "u" == "dev.v.io/u";
        None
      else
        SplitPiecesAvoidSeparator(accountName.value, "/");
        NoIndexNoChar(parts[2], '/');
        Some(parts[2])
  }

  lemma NoIndexNoChar(s: string, c: char)
    requires IndexOf(s, [c], 0).None?
    ensures c !in s
  {
    if c in s {
      var j :| 0 <= j < |s| && s[j] == c;
      assert s[j..j + 1] == [c];
      assert OccursAt(s, [c], j);
    }
  }

  /** A client identity. */
  datatype Id = Id(username: Option<string>, deviceType: string, deviceId: string,
                   deviceName: string, entityName: string)

  /** `new Identity(accountName)`, with `autoId` and `deviceId` the two values
      `uuid.v4()` returns, in call order. */
  function NewIdentity(accountName: Option<string>, autoId: string, deviceId: string): (id: Id)
    ensures id.username == ExtractUsername(accountName, autoId)
    ensures id.deviceName == DEVICE_TYPE + "_" + deviceId
    ensures id.entityName == JsConcatOperand(id.username) + "/" + id.deviceName
  {
    var username := ExtractUsername(accountName, autoId);
    var deviceName := DEVICE_TYPE + "_" + deviceId;
    Id(username, DEVICE_TYPE, deviceId, deviceName, JsConcatOperand(username) + "/" + deviceName)
  }

  /** The first three '/'-segments of a name built from three slash-free
      pieces. */
  lemma SplitThree(a: string, b: string, user: string, rest: string)
    requires '/' !in a && '/' !in b && '/' !in user
    requires |rest| == 0 || rest[0] == '/'
    ensures |Split(a + "/" + b + "/" + user + rest, "/")| >= 3
    ensures Split(a + "/" + b + "/" + user + rest, "/")[..3] == [a, b, user]
  {
    var tail := user + rest;
    var s1 := b + ['/'] + tail;
    var s0 := a + ['/'] + s1;
    assert a + "/" + b + "/" + user + rest == s0;
    SplitAtFirst(a, '/', s1);
    SplitAtFirst(b, '/', tail);
    var x := Split(tail, "/");
    SplitFirstPiece(user, rest);
    assert Split(s0, "/") == [a] + ([b] + x);
    assert ([a] + ([b] + x))[..3] == [a, b, x[0]];
  }

  /** A slash-free text followed by nothing or by a slash is the first piece. */
  lemma SplitFirstPiece(user: string, rest: string)
    requires '/' !in user
    requires |rest| == 0 || rest[0] == '/'
    ensures |Split(user + rest, "/")| >= 1 && Split(user + rest, "/")[0] == user
  {
    if |rest| == 0 {
      assert user + rest == user;
      SplitNoSeparator(user, '/');
    } else {
      assert user + rest == user + ['/'] + rest[1..];
      SplitAtFirst(user, '/', rest[1..]);
    }
  }

  /** A name of the form 'dev.v.io/u/<user>' or 'dev.v.io/u/<user>/...' yields
      <user>. */
  lemma DevAccountUsername(user: string, rest: string)
    requires '/' !in user
    requires |rest| == 0 || rest[0] == '/'
    ensures ExtractUsername(Some("dev.v.io/u/" + user + rest), "") == Some(user)
  {
    var s := "dev.v.io/u/" + user + rest;
    assert s == "dev.v.io" + "/" + "u" + "/" + user + rest;
    SplitThree("dev.v.io", "u", user, rest);
    var parts := Split(s, "/");
    assert parts[0] == "dev.v.io" && parts[1] == "u" && parts[2] == user by {
      assert parts[..3][0] == parts[0] && parts[..3][1] == parts[1] && parts[..3][2] == parts[2];
    }
    assert !NeedsAutoUsername(Some(s)) by {
      assert s[0] == 'd' && s[9] == 'u';
    }
  }

  /** A name with no '/' that is neither empty nor 'unknown' is taken as the
      username unchanged. */
  lemma PlainNameUnchanged(name: string, autoId: string)
    requires '/' !in name && name != "" && name != "unknown"
    ensures ExtractUsername(Some(name), autoId) == Some(name)
  {
    SplitNoSeparator(name, '/');
    if name == "dev.v.io" {
      assert 'd' == name[0];
    }
  }

  /** Two generated usernames differ when the generated ids differ. */
  lemma AutoUsernamesDiffer(a: Option<string>, b: Option<string>, idA: string, idB: string)
    requires NeedsAutoUsername(a) && NeedsAutoUsername(b) && idA != idB
    ensures NewIdentity(a, idA, "").username != NewIdentity(b, idB, "").username
  {
  }

  /** An account of the shape the repository's tests use, such as
      'dev.v.io/u/joeuser@google.com/chrome': a user signed in through
      Chrome. */
  lemma ExampleAccount(user: string, deviceId: string)
    requires '/' !in user
    ensures NewIdentity(Some("dev.v.io/u/" + user + "/chrome"), "", deviceId).username == Some(user)
    ensures NewIdentity(Some("dev.v.io/u/" + user + "/chrome"), "", deviceId).entityName
      == user + "/desktop_" + deviceId
  {
    DevAccountUsername(user, "/chrome");
  }

  /** The string 'false' is an ordinary name. */
  lemma FalseIsAName(autoId: string)
    ensures ExtractUsername(Some("false"), autoId) == Some("false")
  {
    PlainNameUnchanged("false", autoId);
  }
}

=== FILE: invitations.dfy ===
/** Invitations of the desktop client: usernames escaped into Syncbase key
    elements, the keys invitations are stored under, and the diffing of the
    invitation tree that turns each sync update into invite and dismiss
    events. */
module Invitations {
  import opened Wrappers
  import opened Text
  import opened VErrors
  import JsValues

  /** The escape table: '_' -> '_', '.' -> 'd', '@' -> 'a'. */
  function EscCode(c: char): Option<char> {
    if c == '_' then Some('_')
    else if c == '.' then Some('d')
    else if c == '@' then Some('a')
    else None
  }

  /** The inverse table, read as JavaScript reads a missing member: the text
      `undefined` is substituted for an unknown code. */
  function InvCode(c: char): string {
    if c == '_' then "_"
    else if c == 'd' then "."
    else if c == 'a' then "@"
    else "undefined"
  }

  /** The inverse table undoes the escape table. */
  lemma InvCodeInverts(c: char)
    ensures EscCode(c).Some? ==> InvCode(EscCode(c).value) == [c]
    ensures EscCode(c).None? <==> c != '_' && c != '.' && c != '@'
  {
  }

  /** `escapeUsername`: each '_', '.' and '@' becomes '_' followed by its code. */
  function Escape(s: string): (r: string)
    ensures '.' !in r && '@' !in r
    ensures |r| >= |s|
  {
    if |s| == 0 then ""
    else
      var head := match EscCode(s[0]) case Some(code) => ['_', code] case None => [s[0]];
      head + Escape(s[1..])
  }

  /** `unescapeUsername`: every '_' followed by a character other than a line
      terminator is replaced through the inverse table, scanning left to
      right without overlap. */
  function Unescape(s: string): string
  {
    if |s| == 0 then ""
    else if |s| >= 2 && s[0] == '_' && !IsLineTerminator(s[1]) then InvCode(s[1]) + Unescape(s[2..])
    else [s[0]] + Unescape(s[1..])
  }

  lemma EscapeCons(c: char, s: string)
    ensures Escape([c] + s) ==
      (match EscCode(c) case Some(code) => ['_', code] case None => [c]) + Escape(s)
  {
    assert ([c] + s)[1..] == s;
  }

  /** Unescaping undoes escaping. */
  lemma {:induction false} EscapeRoundTrip(s: string)
    ensures Unescape(Escape(s)) == s
    decreases |s|
  {
    if |s| > 0 {
      EscapeRoundTrip(s[1..]);
      var rest := Escape(s[1..]);
      var c := s[0];
      assert s == [c] + s[1..];
      match EscCode(c)
      case Some(code) =>
        var e := ['_', code] + rest;
        assert Escape(s) == e;
        assert e[2..] == rest;
        assert Unescape(e) == InvCode(code) + Unescape(rest);
      case None =>
        var e := [c] + rest;
        assert Escape(s) == e;
        assert e[1..] == rest;
        if |e| >= 2 && e[0] == '_' {
          assert false;
        }
        assert Unescape(e) == [c] + Unescape(rest);
    }
  }

  /** Different usernames escape to different key elements. */
  lemma EscapeInjective(a: string, b: string)
    requires Escape(a) == Escape(b)
    ensures a == b
  {
    EscapeRoundTrip(a);
    EscapeRoundTrip(b);
  }

  /** A code outside the table unescapes to the text 'undefined'. */
  lemma UnknownCodeBecomesUndefined(c: char)
    requires c != '_' && c != 'd' && c != 'a' && !IsLineTerminator(c)
    ensures Unescape(['_', c]) == "undefined"
  {
    assert ['_', c][2..] == "";
  }

  /** `invitationKey(owner, recipient)`. */
  function InvitationKey(owner: string, recipient: string): (k: seq<string>)
    ensures |k| == 3 && k[0] == "invitations"
    ensures Unescape(k[1]) == owner && Unescape(k[2]) == recipient
  {
    EscapeRoundTrip(owner);
    EscapeRoundTrip(recipient);
    ["invitations", Escape(owner), Escape(recipient)]
  }

  /** A key write of the client: a put of a value, or a delete. */
  datatype Write = Put(key: seq<string>, value: string) | Delete(key: seq<string>)

  /** The owner an invitation of the user names: the invite the user
      accepted, if any, else the user. */
  function InviteOwner(activeInvite: Option<string>, me: string): (o: string)
    ensures o == me || Some(o) == activeInvite
    ensures activeInvite.Some? && activeInvite.value != "" ==> o == activeInvite.value
  {
    if activeInvite.Some? && activeInvite.value != "" then activeInvite.value else me
  }

  /** `invite(username)`: the user first joins the recipient's invitations
      syncgroup (`joinErr` is how that fails, if it does); only then is the
      invitation written, naming the owner being invited to and recording
      the sender. */
  function Invite(activeInvite: Option<string>, me: string, recipient: string, joinErr: Option<VError>): (w: Option<Write>)
    ensures w.Some? <==> joinErr.None?
    ensures w.Some? ==> w.value.Put? && w.value.value == me && |w.value.key| == 3 && w.value.key[0] == "invitations"
    ensures w.Some? ==> Unescape(w.value.key[1]) == InviteOwner(activeInvite, me) && Unescape(w.value.key[2]) == recipient
  {
    if joinErr.Some? then None
    else Some(Put(InvitationKey(InviteOwner(activeInvite, me), recipient), me))
  }

  /** `decline(owner)`: deletes the invitation from `owner` to the user. */
  function Decline(owner: string, me: string): (w: Write)
    ensures w.Delete? && |w.key| == 3 && Unescape(w.key[1]) == owner && Unescape(w.key[2]) == me
  {
    Delete(InvitationKey(owner, me))
  }

  /** Invitation tree as synced: escaped owner -> escaped recipient -> sender. */
  type Tree = map<string, map<string, string>>

  /** An invite or dismiss notification, with the escaped key elements the
      tree holds; the event passes them through `Unescape`. */
  datatype Entry = Entry(owner: string, recipient: string, sender: string)

  /** The owner's record, or an empty one. */
  function RecordOf(t: Tree, owner: string): map<string, string> {
    if owner in t then t[owner] else map[]
  }

  /** `record[recipient]` is truthy: the recipient is filed with a truthy
      sender, or is not filed and names a property every object inherits. */
  predicate KnownIn(record: map<string, string>, recipient: string) {
    if recipient in record then record[recipient] != "" else recipient in JsValues.INHERITED
  }

  /** The previous state knows (owner, recipient): `ownerInvites[recipient]`
      is truthy for the owner's record, or for the fresh `{}` of an owner it
      did not have. */
  predicate Known(prev: Tree, owner: string, recipient: string) {
    KnownIn(RecordOf(prev, owner), recipient)
  }

  /** `e` is an entry of the new tree that was not known before. */
  predicate IsInvited(prev: Tree, data: Option<Tree>, e: Entry) {
    data.Some? && e.owner in data.value && e.recipient in data.value[e.owner]
    && e.sender == data.value[e.owner][e.recipient] && !Known(prev, e.owner, e.recipient)
  }

  /** `e` is an entry of the previous tree that the new one does not
      re-confirm. */
  predicate IsDismissed(prev: Tree, data: Option<Tree>, e: Entry) {
    e.owner in prev && e.recipient in prev[e.owner] && e.sender == prev[e.owner][e.recipient]
    && !(data.Some? && e.owner in data.value && e.recipient in data.value[e.owner] && e.sender != "")
  }

  /** Entries of the previous record of an owner that the new record does not
      confirm. */
  function Remaining(prevRec: map<string, string>, newRec: map<string, string>): map<string, string> {
    map r | r in prevRec && !(r in newRec && prevRec[r] != "") :: prevRec[r]
  }

  /** The inner walk over one owner's new record: confirmed recipients are
      crossed off the previous record, recipients named like an inherited
      property are passed over (deleting a property the record does not own
      does nothing), and the others are returned as new. */
  method CrossOff(prevRec: map<string, string>, newRec: map<string, string>)
    returns (remaining: map<string, string>, unseen: set<string>)
    ensures remaining == Remaining(prevRec, newRec)
    ensures forall r :: r in unseen <==> r in newRec && !KnownIn(prevRec, r)
  {
    remaining := prevRec;
    unseen := {};
    var recipients := newRec.Keys;
    while recipients != {}
      invariant recipients <= newRec.Keys
      invariant forall r :: r in remaining <==> r in prevRec && !(r in newRec.Keys - recipients && prevRec[r] != "")
      invariant forall r :: r in remaining ==> remaining[r] == prevRec[r]
      invariant forall r :: r in unseen <==> r in newRec.Keys - recipients && !KnownIn(prevRec, r)
      decreases recipients
    {
      var r :| r in recipients;
      if r in remaining && remaining[r] != "" {
        remaining := remaining - {r};
      } else if r in remaining || r !in JsValues.INHERITED {
        unseen := unseen + {r};
      }
      recipients := recipients - {r};
    }
  }

  /** `processUpdates(data)`, walking the new tree as the client does:
      confirmed entries are crossed off a copy of the previous tree, the rest
      fire `onInvite`; whatever is left of the previous tree fires
      `onDismiss`; the new tree (or an empty one) is stored. */
  method ProcessUpdates(prev: Tree, data: Option<Tree>) returns (invited: set<Entry>, dismissed: set<Entry>, stored: Tree)
    ensures forall e :: e in invited <==> IsInvited(prev, data, e)
    ensures forall e :: e in dismissed <==> IsDismissed(prev, data, e)
    ensures stored == data.GetOr(map[])
  {
    var pending := prev;
    invited := {};
    if data.Some? {
      var d := data.value;
      var owners := d.Keys;
      while owners != {}
        invariant owners <= d.Keys
        invariant forall o :: o in pending <==> o in prev || o in d.Keys - owners
        invariant forall o :: o in pending && o !in d.Keys - owners ==> pending[o] == prev[o]
        invariant forall o :: o in d.Keys - owners ==> pending[o] == Remaining(RecordOf(prev, o), d[o])
        invariant forall e :: e in invited <==> e.owner in d.Keys - owners && IsInvited(prev, data, e)
        decreases owners
      {
        var o :| o in owners;
        var remaining, unseen := CrossOff(RecordOf(pending, o), d[o]);
        invited := invited + set r | r in unseen :: Entry(o, r, d[o][r]);
        pending := pending[o := remaining];
        owners := owners - {o};
      }
    }
    assert forall o :: o in pending <==> o in prev || (data.Some? && o in data.value);
    assert forall o :: o in pending ==>
      pending[o] == if data.Some? && o in data.value then Remaining(RecordOf(prev, o), data.value[o]) else prev[o];
    dismissed := set o, r | o in pending && r in pending[o] :: Entry(o, r, pending[o][r]);
    LeftoverDismissed(prev, data, pending);
    stored := data.GetOr(map[]);
  }

  /** What is left of the previous tree once the new one is crossed off is
      exactly what gets dismissed. */
  lemma LeftoverDismissed(prev: Tree, data: Option<Tree>, pending: Tree)
    requires forall o :: o in pending <==> o in prev || (data.Some? && o in data.value)
    requires forall o :: o in pending ==>
      pending[o] == if data.Some? && o in data.value then Remaining(RecordOf(prev, o), data.value[o]) else prev[o]
    ensures forall e :: e in (set o, r | o in pending && r in pending[o] :: Entry(o, r, pending[o][r])) <==> IsDismissed(prev, data, e)
  {
    var dismissed := set o, r | o in pending && r in pending[o] :: Entry(o, r, pending[o][r]);
    forall e
      ensures e in dismissed <==> IsDismissed(prev, data, e)
    {
      if IsDismissed(prev, data, e) {
        assert e.owner in pending && e.recipient in pending[e.owner];
      }
    }
  }

  /** A recipient whose escaped name is an inherited property, such as
      "toString", reads as known even when the owner's record lacks it, so
      it is never announced, and it is not in the previous tree to be
      dismissed. */
  lemma InheritedRecipientIgnored(prev: Tree, data: Tree, owner: string)
    requires "toString" !in RecordOf(prev, owner)
    ensures forall sender :: !IsInvited(prev, Some(data), Entry(owner, "toString", sender))
    ensures forall sender :: !IsDismissed(prev, Some(data), Entry(owner, "toString", sender))
  {
    assert "toString" in JsValues.INHERITED;
  }

  /** An invitation written by `invite` reaches the recipient's client as an
      invite event naming owner, recipient and sender, when it was not there
      before. */
  lemma InviteIsDelivered(activeInvite: Option<string>, me: string, recipient: string, prev: Tree, data: Tree)
    requires Invite(activeInvite, me, recipient, None).value.key[1] in data
    requires Invite(activeInvite, me, recipient, None).value.key[2] in data[Invite(activeInvite, me, recipient, None).value.key[1]]
    requires data[Invite(activeInvite, me, recipient, None).value.key[1]][Invite(activeInvite, me, recipient, None).value.key[2]] == me
    requires !Known(prev, Invite(activeInvite, me, recipient, None).value.key[1], Invite(activeInvite, me, recipient, None).value.key[2])
    ensures exists e ::
      (IsInvited(prev, Some(data), e) && Unescape(e.recipient) == recipient && e.sender == me
       && Unescape(e.owner) == InviteOwner(activeInvite, me))
  {
    var w := Invite(activeInvite, me, recipient, None).value;
    var e := Entry(w.key[1], w.key[2], me);
    assert IsInvited(prev, Some(data), e);
  }
}

=== FILE: js_array.dfy ===
/** The JavaScript array operations the ordered lists rely on:
    `splice` inserting or removing one element, with its clamping of the
    start index, and indexing, which yields undefined out of range. */
module JsArrays {
  import opened Wrappers

  /** Where `splice(start, ...)` acts: a negative start counts from the end
      (but not past the front), a start past the end means the end. */
  function SpliceStart(start: int, len: nat): (p: nat)
    ensures p <= len
    ensures 0 <= start <= len ==> p == start
    ensures start < 0 && 0 <= len + start ==> p == len + start
    ensures start < 0 && len + start < 0 ==> p == 0
  {
    if start < 0 then (if len + start < 0 then 0 else len + start)
    else if start > len then len
    else start
  }

  /** `s.splice(start, 0, x)`. */
  function InsertAt<T>(s: seq<T>, start: int, x: T): (r: seq<T>)
    ensures |r| == |s| + 1
    ensures r[SpliceStart(start, |s|)] == x
    ensures r[..SpliceStart(start, |s|)] == s[..SpliceStart(start, |s|)]
    ensures r[SpliceStart(start, |s|) + 1..] == s[SpliceStart(start, |s|)..]
  {
    var p := SpliceStart(start, |s|);
    s[..p] + [x] + s[p..]
  }

  /** `s.splice(start, 1)`: the array without the element at the start, and
      that element, if there was one. */
  function RemoveAt<T>(s: seq<T>, start: int): (r: (seq<T>, Option<T>))
    ensures SpliceStart(start, |s|) < |s| ==> r == (s[..SpliceStart(start, |s|)] + s[SpliceStart(start, |s|) + 1..], Some(s[SpliceStart(start, |s|)]))
    ensures SpliceStart(start, |s|) == |s| ==> r == (s, None)
  {
    var p := SpliceStart(start, |s|);
    if p < |s| then (s[..p] + s[p + 1..], Some(s[p])) else (s, None)
  }

  /** `s[i]`. */
  function At<T>(s: seq<T>, i: int): (r: Option<T>)
    ensures r.Some? <==> 0 <= i < |s|
    ensures r.Some? ==> r.value == s[i]
  {
    if 0 <= i < |s| then Some(s[i]) else None
  }

  /** `s[i]` for `i >= 0` and `s[s.length + i]` for `i < 0`: the lookup
      both ordered lists offer, counting a negative index from the end. */
  function FromEither<T>(s: seq<T>, i: int): (r: Option<T>)
    ensures r.Some? <==> -|s| <= i < |s|
    ensures 0 <= i < |s| ==> r == Some(s[i])
    ensures -|s| <= i < 0 ==> r == Some(s[|s| + i])
  {
    if i >= 0 then At(s, i) else At(s, |s| + i)
  }

  /** Removing at the index just inserted at gives back the array and the
      element. */
  lemma RemoveUndoesInsert<T>(s: seq<T>, i: int, x: T)
    requires 0 <= i <= |s|
    ensures RemoveAt(InsertAt(s, i, x), i) == (s, Some(x))
  {
    var r := InsertAt(s, i, x);
    assert r[..i] + r[i + 1..] == s;
  }

  /** Inserting what was removed, where it was, restores the array. */
  lemma InsertUndoesRemove<T>(s: seq<T>, i: int)
    requires 0 <= i < |s|
    ensures InsertAt(RemoveAt(s, i).0, i, s[i]) == s
  {
    var r := RemoveAt(s, i).0;
    assert r[..i] + [s[i]] + r[i..] == s;
  }
}

=== FILE: js_value.dfy ===
/** JavaScript values as the sync layer stores them, with the language's
    truthiness and `typeof`, and the marshalling of values into Syncbase
    strings. `JSON.stringify` and `JSON.parse` are oracles passed in as
    `stringify` and `parse`; `JsonPair` states that they are inverse on JSON values. Numbers
    are integers: fractions, NaN and infinities are not modelled. */
module JsValues {
  import opened Wrappers
  import opened Text

  datatype JsValue =
    | Undefined
    | Null
    | Bool(b: bool)
    | Num(n: int)
    | Str(s: string)
    | Arr(items: seq<JsValue>)
    | Obj(fields: map<string, JsValue>)

  datatype JsError = TypeError(message: string) | SyntaxError(message: string)

  /** The properties every plain object inherits from `Object.prototype`;
      reading one of them from an object that lacks it as its own gives a
      function or an object, never a falsy value. */
  const INHERITED: set<string> := {
    "constructor", "toString", "toLocaleString", "valueOf", "hasOwnProperty",
    "isPrototypeOf", "propertyIsEnumerable", "__proto__", "__defineGetter__",
    "__defineSetter__", "__lookupGetter__", "__lookupSetter__"}

  /** JavaScript truthiness. */
  predicate Truthy(v: JsValue) {
    match v
    case Undefined => false
    case Null => false
    case Bool(b) => b
    case Num(n) => n != 0
    case Str(s) => s != ""
    case Arr(_) => true
    case Obj(_) => true
  }

  /** `typeof v`; note that `typeof null` is 'object'. */
  function TypeOf(v: JsValue): string {
    match v
    case Undefined => "undefined"
    case Null => "object"
    case Bool(_) => "boolean"
    case Num(_) => "number"
    case Str(_) => "string"
    case Arr(_) => "object"
    case Obj(_) => "object"
  }

  /** `obj[name]` on a value that has properties: a missing one is
      undefined. */
  function Member(v: JsValue, name: string): JsValue {
    match v
    case Obj(f) => if name in f then f[name] else Undefined
    case _ => Undefined
  }

  /** `String(v)`: an array joins its elements' strings with commas, a
      null or undefined element giving the empty string; an object gives
      "[object Object]". */
  function StringOf(v: JsValue): (s: string)
    ensures v.Str? ==> s == v.s
    ensures v.Arr? && |v.items| == 1 && v.items[0].Str? ==> s == v.items[0].s
  {
    match v
    case Undefined => "undefined"
    case Null => "null"
    case Bool(b) => if b then "true" else "false"
    case Num(n) => IntToString(n)
    case Str(s) => s
    case Arr(items) =>
      Join(seq(|items|, i requires 0 <= i < |items| =>
        if items[i] == Null || items[i] == Undefined then "" else StringOf(items[i])), ",")
    case Obj(_) => "[object Object]"
  }

  /** `JSON.parse` reads the literals `null`, `true`, `false` and decimal
      integers as themselves, and refuses the texts "undefined" and
      "[object Object]". */
  ghost predicate ReadsLiterals(parse: string -> Result<JsValue, JsError>) {
    parse("null") == Success(Null) && parse("true") == Success(Bool(true)) && parse("false") == Success(Bool(false))
    && (forall n :: parse(IntToString(n)) == Success(Num(n)))
    && parse("undefined").Failure? && parse("[object Object]").Failure?
  }

  /** A value JSON can carry whole: undefined nowhere in it. `JSON.stringify`
      drops an undefined member and writes an undefined array element as
      `null`, so a value holding one does not come back as itself. */
  predicate IsJson(v: JsValue) {
    match v
    case Undefined => false
    case Arr(items) => forall i :: 0 <= i < |items| ==> IsJson(items[i])
    case Obj(fields) => forall k :: k in fields ==> IsJson(fields[k])
    case _ => true
  }

  /** `JSON.stringify` and `JSON.parse` undo each other on every JSON value,
      and its text is never empty. */
  ghost predicate JsonPair(stringify: JsValue -> string, parse: string -> Result<JsValue, JsError>) {
    forall v :: IsJson(v) ==> |stringify(v)| > 0 && parse(stringify(v)) == Success(v)
  }

  /** What `marshal` carries whole: undefined itself, or a JSON value. */
  predicate Marshallable(v: JsValue) {
    v == Undefined || IsJson(v)
  }

  /** `marshal(x)`: `JSON.stringify(x)`, which is undefined for undefined. */
  function Marshal(stringify: JsValue -> string, x: JsValue): (r: JsValue)
    ensures x == Undefined <==> r == Undefined
    ensures r != Undefined ==> r.Str?
  {
    if x == Undefined then Undefined else Str(stringify(x))
  }

  /** `unmarshal(x)`: falsy values come back as they are, objects are
      refused, anything else goes through `JSON.parse` (which reads booleans
      and numbers as their own text). */
  function Unmarshal(parse: string -> Result<JsValue, JsError>, x: JsValue): (r: Result<JsValue, JsError>)
    ensures !Truthy(x) ==> r == Success(x)
    ensures Truthy(x) && TypeOf(x) == "object" ==> r.Failure? && r.error.TypeError?
    ensures x.Str? && x.s != "" ==> r == parse(x.s)
  {
    if !Truthy(x) then Success(x)
    else match x
      case Str(s) => parse(s)
      case Bool(b) => Success(x)
      case Num(n) => Success(x)
      case _ => Failure(TypeError("Unexpected persisted object"))
  }

  /** `readValue(entry)`: an object-valued node is read through its '_'
      member; `null` is an object too, so reading its member fails. */
  function ReadValue(parse: string -> Result<JsValue, JsError>, entry: JsValue): (r: Result<JsValue, JsError>)
    ensures entry == Null ==> r.Failure? && r.error.TypeError?
    ensures entry.Obj? ==> r == Unmarshal(parse, Member(entry, "_"))
    ensures TypeOf(entry) != "object" ==> r == Unmarshal(parse, entry)
  {
    match entry
    case Null => Failure(TypeError("Cannot read property '_' of null"))
    case Obj(_) => Unmarshal(parse, Member(entry, "_"))
    case Arr(_) => Unmarshal(parse, Undefined)
    case _ => Unmarshal(parse, entry)
  }

  /** Unmarshalling undoes marshalling. */
  lemma MarshalRoundTrip(stringify: JsValue -> string, parse: string -> Result<JsValue, JsError>, x: JsValue)
    requires JsonPair(stringify, parse)
    requires Marshallable(x)
    ensures Unmarshal(parse, Marshal(stringify, x)) == Success(x)
  {
    if x != Undefined {
      assert |stringify(x)| > 0 && parse(stringify(x)) == Success(x);
    }
  }

  /** A marshalled value stored directly, or as the '_' member of a node with
      children, reads back as itself. */
  lemma ReadValueRoundTrip(stringify: JsValue -> string, parse: string -> Result<JsValue, JsError>,
                           x: JsValue, children: map<string, JsValue>)
    requires JsonPair(stringify, parse)
    requires Marshallable(x)
    ensures ReadValue(parse, Marshal(stringify, x)) == Success(x)
    ensures ReadValue(parse, Obj(children["_" := Marshal(stringify, x)])) == Success(x)
  {
    MarshalRoundTrip(stringify, parse, x);
  }
}

=== FILE: message_order.dfy ===
/** The time order in which chat messages are shown: both message
    processors sort a batch ascending by the `timestamp` member. The model
    sorts by insertion, which keeps messages with equal timestamps in
    arrival order. */
module MessageOrder {
  import opened JsValues

  /** A message's `timestamp`; a message without a numeric one sorts as 0. */
  function Stamp(m: JsValue): int {
    var t := Member(m, "timestamp");
    if t.Num? then t.n else 0
  }

  predicate Sorted(s: seq<JsValue>) {
    forall i, j :: 0 <= i < j < |s| ==> Stamp(s[i]) <= Stamp(s[j])
  }

  /** Inserts `m` into a sorted sequence after every element whose timestamp
      is not later than its own. */
  function Insert(m: JsValue, s: seq<JsValue>): (r: seq<JsValue>)
    requires Sorted(s)
    ensures Sorted(r)
    ensures multiset(r) == multiset(s) + multiset{m}
    ensures |r| == |s| + 1
    ensures r[0] == m || (s != [] && r[0] == s[0])
  {
    if s == [] then [m]
    else if Stamp(m) < Stamp(s[0]) then [m] + s
    else
      var rest := Insert(m, s[1..]);
      assert s == [s[0]] + s[1..];
      assert Stamp(s[0]) <= Stamp(rest[0]);
      [s[0]] + rest
  }

  /** `batch.sort(cmp)` with `cmp(a, b) = a.timestamp - b.timestamp`. */
  function SortByStamp(s: seq<JsValue>): (r: seq<JsValue>)
    ensures Sorted(r)
    ensures multiset(r) == multiset(s)
    ensures |r| == |s|
  {
    if s == [] then []
    else
      assert s == s[..|s| - 1] + [s[|s| - 1]];
      Insert(s[|s| - 1], SortByStamp(s[..|s| - 1]))
  }

  /** Appending a message no earlier than all others to a sorted sequence
      keeps it sorted, and inserting it is the same as appending. */
  lemma {:induction false} InsertLast(m: JsValue, s: seq<JsValue>)
    requires Sorted(s)
    requires forall k :: 0 <= k < |s| ==> Stamp(s[k]) <= Stamp(m)
    ensures Insert(m, s) == s + [m]
  {
    if s != [] {
      InsertLast(m, s[1..]);
      assert s == [s[0]] + s[1..];
    }
  }

  /** A batch that is already in time order is emitted unchanged. */
  lemma {:induction false} SortKeepsSorted(s: seq<JsValue>)
    requires Sorted(s)
    ensures SortByStamp(s) == s
  {
    if s != [] {
      var init := s[..|s| - 1];
      SortKeepsSorted(init);
      InsertLast(s[|s| - 1], init);
      assert init + [s[|s| - 1]] == s;
    }
  }

  /** Sorting twice is sorting once. */
  lemma SortIdempotent(s: seq<JsValue>)
    ensures SortByStamp(SortByStamp(s)) == SortByStamp(s)
  {
    SortKeepsSorted(SortByStamp(s));
  }

  /** The elements of `batch` that are not undefined, in order. */
  function Present(batch: seq<JsValue>): (r: seq<JsValue>)
    ensures Undefined !in r
    ensures multiset(r) == multiset(batch)[Undefined := 0]
    ensures |r| + multiset(batch)[Undefined] == |batch|
  {
    if batch == [] then []
    else
      assert batch == [batch[0]] + batch[1..];
      (if batch[0] == Undefined then [] else [batch[0]]) + Present(batch[1..])
  }

  /** `n` undefined elements. */
  function Undefineds(n: nat): (r: seq<JsValue>)
    ensures |r| == n && multiset(r) == multiset{}[Undefined := n]
    ensures forall k :: 0 <= k < n ==> r[k] == Undefined
  {
    if n == 0 then [] else Undefineds(n - 1) + [Undefined]
  }

  /** `batch` is in the order `Array.prototype.sort` leaves: every element
      before a defined one is defined and not later than it, so the
      undefined elements come last. */
  predicate InTimeOrder(batch: seq<JsValue>) {
    forall i, j :: 0 <= i < j < |batch| && batch[j] != Undefined ==> batch[i] != Undefined && Stamp(batch[i]) <= Stamp(batch[j])
  }

  /** `batch.sort(cmp)` on an array that may hold undefined: section
      15.4.4.11 of ECMA-262 (5.1) sorts the undefined elements after all
      others without passing them to `cmp`, and the rest by `cmp`. */
  function TimeOrder(batch: seq<JsValue>): (r: seq<JsValue>)
    ensures InTimeOrder(r)
    ensures multiset(r) == multiset(batch)
    ensures Present(r) == SortByStamp(Present(batch))
  {
    var sorted := SortByStamp(Present(batch));
    var n := multiset(batch)[Undefined];
    var r := sorted + Undefineds(n);
    assert multiset(r) == multiset(batch) by {
      assert multiset(r) == multiset(sorted) + multiset(Undefineds(n));
      assert multiset(sorted) == multiset(batch)[Undefined := 0];
    }
    assert Undefined !in sorted by {
      assert Undefined !in multiset(Present(batch));
    }
    PresentKeeps(sorted, n);
    UndefinedsLast(sorted, n);
    r
  }

  /** The time-order comparator reads `timestamp` of both messages it is
      given. The sort never passes it an undefined message, but sorting two
      or more defined ones passes it each of them, so a null among them
      makes it throw. */
  predicate SortThrows(batch: seq<JsValue>) {
    |Present(batch)| >= 2 && Null in batch
  }

  /** A defined message before an undefined one stays in place, and only
      the defined one is passed to the comparator. */
  lemma DefinedThenUndefined(m: JsValue)
    requires m != Undefined
    ensures Present([m, Undefined]) == [m]
    ensures TimeOrder([m, Undefined]) == [m, Undefined]
  {
    var b := [m, Undefined];
    assert b[1..] == [Undefined];
    assert [Undefined][1..] == [];
    assert multiset(b)[Undefined] == 1;
    assert SortByStamp([m]) == [m] by {
      assert [m][..0] == [];
    }
    assert Undefineds(1) == [Undefined];
  }

  /** An undefined element before a defined one moves after it. */
  lemma UndefinedThenDefined(m: JsValue)
    requires m != Undefined
    ensures Present([Undefined, m]) == [m]
    ensures TimeOrder([Undefined, m]) == [m, Undefined]
  {
    var b := [Undefined, m];
    assert Present(b) == [m] by {
      assert b[1..] == [m];
      assert Present([m]) == [m] + Present([m][1..]);
      assert [m][1..] == [];
    }
    assert multiset(b) == multiset([m, Undefined]);
    DefinedThenUndefined(m);
  }

  /** Without undefined elements the sort is the plain time-order sort. */
  lemma TimeOrderWithoutUndefined(batch: seq<JsValue>)
    requires Undefined !in batch
    ensures TimeOrder(batch) == SortByStamp(batch)
  {
    PresentAll(batch);
    assert Undefineds(0) == [];
  }

  /** A sequence without undefined elements is all present. */
  lemma {:induction false} PresentAll(batch: seq<JsValue>)
    requires Undefined !in batch
    ensures Present(batch) == batch
    decreases |batch|
  {
    if batch != [] {
      assert Undefined !in batch[1..];
      PresentAll(batch[1..]);
      assert [batch[0]] + batch[1..] == batch;
    }
  }

  /** Two defined elements at different positions are both present. */
  lemma {:induction false} TwoPresent(batch: seq<JsValue>, i: nat, j: nat)
    requires i < |batch| && j < |batch| && i != j
    requires batch[i] != Undefined && batch[j] != Undefined
    ensures |Present(batch)| >= 2
    decreases |batch|
  {
    if i == 0 {
      OnePresent(batch[1..], j - 1);
    } else if j == 0 {
      OnePresent(batch[1..], i - 1);
    } else {
      TwoPresent(batch[1..], i - 1, j - 1);
    }
  }

  /** A defined element is present. */
  lemma {:induction false} OnePresent(batch: seq<JsValue>, i: nat)
    requires i < |batch| && batch[i] != Undefined
    ensures |Present(batch)| >= 1
    decreases |batch|
  {
    if i > 0 {
      OnePresent(batch[1..], i - 1);
    }
  }

  /** A sorted sequence without undefined, followed by undefined elements,
      is in time order. */
  lemma UndefinedsLast(s: seq<JsValue>, n: nat)
    requires Sorted(s) && Undefined !in s
    ensures InTimeOrder(s + Undefineds(n))
  {
    var r := s + Undefineds(n);
    forall i, j | 0 <= i < j < |r| && r[j] != Undefined
      ensures r[i] != Undefined && Stamp(r[i]) <= Stamp(r[j])
    {
      assert j < |s| && r[j] == s[j] && r[i] == s[i];
    }
  }

  /** Appending undefined elements to a sequence without any leaves its
      present part as it was. */
  lemma {:induction false} PresentKeeps(s: seq<JsValue>, n: nat)
    requires Undefined !in s
    ensures Present(s + Undefineds(n)) == s
    decreases |s|
  {
    if s == [] {
      PresentOfUndefineds(n);
    } else {
      assert (s + Undefineds(n))[1..] == s[1..] + Undefineds(n);
      PresentKeeps(s[1..], n);
      assert [s[0]] + s[1..] == s;
    }
  }

  lemma {:induction false} PresentOfUndefineds(n: nat)
    ensures Present(Undefineds(n)) == []
  {
    assert Undefined !in Present(Undefineds(n));
    assert multiset(Present(Undefineds(n))) == multiset{};
  }
}

=== FILE: message_sync.dfy ===
/** Chat messages of the active trip. Each message is stored under the
    trip's messages key with a fresh id; a watch on that prefix feeds every
    stored message through `processMessage`, which accepts each id once, and
    each batch end emits the accepted messages in time order, unless the
    sort throws on a null message. `uuid.v4()` and `Date.now()` are
    parameters. */
module MessageSync {
  import opened Wrappers
  import opened JsValues
  import TripManager
  import opened MessageOrder

  /** `messageIds` (ids seen so far) and `messageBatch` (accepted, not yet
      emitted). An id is the last key element, absent for an empty key. */
  datatype State = State(ids: set<Option<string>>, batch: seq<JsValue>)

  const INITIAL: State := State({}, [])

  /** A stored message as the watch reports it. */
  datatype Change = Change(key: seq<string>, value: JsValue)

  function MessageId(key: seq<string>): Option<string> {
    if key == [] then None else Some(key[|key| - 1])
  }

  /** `processMessage(k, v)`: a new id is recorded and its message
      unmarshalled into the batch; the id stays recorded even when
      unmarshalling throws. A known id changes nothing. */
  function ProcessMessage(parse: string -> Result<JsValue, JsError>, st: State, key: seq<string>, v: JsValue): (r: (State, Option<JsError>))
    ensures r.0.ids == st.ids + {MessageId(key)}
    ensures MessageId(key) in st.ids ==> r == (st, None)
    ensures MessageId(key) !in st.ids ==> (r.1.None? <==> Unmarshal(parse, v).Success?)
    ensures MessageId(key) !in st.ids && Unmarshal(parse, v).Success? ==> r.0.batch == st.batch + [Unmarshal(parse, v).value]
    ensures r.1.Some? ==> r.0.batch == st.batch
  {
    var id := MessageId(key);
    if id in st.ids then (st, None)
    else
      match Unmarshal(parse, v)
      case Success(m) => (State(st.ids + {id}, st.batch + [m]), None)
      case Failure(e) => (st.(ids := st.ids + {id}), Some(e))
  }

  /** The changes of one batch, in order; an exception of one handler call
      goes to `onError` and the next change is still processed. */
  function Receive(parse: string -> Result<JsValue, JsError>, st: State, changes: seq<Change>): (r: (State, seq<JsError>))
    ensures st.ids <= r.0.ids
    ensures |r.0.batch| >= |st.batch| && r.0.batch[..|st.batch|] == st.batch
    decreases |changes|
  {
    if changes == [] then (st, [])
    else
      var (st1, thrown) := ProcessMessage(parse, st, changes[0].key, changes[0].value);
      var (st2, errors) := Receive(parse, st1, changes[1..]);
      (st2, (if thrown.Some? then [thrown.value] else []) + errors)
  }

  /** After a batch every id in it is known. */
  lemma {:induction false} ReceiveRecords(parse: string -> Result<JsValue, JsError>, st: State, changes: seq<Change>)
    ensures forall k :: 0 <= k < |changes| ==> MessageId(changes[k].key) in Receive(parse, st, changes).0.ids
    decreases |changes|
  {
    if changes != [] {
      var st1 := ProcessMessage(parse, st, changes[0].key, changes[0].value).0;
      ReceiveRecords(parse, st1, changes[1..]);
      forall k | 1 <= k < |changes|
        ensures MessageId(changes[k].key) in Receive(parse, st, changes).0.ids
      {
        assert changes[1..][k - 1] == changes[k];
      }
    }
  }

  /** Changes whose ids are all known are ignored. */
  lemma {:induction false} ReceiveKnown(parse: string -> Result<JsValue, JsError>, st: State, changes: seq<Change>)
    requires forall k :: 0 <= k < |changes| ==> MessageId(changes[k].key) in st.ids
    ensures Receive(parse, st, changes) == (st, [])
    decreases |changes|
  {
    if changes != [] {
      assert ProcessMessage(parse, st, changes[0].key, changes[0].value) == (st, None) by {
        assert MessageId(changes[0].key) in st.ids;
      }
      assert forall k :: 0 <= k < |changes[1..]| ==> changes[1..][k] == changes[k + 1];
      ReceiveKnown(parse, st, changes[1..]);
      assert Receive(parse, st, changes).0 == Receive(parse, st, changes[1..]).0;
      assert Receive(parse, st, changes).1 == [] + Receive(parse, st, changes[1..]).1;
    }
  }

  /** Each message is accepted at most once: delivering the same changes
      again, in any later batch, adds nothing and raises nothing. */
  lemma RedeliveryIgnored(parse: string -> Result<JsValue, JsError>, st: State, changes: seq<Change>)
    ensures Receive(parse, Receive(parse, st, changes).0, changes) == (Receive(parse, st, changes).0, [])
  {
    ReceiveRecords(parse, st, changes);
    ReceiveKnown(parse, Receive(parse, st, changes).0, changes);
  }

  /** `endBatch()`: the batch is sorted in time order, emitted and emptied.
      Unmarshalling passes a falsy value through, so the batch may hold
      undefined, which the sort puts last, and null, which makes the
      comparator throw when there is another defined message to compare it
      with; the throw comes before the emission, and the batch stays. The
      result holds the state, the emitted messages and what was thrown. */
  function EndBatch(st: State): (r: (State, seq<JsValue>, Option<JsError>))
    ensures r.2.None? <==> !SortThrows(st.batch)
    ensures r.2.Some? ==> r == (st, [], r.2) && r.2.value.TypeError?
    ensures r.2.None? ==> r.0 == State(st.ids, [])
    ensures r.2.None? ==> InTimeOrder(r.1) && multiset(r.1) == multiset(st.batch)
    ensures r.2.None? ==> Present(r.1) == SortByStamp(Present(st.batch))
  {
    if SortThrows(st.batch) then (st, [], Some(TypeError("Cannot read property 'timestamp' of null")))
    else (st.(batch := []), TimeOrder(st.batch), None)
  }

  /** A null message beside another defined one is never emitted: the sort
      throws and the batch is kept for the next batch end, which throws
      again. */
  lemma NullBatchThrows(st: State, i: nat, j: nat)
    requires i < |st.batch| && j < |st.batch| && i != j
    requires st.batch[i] == Null && st.batch[j] != Undefined
    ensures var r := EndBatch(st); r.0 == st && r.1 == [] && r.2.Some?
  {
    TwoPresent(st.batch, i, j);
  }

  /** An undefined message, which a falsy stored value unmarshals to, is
      emitted after every defined one whatever its arrival order. */
  lemma UndefinedEmittedLast(ids: set<Option<string>>, m: JsValue)
    requires m != Undefined
    ensures EndBatch(State(ids, [m, Undefined])) == (State(ids, []), [m, Undefined], None)
    ensures EndBatch(State(ids, [Undefined, m])) == (State(ids, []), [m, Undefined], None)
  {
    DefinedThenUndefined(m);
    UndefinedThenDefined(m);
  }

  /** `$.extend({timestamp: now}, content)`: the content's defined members
      override the default timestamp; undefined ones are not copied. */
  function Payload(content: map<string, JsValue>, now: int): (p: map<string, JsValue>)
    ensures forall f :: f in p <==> f == "timestamp" || (f in content && content[f] != Undefined)
    ensures forall f :: f in content && content[f] != Undefined ==> p[f] == content[f]
    ensures "timestamp" !in content || content["timestamp"] == Undefined ==> p["timestamp"] == Num(now)
  {
    map f | f in Defined(content) + {"timestamp"} :: if f in Defined(content) then content[f] else Num(now)
  }

  /** The members of `content` whose value is not undefined. */
  function Defined(content: map<string, JsValue>): set<string> {
    set f | f in content && content[f] != Undefined
  }

  /** `message(content)`: the marshalled payload under the trip's messages
      key and a fresh id. */
  function Message(stringify: JsValue -> string, t: TripManager.State, id: string, now: int, content: map<string, JsValue>): (op: TripManager.Op)
    ensures op.Put? && op.key == TripManager.MessagesKey(t, [id])
    ensures op.value == Marshal(stringify, Obj(Payload(content, now)))
  {
    TripManager.Put(TripManager.MessagesKey(t, [id]), Marshal(stringify, Obj(Payload(content, now))))
  }

  /** A sent message comes back through the watch as its payload: a client
      that has not seen the id accepts it, with the content's timestamp or
      else the send time. */
  lemma SentMessageArrives(stringify: JsValue -> string, parse: string -> Result<JsValue, JsError>,
                           t: TripManager.State, id: string, now: int, content: map<string, JsValue>, st: State)
    requires JsonPair(stringify, parse)
    requires forall f :: f in content ==> Marshallable(content[f])
    requires Some(id) !in st.ids
    ensures var op := Message(stringify, t, id, now, content);
      var r := ProcessMessage(parse, st, op.key, op.value);
      r.1.None? && r.0.batch == st.batch + [Obj(Payload(content, now))] &&
      Stamp(r.0.batch[|st.batch|]) == (if "timestamp" !in content || content["timestamp"] == Undefined then now else Stamp(Obj(content)))
  {
    var op := Message(stringify, t, id, now, content);
    MarshalRoundTrip(stringify, parse, Obj(Payload(content, now)));
    assert MessageId(op.key) == Some(id);
  }
}

=== FILE: mock_replica.dfy ===
/** The desktop tests' stand-in for Syncbase: each replica is a tree of
    nodes holding an optional value and a version; syncgroups connect
    replicas and a sync loop merges their trees over the groups' prefixes,
    newest version winning. Reading the data flattens the tree into the
    format of the real wrapper (an interior node's value under '_'). */
module MockReplica {
  import opened Wrappers
  import opened JsValues
  import SyncbaseWrapper

  /** A replica node: its value (absent, or deleted), its version (absent
      until first written) and its children. */
  datatype RNode = RNode(value: Option<string>, version: Option<int>, children: map<string, RNode>)

  const EMPTY: RNode := RNode(None, None, map[])

  /** `advanceVersion(node)`. */
  function AdvanceVersion(version: Option<int>): (r: Option<int>)
    ensures r.Some?
    ensures version.None? ==> r == Some(0)
    ensures version.Some? ==> r.value == version.value + 1
  {
    match version
    case None => Some(0)
    case Some(v) => Some(v + 1)
  }

  function ChildOr(n: RNode, k: string): RNode {
    if k in n.children then n.children[k] else EMPTY
  }

  /** `recursiveGet(node, key)`: the node at `key`, if every step exists. */
  function Get(n: RNode, key: seq<string>): Option<RNode>
    decreases |key|
  {
    if |key| == 0 then Some(n)
    else if key[0] in n.children then Get(n.children[key[0]], key[1..])
    else None
  }

  /** `recursiveCreate` followed by installing `sub` as the node at `key`. */
  function SetNodeAt(n: RNode, key: seq<string>, sub: RNode): (r: RNode)
    ensures Get(r, key) == Some(sub)
    ensures |key| > 0 ==> r.value == n.value && r.version == n.version
    ensures |key| > 0 ==> forall k :: k != key[0] ==> (k in r.children <==> k in n.children) && (k in n.children ==> r.children[k] == n.children[k])
    decreases |key|
  {
    if |key| == 0 then sub
    else n.(children := n.children[key[0] := SetNodeAt(ChildOr(n, key[0]), key[1..], sub)])
  }

  /** `recursiveSet(node, key, value)`, which is `put(k, v)`: creates the
      path, stores the value and advances that node's version. */
  function Put(n: RNode, key: seq<string>, v: string): (r: RNode)
    ensures var before := Get(n, key).GetOr(EMPTY);
      Get(r, key) == Some(before.(value := Some(v), version := AdvanceVersion(before.version)))
    ensures |key| > 0 ==> r.value == n.value && r.version == n.version
    ensures |key| > 0 ==> forall k :: k != key[0] ==> (k in r.children <==> k in n.children) && (k in n.children ==> r.children[k] == n.children[k])
    decreases |key|
  {
    if |key| == 0 then n.(value := Some(v), version := AdvanceVersion(n.version))
    else
      var child := ChildOr(n, key[0]);
      assert Get(n, key).GetOr(EMPTY) == Get(child, key[1..]).GetOr(EMPTY);
      n.(children := n.children[key[0] := Put(child, key[1..], v)])
  }

  /** `recursiveDelete(node)` on a node that exists: its value goes, and the
      versions of it and of every descendant advance. */
  function DeleteAll(n: RNode): (r: RNode)
    ensures r.value.None? && r.version == AdvanceVersion(n.version)
    ensures r.children.Keys == n.children.Keys
    decreases n
  {
    RNode(None, AdvanceVersion(n.version), map k | k in n.children :: DeleteAll(n.children[k]))
  }

  /** `delete(k)`: nothing happens when the key has no node. */
  function Delete(n: RNode, key: seq<string>): (r: RNode)
    ensures Get(n, key).None? ==> r == n
    ensures Get(n, key).Some? ==> Get(r, key) == Some(DeleteAll(Get(n, key).value))
    decreases |key|
  {
    if |key| == 0 then DeleteAll(n)
    else if key[0] in n.children then n.(children := n.children[key[0] := Delete(n.children[key[0]], key[1..])])
    else n
  }

  /** `update(a, b)`: the result is `b` after the merge. Children missing in
      `b` are copied from `a`, shared ones merged; the value and version are
      taken from `a` only when both versions are defined and `a`'s is
      greater (a comparison with undefined is false). */
  function Update(a: RNode, b: RNode): (r: RNode)
    ensures r.children.Keys == a.children.Keys + b.children.Keys
    ensures forall k :: k in b.children && k !in a.children ==> r.children[k] == b.children[k]
    ensures forall k :: k in a.children && k !in b.children ==> r.children[k] == a.children[k]
    ensures forall k :: k in a.children && k in b.children ==> r.children[k] == Update(a.children[k], b.children[k])
    ensures a.version.Some? && b.version.Some? && a.version.value > b.version.value ==>
      r.value == a.value && r.version == a.version
    ensures !(a.version.Some? && b.version.Some? && a.version.value > b.version.value) ==>
      r.value == b.value && r.version == b.version
    decreases a
  {
    var kids := map k | k in a.children.Keys + b.children.Keys ::
      if k in a.children then (if k in b.children then Update(a.children[k], b.children[k]) else a.children[k])
      else b.children[k];
    var newer := a.version.Some? && b.version.Some? && a.version.value > b.version.value;
    RNode(if newer then a.value else b.value, if newer then a.version else b.version, kids)
  }

  /** Merging a replica into an identical one changes nothing. */
  lemma {:induction false} UpdateSelf(a: RNode)
    ensures Update(a, a) == a
    decreases a
  {
    forall k | k in a.children
      ensures Update(a.children[k], a.children[k]) == a.children[k]
    {
      UpdateSelf(a.children[k]);
    }
    assert Update(a, a).children == a.children;
  }

  /** Merging the same source twice is merging it once. */
  lemma {:induction false} UpdateIdempotent(a: RNode, b: RNode)
    ensures Update(a, Update(a, b)) == Update(a, b)
    decreases a
  {
    var u := Update(a, b);
    var w := Update(a, u);
    forall k | k in w.children
      ensures w.children[k] == u.children[k]
    {
      if k in a.children && k in b.children {
        UpdateIdempotent(a.children[k], b.children[k]);
      } else if k in a.children {
        UpdateSelf(a.children[k]);
      }
    }
    assert w.children == u.children;
  }

  /** After merging both ways, two versioned nodes carry the same version,
      and the same value whenever their versions differed; equal versions
      with different values both survive. */
  lemma MergeBothWays(a: RNode, b: RNode)
    requires a.version.Some? && b.version.Some?
    ensures var b1 := Update(a, b); var a1 := Update(b1, a);
      a1.version == b1.version
      && (a.version != b.version ==> a1.value == b1.value)
      && (a.version == b.version ==> a1.value == a.value && b1.value == b.value)
  {
  }

  /** A node without a version never takes the other side's value. */
  lemma UnversionedKeepsValue(a: RNode, b: RNode)
    requires b.version.None?
    ensures Update(a, b).value == b.value && Update(a, b).version.None?
  {
  }

  /** Syncing one prefix between two replicas: merge both ways when both
      have it, otherwise copy it from the side that has it (creating the
      path, even when neither has it). */
  function SyncPrefix(a: RNode, b: RNode, p: seq<string>): (r: (RNode, RNode))
    ensures Get(r.0, p).Some? && (Get(r.1, p).Some? <==> Get(a, p).Some? || Get(b, p).Some?)
    ensures Get(a, p).None? ==> Get(r.0, p) == Some(Get(b, p).GetOr(EMPTY)) && r.1 == b
    ensures Get(a, p).Some? && Get(b, p).None? ==> Get(r.1, p) == Get(a, p) && r.0 == a
    ensures Get(a, p).Some? && Get(b, p).Some? ==>
      Get(r.1, p) == Some(Update(Get(a, p).value, Get(b, p).value))
      && Get(r.0, p) == Some(Update(Update(Get(a, p).value, Get(b, p).value), Get(a, p).value))
  {
    match (Get(a, p), Get(b, p))
    case (Some(sa), Some(sb)) =>
      var nb := Update(sa, sb);
      var na := Update(nb, sa);
      (SetNodeAt(a, p, na), SetNodeAt(b, p, nb))
    case (None, sb) => (SetNodeAt(a, p, sb.GetOr(EMPTY)), b)
    case (Some(sa), None) => (a, SetNodeAt(b, p, sa))
  }

  /** `sync(a, b, prefixes)`: the prefixes in order. */
  function Sync(a: RNode, b: RNode, prefixes: seq<seq<string>>): (r: (RNode, RNode))
    ensures prefixes == [] ==> r == (a, b)
    ensures prefixes != [] ==> Get(r.0, prefixes[|prefixes| - 1]).Some?
    decreases |prefixes|
  {
    if |prefixes| == 0 then (a, b)
    else
      var (a1, b1) := SyncPrefix(a, b, prefixes[0]);
      Sync(a1, b1, prefixes[1..])
  }

  /** Installing the node a key already holds changes nothing. */
  lemma {:induction false} SetNodeAtSame(n: RNode, key: seq<string>)
    requires Get(n, key).Some?
    ensures SetNodeAt(n, key, Get(n, key).value) == n
    decreases |key|
  {
    if |key| > 0 {
      SetNodeAtSame(n.children[key[0]], key[1..]);
      assert n.children[key[0] := n.children[key[0]]] == n.children;
    }
  }

  /** Replicas that already agree, and hold every prefix, are left as they
      are by a sync. */
  lemma {:induction false} SyncConverged(a: RNode, prefixes: seq<seq<string>>)
    requires forall i :: 0 <= i < |prefixes| ==> Get(a, prefixes[i]).Some?
    ensures Sync(a, a, prefixes) == (a, a)
    decreases |prefixes|
  {
    if |prefixes| > 0 {
      var sa := Get(a, prefixes[0]).value;
      UpdateSelf(sa);
      SetNodeAtSame(a, prefixes[0]);
      assert SyncPrefix(a, a, prefixes[0]) == (a, a);
      SyncConverged(a, prefixes[1..]);
    }
  }

  /** What `extractData` makes of a node: nothing for a node with neither a
      value nor visible children, the bare value for a leaf, else an object
      of its visible children with the value under '_'. */
  function ExtractData(n: RNode): (r: Option<SyncbaseWrapper.Node>)
    ensures r.None? <==> n.value.None? && forall k :: k in n.children ==> ExtractData(n.children[k]).None?
    ensures forall k :: k in n.children && k != "_" && ExtractData(n.children[k]).Some? ==>
      r.Some? && r.value.Branch? && k in r.value.children && r.value.children[k] == ExtractData(n.children[k]).value
    ensures n.value.Some? && r.Some? && r.value.Branch? ==> "_" in r.value.children && r.value.children["_"] == SyncbaseWrapper.Leaf(n.value.value)
    decreases n
  {
    var kids := map k | k in n.children && ExtractData(n.children[k]).Some? :: ExtractData(n.children[k]).value;
    assert forall k :: k in n.children && ExtractData(n.children[k]).Some? ==> k in kids;
    if kids == map[] then
      (if n.value.Some? then Some(SyncbaseWrapper.Leaf(n.value.value)) else None)
    else
      Some(SyncbaseWrapper.Branch(if n.value.Some? then kids["_" := SyncbaseWrapper.Leaf(n.value.value)] else kids))
  }

  /** `getData()`: an empty repository reads as `{}`. */
  function GetData(repo: RNode): (r: SyncbaseWrapper.Node)
    ensures repo == EMPTY ==> r == SyncbaseWrapper.Branch(map[])
  {
    match ExtractData(repo)
    case None => SyncbaseWrapper.Branch(map[])
    case Some(d) => if d == SyncbaseWrapper.Leaf("") then SyncbaseWrapper.Branch(map[]) else d
  }

  /** Reading a path through a tree whose first member is `x`. */
  lemma NodeAtStep(t: SyncbaseWrapper.Tree, key: seq<string>, x: SyncbaseWrapper.Node)
    requires |key| >= 1 && key[0] in t && t[key[0]] == x
    ensures |key| == 1 ==> SyncbaseWrapper.NodeAt(t, key) == Some(x)
    ensures |key| > 1 && x.Branch? ==> SyncbaseWrapper.NodeAt(t, key) == SyncbaseWrapper.NodeAt(x.children, key[1..])
  {
  }

  /** Reading the same node reads the same value. */
  lemma ValueAtSameNode(t: SyncbaseWrapper.Tree, p: seq<string>, u: SyncbaseWrapper.Tree, q: seq<string>)
    requires |p| >= 1 && |q| >= 1
    requires SyncbaseWrapper.NodeAt(t, p) == SyncbaseWrapper.NodeAt(u, q)
    ensures SyncbaseWrapper.ValueAt(t, p) == SyncbaseWrapper.ValueAt(u, q)
  {
  }

  /** A value put under a key is what the data read afterwards holds there
      (keys using '_' as an element aside). */
  lemma {:induction false} PutIsVisible(n: RNode, key: seq<string>, v: string)
    requires |key| >= 1 && "_" !in key
    ensures var d := ExtractData(Put(n, key, v));
      d.Some? && d.value.Branch? && SyncbaseWrapper.ValueAt(d.value.children, key) == Some(v)
    decreases |key|
  {
    var child := ChildOr(n, key[0]);
    var child1 := Put(child, key[1..], v);
    var n1 := Put(n, key, v);
    assert n1.children[key[0]] == child1;
    if |key| == 1 {
      assert child1.value == Some(v) by {
        assert key[1..] == [];
      }
    } else {
      assert "_" !in key[1..] by {
        assert forall i :: 0 <= i < |key[1..]| ==> key[1..][i] == key[i + 1];
      }
      PutIsVisible(child, key[1..], v);
    }
    assert key[0] != "_" by {
      assert key[0] in key;
    }
    assert ExtractData(child1).Some?;
    var x := ExtractData(child1).value;
    assert ExtractData(n1).Some? && ExtractData(n1).value.Branch? && ExtractData(n1).value.children[key[0]] == x;
    var d := ExtractData(n1).value;
    NodeAtStep(d.children, key, x);
    if |key| == 1 {
      assert SyncbaseWrapper.NodeAt(d.children, key) == Some(x);
      assert x == SyncbaseWrapper.Leaf(v) || (x.Branch? && "_" in x.children && x.children["_"] == SyncbaseWrapper.Leaf(v));
      assert SyncbaseWrapper.ValueAt(d.children, key) == Some(v);
    } else {
      assert x.Branch? && SyncbaseWrapper.ValueAt(x.children, key[1..]) == Some(v);
      ValueAtSameNode(d.children, key, x.children, key[1..]);
    }
    assert ExtractData(Put(n, key, v)) == Some(d);
  }

  /** A deleted subtree holds nothing that reading the data would show. */
  lemma {:induction false} DeletedIsInvisible(n: RNode)
    ensures ExtractData(DeleteAll(n)).None?
    decreases n
  {
    forall k | k in n.children
      ensures ExtractData(DeleteAll(n).children[k]).None?
    {
      DeletedIsInvisible(n.children[k]);
    }
  }

  /** After `delete(key)` on an existing key, the data read afterwards has
      nothing at that key. */
  lemma {:induction false} DeleteHides(n: RNode, key: seq<string>)
    requires |key| >= 1 && "_" !in key && Get(n, key).Some?
    ensures var d := ExtractData(Delete(n, key));
      d.None? || d.value.Leaf? || SyncbaseWrapper.NodeAt(d.value.children, key).None?
    decreases |key|
  {
    var child := n.children[key[0]];
    var child1 := Delete(child, key[1..]);
    var n1 := Delete(n, key);
    assert n1.children[key[0]] == child1;
    if |key| == 1 {
      DeletedIsInvisible(child);
    } else {
      assert "_" !in key[1..] by {
        assert forall i :: 0 <= i < |key[1..]| ==> key[1..][i] == key[i + 1];
      }
      DeleteHides(child, key[1..]);
    }
  }

  /** A syncgroup of the mock: its prefixes and its members in joining
      order (a `Set`, so each replica once). */
  datatype Group = Group(prefixes: seq<seq<string>>, members: seq<nat>)

  /** The shared registry of syncgroups, by `sgAdmin + '$' + name`. */
  type Registry = map<string, Group>

  function GroupKey(sgAdmin: string, name: string): string {
    sgAdmin + "$" + name
  }

  /** `Set.prototype.add`: appended unless already present. */
  function AddMember(members: seq<nat>, repo: nat): (r: seq<nat>)
    ensures repo in r && (forall m :: m in r <==> m in members || m == repo)
    ensures repo in members ==> r == members
    ensures repo !in members ==> r == members + [repo]
  {
    if repo in members then members else members + [repo]
  }

  /** `joinOrCreate(spec)`: creates the group if missing, replaces its
      prefixes with the spec and adds the replica. */
  function JoinOrCreate(reg: Registry, sgAdmin: string, name: string, repo: nat, spec: seq<seq<string>>): (r: Registry)
    ensures r.Keys == reg.Keys + {GroupKey(sgAdmin, name)}
    ensures r[GroupKey(sgAdmin, name)].prefixes == spec
    ensures r[GroupKey(sgAdmin, name)].members ==
      AddMember(if GroupKey(sgAdmin, name) in reg then reg[GroupKey(sgAdmin, name)].members else [], repo)
    ensures forall k :: k in reg && k != GroupKey(sgAdmin, name) ==> r[k] == reg[k]
  {
    var key := GroupKey(sgAdmin, name);
    var members := if key in reg then reg[key].members else [];
    reg[key := Group(spec, AddMember(members, repo))]
  }

  /** `join()`: the group must already exist; otherwise adding to it throws. */
  function JoinGroup(reg: Registry, sgAdmin: string, name: string, repo: nat): (r: Result<Registry, JsError>)
    ensures GroupKey(sgAdmin, name) !in reg <==> r.Failure?
    ensures r.Success? ==> (r.value.Keys == reg.Keys
      && r.value[GroupKey(sgAdmin, name)] == reg[GroupKey(sgAdmin, name)].(members := AddMember(reg[GroupKey(sgAdmin, name)].members, repo)))
  {
    var key := GroupKey(sgAdmin, name);
    if key !in reg then Failure(TypeError("Cannot read property 'add' of undefined"))
    else Success(reg[key := reg[key].(members := AddMember(reg[key].members, repo))])
  }

  /** One pass of the sync loop over a group: each member is synced with the
      one that joined before it, in joining order. */
  function SyncPass(world: map<nat, RNode>, g: Group, i: nat): (r: map<nat, RNode>)
    requires forall m :: m in g.members ==> m in world
    requires 1 <= i <= |g.members| || |g.members| == 0
    ensures r.Keys == world.Keys
    decreases |g.members| - i
  {
    if i >= |g.members| then world
    else
      var prev := g.members[i - 1];
      var cur := g.members[i];
      var (a, b) := Sync(world[prev], world[cur], g.prefixes);
      SyncPass(world[prev := a][cur := b], g, i + 1)
  }
}

=== FILE: naming.dfy ===
/** Mount names of the travel application in the Vanadium namespace.
    `vanadium.naming.join` is an oracle passed in as `join`; the lemmas state
    what the names are when it behaves as plain '/'-joining. */
module Naming {
  import opened Text

  const ROOT: string := "/ns.dev.v.io:8101"

  /** `join` behaves as plain '/'-joining of its fragments. */
  ghost predicate PlainJoin(join: seq<string> -> string) {
    forall parts :: join(parts) == Join(parts, "/")
  }

  function UserMount(join: seq<string> -> string, username: string): string {
    join([ROOT, "users", username])
  }

  function AppMount(join: seq<string> -> string, username: string): string {
    join([UserMount(join, username), "travel"])
  }

  function DeviceMount(join: seq<string> -> string, username: string, deviceName: string): string {
    join([AppMount(join, username), deviceName])
  }

  datatype MountNames = MountNames(user: string, app: string, device: string)

  /** `mountNames(id)`. */
  function MountNamesOf(join: seq<string> -> string, username: string, deviceName: string): (m: MountNames)
    ensures m.user == UserMount(join, username)
    ensures m.app == AppMount(join, username)
    ensures m.device == DeviceMount(join, username, deviceName)
  {
    MountNames(UserMount(join, username), AppMount(join, username), DeviceMount(join, username, deviceName))
  }

  /** With plain joining the three names are nested paths under the user's
      directory of the namespace root. */
  lemma MountNamesNested(join: seq<string> -> string, username: string, deviceName: string)
    requires PlainJoin(join)
    ensures MountNamesOf(join, username, deviceName).user == ROOT + "/users/" + username
    ensures MountNamesOf(join, username, deviceName).app == ROOT + "/users/" + username + "/travel"
    ensures MountNamesOf(join, username, deviceName).device
      == ROOT + "/users/" + username + "/travel/" + deviceName
  {
    var user := ROOT + "/users/" + username;
    assert Join([ROOT, "users", username], "/") == user by {
      assert [ROOT, "users", username][1..] == ["users", username];
      assert ["users", username][1..] == [username];
      assert Join(["users", username], "/") == "users" + "/" + username;
      assert ROOT + "/" + ("users" + "/" + username) == user;
    }
    assert Join([user, "travel"], "/") == user + "/travel" by {
      assert [user, "travel"][1..] == ["travel"];
    }
    assert Join([user + "/travel", deviceName], "/") == user + "/travel/" + deviceName by {
      assert [user + "/travel", deviceName][1..] == [deviceName];
    }
  }
}

=== FILE: place.dfy ===
/** A place of the browser client: the plain place object (location, place
    id, search query) and, when it came from a search, the place details.
    Keys decide equality; the address is rendered on one line or grouped into
    display lines. A location's `toString()` is the parameter `show`;
    coordinates are integers here. */
module Place {
  import opened Wrappers
  import opened Text

  const SEP := ", "

  datatype LatLng = LatLng(lat: int, lng: int)

  /** The plain place object; an absent member is undefined. */
  datatype PlaceObj = PlaceObj(location: Option<LatLng>, placeId: Option<string>, query: Option<string>)

  /** The members of a details or search result the client reads. */
  datatype Details = Details(name: Option<string>, address: Option<string>, placeId: Option<string>, location: LatLng)

  /** What a place is built from: a result with a geometry, or a plain
      place object. */
  datatype Desc = FromResult(details: Details) | FromObject(obj: PlaceObj)

  /** `placeObj`, `details` and the cached `singleLine`. */
  datatype Place = Place(obj: PlaceObj, details: Option<Details>, singleLine: Option<string>)

  /** A string member read as a condition: present and not empty. */
  predicate Truthy(s: Option<string>) {
    s.Some? && s.value != ""
  }

  /** `init(desc)`: a result keeps its details and locates the place; it is
      identified by its place id when the result has one (even an empty one)
      and otherwise by its address as the query. A plain object is taken as
      it is. */
  function Init(desc: Desc): (p: Place)
    ensures desc.FromObject? ==> p == Place(desc.obj, None, None)
    ensures desc.FromResult? ==> p.details == Some(desc.details) && p.obj.location == Some(desc.details.location)
    ensures desc.FromResult? && desc.details.placeId.Some? ==> p.obj.placeId == desc.details.placeId && p.obj.query.None?
    ensures desc.FromResult? && desc.details.placeId.None? ==> p.obj.placeId.None? && p.obj.query == desc.details.address
    ensures p.singleLine.None?
  {
    match desc
    case FromObject(o) => Place(o, None, None)
    case FromResult(d) =>
      var obj := if d.placeId.Some? then PlaceObj(Some(d.location), d.placeId, None)
                 else PlaceObj(Some(d.location), None, d.address);
      Place(obj, Some(d), None)
  }

  /** `toKey()`: the place id when there is one, else the query (or nothing)
      followed by the location's text; absent otherwise, where the call
      throws for want of a location. */
  function ToKey(show: LatLng -> string, p: Place): (k: Option<string>)
    ensures Truthy(p.obj.placeId) ==> k == p.obj.placeId
    ensures !Truthy(p.obj.placeId) ==> (k.Some? <==> p.obj.location.Some?)
  {
    if Truthy(p.obj.placeId) then p.obj.placeId
    else match p.obj.location
      case None => None
      case Some(l) => Some((if Truthy(p.obj.query) then p.obj.query.value else "") + show(l))
  }

  /** A place held by reference. */
  datatype Ref = Ref(id: nat, place: Place)

  /** `Place.equal(a, b)`: the same reference, or two places with the same
      key. Absent when a key cannot be computed and the call throws. */
  function Equal(show: LatLng -> string, a: Option<Ref>, b: Option<Ref>): (r: Option<bool>)
    ensures a == b ==> r == Some(true)
    ensures a != b && (a.None? || b.None?) ==> r == Some(false)
    ensures a != b && a.Some? && b.Some? && ToKey(show, a.value.place).Some? && ToKey(show, b.value.place).Some? ==>
      r == Some(ToKey(show, a.value.place) == ToKey(show, b.value.place))
  {
    if a == b then Some(true)
    else if a.None? || b.None? then Some(false)
    else match (ToKey(show, a.value.place), ToKey(show, b.value.place))
      case (Some(ka), Some(kb)) => Some(ka == kb)
      case _ => None
  }

  /** Equality of places is an equivalence wherever keys exist. */
  lemma EqualIsEquivalence(show: LatLng -> string, a: Option<Ref>, b: Option<Ref>, c: Option<Ref>)
    ensures Equal(show, a, a) == Some(true)
    ensures Equal(show, a, b) == Equal(show, b, a)
    ensures Equal(show, a, b) == Some(true) && Equal(show, b, c) == Some(true) ==> Equal(show, a, c) == Some(true)
  {
  }

  /** The plain object of `toObject()`. */
  datatype PlainObject = ById(placeId: string) | ByLocation(lat: int, lng: int, query: Option<string>)

  /** `toObject()`: the place id alone when there is one, else the
      coordinates and the query; absent where the call throws for want of
      a location. */
  function ToObject(p: Place): (o: Option<PlainObject>)
    ensures Truthy(p.obj.placeId) ==> o == Some(ById(p.obj.placeId.value))
    ensures !Truthy(p.obj.placeId) ==> (o.Some? <==> p.obj.location.Some?)
  {
    if Truthy(p.obj.placeId) then Some(ById(p.obj.placeId.value))
    else match p.obj.location
      case None => None
      case Some(l) => Some(ByLocation(l.lat, l.lng, p.obj.query))
  }

  /** The plain object keeps everything the key is made of: places with the
      same plain object have the same key, and a key exists exactly when a
      plain object does. */
  lemma ObjectDeterminesKey(show: LatLng -> string, p: Place, q: Place)
    ensures ToKey(show, p).Some? <==> ToObject(p).Some?
    ensures ToObject(p).Some? && ToObject(p) == ToObject(q) ==> ToKey(show, p) == ToKey(show, q)
  {
  }

  /** A place built from a result is keyed by the result's place id, or by
      its address and location. */
  lemma ResultKey(show: LatLng -> string, d: Details)
    ensures Truthy(d.placeId) ==> ToKey(show, Init(FromResult(d))) == d.placeId
    ensures d.placeId.None? ==>
      ToKey(show, Init(FromResult(d))) == Some((if Truthy(d.address) then d.address.value else "") + show(d.location))
  {
  }

  /** The answer of a call that renders text. */
  datatype Answer = Text(s: string) | Undefined | Thrown

  /** `getSingleLine()`: the cached line if it is non-empty; else, with
      details, the name and the address when the name is not already the
      address's first part (just the address otherwise), which is cached;
      else the query or the location's text. Reading the first part of a
      missing address throws, and a missing location throws. */
  function GetSingleLine(show: LatLng -> string, p: Place): (r: (Place, Answer))
    ensures Truthy(p.singleLine) ==> r == (p, Text(p.singleLine.value))
    ensures !Truthy(p.singleLine) && p.details.None? ==> r.0 == p
    ensures r.0.obj == p.obj && r.0.details == p.details
    ensures !Truthy(p.singleLine) && p.details.Some? && Truthy(p.details.value.name) && p.details.value.address.Some? ==>
      var d := p.details.value;
      r.1 == Text(if d.name.value != Split(d.address.value, SEP)[0] then d.name.value + SEP + d.address.value else d.address.value)
  {
    if Truthy(p.singleLine) then (p, Text(p.singleLine.value))
    else match p.details
      case Some(d) =>
        if Truthy(d.name) then
          match d.address
          case None => (p, Thrown)
          case Some(a) =>
            var line := if d.name.value != Split(a, SEP)[0] then d.name.value + SEP + a else a;
            (p.(singleLine := Some(line)), Text(line))
        else
          (p.(singleLine := d.address), if d.address.Some? then Text(d.address.value) else Undefined)
      case None =>
        if Truthy(p.obj.query) then (p, Text(p.obj.query.value))
        else match p.obj.location
          case None => (p, Thrown)
          case Some(l) => (p, Text(show(l)))
  }

  /** The cache never changes the answer: asking again gives the same line
      and leaves the place as the first call left it. */
  lemma SingleLineStable(show: LatLng -> string, p: Place)
    ensures var (p1, a1) := GetSingleLine(show, p);
      GetSingleLine(show, p1) == (p1, a1)
  {
  }

  /** A named place whose name is not the start of its address reads as
      the name, then the whole address. */
  lemma SingleLineNamesPlace(show: LatLng -> string, d: Details, a: string)
    requires Truthy(d.name) && d.address == Some(a) && IndexOf(a, SEP, 0).None? && d.name.value != a
    ensures GetSingleLine(show, Init(FromResult(d))).1 == Text(d.name.value + SEP + a)
  {
    assert Split(a, SEP) == [a];
  }

  /** The display lines of an address before the first line is compared
      with the name: two parts stay one line, three give two of them (the
      last two when the first echoes the name), four to six parts drop the
      country and pair the locality parts, anything else is one line per
      part. */
  function Group(parts: seq<string>, name: Option<string>): (lines: seq<string>)
    requires |parts| >= 1
    ensures |lines| >= 1
    ensures 2 <= |parts| <= 6 ==> |lines| <= 3
  {
    match |parts|
    case 2 => [Join(parts, SEP)]
    case 3 => if name == Some(parts[0]) then [parts[1] + SEP + parts[2]] else [parts[0] + SEP + parts[1]]
    case 4 => [parts[0], parts[1] + SEP + parts[2]]
    case 5 => [parts[0], parts[1], parts[2] + SEP + parts[3]]
    case 6 => [parts[0] + SEP + parts[1], parts[2], parts[3] + SEP + parts[4]]
    case _ => parts
  }

  /** The parts an address keeps, as a range: the reference for `Group`. */
  function Kept(n: nat, echo: bool): (r: (nat, nat))
    ensures r.0 <= r.1 <= n || n < 2
  {
    if n == 2 then (0, 2)
    else if n == 3 then (if echo then (1, 3) else (0, 2))
    else if 4 <= n <= 6 then (0, n - 1)
    else (0, n)
  }

  lemma Join2(a: string, b: string)
    ensures Join([a, b], SEP) == a + SEP + b
  {
    assert [a, b][1..] == [b];
  }

  lemma Join3(a: string, b: string, c: string)
    ensures Join([a, b, c], SEP) == a + SEP + b + SEP + c
  {
    assert [a, b, c][1..] == [b, c];
    Join2(b, c);
  }

  lemma Join4(a: string, b: string, c: string, d: string)
    ensures Join([a, b, c, d], SEP) == a + SEP + b + SEP + c + SEP + d
  {
    assert [a, b, c, d][1..] == [b, c, d];
    Join3(b, c, d);
  }

  lemma Join5(a: string, b: string, c: string, d: string, e: string)
    ensures Join([a, b, c, d, e], SEP) == a + SEP + b + SEP + c + SEP + d + SEP + e
  {
    assert [a, b, c, d, e][1..] == [b, c, d, e];
    Join4(b, c, d, e);
  }

  /** Read back together, the lines are exactly the kept parts, in order:
      grouping only drops the parts `Kept` leaves out, and never reorders. */
  lemma GroupCovers(parts: seq<string>, name: Option<string>)
    requires |parts| >= 1
    ensures var (a, b) := Kept(|parts|, name == Some(parts[0]));
      a <= b <= |parts| && Join(Group(parts, name), SEP) == Join(parts[a..b], SEP)
  {
    var n := |parts|;
    if n == 3 {
      GroupCovers3(parts, name);
    } else if n == 4 {
      GroupCovers4(parts, name);
    } else if n == 5 {
      GroupCovers5(parts, name);
    } else if n == 6 {
      GroupCovers6(parts, name);
    } else {
      assert parts[0..n] == parts;
    }
  }

  lemma GroupCovers3(parts: seq<string>, name: Option<string>)
    requires |parts| == 3
    ensures var (a, b) := Kept(3, name == Some(parts[0]));
      Join(Group(parts, name), SEP) == Join(parts[a..b], SEP)
  {
    if name == Some(parts[0]) {
      assert parts[1..3] == [parts[1], parts[2]];
      Join2(parts[1], parts[2]);
    } else {
      assert parts[0..2] == [parts[0], parts[1]];
      Join2(parts[0], parts[1]);
    }
  }

  lemma GroupCovers4(parts: seq<string>, name: Option<string>)
    requires |parts| == 4
    ensures Join(Group(parts, name), SEP) == Join(parts[0..3], SEP)
  {
    assert parts[0..3] == [parts[0], parts[1], parts[2]];
    Join3(parts[0], parts[1], parts[2]);
    Join2(parts[0], parts[1] + SEP + parts[2]);
  }

  lemma GroupCovers5(parts: seq<string>, name: Option<string>)
    requires |parts| == 5
    ensures Join(Group(parts, name), SEP) == Join(parts[0..4], SEP)
  {
    assert parts[0..4] == [parts[0], parts[1], parts[2], parts[3]];
    Join4(parts[0], parts[1], parts[2], parts[3]);
    Join3(parts[0], parts[1], parts[2] + SEP + parts[3]);
  }

  lemma GroupCovers6(parts: seq<string>, name: Option<string>)
    requires |parts| == 6
    ensures Join(Group(parts, name), SEP) == Join(parts[0..5], SEP)
  {
    assert parts[0..5] == [parts[0], parts[1], parts[2], parts[3], parts[4]];
    Join5(parts[0], parts[1], parts[2], parts[3], parts[4]);
    Join3(parts[0] + SEP + parts[1], parts[2], parts[3] + SEP + parts[4]);
  }

  /** The display lines of an address: none without a (non-empty) address;
      otherwise the grouped lines, without the first when it is the name. */
  function AddressLines(address: Option<string>, name: Option<string>): (lines: seq<string>)
    ensures !Truthy(address) ==> lines == []
    ensures Truthy(address) ==>
      var g := Group(Split(address.value, SEP), name);
      lines == (if name == Some(g[0]) then g[1..] else g)
  {
    if !Truthy(address) then []
    else
      var g := Group(Split(address.value, SEP), name);
      if name == Some(g[0]) then g[1..] else g
  }

  /** Without a name to leave out, an address of one or two parts, or of
      seven or more, reads back whole from its lines. */
  lemma AddressLinesReadBack(address: string, name: Option<string>)
    requires address != ""
    requires var n := |Split(address, SEP)|; n == 1 || n == 2 || n >= 7
    requires name.None?
    ensures Join(AddressLines(Some(address), name), SEP) == address
  {
    var parts := Split(address, SEP);
    GroupCovers(parts, name);
    JoinSplit(address, SEP);
    assert parts[0..|parts|] == parts;
  }

  /** The name handed to `getMultiLine(name)`: left out (the details' name),
      `null`, or a string. */
  datatype NameArg = DefaultName | NullName | GivenName(s: string)

  /** `getMultiLine(name)`: the address lines of the details, leaving out
      a first line equal to the name. */
  function GetMultiLine(p: Place, arg: NameArg): (lines: seq<string>)
    ensures p.details.None? ==> lines == []
    ensures p.details.Some? ==> lines == AddressLines(p.details.value.address,
      match arg case DefaultName => p.details.value.name case NullName => None case GivenName(s) => Some(s))
  {
    match p.details
    case None => []
    case Some(d) =>
      var name := match arg case DefaultName => d.name case NullName => None case GivenName(s) => Some(s);
      AddressLines(d.address, name)
  }
}

=== FILE: syncbase_wrapper.dfy ===
/** The desktop client's Syncbase wrapper: hierarchical keys joined with '.',
    the scan that rebuilds rows into a tree of nested objects (an interior
    node keeps its own value under '_'), syncgroup specs and the
    create/join fallbacks, write tracking, and the creation of the app,
    database and table. */
module SyncbaseWrapper {
  import opened Wrappers
  import opened Text
  import opened VErrors

  /** `joinKey(key)`. */
  function JoinKey(key: seq<string>): string {
    Join(key, ".")
  }

  /** The key elements `recursiveSet` peels off a row key with the regular
      expression `\.?([^\.]*)(.*)`: an optional leading '.', then the member up
      to the next '.', then the remainder up to the first line terminator
      (where `.` stops). */
  function KeyPath(key: string): (path: seq<string>)
    ensures |path| >= 1
    decreases |key|
  {
    var k := if |key| > 0 && key[0] == '.' then key[1..] else key;
    var member := TakeUntil(k, '.');
    var remaining := UpToLineEnd(k[|member|..]);
    if remaining == "" then [member] else [member] + KeyPath(remaining)
  }

  predicate NoLineTerminator(s: string) {
    forall i :: 0 <= i < |s| ==> !IsLineTerminator(s[i])
  }

  /** A key element the tree can hold as a member name. */
  predicate PlainElement(e: string) {
    '.' !in e && NoLineTerminator(e)
  }

  lemma UpToLineEndWhole(s: string)
    requires NoLineTerminator(s)
    ensures UpToLineEnd(s) == s
  {
  }

  lemma {:induction false} JoinKeyNoLineTerminator(key: seq<string>)
    requires forall i :: 0 <= i < |key| ==> PlainElement(key[i])
    ensures NoLineTerminator(JoinKey(key))
    decreases |key|
  {
    if |key| > 1 {
      JoinKeyNoLineTerminator(key[1..]);
      var j := JoinKey(key);
      assert j == key[0] + "." + JoinKey(key[1..]);
      forall i | 0 <= i < |j|
        ensures !IsLineTerminator(j[i])
      {
        if i < |key[0]| {
          assert j[i] == key[0][i];
        } else if i > |key[0]| {
          assert j[i] == JoinKey(key[1..])[i - |key[0]| - 1];
        }
      }
    }
  }

  /** The first step of `KeyPath` on a joined key: the member is the first
      element, and the remainder is the rest of the key with its '.'. */
  lemma JoinKeyFirst(key: seq<string>)
    requires |key| >= 1
    requires forall i :: 0 <= i < |key| ==> PlainElement(key[i])
    ensures var k := JoinKey(key);
      TakeUntil(k, '.') == key[0]
      && UpToLineEnd(k[|key[0]|..]) == (if |key| == 1 then "" else "." + JoinKey(key[1..]))
  {
    var k := JoinKey(key);
    if |key| == 1 {
      assert k == key[0] + "";
      TakeUntilPrefix(key[0], '.', "");
      assert k[|key[0]|..] == "";
    } else {
      var rest := "." + JoinKey(key[1..]);
      assert k == key[0] + rest;
      TakeUntilPrefix(key[0], '.', rest);
      assert k[|key[0]|..] == rest;
      JoinKeyNoLineTerminator(key[1..]);
      assert NoLineTerminator(rest) by {
        forall i | 0 <= i < |rest|
          ensures !IsLineTerminator(rest[i])
        {
          if i > 0 {
            assert rest[i] == JoinKey(key[1..])[i - 1];
          }
        }
      }
      UpToLineEndWhole(rest);
    }
  }

  /** A '.'-prefixed joined key splits back into its elements. */
  lemma {:induction false} KeyPathAfterDot(key: seq<string>)
    requires |key| >= 1
    requires forall i :: 0 <= i < |key| ==> PlainElement(key[i])
    ensures KeyPath("." + JoinKey(key)) == key
    decreases |key|
  {
    var s := "." + JoinKey(key);
    assert s[1..] == JoinKey(key);
    JoinKeyFirst(key);
    if |key| > 1 {
      KeyPathAfterDot(key[1..]);
    }
  }

  /** A key written with `joinKey` is read back element by element, when
      its elements hold no '.' and no line terminator and the first is not
      empty (an empty first element would look like the optional leading
      '.'). */
  lemma KeyPathJoinKey(key: seq<string>)
    requires |key| >= 1 && key[0] != ""
    requires forall i :: 0 <= i < |key| ==> PlainElement(key[i])
    ensures KeyPath(JoinKey(key)) == key
  {
    JoinKeyFirst(key);
    if |key| > 1 {
      KeyPathAfterDot(key[1..]);
    }
    var k := JoinKey(key);
    if |key| == 1 {
      assert k == key[0];
    } else {
      assert k == key[0] + "." + JoinKey(key[1..]);
    }
    assert k[0] == key[0][0];
  }

  /** A node of the rebuilt tree: a row value, or an object of members (whose
      '_' member, if any, holds the node's own value). */
  datatype Node = Leaf(value: string) | Branch(children: map<string, Node>)

  type Tree = map<string, Node>

  predicate TruthyLeaf(n: Option<Node>) {
    n.Some? && n.value.Leaf? && n.value.value != ""
  }

  /** The node at `path`, if the walk reaches one. */
  function NodeAt(root: Tree, path: seq<string>): Option<Node>
    requires |path| >= 1
    decreases |path|
  {
    if path[0] !in root then None
    else if |path| == 1 then Some(root[path[0]])
    else match root[path[0]]
      case Leaf(_) => None
      case Branch(c) => NodeAt(c, path[1..])
  }

  /** What `readValue` reads at `path`: a leaf's value, or an object's '_'. */
  function ValueAt(root: Tree, path: seq<string>): Option<string>
    requires |path| >= 1
  {
    match NodeAt(root, path)
    case Some(Leaf(v)) => Some(v)
    case Some(Branch(c)) => if "_" in c && c["_"].Leaf? then Some(c["_"].value) else None
    case None => None
  }

  /** `recursiveSet(root, key, value)` on the key's elements. A falsy leaf on
      the way is replaced by an object, a truthy one moves under '_'; at the
      end an object receives the value in '_', a missing or falsy member is
      assigned, and assigning a member of a truthy string is ignored, as
      non-strict JavaScript does. */
  function SetPath(root: Tree, path: seq<string>, value: string): (r: Tree)
    requires |path| >= 1
    ensures path[0] in r
    ensures forall m :: m != path[0] ==> (m in r <==> m in root) && (m in r ==> r[m] == root[m])
    decreases |path|
  {
    var member := path[0];
    if |path| == 1 then
      if member in root && root[member].Branch? then
        root[member := Branch(root[member].children["_" := Leaf(value)])]
      else if member in root && root[member].value != "" then root
      else root[member := Leaf(value)]
    else
      var children :=
        if member !in root then map[]
        else match root[member]
          case Branch(c) => c
          case Leaf(v) => if v == "" then map[] else map["_" := Leaf(v)];
      root[member := Branch(SetPath(children, path[1..], value))]
  }

  /** `recursiveSet(root, key, value)` on a row key. */
  function RecursiveSet(root: Tree, key: string, value: string): Tree {
    SetPath(root, KeyPath(key), value)
  }

  /** The value set is what reading the key gives back, unless the key
      already holds a truthy value with no children, which the assignment
      leaves alone. A '_' element below the first is excluded: it would name
      the slot a wrapped value has just been moved into. */
  lemma {:induction false} SetPathReadsBack(root: Tree, path: seq<string>, value: string)
    requires |path| >= 1 && "_" !in path[1..]
    ensures TruthyLeaf(NodeAt(root, path)) ==> SetPath(root, path, value) == root
    ensures !TruthyLeaf(NodeAt(root, path)) ==> ValueAt(SetPath(root, path, value), path) == Some(value)
    ensures NodeAt(root, path).None? ==> NodeAt(SetPath(root, path, value), path) == Some(Leaf(value))
    decreases |path|
  {
    if |path| > 1 {
      var member := path[0];
      var children :=
        if member !in root then map[]
        else match root[member]
          case Branch(c) => c
          case Leaf(v) => if v == "" then map[] else map["_" := Leaf(v)];
      assert path[1..][1..] == path[2..];
      SetPathReadsBack(children, path[1..], value);
      var r := SetPath(root, path, value);
      assert r[member] == Branch(SetPath(children, path[1..], value));
      assert NodeAt(r, path) == NodeAt(SetPath(children, path[1..], value), path[1..]);
      if member in root && root[member].Branch? {
        assert NodeAt(root, path) == NodeAt(children, path[1..]);
      } else {
        assert path[1] in path[1..];
        assert NodeAt(children, path[1..]).None?;
      }
    }
  }

  /** A truthy value met on the way down is kept under '_' of the object
      that replaces it. */
  lemma IntermediateValueKept(root: Tree, path: seq<string>, value: string)
    requires |path| >= 2 && path[0] in root && root[path[0]].Leaf? && root[path[0]].value != ""
    requires path[1] != "_"
    ensures var r := SetPath(root, path, value);
      r[path[0]].Branch? && "_" in r[path[0]].children && r[path[0]].children["_"] == root[path[0]]
  {
  }

  /** The permissions of a syncgroup spec. */
  const PERMISSION_TAGS: seq<string> := ["Admin", "Read", "Write", "Resolve", "Debug"]

  /** A syncgroup spec: permissions by tag, table-qualified prefixes and mount
      tables. */
  datatype Spec = Spec(perms: map<string, seq<string>>, prefixes: seq<string>, mountTables: seq<string>)

  /** `buildSpec(prefixes, mountTables)`: every tag is granted to '...' (every
      blessing), each prefix becomes 't:' + its joined key. */
  function BuildSpec(prefixes: seq<seq<string>>, mountTables: seq<string>): (s: Spec)
    ensures |s.prefixes| == |prefixes|
    ensures forall i :: 0 <= i < |prefixes| ==> s.prefixes[i] == "t:" + JoinKey(prefixes[i])
    ensures s.perms.Keys == set t | t in PERMISSION_TAGS
    ensures forall t :: t in s.perms ==> s.perms[t] == ["..."]
    ensures s.mountTables == mountTables
  {
    Spec(map t | t in PERMISSION_TAGS :: ["..."], seq(|prefixes|, i requires 0 <= i < |prefixes| => "t:" + JoinKey(prefixes[i])), mountTables)
  }

  /** A spec prefix names the rows of the table 't' under the key. */
  lemma SpecPrefixRoundTrip(prefixes: seq<seq<string>>, mountTables: seq<string>, i: nat)
    requires i < |prefixes| && |prefixes[i]| >= 1 && prefixes[i][0] != ""
    requires forall j :: 0 <= j < |prefixes[i]| ==> PlainElement(prefixes[i][j])
    ensures var p := BuildSpec(prefixes, mountTables).prefixes[i];
      p[..2] == "t:" && KeyPath(p[2..]) == prefixes[i]
  {
    var p := BuildSpec(prefixes, mountTables).prefixes[i];
    assert p[2..] == JoinKey(prefixes[i]);
    KeyPathJoinKey(prefixes[i]);
  }

  /** A call on a syncgroup. */
  datatype SgCall = CreateCall | JoinCall | SetSpecCall

  /** Outcome of the `n`-th call of a sequence, as the Syncbase runtime
      reports it: None for success. */
  type SgRuntime = (SgCall, nat) -> Option<VError>

  /** The calls made and the error the returned promise rejects with. */
  datatype SgRun = SgRun(calls: seq<SgCall>, error: Option<VError>)

  /** `createOrJoin(spec)` starting at call number `n`: create; on Exist,
      join and then set the spec; other errors propagate. */
  function CreateOrJoin(rt: SgRuntime, n: nat): (r: SgRun)
    ensures |r.calls| >= 1 && r.calls[0] == CreateCall
    ensures rt(CreateCall, n).None? ==> r == SgRun([CreateCall], None)
    ensures rt(CreateCall, n).Some? && rt(CreateCall, n) != Some(ExistError) ==> r == SgRun([CreateCall], rt(CreateCall, n))
    ensures rt(CreateCall, n) == Some(ExistError) ==> |r.calls| >= 2 && r.calls[..2] == [CreateCall, JoinCall]
    ensures r.error.None? ==> r.calls == [CreateCall] || r.calls == [CreateCall, JoinCall, SetSpecCall]
  {
    match rt(CreateCall, n)
    case None => SgRun([CreateCall], None)
    case Some(e) =>
      if e == ExistError then
        match rt(JoinCall, n + 1)
        case Some(e2) => SgRun([CreateCall, JoinCall], Some(e2))
        case None => SgRun([CreateCall, JoinCall, SetSpecCall], rt(SetSpecCall, n + 2))
      else SgRun([CreateCall], Some(e))
  }

  /** `joinOrCreate(spec)`: join and set the spec; only on NoExist fall back
      to `createOrJoin`. An error of `setSpec` after a successful join is not
      caught. */
  function JoinOrCreate(rt: SgRuntime): (r: SgRun)
    ensures |r.calls| >= 1 && r.calls[0] == JoinCall
    ensures rt(JoinCall, 0).None? ==> r == SgRun([JoinCall, SetSpecCall], rt(SetSpecCall, 1))
    ensures CreateCall in r.calls <==> rt(JoinCall, 0) == Some(NoExistError)
    ensures rt(JoinCall, 0).Some? && rt(JoinCall, 0) != Some(NoExistError) ==> r == SgRun([JoinCall], rt(JoinCall, 0))
  {
    match rt(JoinCall, 0)
    case None => SgRun([JoinCall, SetSpecCall], rt(SetSpecCall, 1))
    case Some(e) =>
      if e == NoExistError then
        var c := CreateOrJoin(rt, 1);
        SgRun([JoinCall] + c.calls, c.error)
      else SgRun([JoinCall], Some(e))
  }

  /** The spec is in force after either fallback succeeds: it was set by
      `create` or by `setSpec`, and `setSpec` only ever follows a
      successful join. */
  lemma FallbacksInstallSpec(rt: SgRuntime)
    ensures var r := JoinOrCreate(rt);
      r.error.None? ==> r.calls[|r.calls| - 1] == CreateCall || r.calls[|r.calls| - 1] == SetSpecCall
    ensures var r := JoinOrCreate(rt);
      forall i :: 0 < i < |r.calls| && r.calls[i] == SetSpecCall ==> r.calls[i - 1] == JoinCall
    ensures var r := CreateOrJoin(rt, 0);
      r.error.None? ==> r.calls[|r.calls| - 1] == CreateCall || r.calls[|r.calls| - 1] == SetSpecCall
  {
  }

  /** The write bookkeeping of the wrapper: writes in flight, and whether a
      write started since the last scan began. */
  datatype Writes = Writes(pending: set<nat>, dirty: bool)

  /** `manageWrite(promise)` when the write starts. */
  function StartWrite(w: Writes, id: nat): (r: Writes)
    ensures r.dirty && id in r.pending && r.pending - {id} == w.pending - {id}
  {
    Writes(w.pending + {id}, true)
  }

  /** The write settles, whether it succeeded or failed. */
  function SettleWrite(w: Writes, id: nat): (r: Writes)
    ensures id !in r.pending && r.pending == w.pending - {id} && r.dirty == w.dirty
  {
    w.(pending := w.pending - {id})
  }

  /** What `pull` does now: wait for the writes in flight, or start a scan
      with the dirty flag cleared. */
  datatype PullStep = Defer | Scan(after: Writes)

  function Pull(w: Writes): (r: PullStep)
    ensures r.Defer? <==> w.pending != {}
    ensures r.Scan? ==> !r.after.dirty && r.after.pending == {}
  {
    if w.pending != {} then Defer else Scan(w.(dirty := false))
  }

  /** No scan starts while a started write is unsettled; once every write
      has settled, the scan proceeds. */
  lemma PullWaitsForWrites(w: Writes, id: nat)
    ensures Pull(StartWrite(w, id)).Defer?
    ensures StartWrite(w, id).pending == {id} ==> Pull(SettleWrite(StartWrite(w, id), id)).Scan?
  {
  }

  /** The creation steps of `setUp`. */
  datatype SetUpStep = CreateApp | CreateDb | CreateTable

  /** `setUp(context, app, db)`: the steps attempted, in order, and the error
      the setup rejects with. Exist is logged and passed over; any other
      error skips the rest and propagates. */
  function SetUp(rt: SetUpStep -> Option<VError>): (r: (seq<SetUpStep>, Option<VError>))
    ensures r.0 <= [CreateApp, CreateDb, CreateTable] && |r.0| >= 1
    ensures r.1.None? <==> r.0 == [CreateApp, CreateDb, CreateTable] && forall i :: 0 <= i < |r.0| ==> rt(r.0[i]) in {None, Some(ExistError)}
    ensures r.1.Some? ==> r.1 == rt(r.0[|r.0| - 1]) && r.1 != Some(ExistError)
    ensures forall i :: 0 <= i < |r.0| - 1 ==> rt(r.0[i]) in {None, Some(ExistError)}
  {
    var steps := [CreateApp, CreateDb, CreateTable];
    SetUpFrom(rt, steps, 0)
  }

  function SetUpFrom(rt: SetUpStep -> Option<VError>, steps: seq<SetUpStep>, i: nat): (r: (seq<SetUpStep>, Option<VError>))
    requires i < |steps|
    ensures r.0 <= steps[i..] && |r.0| >= 1
    ensures r.1.None? <==> r.0 == steps[i..] && forall j :: 0 <= j < |r.0| ==> rt(r.0[j]) in {None, Some(ExistError)}
    ensures r.1.Some? ==> r.1 == rt(r.0[|r.0| - 1]) && r.1 != Some(ExistError)
    ensures forall j :: 0 <= j < |r.0| - 1 ==> rt(r.0[j]) in {None, Some(ExistError)}
    decreases |steps| - i
  {
    var e := rt(steps[i]);
    if e.Some? && e != Some(ExistError) then ([steps[i]], e)
    else if i + 1 == |steps| then ([steps[i]], None)
    else
      var rest := SetUpFrom(rt, steps, i + 1);
      assert steps[i..] == [steps[i]] + steps[i + 1..];
      ([steps[i]] + rest.0, rest.1)
  }
}

=== FILE: text.dfy ===
/** String helpers with the semantics of the JavaScript built-ins the
    application relies on: `String.prototype.split` with a non-empty string
    separator, `Array.prototype.join`, relational comparison of strings,
    number-to-string conversion of integers, and the character classes used by
    regular expressions (`\s`, and the line terminators that `.` refuses). */
module Text {
  import opened Wrappers

  /** `pat` occurs in `s` starting at index `j`. */
  predicate OccursAt(s: string, pat: string, j: nat) {
    j + |pat| <= |s| && s[j..j + |pat|] == pat
  }

  /** First index at or after `from` where `pat` occurs in `s`. */
  function IndexOf(s: string, pat: string, from: nat): (r: Option<nat>)
    requires |pat| > 0
    ensures r.Some? ==> from <= r.value && OccursAt(s, pat, r.value)
    ensures r.Some? ==> forall j: nat :: from <= j < r.value ==> !OccursAt(s, pat, j)
    ensures r.None? ==> forall j: nat :: from <= j ==> !OccursAt(s, pat, j)
    decreases |s| - from
  {
    if from + |pat| > |s| then None
    else if OccursAt(s, pat, from) then Some(from)
    else IndexOf(s, pat, from + 1)
  }

  /** `s.split(sep)`: the pieces between non-overlapping, left-to-right
      occurrences of `sep`; the empty string splits into `[""]`. */
  function Split(s: string, sep: string): (parts: seq<string>)
    requires |sep| > 0
    ensures |parts| >= 1
    decreases |s|
  {
    match IndexOf(s, sep, 0)
    case None => [s]
    case Some(i) => [s[..i]] + Split(s[i + |sep|..], sep)
  }

  /** `parts.join(sep)`. */
  function Join(parts: seq<string>, sep: string): string
  {
    if |parts| == 0 then ""
    else if |parts| == 1 then parts[0]
    else parts[0] + sep + Join(parts[1..], sep)
  }

  /** Splitting and re-joining with the same separator gives back the input. */
  lemma {:induction false} JoinSplit(s: string, sep: string)
    requires |sep| > 0
    ensures Join(Split(s, sep), sep) == s
    decreases |s|
  {
    var r := IndexOf(s, sep, 0);
    if r.Some? {
      var i := r.value;
      var rest := s[i + |sep|..];
      JoinSplit(rest, sep);
      var tail := Split(rest, sep);
      JoinCons(s[..i], tail, sep);
      SplitAround(s, sep, i);
    }
  }

  lemma JoinCons(head: string, tail: seq<string>, sep: string)
    requires |tail| > 0
    ensures Join([head] + tail, sep) == head + sep + Join(tail, sep)
  {
    assert ([head] + tail)[1..] == tail;
  }

  lemma SplitAround(s: string, sep: string, i: nat)
    requires OccursAt(s, sep, i)
    ensures s == s[..i] + sep + s[i + |sep|..]
  {
    assert s == s[..i] + s[i..i + |sep|] + s[i + |sep|..];
  }

  /** Splitting on a one-character separator at its first occurrence peels
      off the text before it. */
  lemma SplitAtFirst(a: string, c: char, b: string)
    requires c !in a
    ensures Split(a + [c] + b, [c]) == [a] + Split(b, [c])
  {
    var s := a + [c] + b;
    assert OccursAt(s, [c], |a|) by {
      assert s[|a|..|a| + 1] == [c];
    }
    forall j: nat | j < |a|
      ensures !OccursAt(s, [c], j)
    {
      assert s[j..j + 1][0] == s[j] == a[j];
    }
    assert s[..|a|] == a;
    assert s[|a| + 1..] == b;
  }

  /** A string free of the separator splits into itself. */
  lemma SplitNoSeparator(a: string, c: char)
    requires c !in a
    ensures Split(a, [c]) == [a]
  {
    forall j: nat
      ensures !OccursAt(a, [c], j)
    {
      if j + 1 <= |a| {
        assert a[j..j + 1][0] == a[j];
      }
    }
  }

  /** No piece produced by `Split` contains the separator. */
  lemma {:induction false} SplitPiecesAvoidSeparator(s: string, sep: string)
    requires |sep| > 0
    ensures forall k :: 0 <= k < |Split(s, sep)| ==> IndexOf(Split(s, sep)[k], sep, 0).None?
    decreases |s|
  {
    match IndexOf(s, sep, 0)
    case None =>
    case Some(i) =>
      var rest := s[i + |sep|..];
      SplitPiecesAvoidSeparator(rest, sep);
      var head := s[..i];
      if IndexOf(head, sep, 0).Some? {
        var j := IndexOf(head, sep, 0).value;
        assert OccursAt(head, sep, j);
        assert j + |sep| <= i;
        forall t | 0 <= t < |sep|
          ensures s[j..j + |sep|][t] == sep[t]
        {
          assert head[j..j + |sep|][t] == sep[t];
          assert head[j + t] == s[j + t];
        }
        assert s[j..j + |sep|] == sep;
        assert OccursAt(s, sep, j);
        assert false;
      }
      assert Split(s, sep) == [head] + Split(rest, sep);
  }

  /** Joining two non-empty runs of pieces is joining each and gluing them with
      the separator. */
  lemma {:induction false} JoinConcat(a: seq<string>, b: seq<string>, sep: string)
    requires |a| > 0 && |b| > 0
    ensures Join(a + b, sep) == Join(a, sep) + sep + Join(b, sep)
    decreases |a|
  {
    if |a| == 1 {
      assert (a + b)[1..] == b;
    } else {
      JoinConcat(a[1..], b, sep);
      assert (a + b)[1..] == a[1..] + b;
    }
  }

  /** JavaScript's `a < b` on strings: lexicographic order in which a proper
      prefix comes first. */
  predicate StrLess(a: string, b: string)
    decreases |a|
  {
    if |b| == 0 then false
    else if |a| == 0 then true
    else if a[0] != b[0] then a[0] < b[0]
    else StrLess(a[1..], b[1..])
  }

  lemma {:induction false} StrLessIrreflexive(a: string)
    ensures !StrLess(a, a)
    decreases |a|
  {
    if |a| > 0 {
      StrLessIrreflexive(a[1..]);
    }
  }

  lemma {:induction false} StrLessTransitive(a: string, b: string, c: string)
    requires StrLess(a, b) && StrLess(b, c)
    ensures StrLess(a, c)
    decreases |a|
  {
    if |a| > 0 && a[0] == b[0] && b[0] == c[0] {
      StrLessTransitive(a[1..], b[1..], c[1..]);
    }
  }

  /** Any two distinct strings are ordered one way or the other. */
  lemma {:induction false} StrLessTotal(a: string, b: string)
    requires a != b
    ensures StrLess(a, b) || StrLess(b, a)
    decreases |a|
  {
    if |a| > 0 && |b| > 0 && a[0] == b[0] {
      assert a == [a[0]] + a[1..] && b == [b[0]] + b[1..];
      StrLessTotal(a[1..], b[1..]);
    }
  }

  lemma {:induction false} StrLessAsymmetric(a: string, b: string)
    requires StrLess(a, b)
    ensures !StrLess(b, a)
    decreases |a|
  {
    if |a| > 0 && a[0] == b[0] {
      StrLessAsymmetric(a[1..], b[1..]);
    }
  }

  function DigitChar(d: nat): (c: char)
    requires d < 10
    ensures '0' <= c <= '9'
  {
    "0123456789"[d]
  }

  predicate IsDigit(c: char) {
    '0' <= c <= '9'
  }

  /** Decimal rendering of a natural number, as `String(n)` gives it. */
  function NatToString(n: nat): (s: string)
    ensures |s| >= 1 && forall k :: 0 <= k < |s| ==> IsDigit(s[k])
  {
    if n < 10 then [DigitChar(n)] else NatToString(n / 10) + [DigitChar(n % 10)]
  }

  /** Decimal rendering of an integer, with a leading '-' when negative. */
  function IntToString(n: int): string
  {
    if n < 0 then "-" + NatToString(-n) else NatToString(n)
  }

  function DigitValue(c: char): nat
    requires IsDigit(c)
  {
    c as int - '0' as int
  }

  /** Value of a string of decimal digits. */
  function DigitsValue(s: string): nat
    requires forall k :: 0 <= k < |s| ==> IsDigit(s[k])
  {
    if |s| == 0 then 0 else DigitsValue(s[..|s| - 1]) * 10 + DigitValue(s[|s| - 1])
  }

  /** Reading the decimal rendering back gives the number: rendering is
      injective. */
  lemma {:induction false} NatToStringRoundTrip(n: nat)
    ensures DigitsValue(NatToString(n)) == n
  {
    if n >= 10 {
      NatToStringRoundTrip(n / 10);
      var s := NatToString(n);
      assert s[..|s| - 1] == NatToString(n / 10);
    }
  }

  /** Longest prefix of `s` without the character `c`: what a greedy
      `[^c]*` captures. */
  function TakeUntil(s: string, c: char): (r: string)
    ensures r <= s && c !in r
    ensures |r| < |s| ==> s[|r|] == c
  {
    if |s| == 0 || s[0] == c then "" else [s[0]] + TakeUntil(s[1..], c)
  }

  /** `TakeUntil` stops exactly at the first `c`. */
  lemma {:induction false} TakeUntilPrefix(a: string, c: char, b: string)
    requires c !in a
    requires |b| == 0 || b[0] == c
    ensures TakeUntil(a + b, c) == a
    decreases |a|
  {
    if |a| > 0 {
      assert (a + b)[1..] == a[1..] + b;
      TakeUntilPrefix(a[1..], c, b);
    } else {
      assert a + b == b;
    }
  }

  /** The characters at which a regular expression `.` stops. */
  predicate IsLineTerminator(c: char) {
    c == '\n' || c == '\r' || c == '\U{2028}' || c == '\U{2029}'
  }

  /** The characters a regular expression `\s` matches. */
  predicate IsJsSpace(c: char) {
    c == ' ' || c == '\t' || c == '\n' || c == '\r' || c == '\U{000B}' || c == '\U{000C}'
    || c == '\U{00A0}' || c == '\U{1680}' || ('\U{2000}' <= c <= '\U{200A}')
    || c == '\U{2028}' || c == '\U{2029}' || c == '\U{202F}' || c == '\U{205F}'
    || c == '\U{3000}' || c == '\U{FEFF}'
  }

  /** Longest prefix of `s` free of line terminators: what `(.*)` captures. */
  function UpToLineEnd(s: string): (r: string)
    ensures r <= s
    ensures forall k :: 0 <= k < |r| ==> !IsLineTerminator(r[k])
    ensures |r| < |s| ==> IsLineTerminator(s[|r|])
  {
    if |s| == 0 || IsLineTerminator(s[0]) then "" else [s[0]] + UpToLineEnd(s[1..])
  }
}

=== FILE: timeline.dfy ===
/** The desktop client's timeline: the ordered search controls, one per
    destination. Each control is represented by an identity; where it sits
    in the page is not part of this model. */
module Timeline {
  import opened Wrappers
  import opened JsArrays

  /** `add(i)`: no index, or the length, appends; any other index inserts
      there with the clamping of `splice`. */
  function Add(controls: seq<nat>, i: Option<int>, c: nat): (r: seq<nat>)
    ensures |r| == |controls| + 1
    ensures i.None? ==> r == controls + [c]
    ensures i.Some? && 0 <= i.value <= |controls| ==> r == controls[..i.value] + [c] + controls[i.value..]
  {
    if i.None? || i.value == |controls| then controls + [c]
    else InsertAt(controls, i.value, c)
  }

  /** `get(i)`: no index gives a copy of the controls; otherwise one control
      or undefined, a negative index counting from the end. */
  function Get(controls: seq<nat>, i: Option<int>): (r: Either)
    ensures i.None? ==> r == Every(controls)
    ensures i.Some? ==> r == Single(FromEither(controls, i.value))
  {
    match i
    case None => Every(controls)
    case Some(k) => Single(FromEither(controls, k))
  }

  datatype Either = Every(controls: seq<nat>) | Single(control: Option<nat>)

  /** `remove(i)`: a non-negative index is removed directly, a negative one
      from the end (a start still before the front is counted from the end
      again by `splice`); anything but a number removes nothing. */
  function Remove(controls: seq<nat>, i: Option<int>): (r: (seq<nat>, Option<nat>))
    ensures i.None? ==> r == (controls, None)
    ensures i.Some? && -|controls| <= i.value < |controls| ==>
      r.1 == FromEither(controls, i.value) && |r.0| == |controls| - 1
    ensures i.Some? && i.value >= |controls| ==> r == (controls, None)
    ensures r.1.None? ==> r.0 == controls
  {
    match i
    case None => (controls, None)
    case Some(k) => if k >= 0 then RemoveAt(controls, k) else RemoveAt(controls, |controls| + k)
  }

  /** A control added at an index is found there, and at index -1 when it
      was appended. */
  lemma AddThenGet(controls: seq<nat>, i: Option<int>, c: nat)
    requires i.None? || 0 <= i.value <= |controls|
    ensures Get(Add(controls, i, c), Some(i.GetOr(|controls|))) == Single(Some(c))
    ensures i.None? ==> Get(Add(controls, i, c), Some(-1)) == Single(Some(c))
  {
  }

  /** Removing at the index a control was added at, counted from either end,
      restores the controls and returns that control. */
  lemma AddThenRemove(controls: seq<nat>, i: nat, c: nat)
    requires i <= |controls|
    ensures Remove(Add(controls, Some(i), c), Some(i)) == (controls, Some(c))
    ensures Remove(Add(controls, Some(i), c), Some(i - |controls| - 1)) == (controls, Some(c))
  {
    RemoveUndoesInsert(controls, i, c);
  }

  /** Adding back a removed control at its index restores the controls. */
  lemma RemoveThenAdd(controls: seq<nat>, i: nat)
    requires i < |controls|
    ensures var r := Remove(controls, Some(i));
      r.1 == Some(controls[i]) && Add(r.0, Some(i), controls[i]) == controls
  {
    var r := Remove(controls, Some(i));
    assert r.0[..i] + [controls[i]] + r.0[i..] == controls;
  }
}

=== FILE: timeline_server.dfy ===
/** The service that exposes the timeline to other processes names each
    destination control by an identifier it mints on first sight and keeps
    both directions of the naming, so that later calls can address a
    control by identifier. Controls are represented by identities; the
    identifier source is the parameter `uuid`, read at the count of
    identifiers minted so far. */
module TimelineServer {
  import opened Wrappers
  import Timeline

  /** The two maps of the service and how many identifiers it has minted. */
  datatype Registry = Registry(destinations: map<string, nat>, ids: map<nat, string>, minted: nat)

  /** `new TimelineService(...)` before any control is seen. */
  function Empty(): (r: Registry)
    ensures r.destinations == map[] && r.ids == map[] && r.minted == 0
  {
    Registry(map[], map[], 0)
  }

  /** Each map inverts the other, and no control is named by the empty
      string. */
  predicate Consistent(r: Registry) {
    "" !in r.destinations &&
    (forall d :: d in r.ids ==> r.ids[d] in r.destinations && r.destinations[r.ids[d]] == d) &&
    (forall id :: id in r.destinations ==> r.destinations[id] in r.ids && r.ids[r.destinations[id]] == id)
  }

  /** The identifiers still to be minted are non-empty and unused. */
  ghost predicate Fresh(r: Registry, uuid: nat -> string) {
    (forall k :: k >= r.minted ==> uuid(k) != "" && uuid(k) !in r.destinations) &&
    (forall i, j :: i >= r.minted && j >= r.minted && uuid(i) == uuid(j) ==> i == j)
  }

  /** `identifyDestination(destination)`: an absent control is named by the
      empty string; a control seen before keeps its identifier; a new one
      gets the next identifier, recorded both ways. */
  function Identify(r: Registry, uuid: nat -> string, d: Option<nat>): (p: (Registry, string))
    ensures d.None? ==> p == (r, "")
    ensures d.Some? && d.value in r.ids && r.ids[d.value] != "" ==> p == (r, r.ids[d.value])
    ensures d.Some? && !(d.value in r.ids && r.ids[d.value] != "") ==>
      p.1 == uuid(r.minted) && p.0.minted == r.minted + 1 &&
      p.0.destinations == r.destinations[p.1 := d.value] && p.0.ids == r.ids[d.value := p.1]
  {
    match d
    case None => (r, "")
    case Some(c) =>
      if c in r.ids && r.ids[c] != "" then (r, r.ids[c])
      else
        var id := uuid(r.minted);
        (Registry(r.destinations[id := c], r.ids[c := id], r.minted + 1), id)
  }

  /** The registry only grows: earlier names keep their meaning. */
  predicate Extends(r: Registry, s: Registry) {
    r.minted <= s.minted &&
    (forall id :: id in r.destinations ==> id in s.destinations && s.destinations[id] == r.destinations[id]) &&
    (forall d :: d in r.ids ==> d in s.ids && s.ids[d] == r.ids[d])
  }

  /** Naming keeps the maps inverse and the future identifiers fresh, names
      a present control by an identifier that leads back to it, and keeps
      every earlier name. */
  lemma IdentifyResolves(r: Registry, uuid: nat -> string, d: Option<nat>)
    requires Consistent(r) && Fresh(r, uuid)
    ensures var p := Identify(r, uuid, d);
      Consistent(p.0) && Fresh(p.0, uuid) && Extends(r, p.0) &&
      (d.Some? ==> p.1 != "" && p.1 in p.0.destinations && p.0.destinations[p.1] == d.value && p.0.ids[d.value] == p.1)
  {
    if d.Some? && !(d.value in r.ids && r.ids[d.value] != "") {
      var c := d.value;
      var id := uuid(r.minted);
      assert c !in r.ids;
      var s := Identify(r, uuid, d).0;
      forall k | k >= s.minted
        ensures uuid(k) != "" && uuid(k) !in s.destinations
      {
        assert uuid(k) != id;
      }
    }
  }

  /** Naming a control a second time changes nothing and gives the same
      identifier. */
  lemma IdentifyTwice(r: Registry, uuid: nat -> string, d: Option<nat>)
    requires Consistent(r) && Fresh(r, uuid)
    ensures var p := Identify(r, uuid, d);
      Identify(p.0, uuid, d) == p
  {
    IdentifyResolves(r, uuid, d);
  }

  /** `identifyDestinationOrDestinations(polyd)` names one control or each
      control of a list, in order. */
  datatype Poly = One(control: Option<nat>) | Many(controls: seq<Option<nat>>)

  datatype IdOrIds = Id(id: string) | Ids(ids: seq<string>)

  function IdentifyAll(r: Registry, uuid: nat -> string, ds: seq<Option<nat>>): (p: (Registry, seq<string>))
    ensures |p.1| == |ds|
    decreases |ds|
  {
    if ds == [] then (r, [])
    else
      var first := Identify(r, uuid, ds[0]);
      var rest := IdentifyAll(first.0, uuid, ds[1..]);
      (rest.0, [first.1] + rest.1)
  }

  function IdentifyPoly(r: Registry, uuid: nat -> string, polyd: Poly): (p: (Registry, IdOrIds))
    ensures polyd.One? ==> p.1.Id? && p == (Identify(r, uuid, polyd.control).0, Id(Identify(r, uuid, polyd.control).1))
    ensures polyd.Many? ==> p.1.Ids? && |p.1.ids| == |polyd.controls|
  {
    match polyd
    case One(d) => var q := Identify(r, uuid, d); (q.0, Id(q.1))
    case Many(ds) => var q := IdentifyAll(r, uuid, ds); (q.0, Ids(q.1))
  }

  /** Naming a list names each present control by an identifier that the
      final registry resolves back to it, the absent ones by the empty
      string, and keeps every earlier name. */
  lemma {:induction false} IdentifyAllResolves(r: Registry, uuid: nat -> string, ds: seq<Option<nat>>)
    requires Consistent(r) && Fresh(r, uuid)
    ensures var p := IdentifyAll(r, uuid, ds);
      Consistent(p.0) && Fresh(p.0, uuid) && Extends(r, p.0) &&
      forall k :: 0 <= k < |ds| ==>
        (ds[k].None? ==> p.1[k] == "") &&
        (ds[k].Some? ==> p.1[k] in p.0.destinations && p.0.destinations[p.1[k]] == ds[k].value)
    decreases |ds|
  {
    if ds != [] {
      var first := Identify(r, uuid, ds[0]);
      IdentifyResolves(r, uuid, ds[0]);
      IdentifyAllResolves(first.0, uuid, ds[1..]);
      var p := IdentifyAll(r, uuid, ds);
      var rest := IdentifyAll(first.0, uuid, ds[1..]);
      assert p.1 == [first.1] + rest.1;
      forall k | 0 <= k < |ds|
        ensures (ds[k].None? ==> p.1[k] == "") &&
          (ds[k].Some? ==> p.1[k] in p.0.destinations && p.0.destinations[p.1[k]] == ds[k].value)
      {
        if k > 0 {
          assert p.1[k] == rest.1[k - 1] && ds[k] == ds[1..][k - 1];
        }
      }
    }
  }

  /** A control listed twice is named the same both times. */
  lemma SameControlSameId(r: Registry, uuid: nat -> string, ds: seq<Option<nat>>, i: nat, j: nat)
    requires Consistent(r) && Fresh(r, uuid)
    requires i < |ds| && j < |ds| && ds[i].Some? && ds[i] == ds[j]
    ensures IdentifyAll(r, uuid, ds).1[i] == IdentifyAll(r, uuid, ds).1[j]
  {
    IdentifyAllResolves(r, uuid, ds);
    var p := IdentifyAll(r, uuid, ds);
    assert p.0.ids[ds[i].value] == p.1[i];
  }

  /** `get(i)`: the timeline's answer, named. */
  function Get(r: Registry, uuid: nat -> string, controls: seq<nat>, i: Option<int>): (p: (Registry, IdOrIds))
    ensures i.None? ==> p.1.Ids? && |p.1.ids| == |controls|
    ensures i.Some? ==> p.1.Id? && (Timeline.Get(controls, i).control.None? ==> p.1.id == "")
  {
    match Timeline.Get(controls, i)
    case Every(cs) => IdentifyPoly(r, uuid, Many(Present(cs)))
    case Single(c) => IdentifyPoly(r, uuid, One(c))
  }

  function Present(cs: seq<nat>): (ds: seq<Option<nat>>)
    ensures |ds| == |cs| && forall k :: 0 <= k < |cs| ==> ds[k] == Some(cs[k])
  {
    seq(|cs|, k requires 0 <= k < |cs| => Some(cs[k]))
  }

  /** The identifiers `get` answers lead back to the controls the timeline
      holds there. */
  lemma GetResolves(r: Registry, uuid: nat -> string, controls: seq<nat>, i: Option<int>)
    requires Consistent(r) && Fresh(r, uuid)
    ensures var p := Get(r, uuid, controls, i);
      Consistent(p.0) && Fresh(p.0, uuid) && Extends(r, p.0) &&
      (p.1.Id? ==> (p.1.id == "" <==> Timeline.Get(controls, i).control.None?)) &&
      (p.1.Id? && p.1.id != "" ==> p.1.id in p.0.destinations && Timeline.Get(controls, i) == Timeline.Single(Some(p.0.destinations[p.1.id]))) &&
      (p.1.Ids? ==> forall k :: 0 <= k < |controls| ==> p.1.ids[k] in p.0.destinations && p.0.destinations[p.1.ids[k]] == controls[k])
  {
    match Timeline.Get(controls, i)
    case Every(cs) => IdentifyAllResolves(r, uuid, Present(cs));
    case Single(c) => IdentifyResolves(r, uuid, c);
  }

  /** `remove(i)`: the removed control, named. */
  function Remove(r: Registry, uuid: nat -> string, controls: seq<nat>, i: Option<int>): (p: (seq<nat>, Registry, string))
    ensures p.0 == Timeline.Remove(controls, i).0
    ensures Timeline.Remove(controls, i).1.None? ==> p.2 == ""
  {
    var t := Timeline.Remove(controls, i);
    var q := Identify(r, uuid, t.1);
    (t.0, q.0, q.1)
  }

  /** The identifier `remove` answers leads back to the removed control. */
  lemma RemoveResolves(r: Registry, uuid: nat -> string, controls: seq<nat>, i: Option<int>)
    requires Consistent(r) && Fresh(r, uuid)
    ensures var p := Remove(r, uuid, controls, i);
      Consistent(p.1) && Fresh(p.1, uuid) && Extends(r, p.1) &&
      (p.2 == "" <==> Timeline.Remove(controls, i).1.None?) &&
      (p.2 != "" ==> p.2 in p.1.destinations && Timeline.Remove(controls, i).1 == Some(p.1.destinations[p.2]))
  {
    IdentifyResolves(r, uuid, Timeline.Remove(controls, i).1);
  }

  /** `add(i)`: the new control `c`, placed by the timeline, named. */
  function Add(r: Registry, uuid: nat -> string, controls: seq<nat>, i: Option<int>, c: nat): (p: (seq<nat>, Registry, string))
    ensures p.0 == Timeline.Add(controls, i, c)
  {
    var q := Identify(r, uuid, Some(c));
    (Timeline.Add(controls, i, c), q.0, q.1)
  }

  /** The identifier `add` answers leads back to the added control, which
      `get` at the same index then names alike. */
  lemma AddResolves(r: Registry, uuid: nat -> string, controls: seq<nat>, i: int, c: nat)
    requires Consistent(r) && Fresh(r, uuid)
    requires 0 <= i <= |controls|
    ensures var p := Add(r, uuid, controls, Some(i), c);
      Consistent(p.1) && Fresh(p.1, uuid) && p.2 != "" &&
      p.2 in p.1.destinations && p.1.destinations[p.2] == c &&
      Get(p.1, uuid, p.0, Some(i)).1 == Id(p.2)
  {
    IdentifyResolves(r, uuid, Some(c));
    IdentifyTwice(r, uuid, Some(c));
    Timeline.AddThenGet(controls, Some(i), c);
  }
}

=== FILE: travel_commands.dfy ===
/** The application shell's command line and housekeeping: a chat message
    holding a slash is read as a command, the registered commands run and
    the others are reported; inviting needs an active trip; empty trailing
    destinations are trimmed; the syncbase name and the directions error
    texts are prepared at start-up. */
module TravelCommands {
  import opened Wrappers
  import opened Text
  import JsValues

  // --- Reading a command --------------------------------------------------

  /** The first slash of a text. */
  function FirstSlash(raw: string): (r: Option<nat>)
    ensures r.Some? ==> r.value < |raw| && raw[r.value] == '/' && forall j :: 0 <= j < r.value ==> raw[j] != '/'
    ensures r.None? <==> '/' !in raw
  {
    if raw == [] then None
    else if raw[0] == '/' then Some(0)
    else match FirstSlash(raw[1..])
      case None => None
      case Some(i) => Some(i + 1)
  }

  /** Length of the longest prefix free of whitespace: what `\S*` takes. */
  function NonSpaceRun(s: string): (n: nat)
    ensures n <= |s| && (forall k :: 0 <= k < n ==> !IsJsSpace(s[k])) && (n < |s| ==> IsJsSpace(s[n]))
  {
    if s == [] || IsJsSpace(s[0]) then 0 else 1 + NonSpaceRun(s[1..])
  }

  /** Length of the longest prefix of whitespace: what a greedy `\s+`
      takes. */
  function SpaceRun(s: string): (n: nat)
    ensures n <= |s| && (forall k :: 0 <= k < n ==> IsJsSpace(s[k])) && (n < |s| ==> !IsJsSpace(s[n]))
  {
    if s == [] || !IsJsSpace(s[0]) then 0 else 1 + SpaceRun(s[1..])
  }

  /** A command name and its argument text, when the text has any. */
  datatype Command = Command(name: string, rest: Option<string>)

  /** `CMD_REGEX.exec(raw)`, with the pattern `/\/(\S*)(?:\s+(.*))?/`: it
      is not anchored, so the match starts at the first slash anywhere in
      the text; the name is the whitespace-free run after it; when anything
      follows, it is whitespace, which is skipped, and the argument runs to
      the end of that line. */
  function ParseCommand(raw: string): (r: Option<Command>)
    ensures r.None? <==> '/' !in raw
    ensures r.Some? ==> forall k :: 0 <= k < |r.value.name| ==> !IsJsSpace(r.value.name[k])
    ensures r.Some? && r.value.rest.Some? ==> forall k :: 0 <= k < |r.value.rest.value| ==> !IsLineTerminator(r.value.rest.value[k])
  {
    match FirstSlash(raw)
    case None => None
    case Some(i) => Some(ParseAfterSlash(raw[i + 1..]))
  }

  /** What the pattern reads after the slash. */
  function ParseAfterSlash(after: string): (c: Command)
    ensures forall k :: 0 <= k < |c.name| ==> !IsJsSpace(c.name[k])
    ensures c.rest.Some? ==> forall k :: 0 <= k < |c.rest.value| ==> !IsLineTerminator(c.rest.value[k])
  {
    var n := NonSpaceRun(after);
    var tail := after[n..];
    if tail == [] then Command(after[..n], None)
    else Command(after[..n], Some(UpToLineEnd(tail[SpaceRun(tail)..])))
  }

  /** Typing `/name argument` reads back the name and the argument, for any
      text before the slash that holds none, a name without whitespace, and
      an argument on one line that starts with no whitespace. */
  lemma ParseCommandRoundTrip(before: string, name: string, arg: string)
    requires '/' !in before
    requires forall k :: 0 <= k < |name| ==> !IsJsSpace(name[k])
    requires forall k :: 0 <= k < |arg| ==> !IsLineTerminator(arg[k])
    requires arg != [] ==> !IsJsSpace(arg[0])
    ensures ParseCommand(before + "/" + name + " " + arg) == Some(Command(name, Some(arg)))
  {
    var after := name + " " + arg;
    SlashAfter(before, after);
    assert before + "/" + name + " " + arg == before + "/" + after;
    ParseAfterRoundTrip(name, arg);
  }

  lemma ParseAfterRoundTrip(name: string, arg: string)
    requires forall k :: 0 <= k < |name| ==> !IsJsSpace(name[k])
    requires forall k :: 0 <= k < |arg| ==> !IsLineTerminator(arg[k])
    requires arg != [] ==> !IsJsSpace(arg[0])
    ensures ParseAfterSlash(name + " " + arg) == Command(name, Some(arg))
  {
    var after := name + " " + arg;
    var tail := " " + arg;
    assert after == name + tail;
    NonSpaceRunStops(name, tail);
    assert after[|name|..] == tail && after[..|name|] == name;
    assert SpaceRun(tail) == 1 + SpaceRun(arg);
    assert tail[1..] == arg;
    UpToLineEndWhole(arg);
  }

  /** Typing `/name` alone reads back the name and no argument. */
  lemma ParseBareCommand(before: string, name: string)
    requires '/' !in before
    requires forall k :: 0 <= k < |name| ==> !IsJsSpace(name[k])
    ensures ParseCommand(before + "/" + name) == Some(Command(name, None))
  {
    SlashAfter(before, name);
    NonSpaceRunStops(name, "");
    assert name + "" == name;
  }

  lemma SlashAfter(before: string, after: string)
    requires '/' !in before
    ensures FirstSlash(before + "/" + after) == Some(|before|)
    ensures (before + "/" + after)[|before| + 1..] == after
  {
    var raw := before + "/" + after;
    assert raw[|before|] == '/';
    forall j | 0 <= j < |before|
      ensures raw[j] != '/'
    {
      assert raw[j] == before[j];
    }
  }

  lemma {:induction false} NonSpaceRunStops(name: string, tail: string)
    requires forall k :: 0 <= k < |name| ==> !IsJsSpace(name[k])
    requires tail == [] || IsJsSpace(tail[0])
    ensures NonSpaceRun(name + tail) == |name|
    decreases |name|
  {
    if name != [] {
      assert (name + tail)[1..] == name[1..] + tail;
      NonSpaceRunStops(name[1..], tail);
    } else {
      assert name + tail == tail;
    }
  }

  lemma {:induction false} UpToLineEndWhole(s: string)
    requires forall k :: 0 <= k < |s| ==> !IsLineTerminator(s[k])
    ensures UpToLineEnd(s) == s
    decreases |s|
  {
    if s != [] {
      UpToLineEndWhole(s[1..]);
    }
  }

  /** A slash anywhere makes the message a command: whatever text precedes
      "/status", the status command runs. */
  lemma UnanchoredCommand(before: string)
    requires '/' !in before
    ensures ParseCommand(before + "/" + "status") == Some(Command("status", None))
  {
    LowerCaseHasNoSpace("status");
    ParseBareCommand(before, "status");
  }

  /** A name of lower-case letters holds no whitespace. */
  lemma LowerCaseHasNoSpace(name: string)
    requires forall k :: 0 <= k < |name| ==> 'a' <= name[k] <= 'z'
    ensures forall k :: 0 <= k < |name| ==> !IsJsSpace(name[k])
  {
  }

  // --- Running a command --------------------------------------------------

  /** What a message or command leads to. */
  datatype Effect =
    | Forwarded(message: string)
    | SendingInvite(recipient: Option<string>, owner: string, tripId: string)
    | ErrorShown(text: string)
    | StatusShown
    | Thrown

  /** The messages the application shows. */
  const NOT_READY := "Trip is still initializing."
  const UNRECOGNIZED := "Unrecognized command "

  /** The active trip, as far as the sync layer knows it. */
  datatype Trip = Trip(owner: Option<string>, tripId: string)

  /** `invite(recipient)`: with an active trip owner an invitation goes out
      for the active trip; without one, an error is shown and nothing is
      sent. */
  function Invite(trip: Trip, recipient: Option<string>): (e: Effect)
    ensures e.SendingInvite? <==> trip.owner.Some? && trip.owner.value != ""
    ensures e.SendingInvite? ==> e == SendingInvite(recipient, trip.owner.value, trip.tripId)
    ensures !e.SendingInvite? ==> e == ErrorShown(NOT_READY)
  {
    if trip.owner.Some? && trip.owner.value != "" then SendingInvite(recipient, trip.owner.value, trip.tripId)
    else ErrorShown(NOT_READY)
  }

  /** The names of the commands registered. */
  const REGISTERED: set<string> := {"invite", "status"}

  /** `runCommand(command, rest)` as written: the handler is looked up on
      the command table, which also answers the names it inherits from
      every object; such a handler has no `op`, so calling it throws. */
  function RunCommandAsWritten(trip: Trip, command: string, rest: Option<string>): (e: Effect)
    ensures command in JsValues.INHERITED ==> e == Thrown
  {
    if command == "invite" then Invite(trip, rest)
    else if command == "status" then StatusShown
    else if command in JsValues.INHERITED then Thrown
    else ErrorShown(UNRECOGNIZED + command)
  }

  /** Typing "/constructor" throws instead of reporting an unrecognized
      command. */
  lemma InheritedNameThrows(trip: Trip)
    ensures RunCommandAsWritten(trip, "constructor", None) == Thrown
    ensures "constructor" !in REGISTERED
  {
  }

  /** `runCommand(command, rest)` with the table's own entries only: the
      registered commands run, with the argument text as their one
      argument, and every other name is reported as unrecognized. */
  function RunCommand(trip: Trip, command: string, rest: Option<string>): (e: Effect)
    ensures e != Thrown && !e.Forwarded?
    ensures command !in REGISTERED <==> e == ErrorShown(UNRECOGNIZED + command)
    ensures command == "status" <==> e == StatusShown
    ensures command == "invite" ==> e == Invite(trip, rest)
  {
    if command == "invite" then
      assert (UNRECOGNIZED + command)[0] != NOT_READY[0];
      Invite(trip, rest)
    else if command == "status" then StatusShown
    else ErrorShown(UNRECOGNIZED + command)
  }

  /** The two agree on every name but the inherited ones. */
  lemma RunCommandAgrees(trip: Trip, command: string, rest: Option<string>)
    ensures command !in JsValues.INHERITED ==> RunCommandAsWritten(trip, command, rest) == RunCommand(trip, command, rest)
    ensures command in JsValues.INHERITED ==> RunCommandAsWritten(trip, command, rest) != RunCommand(trip, command, rest)
  {
  }

  /** `handleUserMessage(message, raw)` as written: a command is run
      through the table as written; anything else is sent to the trip's
      chat. */
  function HandleUserMessageAsWritten(trip: Trip, message: string, raw: string): (e: Effect)
    ensures '/' !in raw <==> e == Forwarded(message)
  {
    match ParseCommand(raw)
    case None => Forwarded(message)
    case Some(c) => RunCommandAsWritten(trip, c.name, c.rest)
  }

  /** `handleUserMessage(message, raw)` with the corrected command table: a
      command is run; anything else is sent to the trip's chat. */
  function HandleUserMessage(trip: Trip, message: string, raw: string): (e: Effect)
    ensures '/' !in raw <==> e == Forwarded(message)
    ensures e != Thrown
  {
    match ParseCommand(raw)
    case None => Forwarded(message)
    case Some(c) => RunCommand(trip, c.name, c.rest)
  }

  /** The message handler as written throws exactly when the text names an
      inherited property as its command, and otherwise does what the
      corrected one does. */
  lemma HandleUserMessageAgrees(trip: Trip, message: string, raw: string)
    ensures HandleUserMessageAsWritten(trip, message, raw) == Thrown <==>
      ParseCommand(raw).Some? && ParseCommand(raw).value.name in JsValues.INHERITED
    ensures HandleUserMessageAsWritten(trip, message, raw) != Thrown ==>
      HandleUserMessageAsWritten(trip, message, raw) == HandleUserMessage(trip, message, raw)
  {
    match ParseCommand(raw)
    case None =>
    case Some(c) => RunCommandAgrees(trip, c.name, c.rest);
  }

  /** Typing "/constructor" into the chat throws in the program as written. */
  lemma ConstructorMessageThrows(trip: Trip, message: string)
    ensures HandleUserMessageAsWritten(trip, message, "/" + "constructor") == Thrown
    ensures HandleUserMessage(trip, message, "/" + "constructor") == ErrorShown(UNRECOGNIZED + "constructor")
  {
    LowerCaseHasNoSpace("constructor");
    ParseBareCommand("", "constructor");
    assert "" + "/" + "constructor" == "/" + "constructor";
  }

  /** "/invite someone" with an active trip invites that user to it;
      without one it reports that the trip is not ready. */
  lemma InviteCommand(trip: Trip, message: string, recipient: string)
    requires forall k :: 0 <= k < |recipient| ==> !IsLineTerminator(recipient[k])
    requires recipient != [] ==> !IsJsSpace(recipient[0])
    ensures trip.owner.Some? && trip.owner.value != "" ==>
      HandleUserMessage(trip, message, "/" + "invite" + " " + recipient) == SendingInvite(Some(recipient), trip.owner.value, trip.tripId)
    ensures !(trip.owner.Some? && trip.owner.value != "") ==>
      HandleUserMessage(trip, message, "/" + "invite" + " " + recipient) == ErrorShown(NOT_READY)
  {
    LowerCaseHasNoSpace("invite");
    ParseCommandRoundTrip("", "invite", recipient);
    assert "" + "/" == "/";
  }

  // --- Trimming the timeline ----------------------------------------------

  /** What trimming reads of a destination. */
  datatype Stop = Stop(placed: bool, selected: bool)

  predicate Unused(s: Stop) {
    !s.placed && !s.selected
  }

  /** The trailing unused stops dropped from a non-empty timeline, keeping
      at least one stop. */
  function TrimTail(stops: seq<Stop>): (r: seq<Stop>)
    requires stops != []
    ensures r != [] && r <= stops
    ensures |r| == 1 || !Unused(r[|r| - 1])
    ensures forall k :: |r| <= k < |stops| ==> Unused(stops[k])
    decreases |stops|
  {
    if |stops| > 1 && Unused(stops[|stops| - 1]) then TrimTail(stops[..|stops| - 1]) else stops
  }

  /** `trimUnusedDestinations()`: trailing destinations with no place that
      are not selected are removed, but never the only one. Reading the last
      of an empty timeline throws. */
  function TrimUnused(stops: seq<Stop>): (r: Result<seq<Stop>, ()>)
    ensures stops == [] <==> r.Failure?
    ensures r.Success? ==> r.value != [] && r.value <= stops
    ensures r.Success? ==> |r.value| == 1 || !Unused(r.value[|r.value| - 1])
    ensures r.Success? ==> forall k :: |r.value| <= k < |stops| ==> Unused(stops[k])
  {
    if stops == [] then Failure(()) else Success(TrimTail(stops))
  }

  /** Trimming what was trimmed removes nothing more. */
  lemma TrimTwice(stops: seq<Stop>)
    requires stops != []
    ensures TrimUnused(TrimUnused(stops).value) == TrimUnused(stops)
  {
  }

  // --- Start-up -------------------------------------------------------------

  /** A decimal integer, the form of number the syncbase option takes. */
  predicate IsNumeric(s: string) {
    s != [] && forall k :: 0 <= k < |s| ==> IsDigit(s[k])
  }

  const DEFAULT_SYNCBASE := "4000"

  /** The syncbase name: the option, else the query parameter, else 4000;
      a number stands for a port on the local host. */
  function SyncbaseName(option: Option<string>, query: Option<string>): (name: string)
    ensures !Given(option) && !Given(query) ==> name == "/localhost:4000"
    ensures IsNumeric(Chosen(option, query)) ==> name == "/localhost:" + Chosen(option, query)
    ensures !IsNumeric(Chosen(option, query)) ==> name == Chosen(option, query)
  {
    Normalize(Chosen(option, query))
  }

  predicate Given(o: Option<string>) {
    o.Some? && o.value != ""
  }

  function Chosen(option: Option<string>, query: Option<string>): (s: string)
    ensures Given(option) ==> s == option.value
    ensures !Given(option) && Given(query) ==> s == query.value
    ensures !Given(option) && !Given(query) ==> s == DEFAULT_SYNCBASE
  {
    if Given(option) then option.value else if Given(query) then query.value else DEFAULT_SYNCBASE
  }

  function Normalize(s: string): string {
    if IsNumeric(s) then "/localhost:" + s else s
  }

  /** A normalised name is not numeric, so normalising it again leaves it;
      and two numbers name the same host port only if they are equal. */
  lemma NormalizeIdempotent(s: string, t: string)
    ensures Normalize(Normalize(s)) == Normalize(s)
    ensures IsNumeric(s) && IsNumeric(t) ==> (Normalize(s) == Normalize(t) <==> s == t)
  {
    if IsNumeric(s) {
      assert !IsDigit(Normalize(s)[0]);
    }
    if IsNumeric(s) && IsNumeric(t) && Normalize(s) == Normalize(t) {
      assert s == Normalize(s)[11..];
    }
  }

  /** `buildStatusErrorStringMap(statusClass, stringGroup)`: each status
      value, taken in the order of the status names, maps to the text the
      group holds under that name (undefined when it holds none); a later
      name with the same value wins. */
  function StatusErrorStrings(statuses: seq<(string, string)>, group: map<string, string>): (dict: map<string, Option<string>>)
    ensures forall v :: v in dict <==> exists k :: 0 <= k < |statuses| && statuses[k].1 == v
  {
    if statuses == [] then map[]
    else
      var last := statuses[|statuses| - 1];
      var dict := StatusErrorStrings(statuses[..|statuses| - 1], group);
      assert forall k :: 0 <= k < |statuses| - 1 ==> statuses[..|statuses| - 1][k] == statuses[k];
      dict[last.1 := if last.0 in group then Some(group[last.0]) else None]
  }

  /** A value maps to the text of the last name that carries it. */
  lemma {:induction false} StatusErrorStringsLastWins(statuses: seq<(string, string)>, group: map<string, string>, k: nat)
    requires k < |statuses|
    requires forall j :: k < j < |statuses| ==> statuses[j].1 != statuses[k].1
    ensures var dict := StatusErrorStrings(statuses, group);
      statuses[k].1 in dict &&
      dict[statuses[k].1] == (if statuses[k].0 in group then Some(group[statuses[k].0]) else None)
    decreases |statuses|
  {
    if k < |statuses| - 1 {
      var init := statuses[..|statuses| - 1];
      assert forall j :: k < j < |init| ==> init[j] == statuses[j];
      StatusErrorStringsLastWins(init, group, k);
    }
  }

  const UNKNOWN_ERROR := "Unknown error"

  /** The text shown for a directions failure: the status's text, or a
      generic one when it has none. */
  function DirectionsErrorText(dict: map<string, Option<string>>, status: string): (text: string)
    ensures status in dict && dict[status].Some? && dict[status].value != "" ==> text == dict[status].value
    ensures !(status in dict && dict[status].Some? && dict[status].value != "") ==> text == UNKNOWN_ERROR
  {
    if status in dict && dict[status].Some? && dict[status].value != "" then dict[status].value else UNKNOWN_ERROR
  }
}

=== FILE: travel_service.dfy ===
/** The Android travel service: deriving a mount name from a set of Vanadium
    blessings, and the fail-fast order in which the service starts its server.
    Decoding of the blessing blob and every call into the Vanadium runtime are
    oracles passed in as parameters; the model records which of them ran, in
    what order, and what the user was shown. */
module TravelService {
  import opened Wrappers

  /** A certificate, reduced to the one field the service reads. */
  datatype Certificate = Certificate(extension: string)

  /** A certificate chain, stored root first and leaf last as Vanadium keeps it. */
  type Chain = seq<Certificate>

  datatype Blessings = Blessings(chains: seq<Chain>)

  predicate HasAt(c: Certificate) {
    '@' in c.extension
  }

  /** Position (chain, index) lies in the blessings. */
  predicate ValidPos(b: Blessings, ci: int, k: int) {
    0 <= ci < |b.chains| && 0 <= k < |b.chains[ci]|
  }

  /** Scanning order of the service: chains in order, each chain leaf to root.
      Position (ci, k) is visited strictly before (cj, l). */
  predicate ScannedBefore(ci: int, k: int, cj: int, l: int) {
    ci < cj || (ci == cj && k > l)
  }

  /** Reference definition: the leaf-most certificate of one chain with an
      '@' in its extension. */
  function LeafMostUser(chain: Chain): (r: Option<string>)
    ensures r.Some? ==> '@' in r.value
  {
    if |chain| == 0 then None
    else if HasAt(chain[|chain| - 1]) then Some(chain[|chain| - 1].extension)
    else LeafMostUser(chain[..|chain| - 1])
  }

  /** Reference definition of the derived name: the first chain that yields a
      user decides, and "" when none does. */
  function MountName(chains: seq<Chain>): (r: string)
    ensures r == "" || '@' in r
  {
    if |chains| == 0 then ""
    else match LeafMostUser(chains[0])
      case Some(u) => u
      case None => MountName(chains[1..])
  }

  /** `mountNameFromBlessings`: the loop of the service, scanning each chain
      in reverse. It computes the reference definition. */
  method MountNameFromBlessings(b: Blessings) returns (name: string)
    ensures name == MountName(b.chains)
  {
    name := "";
    var ci := 0;
    while ci < |b.chains|
      invariant 0 <= ci <= |b.chains|
      invariant MountName(b.chains) == MountName(b.chains[ci..])
    {
      var chain := b.chains[ci];
      assert b.chains[ci..][0] == chain;
      var k := |chain|;
      assert chain[..k] == chain;
      while k > 0
        invariant 0 <= k <= |chain|
        invariant LeafMostUser(chain) == LeafMostUser(chain[..k])
      {
        if HasAt(chain[k - 1]) {
          assert chain[..k][k - 1] == chain[k - 1];
          return chain[k - 1].extension;
        }
        assert chain[..k][..k - 1] == chain[..k - 1];
        k := k - 1;
      }
      assert b.chains[ci..][1..] == b.chains[ci + 1..];
      ci := ci + 1;
    }
  }

  lemma {:induction false} LeafMostUserFound(chain: Chain)
    ensures LeafMostUser(chain).Some? <==> exists k :: 0 <= k < |chain| && HasAt(chain[k])
    ensures LeafMostUser(chain).Some? ==>
      exists k :: 0 <= k < |chain| && HasAt(chain[k]) && LeafMostUser(chain).value == chain[k].extension
        && forall l :: k < l < |chain| ==> !HasAt(chain[l])
  {
    if |chain| > 0 && !HasAt(chain[|chain| - 1]) {
      var init := chain[..|chain| - 1];
      LeafMostUserFound(init);
      if LeafMostUser(init).Some? {
        var k :| 0 <= k < |init| && HasAt(init[k]) && LeafMostUser(init).value == init[k].extension
          && forall l :: k < l < |init| ==> !HasAt(init[l]);
        assert chain[k] == init[k];
        forall l | k < l < |chain|
          ensures !HasAt(chain[l])
        {
          if l < |chain| - 1 {
            assert chain[l] == init[l];
          }
        }
      } else {
        forall k | 0 <= k < |chain|
          ensures !HasAt(chain[k])
        {
          if k < |chain| - 1 {
            assert chain[k] == init[k];
          }
        }
      }
    }
  }

  /** The derived name is "" exactly when no certificate of any chain has an
      '@' in its extension. */
  lemma {:induction false} MountNameEmpty(chains: seq<Chain>)
    ensures MountName(chains) == "" <==>
      forall ci, k :: 0 <= ci < |chains| && 0 <= k < |chains[ci]| ==> !HasAt(chains[ci][k])
  {
    if |chains| > 0 {
      LeafMostUserFound(chains[0]);
      MountNameEmpty(chains[1..]);
      match LeafMostUser(chains[0])
      case Some(u) =>
        assert '@' in u;
      case None =>
        forall ci, k | 0 < ci < |chains| && 0 <= k < |chains[ci]|
          ensures chains[ci][k] == chains[1..][ci - 1][k]
        {
        }
        if MountName(chains[1..]) != "" {
          var ci, k :| 0 <= ci < |chains[1..]| && 0 <= k < |chains[1..][ci]| && HasAt(chains[1..][ci][k]);
          assert chains[ci + 1][k] == chains[1..][ci][k];
        }
    }
  }

  /** A non-empty derived name is the extension of a certificate with an '@'
      that comes first in scanning order among all such certificates. */
  lemma {:induction false} MountNameIsFirstUser(chains: seq<Chain>)
    requires MountName(chains) != ""
    ensures exists ci, k ::
      (ValidPos(Blessings(chains), ci, k) && HasAt(chains[ci][k])
       && MountName(chains) == chains[ci][k].extension
       && forall cj, l :: ValidPos(Blessings(chains), cj, l) && ScannedBefore(cj, l, ci, k) ==> !HasAt(chains[cj][l]))
  {
    var b := Blessings(chains);
    LeafMostUserFound(chains[0]);
    match LeafMostUser(chains[0])
    case Some(u) =>
      var k :| 0 <= k < |chains[0]| && HasAt(chains[0][k]) && u == chains[0][k].extension
        && forall l :: k < l < |chains[0]| ==> !HasAt(chains[0][l]);
      assert ValidPos(b, 0, k);
    case None =>
      var rest := chains[1..];
      MountNameIsFirstUser(rest);
      var ci, k :| ValidPos(Blessings(rest), ci, k) && HasAt(rest[ci][k])
        && MountName(rest) == rest[ci][k].extension
        && forall cj, l :: ValidPos(Blessings(rest), cj, l) && ScannedBefore(cj, l, ci, k) ==> !HasAt(rest[cj][l]);
      assert chains[ci + 1] == rest[ci];
      assert ValidPos(b, ci + 1, k);
      forall cj, l | ValidPos(b, cj, l) && ScannedBefore(cj, l, ci + 1, k)
        ensures !HasAt(chains[cj][l])
      {
        if cj > 0 {
          assert chains[cj] == rest[cj - 1];
          assert ValidPos(Blessings(rest), cj - 1, l) && ScannedBefore(cj - 1, l, ci, k);
        }
      }
  }

  /** Mount point of the server: `users/<name>/travel/mobile`. */
  function MountPoint(prefix: string): (m: string)
    ensures |m| == |prefix| + 20
    ensures m[..6] == "users/" && m[6..6 + |prefix|] == prefix && m[6 + |prefix|..] == "/travel/mobile"
  {
    "users/" + prefix + "/travel/mobile"
  }

  /** Android's `Service.START_REDELIVER_INTENT`. */
  const START_REDELIVER_INTENT: int := 3

  /** The calls into the runtime, in the order the service can make them. */
  datatype Stage =
    | DecodeBlessings
    | SetDefaultBlessings
    | SetPatternBlessings
    | AddToRoots
    | DeriveMountName
    | CreateServer

  /** Outcome of one start request: the stages that ran, the toasts shown,
      the mount point of a started server, and the value returned to Android. */
  datatype Outcome = Outcome(trace: seq<Stage>, toasts: seq<string>, mounted: Option<string>, code: int)

  const EMPTY_BLESSINGS_MSG: string := "Couldn't start TravelService: null or empty encoded blessings."
  const NULL_BLESSINGS_MSG: string := "Couldn't start TravelService: null blessings."
  const FAILURE_PREFIX: string := "Couldn't start TravelService: "
  const NO_USERNAME_MSG: string := "Could not determine mount point: no username in blessings."
  const MOUNTING_PREFIX: string := "Mounting server at "
  const SUCCESS_MSG: string := "Success!"

  /** Result of `startTravelServer`: the stages it ran and the toasts it
      showed, and either the mount point or the message of the exception it
      threw. */
  datatype ServerStart = ServerStart(trace: seq<Stage>, toasts: seq<string>, result: Result<string, string>)

  /** `startTravelServer`. `runtime(s)` is the message of the VException the
      runtime throws at stage `s`, if any. */
  function StartTravelServer(b: Blessings, runtime: Stage -> Option<string>): (r: ServerStart)
    ensures r.result.Success? ==>
      r.trace == [SetDefaultBlessings, SetPatternBlessings, AddToRoots, DeriveMountName, CreateServer]
      && MountName(b.chains) != "" && r.result.value == MountPoint(MountName(b.chains))
    ensures CreateServer in r.trace ==> MountName(b.chains) != ""
    ensures MountName(b.chains) == "" ==> r.result.Failure? && CreateServer !in r.trace
  {
    if runtime(SetDefaultBlessings).Some? then
      ServerStart([SetDefaultBlessings], [], Failure(runtime(SetDefaultBlessings).value))
    else if runtime(SetPatternBlessings).Some? then
      ServerStart([SetDefaultBlessings, SetPatternBlessings], [], Failure(runtime(SetPatternBlessings).value))
    else if runtime(AddToRoots).Some? then
      ServerStart([SetDefaultBlessings, SetPatternBlessings, AddToRoots], [], Failure(runtime(AddToRoots).value))
    else
      var prefix := MountName(b.chains);
      var trace := [SetDefaultBlessings, SetPatternBlessings, AddToRoots, DeriveMountName];
      if prefix == "" then
        ServerStart(trace, [], Failure(NO_USERNAME_MSG))
      else
        var mountPoint := MountPoint(prefix);
        var shown := [MOUNTING_PREFIX + mountPoint];
        if runtime(CreateServer).Some? then
          ServerStart(trace + [CreateServer], shown, Failure(runtime(CreateServer).value))
        else
          ServerStart(trace + [CreateServer], shown + [SUCCESS_MSG], Success(mountPoint))
  }

  /** `onStartCommand`. `vom` is the intent extra (None for null); `decode`
      is what decoding it yields: a VException message, null, or blessings. */
  function OnStartCommand(vom: Option<string>, decode: Result<Option<Blessings>, string>,
                          runtime: Stage -> Option<string>): (o: Outcome)
    ensures o.code == START_REDELIVER_INTENT
    ensures (vom.None? || vom.value == "") ==> o.trace == [] && o.toasts == [EMPTY_BLESSINGS_MSG] && o.mounted.None?
    ensures (vom.Some? && vom.value != "" && decode == Success(None)) ==>
      o.trace == [DecodeBlessings] && o.toasts == [NULL_BLESSINGS_MSG] && o.mounted.None?
    ensures o.mounted.Some? ==>
      vom.Some? && vom.value != "" && decode.Success? && decode.value.Some?
      && o.trace == [DecodeBlessings, SetDefaultBlessings, SetPatternBlessings, AddToRoots, DeriveMountName, CreateServer]
      && o.mounted.value == MountPoint(MountName(decode.value.value.chains))
    ensures CreateServer in o.trace ==> decode.Success? && decode.value.Some? && MountName(decode.value.value.chains) != ""
  {
    if vom.None? || vom.value == "" then
      Outcome([], [EMPTY_BLESSINGS_MSG], None, START_REDELIVER_INTENT)
    else
      match decode
      case Failure(e) =>
        Outcome([DecodeBlessings], [FAILURE_PREFIX + e], None, START_REDELIVER_INTENT)
      case Success(None) =>
        Outcome([DecodeBlessings], [NULL_BLESSINGS_MSG], None, START_REDELIVER_INTENT)
      case Success(Some(b)) =>
        var s := StartTravelServer(b, runtime);
        match s.result
        case Success(m) =>
          Outcome([DecodeBlessings] + s.trace, s.toasts, Some(m), START_REDELIVER_INTENT)
        case Failure(e) =>
          Outcome([DecodeBlessings] + s.trace, s.toasts + [FAILURE_PREFIX + e], None, START_REDELIVER_INTENT)
  }

  /** Blessings whose chains carry no user name never get a server: the user
      is told why, and nothing is mounted. */
  lemma NoUserNoServer(vom: string, b: Blessings, runtime: Stage -> Option<string>)
    requires vom != ""
    requires forall ci, k :: 0 <= ci < |b.chains| && 0 <= k < |b.chains[ci]| ==> !HasAt(b.chains[ci][k])
    requires runtime(SetDefaultBlessings).None? && runtime(SetPatternBlessings).None? && runtime(AddToRoots).None?
    ensures OnStartCommand(Some(vom), Success(Some(b)), runtime).mounted.None?
    ensures OnStartCommand(Some(vom), Success(Some(b)), runtime).toasts == [FAILURE_PREFIX + NO_USERNAME_MSG]
    ensures CreateServer !in OnStartCommand(Some(vom), Success(Some(b)), runtime).trace
  {
    MountNameEmpty(b.chains);
  }
}

=== FILE: travel_sync.dfy ===
/** The desktop client's trip service: it serves the current plan and
    status over RPC and turns each Syncbase update into the batch of chat
    messages it has not seen before, in time order. `JSON.parse` is the
    oracle `parse`; the messages object's key order is the oracle `order`. */
module TravelSync {
  import opened Wrappers
  import opened JsValues
  import opened MessageOrder

  /** `messages` (id -> parsed message), `tripPlan` and `tripStatus`. */
  datatype State = State(messages: map<string, JsValue>, plan: JsValue, status: JsValue)

  /** `init()`: an empty plan, an empty status object, no messages. */
  const INITIAL: State := State(map[], Arr([]), Obj(map[]))

  datatype Event =
    | Messages(batch: seq<JsValue>)
    | PlanUpdate(plan: JsValue)
    | StatusUpdate(status: JsValue)

  /** `JSON.parse(x)`: the parser reads `String(x)`, so a string is parsed
      as it is and an array as its elements joined with commas. With a
      parser that reads literals, `null`, booleans and numbers come back as
      themselves, and undefined and objects are refused. */
  function ParseMessage(parse: string -> Result<JsValue, JsError>, x: JsValue): (r: Result<JsValue, JsError>)
    ensures x.Str? ==> r == parse(x.s)
    ensures x.Arr? && |x.items| == 1 && x.items[0].Str? ==> r == parse(x.items[0].s)
    ensures ReadsLiterals(parse) && (x.Null? || x.Bool? || x.Num?) ==> r == Success(x)
    ensures ReadsLiterals(parse) && (x == Undefined || x.Obj?) ==> r.Failure?
  {
    parse(StringOf(x))
  }

  /** `!self.messages[id]` on a plain object: the id is known with a falsy
      message, or unknown and not the name of a property every object
      inherits (those read as truthy). */
  predicate Unseen(messages: map<string, JsValue>, id: string) {
    if id in messages then !Truthy(messages[id]) else id !in INHERITED
  }

  /** `order` enumerates the keys of `fields`, each once. */
  predicate Lists(order: seq<string>, fields: map<string, JsValue>) {
    (forall i :: 0 <= i < |order| ==> order[i] in fields) &&
    (forall k :: k in fields ==> k in order) &&
    (forall i, j :: 0 <= i < j < |order| ==> order[i] != order[j])
  }

  /** The loop over the serialized messages: each unseen one is parsed,
      recorded and collected; a parse error stops the loop. */
  datatype Collected = Collected(messages: map<string, JsValue>, added: seq<JsValue>, thrown: Option<JsError>)

  function Collect(parse: string -> Result<JsValue, JsError>, messages: map<string, JsValue>,
                   fields: map<string, JsValue>, order: seq<string>): (c: Collected)
    requires forall i :: 0 <= i < |order| ==> order[i] in fields
    ensures messages.Keys <= c.messages.Keys
    ensures forall id :: id in messages && !Unseen(messages, id) ==> c.messages[id] == messages[id]
    ensures c.thrown.None? ==> forall i :: 0 <= i < |order| ==> order[i] in c.messages || order[i] in INHERITED
    decreases |order|
  {
    if order == [] then Collected(messages, [], None)
    else
      var id := order[0];
      if !Unseen(messages, id) then Collect(parse, messages, fields, order[1..])
      else match ParseMessage(parse, fields[id])
        case Failure(e) => Collected(messages, [], Some(e))
        case Success(m) =>
          var rest := Collect(parse, messages[id := m], fields, order[1..]);
          Collected(rest.messages, [m] + rest.added, rest.thrown)
  }

  /** The ids of `order` not yet seen, in order: the reference for which
      messages an update announces. */
  function UnseenIds(messages: map<string, JsValue>, order: seq<string>): (ids: seq<string>)
    ensures forall k :: 0 <= k < |ids| ==> ids[k] in order && Unseen(messages, ids[k])
  {
    if order == [] then []
    else (if Unseen(messages, order[0]) then [order[0]] else []) + UnseenIds(messages, order[1..])
  }

  /** The messages recorded under `ids`, in order. */
  function MessagesOf(messages: map<string, JsValue>, ids: seq<string>): seq<JsValue> {
    if ids == [] then []
    else (if ids[0] in messages then [messages[ids[0]]] else []) + MessagesOf(messages, ids[1..])
  }

  /** With distinct ids and no parse error, exactly the unseen ids are
      collected, in order, each recorded with its parsed message. */
  lemma {:induction false} CollectFresh(parse: string -> Result<JsValue, JsError>, messages: map<string, JsValue>,
                                        fields: map<string, JsValue>, order: seq<string>)
    requires forall i :: 0 <= i < |order| ==> order[i] in fields
    requires forall i, j :: 0 <= i < j < |order| ==> order[i] != order[j]
    ensures var c := Collect(parse, messages, fields, order);
      var ids := UnseenIds(messages, order);
      c.thrown.None? ==>
        c.added == MessagesOf(c.messages, ids) &&
        (forall k :: 0 <= k < |ids| ==> ids[k] in fields && ids[k] in c.messages && ParseMessage(parse, fields[ids[k]]) == Success(c.messages[ids[k]]))
    decreases |order|
  {
    if order != [] {
      var id := order[0];
      var tail := order[1..];
      assert forall i :: 0 <= i < |tail| ==> tail[i] != id by {
        assert forall i :: 0 <= i < |tail| ==> tail[i] == order[i + 1];
      }
      if !Unseen(messages, id) {
        assert UnseenIds(messages, order) == UnseenIds(messages, tail);
        CollectFresh(parse, messages, fields, tail);
      } else if ParseMessage(parse, fields[id]).Success? {
        var m := ParseMessage(parse, fields[id]).value;
        var rest := Collect(parse, messages[id := m], fields, tail);
        var later := UnseenIds(messages, tail);
        CollectFresh(parse, messages[id := m], fields, tail);
        UnseenIdsAvoid(messages, tail, id, m);
        if rest.thrown.None? {
          CollectKeeps(parse, messages[id := m], fields, tail, id);
          assert UnseenIds(messages, order) == [id] + later;
          assert MessagesOf(rest.messages, [id] + later) == [m] + MessagesOf(rest.messages, later) by {
            assert ([id] + later)[1..] == later;
          }
        }
      }
    }
  }

  /** Recording one id that the rest of the order does not mention leaves the
      unseen ids of the rest as they were. */
  lemma {:induction false} UnseenIdsAvoid(messages: map<string, JsValue>, order: seq<string>, id: string, m: JsValue)
    requires forall i :: 0 <= i < |order| ==> order[i] != id
    ensures UnseenIds(messages[id := m], order) == UnseenIds(messages, order)
    decreases |order|
  {
    if order != [] {
      UnseenIdsAvoid(messages, order[1..], id, m);
    }
  }

  /** An id the loop does not visit keeps its message. */
  lemma {:induction false} CollectKeeps(parse: string -> Result<JsValue, JsError>, messages: map<string, JsValue>,
                                        fields: map<string, JsValue>, order: seq<string>, id: string)
    requires forall i :: 0 <= i < |order| ==> order[i] in fields
    requires forall i :: 0 <= i < |order| ==> order[i] != id
    requires id in messages
    ensures Collect(parse, messages, fields, order).messages[id] == messages[id]
    decreases |order|
  {
    if order != [] && (!Unseen(messages, order[0]) || ParseMessage(parse, fields[order[0]]).Success?) {
      var next := if Unseen(messages, order[0]) then messages[order[0] := ParseMessage(parse, fields[order[0]]).value] else messages;
      CollectKeeps(parse, next, fields, order[1..], id);
    }
  }

  /** `processUpdates(data)`: when `data.messages` is truthy the unseen
      messages are announced in time order, possibly none; an object that
      is not a plain map of messages announces nothing new. */
  function ProcessUpdates(parse: string -> Result<JsValue, JsError>, st: State, data: JsValue, order: seq<string>): (r: (State, seq<Event>, Option<JsError>))
    requires var ms := Member(data, "messages"); ms.Obj? ==> Lists(order, ms.fields)
    ensures !Truthy(Member(data, "messages")) ==> r == (st, [], None)
    ensures r.0.plan == st.plan && r.0.status == st.status
    ensures r.2.None? && Truthy(Member(data, "messages")) ==> |r.1| == 1 && r.1[0].Messages? && InTimeOrder(r.1[0].batch)
    ensures r.2.None? && Truthy(Member(data, "messages")) ==> !SortThrows(r.1[0].batch)
  {
    var ms := Member(data, "messages");
    if !Truthy(ms) then (st, [], None)
    else if !ms.Obj? then (st, [Messages([])], None)
    else Announce(st, Collect(parse, st.messages, ms.fields, order))
  }

  /** What follows the loop: the collected messages are recorded whatever
      happens; unless the loop or the sort threw, the batch is announced in
      the order the sort leaves. */
  function Announce(st: State, c: Collected): (r: (State, seq<Event>, Option<JsError>))
    ensures r.0 == st.(messages := c.messages)
    ensures c.thrown.Some? ==> r.1 == [] && r.2 == c.thrown
    ensures c.thrown.None? && SortThrows(c.added) ==> r.1 == [] && r.2.Some? && r.2.value.TypeError?
    ensures r.2.None? <==> c.thrown.None? && !SortThrows(c.added)
    ensures r.2.None? ==> r.1 == [Messages(TimeOrder(c.added))] && !SortThrows(r.1[0].batch)
  {
    if c.thrown.Some? then (st.(messages := c.messages), [], c.thrown)
    else if SortThrows(c.added) then (st.(messages := c.messages), [], Some(TypeError("Cannot read property 'timestamp' of null")))
    else
      var batch := TimeOrder(c.added);
      assert Null in batch <==> Null in multiset(c.added);
      assert |Present(batch)| == |Present(c.added)| by {
        assert multiset(Present(batch)) == multiset(Present(c.added));
      }
      (st.(messages := c.messages), [Messages(batch)], None)
  }

  /** The announced batch is the parsed messages of the ids not seen
      before, in time order, and every message of the update is recorded. */
  lemma UpdateAnnouncesUnseen(parse: string -> Result<JsValue, JsError>, st: State, fields: map<string, JsValue>, order: seq<string>)
    requires Lists(order, fields)
    ensures var r := ProcessUpdates(parse, st, Obj(map["messages" := Obj(fields)]), order);
      var ids := UnseenIds(st.messages, order);
      r.2.None? ==>
        r.1 == [Messages(TimeOrder(MessagesOf(r.0.messages, ids)))] &&
        (forall k :: 0 <= k < |ids| ==> ids[k] in r.0.messages && ParseMessage(parse, fields[ids[k]]) == Success(r.0.messages[ids[k]])) &&
        (forall k :: k in fields ==> k in r.0.messages || k in INHERITED)
  {
    var data := Obj(map["messages" := Obj(fields)]);
    assert Member(data, "messages") == Obj(fields);
    assert ProcessUpdates(parse, st, data, order) == Announce(st, Collect(parse, st.messages, fields, order));
    CollectFresh(parse, st.messages, fields, order);
  }

  /** Every unseen id of the order is among the unseen ids. */
  lemma {:induction false} UnseenIdsHas(messages: map<string, JsValue>, order: seq<string>, id: string)
    requires id in order && Unseen(messages, id)
    ensures id in UnseenIds(messages, order)
    decreases |order|
  {
    if order[0] != id {
      assert id in order[1..];
      UnseenIdsHas(messages, order[1..], id);
    }
  }

  /** When every id is recorded, the messages of the ids are their records,
      one each. */
  lemma {:induction false} MessagesOfAll(messages: map<string, JsValue>, ids: seq<string>)
    requires forall k :: 0 <= k < |ids| ==> ids[k] in messages
    ensures |MessagesOf(messages, ids)| == |ids|
    ensures forall k :: 0 <= k < |ids| ==> MessagesOf(messages, ids)[k] == messages[ids[k]]
    decreases |ids|
  {
    if ids != [] {
      MessagesOfAll(messages, ids[1..]);
    }
  }

  /** A message that parses to null beside another new one that is not
      undefined makes the time-order sort throw: the update announces
      nothing and reports an error. */
  lemma NullMessageThrows(parse: string -> Result<JsValue, JsError>, st: State, fields: map<string, JsValue>, order: seq<string>,
                          a: string, b: string)
    requires Lists(order, fields)
    requires a != b && a in fields && b in fields && Unseen(st.messages, a) && Unseen(st.messages, b)
    requires ParseMessage(parse, fields[a]) == Success(Null)
    requires ParseMessage(parse, fields[b]) != Success(Undefined)
    ensures var r := ProcessUpdates(parse, st, Obj(map["messages" := Obj(fields)]), order);
      r.1 == [] && r.2.Some?
  {
    var data := Obj(map["messages" := Obj(fields)]);
    assert Member(data, "messages") == Obj(fields);
    assert ProcessUpdates(parse, st, data, order) == Announce(st, Collect(parse, st.messages, fields, order));
    CollectedNullThrows(parse, st, fields, order, a, b);
  }

  /** The loop that collects a null beside another defined new message
      leaves a batch whose sort throws, unless the loop itself threw. */
  lemma CollectedNullThrows(parse: string -> Result<JsValue, JsError>, st: State, fields: map<string, JsValue>, order: seq<string>,
                            a: string, b: string)
    requires Lists(order, fields)
    requires a != b && a in fields && b in fields && Unseen(st.messages, a) && Unseen(st.messages, b)
    requires ParseMessage(parse, fields[a]) == Success(Null)
    requires ParseMessage(parse, fields[b]) != Success(Undefined)
    ensures var c := Collect(parse, st.messages, fields, order);
      c.thrown.None? ==> SortThrows(c.added)
  {
    var c := Collect(parse, st.messages, fields, order);
    if c.thrown.None? {
      CollectFresh(parse, st.messages, fields, order);
      var ids := UnseenIds(st.messages, order);
      UnseenIdsHas(st.messages, order, a);
      UnseenIdsHas(st.messages, order, b);
      var i :| 0 <= i < |ids| && ids[i] == a;
      var j :| 0 <= j < |ids| && ids[j] == b;
      assert c.messages[a] == Null;
      MessagesOfAll(c.messages, ids);
      assert c.added[i] == Null;
      assert c.added[j] == c.messages[b] && c.added[j] != Undefined;
      TwoPresent(c.added, i, j);
      assert SortThrows(c.added);
    }
  }

  /** The sort passes no undefined message to the comparator, so a null
      message beside one that parses to undefined is announced, the
      undefined one last, and nothing throws. */
  lemma NullBesideUndefinedAnnounced(parse: string -> Result<JsValue, JsError>, st: State, a: string, b: string, x: JsValue, y: JsValue)
    requires a != b && Unseen(st.messages, a) && Unseen(st.messages, b)
    requires ParseMessage(parse, x) == Success(Null) && ParseMessage(parse, y) == Success(Undefined)
    ensures var r := ProcessUpdates(parse, st, Obj(map["messages" := Obj(map[a := x, b := y])]), [a, b]);
      r.1 == [Messages([Null, Undefined])] && r.2.None?
  {
    var fields := map[a := x, b := y];
    var data := Obj(map["messages" := Obj(fields)]);
    ListsTwo(a, b, x, y);
    assert Member(data, "messages") == Obj(fields);
    var c := Collect(parse, st.messages, fields, [a, b]);
    assert ProcessUpdates(parse, st, data, [a, b]) == Announce(st, c);
    CollectTwo(parse, st.messages, a, b, x, y);
    DefinedThenUndefined(Null);
  }

  lemma ListsTwo(a: string, b: string, x: JsValue, y: JsValue)
    requires a != b
    ensures Lists([a, b], map[a := x, b := y])
  {
  }

  /** Two new ids are collected in order. */
  lemma CollectTwo(parse: string -> Result<JsValue, JsError>, messages: map<string, JsValue>, a: string, b: string, x: JsValue, y: JsValue)
    requires a != b && Unseen(messages, a) && Unseen(messages, b)
    requires ParseMessage(parse, x).Success? && ParseMessage(parse, y).Success?
    ensures var c := Collect(parse, messages, map[a := x, b := y], [a, b]);
      c.thrown.None? && c.added == [ParseMessage(parse, x).value, ParseMessage(parse, y).value]
  {
    var fields := map[a := x, b := y];
    var m := messages[a := ParseMessage(parse, x).value];
    assert [a, b][1..] == [b];
    assert [b][1..] == [];
    assert Unseen(m, b);
    assert Collect(parse, m, fields, [b]).added == [ParseMessage(parse, y).value];
  }

  /** A message filed under the name of an inherited property, such as
      "constructor", reads as already seen: the update records nothing and
      announces an empty batch. */
  lemma InheritedIdIgnored(parse: string -> Result<JsValue, JsError>, st: State, m: JsValue)
    requires "constructor" !in st.messages
    ensures ProcessUpdates(parse, st, Obj(map["messages" := Obj(map["constructor" := m])]), ["constructor"]) == (st, [Messages([])], None)
  {
    var fields := map["constructor" := m];
    assert Member(Obj(map["messages" := Obj(fields)]), "messages") == Obj(fields);
    assert !Unseen(st.messages, "constructor");
    assert Collect(parse, st.messages, fields, ["constructor"]) == Collected(st.messages, [], None) by {
      assert ["constructor"][1..] == [];
    }
    assert SortByStamp([]) == [];
  }

  /** An update whose messages were all recorded with truthy values
      announces an empty batch. */
  lemma {:induction false} SeenUpdateAnnouncesNothing(parse: string -> Result<JsValue, JsError>, messages: map<string, JsValue>,
                                                      fields: map<string, JsValue>, order: seq<string>)
    requires forall i :: 0 <= i < |order| ==> order[i] in fields
    requires forall i :: 0 <= i < |order| ==> !Unseen(messages, order[i])
    ensures Collect(parse, messages, fields, order) == Collected(messages, [], None)
    decreases |order|
  {
    if order != [] {
      assert forall i :: 0 <= i < |order[1..]| ==> order[1..][i] == order[i + 1];
      SeenUpdateAnnouncesNothing(parse, messages, fields, order[1..]);
    }
  }

  /** `server.get()`: the current plan and status. */
  function Get(st: State): (r: (JsValue, JsValue))
    ensures r == (st.plan, st.status)
  {
    (st.plan, st.status)
  }

  /** `server.updateStatus(status)`: the status is replaced and announced. */
  function UpdateStatus(st: State, status: JsValue): (r: (State, seq<Event>))
    ensures r.0 == st.(status := status)
    ensures r.1 == [StatusUpdate(status)]
  {
    (st.(status := status), [StatusUpdate(status)])
  }

  /** `server.updatePlan(plan, message)`: the plan is replaced and announced;
      the call then invokes `onMessage`, which the class does not declare, so
      it always ends in a TypeError. */
  function UpdatePlan(st: State, plan: JsValue, message: JsValue): (r: (State, seq<Event>, JsError))
    ensures r.0 == st.(plan := plan)
    ensures r.1 == [PlanUpdate(plan)]
    ensures r.2.TypeError?
  {
    (st.(plan := plan), [PlanUpdate(plan)], TypeError("travelSync.onMessage is not a function"))
  }

  /** What the server reports after an update is what was last written;
      neither update disturbs the other field or the messages. */
  lemma ServerReportsLatest(st: State, plan: JsValue, status: JsValue, message: JsValue)
    ensures Get(UpdateStatus(UpdatePlan(st, plan, message).0, status).0) == (plan, status)
    ensures UpdateStatus(UpdatePlan(st, plan, message).0, status).0.messages == st.messages
    ensures Get(UpdateStatus(st, status).0).0 == Get(st).0
  {
  }
}

=== FILE: trip_comparator.dfy ===
/** Ordering of trips for picking the one the user most likely cares about:
    the most recently switched-to first, then the longest, then the smallest
    id; a missing trip sorts after any trip. Also the length of a trip, read
    from its marshalled destination ids, and the cache `ComparableTrip` keeps
    of it. */
module TripComparator {
  import opened Wrappers
  import opened Text
  import opened JsValues

  /** `getTripLength(trip)`: 0 without a destinations member, else the
      `length` of the value read from it (None where that is undefined). */
  function TripLength(parse: string -> Result<JsValue, JsError>, trip: JsValue): (r: Result<Option<int>, JsError>)
    ensures (trip.Obj? && !Truthy(Member(trip, "destinations"))) ==> r == Success(Some(0))
    ensures (trip.Obj? && Truthy(Member(trip, "destinations"))
             && ReadValue(parse, Member(trip, "destinations")).Success?
             && ReadValue(parse, Member(trip, "destinations")).value.Arr?) ==>
      r == Success(Some(|ReadValue(parse, Member(trip, "destinations")).value.items|))
    ensures trip == Undefined || trip == Null ==> r.Failure?
  {
    if trip == Undefined || trip == Null then Failure(TypeError("Cannot read property 'destinations'"))
    else
      var d := Member(trip, "destinations");
      if !Truthy(d) then Success(Some(0))
      else
        var ids :- ReadValue(parse, d);
        LengthOf(ids)
  }

  /** `v.length`. */
  function LengthOf(v: JsValue): Result<Option<int>, JsError> {
    match v
    case Arr(items) => Success(Some(|items|))
    case Str(s) => Success(Some(|s|))
    case Undefined => Failure(TypeError("Cannot read property 'length' of undefined"))
    case Null => Failure(TypeError("Cannot read property 'length' of null"))
    case _ => Success(None)
  }

  /** The ids 0 .. n-1, as the repository's tests build a trip of length n. */
  function Range(n: nat): (r: seq<JsValue>)
    ensures |r| == n && forall i :: 0 <= i < n ==> r[i] == Num(i)
  {
    if n == 0 then [] else Range(n - 1) + [Num(n - 1)]
  }

  /** The test helper `trip(n)` has length n. */
  lemma TestTripLength(stringify: JsValue -> string, parse: string -> Result<JsValue, JsError>, n: nat)
    requires JsonPair(stringify, parse)
    ensures TripLength(parse, Obj(map["destinations" := Str(stringify(Arr(Range(n))))])) == Success(Some(n))
  {
    var d := Str(stringify(Arr(Range(n))));
    assert Marshal(stringify, Arr(Range(n))) == d;
    assert IsJson(Arr(Range(n)));
    ReadValueRoundTrip(stringify, parse, Arr(Range(n)), map[]);
    assert Member(Obj(map["destinations" := d]), "destinations") == d;
  }

  /** A `ComparableTrip` with the length it has cached, if any. */
  datatype CachedTrip = CachedTrip(trip: JsValue, id: string, latestSwitch: Option<int>, cache: Option<int>)

  /** `getLength()`: the cached length, computing and caching it first when
      there is none (an undefined length is not cached). */
  function GetLength(parse: string -> Result<JsValue, JsError>, ct: CachedTrip): (r: (Result<Option<int>, JsError>, CachedTrip))
    ensures ct.cache.Some? ==> r == (Success(Some(ct.cache.value)), ct)
    ensures ct.cache.None? ==> r.0 == TripLength(parse, ct.trip)
    ensures r.1.trip == ct.trip && r.1.id == ct.id && r.1.latestSwitch == ct.latestSwitch
  {
    if ct.cache.Some? then (Success(Some(ct.cache.value)), ct)
    else
      var len := TripLength(parse, ct.trip);
      if len.Success? && len.value.Some? then (len, ct.(cache := Some(len.value.value))) else (len, ct)
  }

  /** The length is computed once: asking again gives the same answer and
      leaves the trip as it was. */
  lemma GetLengthCaches(parse: string -> Result<JsValue, JsError>, ct: CachedTrip)
    requires ct.cache.None? || TripLength(parse, ct.trip) == Success(Some(ct.cache.value))
    ensures var (first, ct1) := GetLength(parse, ct);
      ct1.cache.None? || TripLength(parse, ct1.trip) == Success(Some(ct1.cache.value))
    ensures var (first, ct1) := GetLength(parse, ct);
      first == TripLength(parse, ct.trip) && GetLength(parse, ct1).0 == first
    ensures var (first, ct1) := GetLength(parse, ct);
      first.Success? && first.value.Some? ==> GetLength(parse, ct1).1 == ct1 && ct1.cache.Some?
  {
  }

  /** What the comparator looks at: the id, the latest switch time, and the
      value `getLength()` gives. */
  datatype Ranked = Ranked(id: string, latestSwitch: Option<int>, length: Option<int>)

  /** `wellDefinedFirst`: a defined value sorts before a missing one. */
  function WellDefinedFirst(aDefined: bool, bDefined: bool): int {
    if aDefined && !bDefined then -1 else if !aDefined && bDefined then 1 else 0
  }

  /** `greatestFirst` on numbers; comparisons with undefined are false. */
  function GreatestFirst(a: Option<int>, b: Option<int>): int {
    if a.Some? && b.Some? && a.value > b.value then -1
    else if a.Some? && b.Some? && a.value < b.value then 1
    else 0
  }

  /** `greatestFirst` on strings, which JavaScript compares in code-unit
      order. */
  function GreatestFirstStr(a: string, b: string): int {
    if StrLess(b, a) then -1 else if StrLess(a, b) then 1 else 0
  }

  function LatestSwitchFirst(a: Ranked, b: Ranked): int {
    var g := GreatestFirst(a.latestSwitch, b.latestSwitch);
    if g != 0 then g else WellDefinedFirst(a.latestSwitch.Some?, b.latestSwitch.Some?)
  }

  /** `compareTrips`: negative when `a` should be preferred. */
  function CompareTrips(a: Option<Ranked>, b: Option<Ranked>): (r: int)
    ensures r == -1 || r == 0 || r == 1
    ensures a.None? && b.None? ==> r == 0
    ensures a.Some? && b.None? ==> r == -1
    ensures a.None? && b.Some? ==> r == 1
  {
    if a.Some? && b.Some? then
      var ls := LatestSwitchFirst(a.value, b.value);
      if ls != 0 then ls
      else
        var len := GreatestFirst(a.value.length, b.value.length);
        if len != 0 then len
        else -GreatestFirstStr(a.value.id, b.value.id)
    else WellDefinedFirst(a.Some?, b.Some?)
  }

  /** Lengths that the comparator cannot tell apart: equal, or one of them
      undefined. */
  predicate LengthTie(a: Option<int>, b: Option<int>) {
    a.None? || b.None? || a.value == b.value
  }

  /** Reference order: a defined switch time before an undefined one, later
      before earlier; on a tie the longer trip; then the smaller id. */
  predicate Before(a: Ranked, b: Ranked) {
    (a.latestSwitch.Some? && b.latestSwitch.None?)
    || (a.latestSwitch.Some? && b.latestSwitch.Some? && a.latestSwitch.value > b.latestSwitch.value)
    || (a.latestSwitch == b.latestSwitch
        && ((a.length.Some? && b.length.Some? && a.length.value > b.length.value)
            || (LengthTie(a.length, b.length) && StrLess(a.id, b.id))))
  }

  /** The comparator agrees with the reference order: -1 exactly when `a`
      comes first, 1 exactly when `b` does, 0 exactly on a full tie. */
  lemma CompareMatchesBefore(a: Ranked, b: Ranked)
    ensures CompareTrips(Some(a), Some(b)) == -1 <==> Before(a, b)
    ensures CompareTrips(Some(a), Some(b)) == 1 <==> Before(b, a)
    ensures CompareTrips(Some(a), Some(b)) == 0 <==>
      a.latestSwitch == b.latestSwitch && LengthTie(a.length, b.length) && a.id == b.id
  {
    StrLessIrreflexive(a.id);
    if a.id != b.id {
      StrLessTotal(a.id, b.id);
    }
    if StrLess(a.id, b.id) {
      StrLessAsymmetric(a.id, b.id);
    }
    if StrLess(b.id, a.id) {
      StrLessAsymmetric(b.id, a.id);
    }
  }

  /** `compareTrips` is antisymmetric. */
  lemma CompareAntisymmetric(a: Option<Ranked>, b: Option<Ranked>)
    ensures CompareTrips(a, b) == -CompareTrips(b, a)
  {
    if a.Some? && b.Some? {
      CompareMatchesBefore(a.value, b.value);
      CompareMatchesBefore(b.value, a.value);
    }
  }

  /** With defined lengths the reference order is transitive, so the
      comparator orders trips consistently. */
  lemma BeforeTransitive(a: Ranked, b: Ranked, c: Ranked)
    requires a.length.Some? && b.length.Some? && c.length.Some?
    requires Before(a, b) && Before(b, c)
    ensures Before(a, c)
  {
    if a.latestSwitch == b.latestSwitch == c.latestSwitch && a.length == b.length == c.length {
      StrLessTransitive(a.id, b.id, c.id);
    }
  }

  /** `compareTrips(a, b) <= 0` is transitive on trips with defined lengths. */
  lemma CompareTransitive(a: Ranked, b: Ranked, c: Ranked)
    requires a.length.Some? && b.length.Some? && c.length.Some?
    requires CompareTrips(Some(a), Some(b)) <= 0 && CompareTrips(Some(b), Some(c)) <= 0
    ensures CompareTrips(Some(a), Some(c)) <= 0
  {
    CompareMatchesBefore(a, b);
    CompareMatchesBefore(b, c);
    CompareMatchesBefore(a, c);
    if Before(a, b) && Before(b, c) {
      BeforeTransitive(a, b, c);
    }
  }

  /** The cases of the repository's comparator tests. */
  lemma ComparatorTestCases()
    ensures CompareTrips(Some(Ranked("0", Some(1), Some(0))), Some(Ranked("0", None, Some(0)))) == -1
    ensures CompareTrips(Some(Ranked("0", Some(0), Some(0))), Some(Ranked("0", Some(-1), Some(0)))) == -1
    ensures CompareTrips(Some(Ranked("0", Some(0), Some(1))), Some(Ranked("0", Some(0), Some(0)))) == -1
    ensures CompareTrips(Some(Ranked("a", Some(1), Some(1))), Some(Ranked("b", Some(1), Some(1)))) == -1
    ensures CompareTrips(Some(Ranked("b", Some(1), Some(1))), Some(Ranked("a", Some(1), Some(1)))) == 1
  {
    assert StrLess("a", "b");
    assert !StrLess("b", "a");
  }
}

=== FILE: trip_manager.dfy ===
/** The trip manager: which trip is active, which trip the local client
    pushes to (the upstream), the keys of a trip's data, and the choice of
    active trip on every sync update. `Date.now()` and `uuid.v4()` are
    parameters; store writes are returned as a list of operations. */
module TripManager {
  import opened Wrappers
  import opened JsValues
  import opened TripComparator

  /** A trip as the manager reads it: its owner and the value
      `getTripLength` gives for it. */
  datatype Trip = Trip(owner: Option<string>, length: Option<int>)

  /** The trip created when there is none: `{}`, without owner or
      destinations. */
  const NEW_TRIP: Trip := Trip(None, Some(0))

  datatype State = State(activeTripId: Option<string>, upstreamTripId: Option<string>,
                         activeTrip: Option<Trip>, awaitedTripId: Option<string>)

  /** A store operation. */
  datatype Op = Put(key: seq<string>, value: JsValue) | Delete(key: seq<string>)

  predicate TruthyId(id: Option<string>) {
    id.Some? && id.value != ""
  }

  /** `hasValidUpstream()`. */
  predicate HasValidUpstream(s: State) {
    TruthyId(s.upstreamTripId) && s.upstreamTripId == s.activeTripId
  }

  /** A key element built from an id that may be unset; `join('.')` renders
      an unset element as the empty string. */
  function KeyElement(id: Option<string>): string {
    id.GetOr("")
  }

  /** `getTripKey(...)`, `getDestinationsKey(...)`, `getMessagesKey(...)`:
      the upstream trip's subtree, with the flattened arguments appended. */
  function TripKey(s: State, args: seq<string>): (k: seq<string>)
    ensures |k| == 2 + |args| && k[..2] == ["trips", KeyElement(s.upstreamTripId)] && k[2..] == args
  {
    ["trips", KeyElement(s.upstreamTripId)] + args
  }

  /** A destination key lies in the upstream trip's "destinations" child,
      followed by the arguments. */
  function DestinationsKey(s: State, args: seq<string>): (k: seq<string>)
  {
    TripKey(s, ["destinations"] + args)
  }

  /** A message key lies in the upstream trip's "messages" child, followed
      by the arguments. */
  function MessagesKey(s: State, args: seq<string>): (k: seq<string>)
  {
    TripKey(s, ["messages"] + args)
  }

  /** Destination and message keys never meet, whatever the upstream trips
      and arguments, so the two watches of a trip see disjoint writes; and
      each kind of key determines its trip and arguments. */
  lemma TripKeysApart(s: State, t: State, a: seq<string>, b: seq<string>)
    ensures DestinationsKey(s, a) != MessagesKey(t, b)
    ensures DestinationsKey(s, a) == DestinationsKey(t, b) <==>
      KeyElement(s.upstreamTripId) == KeyElement(t.upstreamTripId) && a == b
    ensures MessagesKey(s, a) == MessagesKey(t, b) <==>
      KeyElement(s.upstreamTripId) == KeyElement(t.upstreamTripId) && a == b
  {
    var d, m := DestinationsKey(s, a), MessagesKey(t, b);
    assert d[2] == "destinations" && m[2] == "messages";
    assert d[3..] == a && m[3..] == b;
    var d', m' := DestinationsKey(t, b), MessagesKey(s, a);
    assert d'[3..] == b && m'[3..] == a;
    if KeyElement(s.upstreamTripId) == KeyElement(t.upstreamTripId) && a == b {
      assert d == d' && m == m';
    }
    if d == d' {
      assert d[1] == d'[1];
    }
    if m == m' {
      assert m[1] == m'[1];
    }
  }

  /** Where the user's latest switch to a trip is recorded. */
  function LatestSwitchKey(tripId: string): seq<string> {
    ["user", "tripMetadata", tripId, "latestSwitch"]
  }

  /** `setActiveTripId(tripId)`: records the switch time, and forgets the
      active trip's data when the id changes. */
  function SetActiveTripId(s: State, tripId: string, now: int): (r: (State, Op))
    ensures r.0.activeTripId == Some(tripId)
    ensures r.1 == Put(LatestSwitchKey(tripId), Num(now))
    ensures r.0.activeTrip == (if s.activeTripId == Some(tripId) then s.activeTrip else None)
    ensures r.0.upstreamTripId == s.upstreamTripId && r.0.awaitedTripId == s.awaitedTripId
  {
    var changed := s.activeTripId != Some(tripId);
    (s.(activeTripId := Some(tripId), activeTrip := if changed then None else s.activeTrip),
     Put(LatestSwitchKey(tripId), Num(now)))
  }

  /** `setUpstream()`: the upstream follows the active trip; `onTripChange`
      fires (with the new id) only when it actually moves. */
  function SetUpstream(s: State): (r: (State, Option<Option<string>>))
    ensures r.0.upstreamTripId == s.activeTripId
    ensures r.1.Some? <==> s.upstreamTripId != s.activeTripId
    ensures r.1.Some? ==> r.1.value == s.activeTripId
    ensures r.0.activeTripId == s.activeTripId && r.0.activeTrip == s.activeTrip
  {
    if s.upstreamTripId != s.activeTripId then (s.(upstreamTripId := s.activeTripId), Some(s.activeTripId))
    else (s, None)
  }

  /** After `setUpstream` a truthy active trip is a valid upstream; switching
      to another trip invalidates it until the next `setUpstream`. */
  lemma UpstreamValidity(s: State, other: string, now: int)
    requires TruthyId(s.activeTripId)
    ensures HasValidUpstream(SetUpstream(s).0)
    ensures Some(other) != s.activeTripId ==> !HasValidUpstream(SetActiveTripId(SetUpstream(s).0, other, now).0)
    ensures SetUpstream(SetUpstream(s).0).1.None?
  {
  }

  /** The user's trip metadata: trip id -> latest switch time, if recorded. */
  type Metadata = map<string, Option<int>>

  function LatestSwitchOf(md: Option<Metadata>, id: string): Option<int> {
    if md.Some? && id in md.value then md.value[id] else None
  }

  function RankOf(md: Option<Metadata>, trips: map<string, Trip>, id: string): Ranked
    requires id in trips
  {
    Ranked(id, LatestSwitchOf(md, id), trips[id].length)
  }

  /** `order` enumerates exactly the trip ids, as `$.each` visits them. */
  predicate IsListing(order: seq<string>, trips: map<string, Trip>) {
    (forall i :: 0 <= i < |order| ==> order[i] in trips) && (forall id :: id in trips ==> id in order)
  }

  /** The loop of `getDefaultTrip`: a candidate replaces the best so far only
      when it compares strictly better. */
  function PickBest(md: Option<Metadata>, trips: map<string, Trip>, order: seq<string>, best: Option<Ranked>): Option<Ranked>
    requires forall i :: 0 <= i < |order| ==> order[i] in trips
    decreases |order|
  {
    if |order| == 0 then best
    else
      var candidate := RankOf(md, trips, order[0]);
      PickBest(md, trips, order[1..], if CompareTrips(best, Some(candidate)) > 0 then Some(candidate) else best)
  }

  /** `getDefaultTrip(userTripMetadata, trips)`: the id of the preferred
      trip, None when there are no trips. */
  function GetDefaultTrip(md: Option<Metadata>, trips: map<string, Trip>, order: seq<string>): (r: Option<string>)
    requires IsListing(order, trips)
    ensures r.Some? <==> |trips| > 0
    ensures r.Some? ==> r.value in trips
  {
    PickBestIsCandidate(md, trips, order, None);
    assert |trips| > 0 ==> |order| > 0 by {
      if |trips| > 0 {
        var some :| some in trips;
        assert some in order;
      }
    }
    match PickBest(md, trips, order, None)
    case None => None
    case Some(best) => Some(best.id)
  }

  /** Whatever the lengths, the loop ends with a best trip as soon as it
      has visited one (an unset best compares after every trip), and that
      trip is the starting one or one it visited. */
  lemma {:induction false} PickBestIsCandidate(md: Option<Metadata>, trips: map<string, Trip>, order: seq<string>, best: Option<Ranked>)
    requires forall i :: 0 <= i < |order| ==> order[i] in trips
    ensures var r := PickBest(md, trips, order, best);
      (r.Some? <==> best.Some? || |order| > 0)
      && (r.Some? && r != best ==> r.value.id in trips)
    decreases |order|
  {
    if |order| > 0 {
      var candidate := RankOf(md, trips, order[0]);
      var next := if CompareTrips(best, Some(candidate)) > 0 then Some(candidate) else best;
      assert next.Some?;
      PickBestIsCandidate(md, trips, order[1..], next);
    }
  }

  /** Every trip has a defined length. */
  predicate LengthsDefined(trips: map<string, Trip>) {
    forall id :: id in trips ==> trips[id].length.Some?
  }

  lemma {:induction false} PickBestIsMinimum(md: Option<Metadata>, trips: map<string, Trip>, order: seq<string>, best: Option<Ranked>)
    requires forall i :: 0 <= i < |order| ==> order[i] in trips
    requires LengthsDefined(trips)
    requires best.Some? ==> best.value.length.Some?
    ensures var r := PickBest(md, trips, order, best);
      (r.Some? <==> best.Some? || |order| > 0)
      && (r.Some? ==> r == best || exists i :: 0 <= i < |order| && r.value == RankOf(md, trips, order[i]))
      && (r.Some? && best.Some? ==> CompareTrips(r, best) <= 0)
      && (forall i :: 0 <= i < |order| ==> CompareTrips(r, Some(RankOf(md, trips, order[i]))) <= 0)
    decreases |order|
  {
    if best.Some? {
      CompareMatchesBefore(best.value, best.value);
    }
    if |order| > 0 {
      var candidate := RankOf(md, trips, order[0]);
      var next := if CompareTrips(best, Some(candidate)) > 0 then Some(candidate) else best;
      CompareAntisymmetric(best, Some(candidate));
      PickBestIsMinimum(md, trips, order[1..], next);
      var r := PickBest(md, trips, order, best);
      assert r == PickBest(md, trips, order[1..], next);
      if r != next {
        var i :| 0 <= i < |order[1..]| && r.value == RankOf(md, trips, order[1..][i]);
        assert r.value == RankOf(md, trips, order[i + 1]);
      }
      assert CompareTrips(next, Some(candidate)) <= 0 by {
        if next == best {
          assert CompareTrips(best, Some(candidate)) <= 0;
        } else {
          CompareMatchesBefore(candidate, candidate);
        }
      }
      assert CompareTrips(r, Some(candidate)) <= 0 by {
        CompareTransitive(r.value, next.value, candidate);
      }
      if best.Some? {
        assert CompareTrips(next, best) <= 0;
        CompareTransitive(r.value, next.value, best.value);
      }
      forall i | 0 <= i < |order|
        ensures CompareTrips(r, Some(RankOf(md, trips, order[i]))) <= 0
      {
        if i > 0 {
          assert order[i] == order[1..][i - 1];
        }
      }
    }
  }

  /** With defined lengths, the default trip is a trip that compares at or
      before every trip, and there is one whenever there are trips. */
  lemma DefaultTripIsMinimum(md: Option<Metadata>, trips: map<string, Trip>, order: seq<string>)
    requires IsListing(order, trips) && LengthsDefined(trips)
    ensures GetDefaultTrip(md, trips, order).Some? <==> |trips| > 0
    ensures GetDefaultTrip(md, trips, order).Some? ==>
      var id := GetDefaultTrip(md, trips, order).value;
      id in trips && forall other :: other in trips ==>
        CompareTrips(Some(RankOf(md, trips, id)), Some(RankOf(md, trips, other))) <= 0
  {
    PickBestIsMinimum(md, trips, order, None);
    var r := PickBest(md, trips, order, None);
    if |trips| > 0 {
      var some :| some in trips;
      assert some in order;
    }
    if r.Some? {
      var i :| 0 <= i < |order| && r.value == RankOf(md, trips, order[i]);
      forall other | other in trips
        ensures CompareTrips(r, Some(RankOf(md, trips, other))) <= 0
      {
        var j :| 0 <= j < |order| && order[j] == other;
      }
    } else if |order| > 0 {
      assert false;
    }
  }

  /** The default trip does not depend on the order in which the trips are
      visited. */
  lemma DefaultTripOrderIndependent(md: Option<Metadata>, trips: map<string, Trip>, order1: seq<string>, order2: seq<string>)
    requires IsListing(order1, trips) && IsListing(order2, trips) && LengthsDefined(trips)
    ensures GetDefaultTrip(md, trips, order1) == GetDefaultTrip(md, trips, order2)
  {
    DefaultTripIsMinimum(md, trips, order1);
    DefaultTripIsMinimum(md, trips, order2);
    if |trips| > 0 {
      var a := GetDefaultTrip(md, trips, order1).value;
      var b := GetDefaultTrip(md, trips, order2).value;
      CompareAntisymmetric(Some(RankOf(md, trips, a)), Some(RankOf(md, trips, b)));
      CompareMatchesBefore(RankOf(md, trips, a), RankOf(md, trips, b));
    }
  }

  /** `isNascent(trip)`: at most one destination (an undefined length is not
      `<= 1`). */
  predicate IsNascent(trip: Trip) {
    trip.length.Some? && trip.length.value <= 1
  }

  /** Result of `processTrips`: the new state and the store writes issued. */
  datatype Processed = Processed(state: State, ops: seq<Op>)

  /** The awaited-trip step of `processTrips`: switch to it, and pretend in
      this frame's metadata that it was switched to just now. */
  function ConsumeAwaited(s: State, md: Option<Metadata>, now: int): (r: (State, Option<Metadata>, seq<Op>))
    ensures !TruthyId(s.awaitedTripId) ==> r == (s, md, [])
    ensures TruthyId(s.awaitedTripId) ==>
      r.0.activeTripId == s.awaitedTripId && r.0.awaitedTripId.None?
      && LatestSwitchOf(r.1, s.awaitedTripId.value) == Some(now)
      && r.2 == [Put(LatestSwitchKey(s.awaitedTripId.value), Num(now))]
    ensures forall id :: Some(id) != s.awaitedTripId ==> LatestSwitchOf(r.1, id) == LatestSwitchOf(md, id)
  {
    if TruthyId(s.awaitedTripId) then
      var id := s.awaitedTripId.value;
      var (s1, op) := SetActiveTripId(s, id, now);
      (s1.(awaitedTripId := None), Some(md.GetOr(map[])[id := Some(now)]), [op])
    else (s, md, [])
  }

  /** `processTrips(userTripMetadata, trips)`. `order` lists the trips as
      `$.each` visits them, `newId` is what `uuid.v4()` returns and `me` the
      user's name. */
  function ProcessTrips(s: State, md: Option<Metadata>, trips: Option<map<string, Trip>>, order: seq<string>,
                        now: int, newId: string, me: string): (r: Processed)
    requires trips.Some? ==> IsListing(order, trips.value)
    ensures trips.Some? && r.state.activeTripId.Some? && r.state.activeTripId.value in trips.value ==>
      r.state.activeTrip == Some(trips.value[r.state.activeTripId.value])
    ensures trips.None? && !(TruthyId(s.awaitedTripId) || TruthyId(s.activeTripId)) ==>
      r.state.activeTripId == Some(newId) && r.state.activeTrip == Some(NEW_TRIP)
      && r.ops == [Put(["trips", newId, "owner"], Str(me))]
    ensures r.state.awaitedTripId == (if TruthyId(s.awaitedTripId) then None else s.awaitedTripId)
    ensures r.state.upstreamTripId == s.upstreamTripId
  {
    var (s1, md1, ops1) := ConsumeAwaited(s, md, now);
    var active := s1.activeTripId;
    var trip: Option<Trip> := if TruthyId(active) && trips.Some? && active.value in trips.value then Some(trips.value[active.value]) else None;
    var (active2, trip2, ops2) :=
      if trip.Some? then
        var defaultId := GetDefaultTrip(md1, trips.value, order);
        if TruthyId(defaultId) && defaultId != active && defaultId.value in trips.value then
          var deletes := if IsNascent(trip.value)
            then [Delete(["user", "tripMetadata", active.value]), Delete(["trips", active.value])] else [];
          (defaultId, Some(trips.value[defaultId.value]), deletes)
        else (active, trip, [])
      else (active, trip, []);
    var (active3, trip3, ops3) :=
      if trip2.None? then
        if trips.Some? then
          var defaultId := GetDefaultTrip(md1, trips.value, order);
          (defaultId, if defaultId.Some? && defaultId.value in trips.value then Some(trips.value[defaultId.value]) else None, [])
        else (Some(newId), Some(NEW_TRIP), [Put(["trips", newId, "owner"], Str(me))])
      else (active2, trip2, []);
    Processed(s1.(activeTripId := active3, activeTrip := trip3), ops1 + ops2 + ops3)
  }

  /** A trip the user asked for becomes active once it arrives, when its
      switch time is later than any recorded one. */
  lemma AwaitedTripBecomesActive(s: State, md: Option<Metadata>, trips: map<string, Trip>, order: seq<string>,
                                 now: int, newId: string, me: string)
    requires IsListing(order, trips) && LengthsDefined(trips)
    requires TruthyId(s.awaitedTripId) && s.awaitedTripId.value in trips
    requires forall id :: id in trips && LatestSwitchOf(md, id).Some? ==> LatestSwitchOf(md, id).value < now
    ensures ProcessTrips(s, md, Some(trips), order, now, newId, me).state.activeTripId == s.awaitedTripId
    ensures ProcessTrips(s, md, Some(trips), order, now, newId, me).state.activeTrip == Some(trips[s.awaitedTripId.value])
    ensures ProcessTrips(s, md, Some(trips), order, now, newId, me).ops[0] == Put(LatestSwitchKey(s.awaitedTripId.value), Num(now))
  {
    var (s1, md1, ops1) := ConsumeAwaited(s, md, now);
    var id := s.awaitedTripId.value;
    DefaultTripIsMinimum(md1, trips, order);
    var d := GetDefaultTrip(md1, trips, order).value;
    if d != id {
      CompareMatchesBefore(RankOf(md1, trips, d), RankOf(md1, trips, id));
      assert false;
    }
  }

  /** When the active trip has disappeared but trips exist, the default trip
      is chosen. */
  lemma MissingActiveFallsBackToDefault(s: State, md: Option<Metadata>, trips: map<string, Trip>, order: seq<string>,
                                        now: int, newId: string, me: string)
    requires IsListing(order, trips)
    requires !TruthyId(s.awaitedTripId)
    requires s.activeTripId.None? || s.activeTripId.value !in trips
    ensures ProcessTrips(s, md, Some(trips), order, now, newId, me).state.activeTripId == GetDefaultTrip(md, trips, order)
    ensures ProcessTrips(s, md, Some(trips), order, now, newId, me).ops == []
  {
  }

  /** With nothing awaited and the active trip present, the active trip is
      replaced by the default trip whenever that is a different, truthy id,
      and a nascent active trip is deleted on the way; otherwise the active
      trip stays and nothing is written. */
  lemma ActiveTripReplacedByDefault(s: State, md: Option<Metadata>, trips: map<string, Trip>, order: seq<string>,
                                    now: int, newId: string, me: string)
    requires IsListing(order, trips)
    requires !TruthyId(s.awaitedTripId)
    requires TruthyId(s.activeTripId) && s.activeTripId.value in trips
    ensures var d := GetDefaultTrip(md, trips, order);
      var a := s.activeTripId.value;
      var r := ProcessTrips(s, md, Some(trips), order, now, newId, me);
      d.Some? && d.value in trips
      && (TruthyId(d) && d != s.activeTripId ==>
            r.state.activeTripId == d && r.state.activeTrip == Some(trips[d.value])
            && r.ops == (if IsNascent(trips[a]) then [Delete(["user", "tripMetadata", a]), Delete(["trips", a])] else []))
      && (!TruthyId(d) || d == s.activeTripId ==>
            r.state.activeTripId == s.activeTripId && r.state.activeTrip == Some(trips[a]) && r.ops == [])
  {
  }
}

=== FILE: verror.dfy ===
/** The Vanadium error kinds the application tells apart. */
module VErrors {
  datatype VError =
    | NoExistError
    | ExistError
    | OtherError(id: string)
}

=== FILE: watched_replica.dfy ===
/** The in-memory Syncbase stand-in of the browser tests: a versioned tree
    like the other stand-in's, whose nodes also carry the watchers
    registered on them. Writes notify the watchers on the written path;
    syncing merges two replicas prefix by prefix, notifying the watchers of
    the side that changed. JavaScript enumerates an object's own keys in
    insertion order, which the model does not track: an `Order` gives the
    enumeration order of a node's children, and properties about whole
    traversals ask only that it list each key once. */
module WatchedReplica {
  import opened Wrappers
  import opened Watchers
  import MockReplica
  import SyncbaseWrapper
  import VErrors

  /** A node: value, version, the ids of the watchers registered on it, and
      its children. */
  datatype WNode = WNode(value: Option<string>, version: Option<int>, watchers: seq<nat>, children: map<string, WNode>)

  const WEMPTY: WNode := WNode(None, None, [], map[])

  /** The order in which `$.each` visits a node's children. */
  type Order = map<string, WNode> -> seq<string>

  /** `ks` lists the keys of `m`, each once. */
  ghost predicate ListsKeys(ks: seq<string>, m: map<string, WNode>) {
    (forall k :: k in m <==> k in ks) && forall i, j :: 0 <= i < j < |ks| ==> ks[i] != ks[j]
  }

  ghost predicate Enumerates(order: Order) {
    forall m :: ListsKeys(order(m), m)
  }

  /** What a node stores, without its watchers, in the other stand-in's
      terms. */
  function Data(n: WNode): (r: MockReplica.RNode)
    ensures r.value == n.value && r.version == n.version && r.children.Keys == n.children.Keys
    ensures forall k :: k in n.children ==> r.children[k] == Data(n.children[k])
    decreases n
  {
    MockReplica.RNode(n.value, n.version, map k | k in n.children :: Data(n.children[k]))
  }

  function Child(n: WNode, k: string): WNode {
    if k in n.children then n.children[k] else WEMPTY
  }

  lemma DataChild(n: WNode, k: string)
    ensures Data(Child(n, k)) == MockReplica.ChildOr(Data(n), k)
  {
    if k !in n.children {
      assert Data(WEMPTY) == MockReplica.EMPTY;
    }
  }

  /** `recursiveCreate(node, key).node`: the node at `key`, a fresh empty
      one where the path is missing. */
  function At(n: WNode, key: seq<string>): WNode
    decreases |key|
  {
    if |key| == 0 then n else At(Child(n, key[0]), key[1..])
  }

  /** `recursiveCreate(node, key).parentWatchers`, which `recursiveGet` also
      computes when the path exists: the watchers of every node strictly
      above `key`, root first. */
  function PathWatchers(n: WNode, key: seq<string>): seq<nat>
    decreases |key|
  {
    if |key| == 0 then [] else n.watchers + PathWatchers(Child(n, key[0]), key[1..])
  }

  /** `recursiveGet(node, key).node`: None where a step is missing. */
  function Find(n: WNode, key: seq<string>): Option<WNode>
    decreases |key|
  {
    if |key| == 0 then Some(n)
    else if key[0] in n.children then Find(n.children[key[0]], key[1..])
    else None
  }

  /** Creating the path to `key` and making `sub` the node there. */
  function Install(n: WNode, key: seq<string>, sub: WNode): (r: WNode)
    ensures At(r, key) == sub && Find(r, key) == Some(sub)
    ensures PathWatchers(r, key) == PathWatchers(n, key)
    ensures |key| > 0 ==> r.value == n.value && r.version == n.version && r.watchers == n.watchers
    decreases |key|
  {
    if |key| == 0 then sub
    else n.(children := n.children[key[0] := Install(Child(n, key[0]), key[1..], sub)])
  }

  /** Reading the data at a key agrees with the other stand-in's reads. */
  lemma {:induction false} AtData(n: WNode, key: seq<string>)
    ensures Data(At(n, key)) == MockReplica.Get(Data(n), key).GetOr(MockReplica.EMPTY)
    ensures Find(n, key).Some? <==> MockReplica.Get(Data(n), key).Some?
    ensures Find(n, key).Some? ==> Find(n, key) == Some(At(n, key))
    decreases |key|
  {
    if |key| > 0 {
      AtData(Child(n, key[0]), key[1..]);
      DataChild(n, key[0]);
      if key[0] !in n.children {
        EmptyStaysEmpty(key[1..]);
      }
    }
  }

  lemma {:induction false} EmptyStaysEmpty(key: seq<string>)
    ensures At(WEMPTY, key) == WEMPTY
    ensures MockReplica.Get(MockReplica.EMPTY, key).GetOr(MockReplica.EMPTY) == MockReplica.EMPTY
    ensures PathWatchers(WEMPTY, key) == []
    decreases |key|
  {
    if |key| > 0 {
      EmptyStaysEmpty(key[1..]);
    }
  }

  /** Installing a node stores its data where the other stand-in would. */
  lemma {:induction false} InstallData(n: WNode, key: seq<string>, sub: WNode)
    ensures Data(Install(n, key, sub)) == MockReplica.SetNodeAt(Data(n), key, Data(sub))
    decreases |key|
  {
    if |key| > 0 {
      var k := key[0];
      var c := Install(Child(n, k), key[1..], sub);
      InstallData(Child(n, k), key[1..], sub);
      DataChild(n, k);
      DataSetChild(n, k, c);
    }
  }

  /** Replacing one child replaces its data. */
  lemma DataSetChild(n: WNode, k: string, c: WNode)
    ensures Data(n.(children := n.children[k := c])) == Data(n).(children := Data(n).children[k := Data(c)])
  {
    var r := n.(children := n.children[k := c]);
    forall j | j in r.children
      ensures Data(r).children[j] == Data(n).(children := Data(n).children[k := Data(c)]).children[j]
    {
    }
  }

  /** The other stand-in's put is the same as installing the updated node. */
  lemma {:induction false} PutInstalls(n: MockReplica.RNode, key: seq<string>, v: string)
    ensures var before := MockReplica.Get(n, key).GetOr(MockReplica.EMPTY);
      MockReplica.Put(n, key, v) == MockReplica.SetNodeAt(n, key, before.(value := Some(v), version := MockReplica.AdvanceVersion(before.version)))
    decreases |key|
  {
    if |key| > 0 {
      var child := MockReplica.ChildOr(n, key[0]);
      PutInstalls(child, key[1..], v);
      if key[0] !in n.children {
        MockReplica.SetNodeAtSame(MockReplica.EMPTY, []);
        EmptyStaysEmpty(key[1..]);
      }
      assert MockReplica.Get(n, key).GetOr(MockReplica.EMPTY) == MockReplica.Get(child, key[1..]).GetOr(MockReplica.EMPTY);
    }
  }

  /** `updateWatchers(watchers, k, v)`: one note per watcher, in order. */
  function NotesTo(ws: seq<nat>, op: Op): (r: seq<Note>)
    ensures |r| == |ws| && forall i :: 0 <= i < |ws| ==> r[i] == Note(ws[i], op)
  {
    seq(|ws|, i requires 0 <= i < |ws| => Note(ws[i], op))
  }

  /** The node at `key` with its value replaced and its version advanced. */
  function Written(t: WNode, v: string): WNode {
    t.(value := Some(v), version := MockReplica.AdvanceVersion(t.version))
  }

  /** `recursiveSet(node, key, value)` as written: the notes go to the
      watchers above the key followed by the root's own watchers, not the
      watchers of the node written. */
  function SetAsWritten(n: WNode, key: seq<string>, v: string): (r: (WNode, seq<Note>))
    ensures Data(r.0) == MockReplica.Put(Data(n), key, v)
    ensures forall w :: w in Notified(r.1) <==> w in n.watchers || exists j :: 0 <= j < |key| && w in At(n, key[..j]).watchers
  {
    WrittenData(n, key, v);
    PathWatchersAbove(n, key);
    NotifiedNotesTo(PathWatchers(n, key) + n.watchers, Op(Some(key), Some(v)));
    (Install(n, key, Written(At(n, key), v)), NotesTo(PathWatchers(n, key) + n.watchers, Op(Some(key), Some(v))))
  }

  lemma WrittenData(n: WNode, key: seq<string>, v: string)
    ensures Data(Install(n, key, Written(At(n, key), v))) == MockReplica.Put(Data(n), key, v)
  {
    InstallData(n, key, Written(At(n, key), v));
    AtData(n, key);
    PutInstalls(Data(n), key, v);
  }

  /** `recursiveSet` notifying the watchers above the key and then those of
      the node written. */
  function Set(n: WNode, key: seq<string>, v: string): (r: (WNode, seq<Note>))
    ensures Data(r.0) == MockReplica.Put(Data(n), key, v)
    ensures Find(r.0, key) == Some(Written(At(n, key), v))
    ensures forall w :: w in Notified(r.1) <==> exists j :: 0 <= j <= |key| && w in At(n, key[..j]).watchers
    ensures forall i :: 0 <= i < |r.1| ==> r.1[i].op == Op(Some(key), Some(v))
  {
    var t := At(n, key);
    var r := Install(n, key, Written(t, v));
    WrittenData(n, key, v);
    var ws := PathWatchers(n, key) + t.watchers;
    PathWatchersAbove(n, key);
    forall w
      ensures w in ws <==> exists j :: 0 <= j <= |key| && w in At(n, key[..j]).watchers
    {
      if w in t.watchers {
        assert key[..|key|] == key;
      }
      if exists j :: 0 <= j <= |key| && w in At(n, key[..j]).watchers {
        var j :| 0 <= j <= |key| && w in At(n, key[..j]).watchers;
        if j == |key| {
          assert key[..j] == key;
        }
      }
    }
    NotifiedNotesTo(ws, Op(Some(key), Some(v)));
    (r, NotesTo(ws, Op(Some(key), Some(v))))
  }

  /** The watchers a sequence of notes addresses. */
  function Notified(notes: seq<Note>): (r: set<nat>)
    ensures forall i :: 0 <= i < |notes| ==> notes[i].watcher in r
  {
    set i | 0 <= i < |notes| :: notes[i].watcher
  }

  lemma NotifiedNotesTo(ws: seq<nat>, op: Op)
    ensures forall w :: w in Notified(NotesTo(ws, op)) <==> w in ws
  {
    var notes := NotesTo(ws, op);
    forall w | w in ws
      ensures w in Notified(notes)
    {
      var i :| 0 <= i < |ws| && ws[i] == w;
      assert notes[i].watcher == w;
    }
  }

  /** The watchers above a key are those registered on one of its proper
      prefixes. */
  lemma {:induction false} PathWatchersAbove(n: WNode, key: seq<string>)
    ensures forall w :: w in PathWatchers(n, key) <==> exists j :: 0 <= j < |key| && w in At(n, key[..j]).watchers
    decreases |key|
  {
    if |key| > 0 {
      var c := Child(n, key[0]);
      PathWatchersAbove(c, key[1..]);
      assert At(n, key[..0]) == n;
      forall j | 1 <= j <= |key|
        ensures At(n, key[..j]) == At(c, key[1..][..j - 1])
      {
        assert key[..j][1..] == key[1..][..j - 1];
      }
      forall w
        ensures w in PathWatchers(n, key) <==> exists j :: 0 <= j < |key| && w in At(n, key[..j]).watchers
      {
        if w in PathWatchers(c, key[1..]) {
          var j :| 0 <= j < |key[1..]| && w in At(c, key[1..][..j]).watchers;
          assert w in At(n, key[..j + 1]).watchers;
        }
        if exists j :: 0 <= j < |key| && w in At(n, key[..j]).watchers {
          var j :| 0 <= j < |key| && w in At(n, key[..j]).watchers;
          if j > 0 {
            assert w in At(c, key[1..][..j - 1]).watchers;
          }
        }
      }
    }
  }

  /** As written, a watcher registered on the very node a put writes is not
      told, and the root's watchers are told twice. */
  lemma SetMissesOwnWatchers()
    ensures var n := WNode(None, None, [1], map["a" := WNode(None, None, [7], map[])]);
      var notes := SetAsWritten(n, ["a"], "x").1;
      notes == [Note(1, Op(Some(["a"]), Some("x"))), Note(1, Op(Some(["a"]), Some("x")))]
      && 7 !in Notified(notes)
  {
    var n := WNode(None, None, [1], map["a" := WNode(None, None, [7], map[])]);
    assert PathWatchers(n, ["a"]) == [1] + PathWatchers(n.children["a"], []);
    var notes := SetAsWritten(n, ["a"], "x").1;
    assert notes == NotesTo([1, 1], Op(Some(["a"]), Some("x")));
    assert notes == [Note(1, Op(Some(["a"]), Some("x"))), Note(1, Op(Some(["a"]), Some("x")))];
    NotifiedNotesTo([1, 1], Op(Some(["a"]), Some("x")));
  }

  /** `recursiveDelete` on a node that exists: a deletion is noted only
      where a value was, the version advances everywhere, and the children
      follow in enumeration order. `key` is the deleted key at the top and
      null for descendants. */
  function DeleteNode(n: WNode, key: Option<seq<string>>, parent: seq<nat>, order: Order): (r: (WNode, seq<Note>))
    ensures r.0.value.None? && r.0.version == MockReplica.AdvanceVersion(n.version) && r.0.watchers == n.watchers
    ensures forall i :: 0 <= i < |r.1| ==> r.1[i].op.value.None? && (r.1[i].op.key == key || r.1[i].op.key.None?)
    ensures n.value.Some? ==> |r.1| >= |parent + n.watchers| && r.1[..|parent + n.watchers|] == NotesTo(parent + n.watchers, Op(key, None))
    ensures MockReplica.ExtractData(Data(n)).None? ==> r.1 == []
    decreases n, 1
  {
    var watchers := parent + n.watchers;
    var own := if n.value.Some? then NotesTo(watchers, Op(key, None)) else [];
    var (kids, kidNotes) := DeleteKids(n, order(n.children), watchers, order);
    assert (own + kidNotes)[..|own|] == own;
    (WNode(None, MockReplica.AdvanceVersion(n.version), n.watchers, kids), own + kidNotes)
  }

  /** The children of `n` listed in `ks`, each deleted in turn. */
  function DeleteKids(n: WNode, ks: seq<string>, watchers: seq<nat>, order: Order): (r: (map<string, WNode>, seq<Note>))
    ensures r.0.Keys == n.children.Keys
    ensures forall i :: 0 <= i < |r.1| ==> r.1[i].op.value.None? && r.1[i].op.key.None?
    ensures (forall k :: k in n.children ==> MockReplica.ExtractData(Data(n.children[k])).None?) ==> r.1 == []
    decreases n, 0, |ks|
  {
    if |ks| == 0 then (n.children, [])
    else
      var (rest, restNotes) := DeleteKids(n, ks[1..], watchers, order);
      if ks[0] in n.children then
        var (c, notes) := DeleteNode(n.children[ks[0]], None, watchers, order);
        (rest[ks[0] := c], notes + restNotes)
      else (rest, restNotes)
  }

  /** With every child enumerated, deleting a node leaves the data the other
      stand-in's delete leaves. */
  lemma {:induction false} DeleteNodeData(n: WNode, key: Option<seq<string>>, parent: seq<nat>, order: Order)
    requires Enumerates(order)
    ensures Data(DeleteNode(n, key, parent, order).0) == MockReplica.DeleteAll(Data(n))
    decreases n, 1
  {
    var ks := order(n.children);
    assert ListsKeys(ks, n.children);
    DeleteKidsData(n, ks, parent + n.watchers, order);
    var r := DeleteNode(n, key, parent, order).0;
    var d := MockReplica.DeleteAll(Data(n));
    forall k | k in r.children
      ensures Data(r).children[k] == d.children[k]
    {
      assert Data(n).children[k] == Data(n.children[k]);
    }
  }

  lemma {:induction false} DeleteKidsData(n: WNode, ks: seq<string>, watchers: seq<nat>, order: Order)
    requires Enumerates(order)
    requires forall i, j :: 0 <= i < j < |ks| ==> ks[i] != ks[j]
    ensures var kids := DeleteKids(n, ks, watchers, order).0;
      forall k :: k in ks && k in n.children ==> Data(kids[k]) == MockReplica.DeleteAll(Data(n.children[k]))
    decreases n, 0, |ks|
  {
    if |ks| > 0 {
      DeleteKidsData(n, ks[1..], watchers, order);
      if ks[0] in n.children {
        DeleteNodeData(n.children[ks[0]], None, watchers, order);
      }
      forall k | k in ks[1..]
        ensures k != ks[0]
      {
      }
    }
  }

  /** `delete(k)` before the batch ends: nothing happens when no node is at
      the key. */
  function DeleteAt(root: WNode, key: seq<string>, order: Order): (r: (WNode, seq<Note>))
    ensures Find(root, key).None? ==> r == (root, [])
    ensures forall i :: 0 <= i < |r.1| ==> r.1[i].op.value.None? && (r.1[i].op.key == Some(key) || r.1[i].op.key.None?)
    ensures Find(root, key).Some? && Find(root, key).value.value.Some? ==>
      |r.1| >= |PathWatchers(root, key) + Find(root, key).value.watchers| && r.1[..|PathWatchers(root, key) + Find(root, key).value.watchers|]
      == NotesTo(PathWatchers(root, key) + Find(root, key).value.watchers, Op(Some(key), None))
  {
    match Find(root, key)
    case None => (root, [])
    case Some(t) =>
      var (t1, notes) := DeleteNode(t, Some(key), PathWatchers(root, key), order);
      (Install(root, key, t1), notes)
  }

  /** The browser stand-in's delete stores what the other stand-in's does. */
  lemma DeleteAtData(root: WNode, key: seq<string>, order: Order)
    requires Enumerates(order)
    ensures Data(DeleteAt(root, key, order).0) == MockReplica.Delete(Data(root), key)
  {
    AtData(root, key);
    match Find(root, key)
    case None =>
    case Some(t) =>
      var t1 := DeleteNode(t, Some(key), PathWatchers(root, key), order).0;
      DeleteNodeData(t, Some(key), PathWatchers(root, key), order);
      InstallData(root, key, t1);
      DeleteIsSetNodeAt(Data(root), key);
  }

  /** The other stand-in's delete installs the cleared node. */
  lemma {:induction false} DeleteIsSetNodeAt(n: MockReplica.RNode, key: seq<string>)
    requires MockReplica.Get(n, key).Some?
    ensures MockReplica.Delete(n, key) == MockReplica.SetNodeAt(n, key, MockReplica.DeleteAll(MockReplica.Get(n, key).value))
    decreases |key|
  {
    if |key| > 0 {
      DeleteIsSetNodeAt(n.children[key[0]], key[1..]);
    }
  }

  /** The copy condition of `update(a, b)`: `a`'s version is greater, or
      only `a` has one, or the versions are equal (both possibly undefined)
      and the values differ. */
  predicate Newer(aVersion: Option<int>, aValue: Option<string>, bVersion: Option<int>, bValue: Option<string>) {
    (aVersion.Some? && bVersion.Some? && aVersion.value > bVersion.value)
    || (aVersion.Some? && bVersion.None?)
    || (aVersion == bVersion && aValue != bValue)
  }

  /** The data `update(a, b)` leaves in `b`: every child of `a` merged into
      `b`'s (created empty where missing), `b`'s other children kept, and
      `a`'s value and version taken when they are newer. */
  function Merge(a: MockReplica.RNode, b: MockReplica.RNode): (r: MockReplica.RNode)
    ensures r.children.Keys == a.children.Keys + b.children.Keys
    ensures Newer(a.version, a.value, b.version, b.value) ==> r.value == a.value && r.version == a.version
    ensures !Newer(a.version, a.value, b.version, b.value) ==> r.value == b.value && r.version == b.version
    decreases a
  {
    var kids := map k | k in a.children.Keys + b.children.Keys ::
      if k in a.children then Merge(a.children[k], MockReplica.ChildOr(b, k)) else b.children[k];
    if Newer(a.version, a.value, b.version, b.value) then MockReplica.RNode(a.value, a.version, kids)
    else MockReplica.RNode(b.value, b.version, kids)
  }

  /** Merging into an empty node copies. */
  lemma {:induction false} MergeIntoEmpty(x: MockReplica.RNode)
    ensures Merge(x, MockReplica.EMPTY) == x
    decreases x
  {
    forall k | k in x.children
      ensures Merge(x, MockReplica.EMPTY).children[k] == x.children[k]
    {
      MergeChild(x, MockReplica.EMPTY, k);
      MergeIntoEmpty(x.children[k]);
    }
  }

  /** `sync` updates `b` from `a` and then `a` from the updated `b`: both
      sides end with the same data under the prefix. */
  lemma {:induction false} MergeConverges(a: MockReplica.RNode, b: MockReplica.RNode)
    ensures Merge(Merge(a, b), a) == Merge(a, b)
    decreases a, 2
  {
    MergeConvergesTop(a, b);
    MergeConvergesKids(a, b);
  }

  /** Merging back keeps every merged child. */
  lemma {:induction false} MergeConvergesKids(a: MockReplica.RNode, b: MockReplica.RNode)
    ensures Merge(Merge(a, b), a).children == Merge(a, b).children
    decreases a, 1
  {
    var b1 := Merge(a, b);
    var a1 := Merge(b1, a);
    MergeConvergesTop(a, b);
    forall k | k in b1.children
      ensures a1.children[k] == b1.children[k]
    {
      MergeConvergesAt(a, b, k);
    }
  }

  /** Merging back keeps the merged value and version. */
  lemma MergeConvergesTop(a: MockReplica.RNode, b: MockReplica.RNode)
    ensures Merge(Merge(a, b), a).value == Merge(a, b).value
    ensures Merge(Merge(a, b), a).version == Merge(a, b).version
    ensures Merge(Merge(a, b), a).children.Keys == Merge(a, b).children.Keys
  {
    NewerSettles(a.version, a.value, b.version, b.value);
  }

  lemma {:induction false} MergeConvergesAt(a: MockReplica.RNode, b: MockReplica.RNode, k: string)
    requires k in a.children || k in b.children
    ensures Merge(Merge(a, b), a).children[k] == Merge(a, b).children[k]
    decreases a, 0
  {
    MergeChild(Merge(a, b), a, k);
    MergeChild(a, b, k);
    if k in a.children {
      MergeConverges(a.children[k], MockReplica.ChildOr(b, k));
    } else {
      MergeIntoEmpty(b.children[k]);
    }
  }

  lemma MergeChild(a: MockReplica.RNode, b: MockReplica.RNode, k: string)
    requires k in a.children || k in b.children
    ensures Merge(a, b).children[k] == if k in a.children then Merge(a.children[k], MockReplica.ChildOr(b, k)) else b.children[k]
  {
  }

  /** After `b` takes what is newer, `a` has nothing newer to take back
      unless it is already equal. */
  lemma NewerSettles(av: Option<int>, aval: Option<string>, bv: Option<int>, bval: Option<string>)
    ensures var (v1, val1) := if Newer(av, aval, bv, bval) then (av, aval) else (bv, bval);
      Newer(v1, val1, av, aval) || (av == v1 && aval == val1)
  {
  }

  /** On equal versions with different values the replica that joined the
      group earlier wins, on both sides. */
  lemma EarlierWinsTie(a: MockReplica.RNode, b: MockReplica.RNode)
    requires a.version == b.version && a.value != b.value
    ensures Merge(a, b).value == a.value && Merge(Merge(a, b), a).value == a.value
  {
    MergeConverges(a, b);
  }

  /** `update(a, b, key, parentWatchers)`: the children of `a` first, in
      enumeration order, then the node itself; a copied value is noted to
      the watchers above and on `b`. */
  function Update(a: WNode, b: WNode, key: seq<string>, parent: seq<nat>, order: Order): (r: (WNode, seq<Note>))
    ensures r.0.watchers == b.watchers
    ensures Newer(a.version, a.value, b.version, b.value) ==>
      r.0.value == a.value && r.0.version == a.version
    ensures !Newer(a.version, a.value, b.version, b.value) ==> r.0.value == b.value && r.0.version == b.version
    decreases a, 1
  {
    var watchers := parent + b.watchers;
    var (kids, kidNotes) := UpdateKids(a, order(a.children), b.children, key, watchers, order);
    if Newer(a.version, a.value, b.version, b.value) then
      var own := NotesTo(watchers, Op(Some(key), a.value));
      (WNode(a.value, a.version, b.watchers, kids), kidNotes + own)
    else (b.(children := kids), kidNotes)
  }

  /** A note about `key` or a key below it. */
  predicate Under(n: Note, key: seq<string>) {
    n.op.key.Some? && |key| <= |n.op.key.value| && n.op.key.value[..|key|] == key
  }

  function ChildIn(kids: map<string, WNode>, k: string): WNode {
    if k in kids then kids[k] else WEMPTY
  }

  /** The children of `a` listed in `ks`, each merged into `kids` in turn. */
  function UpdateKids(a: WNode, ks: seq<string>, kids: map<string, WNode>, key: seq<string>, watchers: seq<nat>, order: Order)
    : (r: (map<string, WNode>, seq<Note>))
    decreases a, 0, |ks|
  {
    if |ks| == 0 then (kids, [])
    else if ks[0] !in a.children then UpdateKids(a, ks[1..], kids, key, watchers, order)
    else
      var k := ks[0];
      var (c, n1) := Update(a.children[k], ChildIn(kids, k), key + [k], watchers, order);
      var (rest, n2) := UpdateKids(a, ks[1..], kids[k := c], key, watchers, order);
      (rest, n1 + n2)
  }

  /** With every child enumerated, `update` leaves the data `Merge`
      describes. */
  lemma {:induction false} UpdateData(a: WNode, b: WNode, key: seq<string>, parent: seq<nat>, order: Order)
    requires Enumerates(order)
    ensures Data(Update(a, b, key, parent, order).0) == Merge(Data(a), Data(b))
    decreases a, 1
  {
    var ks := order(a.children);
    assert ListsKeys(ks, a.children);
    var watchers := parent + b.watchers;
    UpdateKidsData(a, ks, b.children, key, watchers, order);
    UpdateKidsKeeps(a, ks, b.children, key, watchers, order);
    var r := Update(a, b, key, parent, order).0;
    var m := Merge(Data(a), Data(b));
    forall k | k in r.children
      ensures Data(r.children[k]) == m.children[k]
    {
      MergeChild(Data(a), Data(b), k);
      DataChild(b, k);
    }
    DataIs(r, m);
  }

  /** A node's data is determined field by field. */
  lemma DataIs(x: WNode, m: MockReplica.RNode)
    requires x.value == m.value && x.version == m.version && x.children.Keys == m.children.Keys
    requires forall k :: k in x.children ==> Data(x.children[k]) == m.children[k]
    ensures Data(x) == m
  {
    assert Data(x).children == m.children;
  }

  lemma {:induction false} UpdateKidsData(a: WNode, ks: seq<string>, kids: map<string, WNode>, key: seq<string>, watchers: seq<nat>, order: Order)
    requires Enumerates(order)
    requires forall i, j :: 0 <= i < j < |ks| ==> ks[i] != ks[j]
    ensures var r := UpdateKids(a, ks, kids, key, watchers, order).0;
      forall k :: k in ks && k in a.children ==> k in r && Data(r[k]) == Merge(Data(a.children[k]), Data(ChildIn(kids, k)))
    decreases a, 0, |ks|, 1
  {
    if |ks| > 0 {
      var k := ks[0];
      assert k !in ks[1..];
      if k !in a.children {
        UpdateKidsData(a, ks[1..], kids, key, watchers, order);
      } else {
        UpdateKidsDataStep(a, ks, kids, key, watchers, order);
      }
    }
  }

  /** The first named child present in `a` is merged, and the rest follow. */
  lemma {:induction false} UpdateKidsDataStep(a: WNode, ks: seq<string>, kids: map<string, WNode>, key: seq<string>, watchers: seq<nat>, order: Order)
    requires Enumerates(order)
    requires forall i, j :: 0 <= i < j < |ks| ==> ks[i] != ks[j]
    requires |ks| > 0 && ks[0] in a.children
    ensures var r := UpdateKids(a, ks, kids, key, watchers, order).0;
      forall k :: k in ks && k in a.children ==> k in r && Data(r[k]) == Merge(Data(a.children[k]), Data(ChildIn(kids, k)))
    decreases a, 0, |ks|, 0
  {
    var k := ks[0];
    assert k !in ks[1..];
    var c := Update(a.children[k], ChildIn(kids, k), key + [k], watchers, order).0;
    UpdateData(a.children[k], ChildIn(kids, k), key + [k], watchers, order);
    UpdateKidsData(a, ks[1..], kids[k := c], key, watchers, order);
    UpdateKidsKeeps(a, ks[1..], kids[k := c], key, watchers, order);
  }

  /** Children of `kids` that `ks` does not name are left alone; the named
      children of `a` are added. */
  lemma {:induction false} UpdateKidsKeeps(a: WNode, ks: seq<string>, kids: map<string, WNode>, key: seq<string>, watchers: seq<nat>, order: Order)
    ensures var r := UpdateKids(a, ks, kids, key, watchers, order).0;
      (forall k :: k in r <==> k in kids || (k in ks && k in a.children))
      && (forall k :: k in kids && k !in ks ==> r[k] == kids[k])
    decreases |ks|
  {
    if |ks| > 0 {
      if ks[0] !in a.children {
        UpdateKidsKeeps(a, ks[1..], kids, key, watchers, order);
      } else {
        var c := Update(a.children[ks[0]], ChildIn(kids, ks[0]), key + [ks[0]], watchers, order).0;
        UpdateKidsKeeps(a, ks[1..], kids[ks[0] := c], key, watchers, order);
      }
    }
  }

  /** A copied value is noted last, to the watchers above and on `b`; every
      note is about `key` or a key below it. */
  lemma {:induction false} UpdateNotes(a: WNode, b: WNode, key: seq<string>, parent: seq<nat>, order: Order)
    ensures var notes := Update(a, b, key, parent, order).1; var ws := parent + b.watchers;
      Newer(a.version, a.value, b.version, b.value) ==>
        |notes| >= |ws| && notes[|notes| - |ws|..] == NotesTo(ws, Op(Some(key), a.value))
    ensures forall n :: n in Update(a, b, key, parent, order).1 ==> Under(n, key)
    decreases a, 1
  {
    var ws := parent + b.watchers;
    var kidNotes := UpdateKids(a, order(a.children), b.children, key, ws, order).1;
    UpdateKidsNotes(a, order(a.children), b.children, key, ws, order);
    if Newer(a.version, a.value, b.version, b.value) {
      var own := NotesTo(ws, Op(Some(key), a.value));
      assert (kidNotes + own)[|kidNotes + own| - |own|..] == own;
      forall n | n in own
        ensures Under(n, key)
      {
        assert n.op.key.value[..|key|] == key;
      }
    }
  }

  lemma {:induction false} UpdateKidsNotes(a: WNode, ks: seq<string>, kids: map<string, WNode>, key: seq<string>, watchers: seq<nat>, order: Order)
    ensures forall n :: n in UpdateKids(a, ks, kids, key, watchers, order).1 ==> Under(n, key)
    decreases a, 0, |ks|
  {
    if |ks| > 0 {
      var k := ks[0];
      if k !in a.children {
        UpdateKidsNotes(a, ks[1..], kids, key, watchers, order);
      } else {
        var (c, n1) := Update(a.children[k], ChildIn(kids, k), key + [k], watchers, order);
        UpdateNotes(a.children[k], ChildIn(kids, k), key + [k], watchers, order);
        UpdateKidsNotes(a, ks[1..], kids[k := c], key, watchers, order);
        forall n | n in n1
          ensures Under(n, key)
        {
          assert n.op.key.value[..|key|] == n.op.key.value[..|key| + 1][..|key|];
        }
      }
    }
  }

  /** One stand-in instance: its tree and its watchers' batching state. */
  datatype Replica = Replica(root: WNode, batcher: Batcher)

  /** `put(k, v)`: the write, then the end of the batch. */
  function PutOp(r: Replica, key: seq<string>, v: string): (r': Replica)
    ensures Data(r'.root) == MockReplica.Put(Data(r.root), key, v)
    ensures r'.batcher.batch == []
  {
    var (root, notes) := Set(r.root, key, v);
    Replica(root, EndBatch(Feed(r.batcher, notes)))
  }

  /** `delete(k)`: the deletion, then the end of the batch. */
  function DeleteOp(r: Replica, key: seq<string>, order: Order): (r': Replica)
    ensures Find(r.root, key).None? ==> r'.root == r.root
    ensures r'.batcher.batch == []
  {
    var (root, notes) := DeleteAt(r.root, key, order);
    Replica(root, EndBatch(Feed(r.batcher, notes)))
  }

  /** How often `w` occurs in `ws`. */
  function Count(ws: seq<nat>, w: nat): nat {
    if |ws| == 0 then 0 else (if ws[0] == w then 1 else 0) + Count(ws[1..], w)
  }

  function Repeat<T>(x: T, c: nat): (r: seq<T>)
    ensures |r| == c && forall i :: 0 <= i < c ==> r[i] == x
  {
    if c == 0 then [] else [x] + Repeat(x, c - 1)
  }

  lemma {:induction false} OpsForNotesTo(ws: seq<nat>, op: Op, w: nat)
    ensures OpsFor(NotesTo(ws, op), w) == Repeat(op, Count(ws, w))
    decreases |ws|
  {
    if |ws| > 0 {
      OpsForNotesTo(ws[1..], op, w);
      assert NotesTo(ws, op)[1..] == NotesTo(ws[1..], op);
    }
  }

  lemma {:induction false} ContinuedRepeat(w: nat, op: Op, c: nat)
    requires c >= 1
    ensures Continued(w, None, Repeat(op, c)) == Repeat(Dispatched(w, op, true), c - 1)
  {
    ContinuedHeld(w, op, c - 1);
    assert Repeat(op, c)[1..] == Repeat(op, c - 1);
  }

  lemma {:induction false} ContinuedHeld(w: nat, op: Op, c: nat)
    ensures Continued(w, Some(op), Repeat(op, c)) == Repeat(Dispatched(w, op, true), c)
    decreases c
  {
    if c > 0 {
      ContinuedHeld(w, op, c - 1);
      assert Repeat(op, c)[1..] == Repeat(op, c - 1);
    }
  }

  /** From idle watchers, a put reaches each watcher once per registration
      on the written path: as continued, then as final, then the end of the
      batch. */
  lemma PutDelivers(r: Replica, key: seq<string>, v: string, w: nat)
    requires r.batcher.lastOp == map[] && r.batcher.batch == []
    ensures var op := Op(Some(key), Some(v));
      var c := Count(PathWatchers(r.root, key) + At(r.root, key).watchers, w);
      EventsFor(PutOp(r, key, v).batcher.log, w) == EventsFor(r.batcher.log, w) +
        (if c == 0 then [] else Repeat(Dispatched(w, op, true), c - 1) + [Dispatched(w, op, false), OnBatchEnd(w)])
  {
    var op := Op(Some(key), Some(v));
    var ws := PathWatchers(r.root, key) + At(r.root, key).watchers;
    var notes := Set(r.root, key, v).1;
    assert notes == NotesTo(ws, op);
    ExactlyOnce(r.batcher, notes, w);
    OpsForNotesTo(ws, op, w);
    var c := Count(ws, w);
    if c > 0 {
      ContinuedRepeat(w, op, c);
      assert Repeat(op, c)[c - 1] == op;
    }
  }

  /** Syncing one prefix: both paths are created, `b` is updated from `a`
      and then `a` from the updated `b`; each side's notes go to its own
      watchers. */
  function SyncPrefix(ra: Replica, rb: Replica, p: seq<string>, order: Order): (r: (Replica, Replica))
    ensures At(r.0.root, p).watchers == At(ra.root, p).watchers && At(r.1.root, p).watchers == At(rb.root, p).watchers
  {
    var sa := At(ra.root, p);
    var sb := At(rb.root, p);
    var (nb, notesB) := Update(sa, sb, p, PathWatchers(rb.root, p), order);
    var (na, notesA) := Update(nb, sa, p, PathWatchers(ra.root, p), order);
    (Replica(Install(ra.root, p, na), Feed(ra.batcher, notesA)),
     Replica(Install(rb.root, p, nb), Feed(rb.batcher, notesB)))
  }

  /** After a prefix is synced, both replicas hold the same data under it. */
  lemma SyncPrefixAgrees(ra: Replica, rb: Replica, p: seq<string>, order: Order)
    requires Enumerates(order)
    ensures var (a, b) := SyncPrefix(ra, rb, p, order); Data(At(a.root, p)) == Data(At(b.root, p))
  {
    var sa := At(ra.root, p);
    var sb := At(rb.root, p);
    var nb := Update(sa, sb, p, PathWatchers(rb.root, p), order).0;
    UpdateData(sa, sb, p, PathWatchers(rb.root, p), order);
    UpdateData(nb, sa, p, PathWatchers(ra.root, p), order);
    MergeConverges(Data(sa), Data(sb));
  }

  /** `sync(a, b, prefixes)`: the prefixes in order, then both batches end. */
  function Sync(ra: Replica, rb: Replica, prefixes: seq<seq<string>>, order: Order): (r: (Replica, Replica))
    ensures r.0.batcher.batch == [] && r.1.batcher.batch == []
  {
    var (a, b) := SyncPrefixes(ra, rb, prefixes, order);
    (a.(batcher := EndBatch(a.batcher)), b.(batcher := EndBatch(b.batcher)))
  }

  function SyncPrefixes(ra: Replica, rb: Replica, prefixes: seq<seq<string>>, order: Order): (r: (Replica, Replica))
    decreases |prefixes|
  {
    if |prefixes| == 0 then (ra, rb)
    else
      var (a, b) := SyncPrefix(ra, rb, prefixes[0], order);
      SyncPrefixes(a, b, prefixes[1..], order)
  }

  /** The prefix synced last holds the same data on both sides. */
  lemma {:induction false} SyncAgreesOnLast(ra: Replica, rb: Replica, prefixes: seq<seq<string>>, order: Order)
    requires Enumerates(order) && |prefixes| > 0
    ensures var (a, b) := Sync(ra, rb, prefixes, order);
      Data(At(a.root, prefixes[|prefixes| - 1])) == Data(At(b.root, prefixes[|prefixes| - 1]))
  {
    PrefixesAgreeOnLast(ra, rb, prefixes, order);
  }

  lemma {:induction false} PrefixesAgreeOnLast(ra: Replica, rb: Replica, prefixes: seq<seq<string>>, order: Order)
    requires Enumerates(order) && |prefixes| > 0
    ensures var (a, b) := SyncPrefixes(ra, rb, prefixes, order);
      Data(At(a.root, prefixes[|prefixes| - 1])) == Data(At(b.root, prefixes[|prefixes| - 1]))
    decreases |prefixes|
  {
    var (a, b) := SyncPrefix(ra, rb, prefixes[0], order);
    assert SyncPrefixes(ra, rb, prefixes, order) == SyncPrefixes(a, b, prefixes[1..], order);
    if |prefixes| == 1 {
      SyncPrefixAgrees(ra, rb, prefixes[0], order);
    } else {
      PrefixesAgreeOnLast(a, b, prefixes[1..], order);
      assert prefixes[1..][|prefixes[1..]| - 1] == prefixes[|prefixes| - 1];
    }
  }

  /** `getData()`: the data of the tree, `{}` when there is none. */
  function GetData(root: WNode): (r: SyncbaseWrapper.Node)
    ensures root == WEMPTY ==> r == SyncbaseWrapper.Branch(map[])
  {
    assert root == WEMPTY ==> Data(root) == MockReplica.EMPTY;
    MockReplica.GetData(Data(root))
  }

  /** What a put stores is what `getData()` shows at that key afterwards
      (keys using '_' as an element aside). */
  lemma PutReadsBack(r: Replica, key: seq<string>, v: string)
    requires |key| >= 1 && "_" !in key
    ensures var d := GetData(PutOp(r, key, v).root);
      d.Branch? && SyncbaseWrapper.ValueAt(d.children, key) == Some(v)
  {
    var m := MockReplica.Put(Data(r.root), key, v);
    assert Data(PutOp(r, key, v).root) == m;
    MockReplica.PutIsVisible(Data(r.root), key, v);
    var e := MockReplica.ExtractData(m);
    assert e.Some? && e.value.Branch?;
    assert MockReplica.GetData(m) == e.value;
  }

  /** The `onData` calls `extractData` makes while walking a node: its own
      value at `fullKey`, then each child's, in enumeration order. (The
      node's value is taken to come before its children; JavaScript visits
      it where it was first assigned.) */
  function Replay(n: WNode, fullKey: seq<string>, order: Order): seq<(seq<string>, string)>
    decreases n, 1
  {
    (if n.value.Some? then [(fullKey, n.value.value)] else []) + ReplayKids(n, order(n.children), fullKey, order)
  }

  function ReplayKids(n: WNode, ks: seq<string>, fullKey: seq<string>, order: Order): seq<(seq<string>, string)>
    decreases n, 0, |ks|
  {
    if |ks| == 0 then []
    else (if ks[0] in n.children then Replay(n.children[ks[0]], fullKey + [ks[0]], order) else [])
         + ReplayKids(n, ks[1..], fullKey, order)
  }

  /** `k` extends `pre` and the node below `n` at the rest of `k` holds `v`. */
  predicate Holds(n: WNode, pre: seq<string>, k: seq<string>, v: string) {
    |pre| <= |k| && k[..|pre|] == pre && Find(n, k[|pre|..]).Some? && Find(n, k[|pre|..]).value.value == Some(v)
  }

  /** A value below a node is its own or one below a child. */
  lemma HoldsStep(n: WNode, pre: seq<string>, k: seq<string>, v: string)
    ensures Holds(n, pre, k, v) <==>
      (k == pre && n.value == Some(v)) || exists c :: c in n.children && Holds(n.children[c], pre + [c], k, v)
  {
    if Holds(n, pre, k, v) && |k| > |pre| {
      var c := k[|pre|];
      assert k[|pre|..][1..] == k[|pre| + 1..];
      assert k[..|pre| + 1] == pre + [c];
      assert Holds(n.children[c], pre + [c], k, v);
    }
    if exists c :: c in n.children && Holds(n.children[c], pre + [c], k, v) {
      var c :| c in n.children && Holds(n.children[c], pre + [c], k, v);
      assert k[..|pre|] == k[..|pre| + 1][..|pre|];
      assert k[|pre|] == (pre + [c])[|pre|];
      assert k[|pre|..][1..] == k[|pre| + 1..];
    }
  }

  /** The replay reports exactly the values stored at or below the node,
      each with its full key. */
  lemma {:induction false} ReplayComplete(n: WNode, pre: seq<string>, order: Order)
    requires Enumerates(order)
    ensures forall k, v :: (k, v) in Replay(n, pre, order) <==> Holds(n, pre, k, v)
    decreases n, 1
  {
    var ks := order(n.children);
    assert ListsKeys(ks, n.children);
    ReplayKidsComplete(n, ks, pre, order);
    forall k, v
      ensures (k, v) in Replay(n, pre, order) <==> Holds(n, pre, k, v)
    {
      HoldsStep(n, pre, k, v);
    }
  }

  lemma {:induction false} ReplayKidsComplete(n: WNode, ks: seq<string>, pre: seq<string>, order: Order)
    requires Enumerates(order)
    ensures forall k, v :: (k, v) in ReplayKids(n, ks, pre, order) <==>
      exists c :: c in ks && c in n.children && Holds(n.children[c], pre + [c], k, v)
    decreases n, 0, |ks|
  {
    if |ks| > 0 {
      ReplayKidsComplete(n, ks[1..], pre, order);
      if ks[0] in n.children {
        ReplayComplete(n.children[ks[0]], pre + [ks[0]], order);
      }
      forall k, v
        ensures (k, v) in ReplayKids(n, ks, pre, order) <==>
          exists c :: c in ks && c in n.children && Holds(n.children[c], pre + [c], k, v)
      {
        if exists c :: c in ks && c in n.children && Holds(n.children[c], pre + [c], k, v) {
          var c :| c in ks && c in n.children && Holds(n.children[c], pre + [c], k, v);
          if c != ks[0] {
            assert c in ks[1..];
          }
        }
      }
    }
  }

  /** `registerHandlers(node, streamHandler)`: watcher `id` is appended to
      the node at `prefix`, the path created. */
  function Register(root: WNode, prefix: seq<string>, id: nat): (r: WNode)
    ensures At(r, prefix).watchers == At(root, prefix).watchers + [id]
    ensures Data(r) == MockReplica.SetNodeAt(Data(root), prefix, Data(At(root, prefix)))
  {
    var t := At(root, prefix);
    InstallData(root, prefix, t.(watchers := t.watchers + [id]));
    assert Data(t.(watchers := t.watchers + [id])) == Data(t);
    Install(root, prefix, t.(watchers := t.watchers + [id]))
  }

  /** `getRawWatched(prefix, pullHandler, streamHandler)`: the values under
      the prefix are replayed to `onData`, then the watcher is registered
      there. */
  function GetRawWatched(r: Replica, prefix: seq<string>, id: nat, order: Order): (res: (Replica, seq<(seq<string>, string)>))
    ensures id in At(res.0.root, prefix).watchers
    ensures res.0.batcher == r.batcher
  {
    (r.(root := Register(r.root, prefix, id)), Replay(At(r.root, prefix), prefix, order))
  }

  /** The replay covers every value under the prefix, and a later put at or
      below the prefix reaches the new watcher. */
  lemma WatchSeesExistingAndLater(r: Replica, prefix: seq<string>, id: nat, order: Order, key: seq<string>, v: string)
    requires Enumerates(order)
    requires |prefix| <= |key| && key[..|prefix|] == prefix
    ensures var (r1, replay) := GetRawWatched(r, prefix, id, order);
      (forall k, x :: (k, x) in replay <==> Holds(At(r.root, prefix), prefix, k, x))
      && id in Notified(Set(r1.root, key, v).1)
  {
    ReplayComplete(At(r.root, prefix), prefix, order);
    var r1 := GetRawWatched(r, prefix, id, order).0;
    assert id in At(r1.root, key[..|prefix|]).watchers;
  }

  /** As written, a watcher registered on a key is not told of a put at that
      very key. */
  lemma WatchMissesPutAtPrefix()
    ensures var root := Register(WEMPTY, ["a"], 7);
      7 !in Notified(SetAsWritten(root, ["a"], "x").1)
  {
    var root := Register(WEMPTY, ["a"], 7);
    assert root.watchers == [];
    assert At(root, ["a"][..0]) == root;
  }

  /** `syncgroup(sgAdmin, name)`'s `joinSg(factory)`: an existing group is
      joined as it is; a missing one is made by the factory, which for
      `join()` throws NoExist. */
  function JoinSyncgroup(reg: MockReplica.Registry, sgAdmin: string, name: string, repo: nat, spec: Option<seq<seq<string>>>)
    : (r: Result<MockReplica.Registry, VErrors.VError>)
    ensures var key := MockReplica.GroupKey(sgAdmin, name);
      (r.Failure? <==> key !in reg && spec.None?)
      && (r.Failure? ==> r.error == VErrors.NoExistError)
      && (r.Success? ==>
            (r.value.Keys == reg.Keys + {key}
             && (forall k :: k in reg && k != key ==> r.value[k] == reg[k])
             && r.value[key].members == MockReplica.AddMember(if key in reg then reg[key].members else [], repo)
             && r.value[key].prefixes == (if key in reg then reg[key].prefixes else spec.value)))
  {
    var key := MockReplica.GroupKey(sgAdmin, name);
    if key in reg then Success(reg[key := reg[key].(members := MockReplica.AddMember(reg[key].members, repo))])
    else if spec.None? then Failure(VErrors.NoExistError)
    else Success(reg[key := MockReplica.Group(spec.value, [repo])])
  }

  /** `changeSpec()`: succeeds exactly when the group exists, and changes
      nothing. */
  function ChangeSpec(reg: MockReplica.Registry, sgAdmin: string, name: string): (r: Option<VErrors.VError>)
    ensures r.None? <==> MockReplica.GroupKey(sgAdmin, name) in reg
    ensures r.Some? ==> r.value == VErrors.NoExistError
  {
    if MockReplica.GroupKey(sgAdmin, name) in reg then None else Some(VErrors.NoExistError)
  }

  /** `createOrJoin` and `joinOrCreate` are the same here, and joining an
      existing group does not change its prefixes. */
  lemma CreateOrJoinKeepsSpec(reg: MockReplica.Registry, sgAdmin: string, name: string, repo: nat, spec: seq<seq<string>>)
    requires MockReplica.GroupKey(sgAdmin, name) in reg
    ensures var r := JoinSyncgroup(reg, sgAdmin, name, repo, Some(spec));
      r.Success? && r == JoinSyncgroup(reg, sgAdmin, name, repo, None)
      && r.value[MockReplica.GroupKey(sgAdmin, name)].prefixes == reg[MockReplica.GroupKey(sgAdmin, name)].prefixes
  {
  }

  /** One pass of the sync loop over a group: each member with the one that
      joined before it. */
  function SyncPass(world: map<nat, Replica>, g: MockReplica.Group, i: nat, order: Order): (r: map<nat, Replica>)
    requires forall m :: m in g.members ==> m in world
    requires 1 <= i <= |g.members| || |g.members| == 0
    ensures r.Keys == world.Keys
    decreases |g.members| - i
  {
    if i >= |g.members| then world
    else
      var prev := g.members[i - 1];
      var cur := g.members[i];
      var (a, b) := Sync(world[prev], world[cur], g.prefixes, order);
      SyncPass(world[prev := a][cur := b], g, i + 1, order)
  }
}

=== FILE: watchers.dfy ===
/** Watch notifications of the browser tests' Syncbase stand-in. The store
    calls `watcher.update(key, value)` for every change a watcher should
    see; the watcher holds back the latest change, delivers the previous one
    as "continued" when a newer one arrives, and delivers the held change as
    final when the store ends the batch. Handlers are taken to be present;
    their exceptions (reported to `onError`) are not modelled. */
module Watchers {
  import opened Wrappers

  /** A change: the key (null for the descendants of a deleted node) and
      the new value (undefined for a deletion). */
  datatype Op = Op(key: Option<seq<string>>, value: Option<string>)

  /** `watcher.update(key, value)` addressed to watcher `watcher`. */
  datatype Note = Note(watcher: nat, op: Op)

  /** What the stream handlers receive. */
  datatype Event =
    | OnPut(watcher: nat, key: Option<seq<string>>, value: string, continued: bool)
    | OnDelete(watcher: nat, key: Option<seq<string>>, continued: bool)
    | OnBatchEnd(watcher: nat)

  /** The handler call for a change: `onDelete` for an undefined value,
      `onPut` otherwise. */
  function Dispatched(w: nat, op: Op, continued: bool): (e: Event)
    ensures e.OnDelete? <==> op.value.None?
    ensures e.OnPut? ==> e == OnPut(w, op.key, op.value.value, continued)
    ensures e.OnDelete? ==> e == OnDelete(w, op.key, continued)
  {
    if op.value.None? then OnDelete(w, op.key, continued) else OnPut(w, op.key, op.value.value, continued)
  }

  /** The watchers of one store instance: each watcher's held change, the
      set of watchers touched in the current batch (insertion-ordered, each
      once) and the handler calls made so far. */
  datatype Batcher = Batcher(lastOp: map<nat, Op>, batch: seq<nat>, log: seq<Event>)

  const IDLE: Batcher := Batcher(map[], [], [])

  function AddOnce(s: seq<nat>, w: nat): (r: seq<nat>)
    ensures w in r && forall x :: x in r <==> x in s || x == w
    ensures w in s ==> r == s
  {
    if w in s then s else s + [w]
  }

  predicate Distinct(s: seq<nat>) {
    forall i, j :: 0 <= i < j < |s| ==> s[i] != s[j]
  }

  /** `watcher.update(k, v)`: deliver the held change as continued, hold the
      new one, join the batch. */
  function UpdateWatcher(b: Batcher, n: Note): (r: Batcher)
    ensures r.lastOp == b.lastOp[n.watcher := n.op]
    ensures r.batch == AddOnce(b.batch, n.watcher)
    ensures r.log == b.log + (if n.watcher in b.lastOp then [Dispatched(n.watcher, b.lastOp[n.watcher], true)] else [])
  {
    var w := n.watcher;
    var log := if w in b.lastOp then b.log + [Dispatched(w, b.lastOp[w], true)] else b.log;
    Batcher(b.lastOp[w := n.op], AddOnce(b.batch, w), log)
  }

  /** The store's notes, fed to the watchers in order. */
  function Feed(b: Batcher, notes: seq<Note>): Batcher
    decreases |notes|
  {
    if |notes| == 0 then b else Feed(UpdateWatcher(b, notes[0]), notes[1..])
  }

  /** `watcher.endBatch()` as written: `dispatchLast(false)` delivers the held
      change as final and then `onBatchEnd` runs; the held change is never
      cleared. */
  function EndWatcherAsWritten(b: Batcher, w: nat): (r: Batcher)
    ensures r.lastOp == b.lastOp && r.batch == b.batch
    ensures r.log == b.log + (if w in b.lastOp then [Dispatched(w, b.lastOp[w], false), OnBatchEnd(w)] else [])
  {
    if w in b.lastOp then b.(log := b.log + [Dispatched(w, b.lastOp[w], false), OnBatchEnd(w)]) else b
  }

  /** `watcher.endBatch()` with the held change cleared once delivered. */
  function EndWatcher(b: Batcher, w: nat): (r: Batcher)
    ensures r.lastOp == b.lastOp - {w} && r.batch == b.batch
    ensures r.log == b.log + (if w in b.lastOp then [Dispatched(w, b.lastOp[w], false), OnBatchEnd(w)] else [])
  {
    if w in b.lastOp then Batcher(b.lastOp - {w}, b.batch, b.log + [Dispatched(w, b.lastOp[w], false), OnBatchEnd(w)])
    else b
  }

  /** `repo.endBatch()`: every watcher of the batch, in order, then the batch
      is cleared. */
  function EndBatchAsWritten(b: Batcher): (r: Batcher)
    ensures r.batch == [] && r.lastOp == b.lastOp
  {
    EndEachAsWritten(b, b.batch).(batch := [])
  }

  function EndEachAsWritten(b: Batcher, ws: seq<nat>): (r: Batcher)
    ensures r.lastOp == b.lastOp && r.batch == b.batch
    decreases |ws|
  {
    if |ws| == 0 then b else EndEachAsWritten(EndWatcherAsWritten(b, ws[0]), ws[1..])
  }

  function EndBatch(b: Batcher): (r: Batcher)
    ensures r.batch == []
    ensures forall w :: w in r.lastOp <==> w in b.lastOp && w !in b.batch
  {
    EndEach(b, b.batch).(batch := [])
  }

  function EndEach(b: Batcher, ws: seq<nat>): (r: Batcher)
    ensures forall w :: w in r.lastOp <==> w in b.lastOp && w !in ws
    ensures r.batch == b.batch
    decreases |ws|
  {
    if |ws| == 0 then b else EndEach(EndWatcher(b, ws[0]), ws[1..])
  }

  /** The handler calls made to watcher `w`. */
  function EventsFor(log: seq<Event>, w: nat): (r: seq<Event>)
    ensures |r| <= |log|
  {
    if |log| == 0 then []
    else (if log[0].watcher == w then [log[0]] else []) + EventsFor(log[1..], w)
  }

  lemma {:induction false} EventsForConcat(a: seq<Event>, b: seq<Event>, w: nat)
    ensures EventsFor(a + b, w) == EventsFor(a, w) + EventsFor(b, w)
    decreases |a|
  {
    if |a| == 0 {
      assert a + b == b;
    } else {
      assert (a + b)[1..] == a[1..] + b;
      EventsForConcat(a[1..], b, w);
    }
  }

  /** The changes among `notes` addressed to `w`, in order. */
  function OpsFor(notes: seq<Note>, w: nat): seq<Op>
  {
    if |notes| == 0 then []
    else (if notes[0].watcher == w then [notes[0].op] else []) + OpsFor(notes[1..], w)
  }

  /** What feeding `ops` to a watcher holding `held` delivers: every change
      but the newest, each as continued. */
  function Continued(w: nat, held: Option<Op>, ops: seq<Op>): (r: seq<Event>)
    decreases |ops|
  {
    if |ops| == 0 then []
    else (if held.Some? then [Dispatched(w, held.value, true)] else []) + Continued(w, Some(ops[0]), ops[1..])
  }

  function Held(b: Batcher, w: nat): Option<Op> {
    if w in b.lastOp then Some(b.lastOp[w]) else None
  }

  function Last(ops: seq<Op>, held: Option<Op>): Option<Op> {
    if |ops| == 0 then held else Some(ops[|ops| - 1])
  }

  /** One note delivers, to its own watcher, the change it held. */
  lemma UpdateWatcherDelivers(b: Batcher, n: Note, w: nat)
    ensures EventsFor(UpdateWatcher(b, n).log, w) == EventsFor(b.log, w) +
      (if n.watcher == w && Held(b, w).Some? then [Dispatched(w, Held(b, w).value, true)] else [])
  {
    var b1 := UpdateWatcher(b, n);
    var tail := if n.watcher in b.lastOp then [Dispatched(n.watcher, b.lastOp[n.watcher], true)] else [];
    assert b1.log == b.log + tail;
    EventsForConcat(b.log, tail, w);
    if n.watcher in b.lastOp {
      assert EventsFor(tail, w) == (if n.watcher == w then tail else []) by {
        assert tail[1..] == [];
      }
    }
  }

  /** After feeding, a watcher holds its newest change, or what it held. */
  lemma {:induction false} FeedHolds(b: Batcher, notes: seq<Note>, w: nat)
    ensures Held(Feed(b, notes), w) == Last(OpsFor(notes, w), Held(b, w))
    decreases |notes|
  {
    if |notes| > 0 {
      var n := notes[0];
      var b1 := UpdateWatcher(b, n);
      FeedHolds(b1, notes[1..], w);
      var ops := OpsFor(notes, w);
      var rest := OpsFor(notes[1..], w);
      if n.watcher == w {
        assert ops == [n.op] + rest;
        if |rest| > 0 {
          assert ops[|ops| - 1] == rest[|rest| - 1];
        }
      } else {
        assert ops == rest;
      }
    }
  }

  /** Feeding notes to the watchers delivers, to each, its held change and
      then all of its new changes but the newest. */
  lemma {:induction false} FeedDelivers(b: Batcher, notes: seq<Note>, w: nat)
    ensures EventsFor(Feed(b, notes).log, w) == EventsFor(b.log, w) + Continued(w, Held(b, w), OpsFor(notes, w))
    decreases |notes|
  {
    if |notes| > 0 {
      var n := notes[0];
      var b1 := UpdateWatcher(b, n);
      assert Feed(b, notes) == Feed(b1, notes[1..]);
      FeedDelivers(b1, notes[1..], w);
      UpdateWatcherDelivers(b, n, w);
      var d := if n.watcher == w && Held(b, w).Some? then [Dispatched(w, Held(b, w).value, true)] else [];
      assert Continued(w, Held(b, w), OpsFor(notes, w)) == d + Continued(w, Held(b1, w), OpsFor(notes[1..], w)) by {
        ContinuedStep(b, n, notes, w);
      }
    }
  }

  lemma ContinuedStep(b: Batcher, n: Note, notes: seq<Note>, w: nat)
    requires |notes| > 0 && notes[0] == n
    ensures Continued(w, Held(b, w), OpsFor(notes, w)) ==
      (if n.watcher == w && Held(b, w).Some? then [Dispatched(w, Held(b, w).value, true)] else [])
      + Continued(w, Held(UpdateWatcher(b, n), w), OpsFor(notes[1..], w))
  {
    if n.watcher == w {
      assert OpsFor(notes, w) == [n.op] + OpsFor(notes[1..], w);
    } else {
      assert OpsFor(notes, w) == OpsFor(notes[1..], w);
    }
  }

  /** Feeding notes adds each addressed watcher to the batch, once. */
  lemma {:induction false} FeedBatches(b: Batcher, notes: seq<Note>, w: nat)
    ensures w in Feed(b, notes).batch <==> w in b.batch || |OpsFor(notes, w)| > 0
    ensures Distinct(b.batch) ==> Distinct(Feed(b, notes).batch)
    decreases |notes|
  {
    if |notes| > 0 {
      var b1 := UpdateWatcher(b, notes[0]);
      FeedBatches(b1, notes[1..], w);
      assert |OpsFor(notes, w)| > 0 <==> notes[0].watcher == w || |OpsFor(notes[1..], w)| > 0;
      if Distinct(b.batch) {
        assert Distinct(b1.batch);
      }
    }
  }

  /** Ending one watcher delivers its held change as final, then the end of
      the batch; other watchers are untouched. */
  lemma EndWatcherDelivers(b: Batcher, v: nat, w: nat)
    ensures EventsFor(EndWatcher(b, v).log, w) == EventsFor(b.log, w) +
      (if v == w && w in b.lastOp then [Dispatched(w, b.lastOp[w], false), OnBatchEnd(w)] else [])
    ensures Held(EndWatcher(b, v), w) == (if v == w then None else Held(b, w))
  {
    var b1 := EndWatcher(b, v);
    var tail := if v in b.lastOp then [Dispatched(v, b.lastOp[v], false), OnBatchEnd(v)] else [];
    assert b1.log == b.log + tail;
    EventsForConcat(b.log, tail, w);
    if v in b.lastOp {
      assert EventsFor(tail, w) == (if v == w then tail else []) by {
        assert tail[1..][1..] == [];
      }
    }
  }

  /** Ending a batch delivers to each watcher of the batch its held change as
      final, followed by the end of the batch. */
  lemma {:induction false} EndEachDelivers(b: Batcher, ws: seq<nat>, w: nat)
    requires Distinct(ws)
    ensures EventsFor(EndEach(b, ws).log, w) == EventsFor(b.log, w) +
      (if w in ws && w in b.lastOp then [Dispatched(w, b.lastOp[w], false), OnBatchEnd(w)] else [])
    decreases |ws|, 1
  {
    if |ws| > 0 {
      if ws[0] == w {
        EndEachDeliversFirst(b, ws, w);
      } else {
        EndEachDeliversLater(b, ws, w);
      }
    }
  }

  /** The watcher ending first hears its final change now and nothing later. */
  lemma {:induction false} EndEachDeliversFirst(b: Batcher, ws: seq<nat>, w: nat)
    requires Distinct(ws) && |ws| > 0 && ws[0] == w
    ensures EventsFor(EndEach(b, ws).log, w) == EventsFor(b.log, w) +
      (if w in b.lastOp then [Dispatched(w, b.lastOp[w], false), OnBatchEnd(w)] else [])
    decreases |ws|, 0
  {
    var b1 := EndWatcher(b, w);
    var rest := ws[1..];
    DistinctTail(ws);
    EndEachDelivers(b1, rest, w);
    EndWatcherDelivers(b, w, w);
    assert EndEach(b, ws) == EndEach(b1, rest);
    assert w !in b1.lastOp;
  }

  /** A watcher ending later hears nothing when the first one ends. */
  lemma {:induction false} EndEachDeliversLater(b: Batcher, ws: seq<nat>, w: nat)
    requires Distinct(ws) && |ws| > 0 && ws[0] != w
    ensures EventsFor(EndEach(b, ws).log, w) == EventsFor(b.log, w) +
      (if w in ws[1..] && w in b.lastOp then [Dispatched(w, b.lastOp[w], false), OnBatchEnd(w)] else [])
    decreases |ws|, 0
  {
    var b1 := EndWatcher(b, ws[0]);
    var rest := ws[1..];
    DistinctTail(ws);
    EndEachDelivers(b1, rest, w);
    EndWatcherDelivers(b, ws[0], w);
    assert EndEach(b, ws) == EndEach(b1, rest);
    assert EventsFor(b1.log, w) == EventsFor(b.log, w);
    assert w in b1.lastOp <==> w in b.lastOp;
  }

  lemma DistinctTail(ws: seq<nat>)
    requires Distinct(ws) && |ws| > 0
    ensures Distinct(ws[1..]) && ws[0] !in ws[1..]
  {
  }

  /** With the held change cleared, a batch of notes reaches every watcher
      exactly once per change and in order: all but the newest as
      continued, the newest as final, then the end of the batch, after which
      the watchers are idle again. */
  lemma ExactlyOnce(b: Batcher, notes: seq<Note>, w: nat)
    requires b.lastOp == map[] && b.batch == []
    ensures var r := EndBatch(Feed(b, notes));
      r.lastOp == map[] && r.batch == []
      && EventsFor(r.log, w) == EventsFor(b.log, w) +
        (if |OpsFor(notes, w)| == 0 then []
         else Continued(w, None, OpsFor(notes, w))
              + [Dispatched(w, OpsFor(notes, w)[|OpsFor(notes, w)| - 1], false), OnBatchEnd(w)])
  {
    ExactlyOnceLog(b, notes, w);
    ExactlyOnceIdle(b, notes);
  }

  lemma ExactlyOnceLog(b: Batcher, notes: seq<Note>, w: nat)
    requires b.lastOp == map[] && b.batch == []
    ensures var ops := OpsFor(notes, w);
      EventsFor(EndBatch(Feed(b, notes)).log, w) == EventsFor(b.log, w) +
        (if |ops| == 0 then [] else Continued(w, None, ops) + [Dispatched(w, ops[|ops| - 1], false), OnBatchEnd(w)])
  {
    var f := Feed(b, notes);
    var ops := OpsFor(notes, w);
    assert Held(b, w) == None;
    FeedDelivers(b, notes, w);
    FeedHolds(b, notes, w);
    FeedBatches(b, notes, w);
    assert Distinct(b.batch);
    var e := EndEach(f, f.batch);
    EndEachDelivers(f, f.batch, w);
    var tail := if w in f.batch && w in f.lastOp then [Dispatched(w, f.lastOp[w], false), OnBatchEnd(w)] else [];
    var before := EventsFor(b.log, w);
    var fed := Continued(w, None, ops);
    assert EventsFor(f.log, w) == before + fed;
    assert EventsFor(e.log, w) == before + fed + tail;
    assert EndBatch(f).log == e.log;
    if |ops| > 0 {
      assert Last(ops, None) == Some(ops[|ops| - 1]);
      assert tail == [Dispatched(w, ops[|ops| - 1], false), OnBatchEnd(w)];
      assert before + fed + tail == before + (fed + tail);
      assert EventsFor(EndBatch(Feed(b, notes)).log, w) == before + (fed + tail);
    } else {
      assert fed == [] && tail == [];
      assert before + fed + tail == before;
      assert EventsFor(EndBatch(Feed(b, notes)).log, w) == before;
    }
  }

  lemma ExactlyOnceIdle(b: Batcher, notes: seq<Note>)
    requires b.lastOp == map[] && b.batch == []
    ensures EndBatch(Feed(b, notes)).lastOp == map[]
  {
    var f := Feed(b, notes);
    forall x | x in f.lastOp
      ensures x in f.batch
    {
      FeedHolds(b, notes, x);
      FeedBatches(b, notes, x);
    }
    assert EndBatch(f).lastOp.Keys == {};
  }

  /** As written, the change a watcher held in one batch is delivered again,
      as continued, at the start of the next: two single puts deliver the
      first one twice. */
  lemma StaleChangeRedelivered(k1: seq<string>, k2: seq<string>)
    ensures var op1 := Op(Some(k1), Some("a")); var op2 := Op(Some(k2), Some("b"));
      var b1 := EndBatchAsWritten(Feed(IDLE, [Note(0, op1)]));
      var b2 := EndBatchAsWritten(Feed(b1, [Note(0, op2)]));
      b2.log == [OnPut(0, Some(k1), "a", false), OnBatchEnd(0),
                 OnPut(0, Some(k1), "a", true), OnPut(0, Some(k2), "b", false), OnBatchEnd(0)]
  {
    var op1 := Op(Some(k1), Some("a"));
    var op2 := Op(Some(k2), Some("b"));
    var f1 := Feed(IDLE, [Note(0, op1)]);
    assert [Note(0, op1)][1..] == [];
    assert f1 == Feed(UpdateWatcher(IDLE, Note(0, op1)), []);
    assert f1 == Batcher(map[0 := op1], [0], []);
    var b1 := EndBatchAsWritten(f1);
    assert EndEachAsWritten(f1, [0]) == EndWatcherAsWritten(f1, 0);
    assert b1 == Batcher(map[0 := op1], [], [OnPut(0, Some(k1), "a", false), OnBatchEnd(0)]);
    var f2 := Feed(b1, [Note(0, op2)]);
    assert [Note(0, op2)][1..] == [];
    assert f2 == Feed(UpdateWatcher(b1, Note(0, op2)), []);
    assert f2.batch == [0];
    assert EndEachAsWritten(f2, [0]) == EndWatcherAsWritten(f2, 0);
  }

  /** With the held change cleared, the same two puts are delivered once
      each. */
  lemma TwoPutsDeliveredOnce(k1: seq<string>, k2: seq<string>)
    ensures var op1 := Op(Some(k1), Some("a")); var op2 := Op(Some(k2), Some("b"));
      var b1 := EndBatch(Feed(IDLE, [Note(0, op1)]));
      var b2 := EndBatch(Feed(b1, [Note(0, op2)]));
      b2.log == [OnPut(0, Some(k1), "a", false), OnBatchEnd(0), OnPut(0, Some(k2), "b", false), OnBatchEnd(0)]
  {
    var op1 := Op(Some(k1), Some("a"));
    var op2 := Op(Some(k2), Some("b"));
    var f1 := Feed(IDLE, [Note(0, op1)]);
    assert [Note(0, op1)][1..] == [];
    assert f1 == Feed(UpdateWatcher(IDLE, Note(0, op1)), []);
    assert f1 == Batcher(map[0 := op1], [0], []);
    var b1 := EndBatch(f1);
    assert EndEach(f1, [0]) == EndWatcher(f1, 0);
    assert b1 == Batcher(map[], [], [OnPut(0, Some(k1), "a", false), OnBatchEnd(0)]);
    var f2 := Feed(b1, [Note(0, op2)]);
    assert [Note(0, op2)][1..] == [];
    assert f2 == Feed(UpdateWatcher(b1, Note(0, op2)), []);
    assert f2 == Batcher(map[0 := op2], [0], b1.log);
    assert EndEach(f2, [0]) == EndWatcher(f2, 0);
  }
}

=== FILE: wrappers.dfy ===
/** Failure-compatible result types shared by every module of the model.
    `Option` stands for JavaScript's `undefined`-or-value and Java's
    null-or-value; `Result` stands for a call that either returns or throws. */
module Wrappers {

  datatype Option<+T> = None | Some(value: T) {

    predicate IsFailure() {
      None?
    }

    function PropagateFailure<U>(): Option<U>
      requires None?
    {
      None
    }

    function Extract(): T
      requires Some?
    {
      value
    }

    function GetOr(default: T): T {
      match this
      case Some(v) => v
      case None => default
    }
  }

  datatype Result<+R, +E> = Success(value: R) | Failure(error: E) {

    predicate IsFailure() {
      Failure?
    }

    function PropagateFailure<U>(): Result<U, E>
      requires Failure?
    {
      Failure(error)
    }

    function Extract(): R
      requires Success?
    {
      value
    }
  }
}
